=== FILE: README.md ===
# Bitrix24 lead transfer and partner program: a Dafny model

This project models the decision logic of two cooperating services.

- **b24-transfer-lead** receives leads and forwards them to a Bitrix24 CRM portal.
  Its centre is the webhook the portal calls on lead and deal events. That handler:
  - decodes the form body into a tree (`parse_nested_key`);
  - reads the portal's domain and application token (`extract_auth_field`);
  - finds the entity id (`extract_id_from_nested_dict`);
  - picks the matching workflows (tenants);
  - reconciles the local lead with the CRM's record, reporting `became_successful` at most once per sale.

  Around it sit:
  - the CRM client's pure shaping (URL normalisation, result unwrapping, field labels, stage ids, the status cache, contact dedup and matching, contact name and phone);
  - webhook-URL parsing, the CSV lead parser and the TTL cache;
  - the lead, workflow and session endpoints.
- **The partner program** (`backend/app`) takes the reconciled lead as a downstream webhook. It updates the partner's client and notifies on a first sale. It also covers:
  - payment requests;
  - client payments;
  - partner registration and login;
  - notifications and chat read-tracking;
  - reports.
- **Its Telegram bot** contributes pagination, the chat-page formatter and the chat-mode tracker.

Everything is modelled with immutable datatypes and pure functions.

- Database tables are sequences in table order.
- A workflow's lead database is a `WorkflowDb`.
- Every CRM or HTTP call is a function parameter that answers `None` when the call raises.
- The clock, random tokens, password hashing and JWT encoding are parameters too.

| file | module | models |
|---|---|---|
| wrappers.dfy, text.dfy, dicts.dfy, seqs.dfy | Wrappers, Text, Dicts, Seqs | Python's `Option`/exceptions, `str.strip`/`split`/`join`/`lower`, `int()`, insertion-ordered `dict`, comprehensions |
| form_keys.dfy | FormKeys | `parse_nested_key` and the form decoding loop of the webhook |
| webhook_input.dfy | WebhookInput | `extract_auth_field`, `extract_id_from_nested_dict`, tenant matching and event routing |
| reconcile.dfy | Reconcile | the lead and deal branches of `handle_bitrix24_webhook` and `became_successful` |
| b24_models.dfy, b24_crm.dfy | B24Models, B24Crm | the lead, workflow and mapping records; `Bitrix24Service`'s pure logic |
| webhook_url.dfy | WebhookUrl | `parse_bitrix24_webhook_url`, `extract_domain_from_webhook_url` |
| csv_leads.dfy | CsvLeads | `parse_csv_leads` over rows already split by the CSV reader |
| ttl_cache.dfy | TtlCache | `TTLCache` with an explicit clock |
| user_auth.dfy | UserAuth | the in-memory session store, `authenticate_user`, `create_user`, `is_admin` |
| leads_api.dfy, workflows_api.dfy | LeadsApi, WorkflowsApi | the lead endpoints (create, CSV upload, CSV export) and the workflow endpoints (access, settings, field mappings, token, conversion) |
| public_router.dfy | PublicRouter | partner links, landing page, and the client update and notification rule of the webhook proxy |
| partners.dfy, admin_service.dfy | Partners, AdminService | effective reward percentage, client payment updates, payment summary, registration approval |
| payment_requests.dfy | PaymentRequests | `_parse_client_ids`, request creation checks, `process_request` |
| partner_auth.dfy | PartnerAuth | partner registration, login gating, token refresh |
| notifications.dfy, chat_service.dfy | Notifications, ChatService | visibility, read rows, unread counts, mark-read operations, conversation list |
| reports.dfy | Reports | the date filter, per-partner metrics, totals, client status resolution |
| pagination.dfy, bot_formatters.dfy, chat_tracker.dfy | Pagination, BotFormatters, ChatTracker | `paginate`, `format_chat_page`, `get_notification_file_type`, the chat-mode tracker |

Where the program's own comments and its code disagree, the model follows the code, and "## Findings" records the mismatch together with a corrected definition. For example, the docstring of `parse_nested_key` (webhook.py:20) promises to turn `data[FIELDS][ID]` into nested dicts. As written, the function drops the middle segment and stores the value at `data.ID` (`FormKeys.DecodeDropsFieldsLevel`). The webhook handler's id lookup then finds it at the top level of `data`.

## Model

| member | source | states |
|---|---|---|
| TtlCache.Empty | b24-transfer-lead/src/backend/utils/cache.py:20-27 | a new cache holds no entries |
| TtlCache.EffectiveTtl | b24-transfer-lead/src/backend/utils/cache.py:60 | a given non-zero lifetime is used; a missing or zero one falls back to the cache default |
| TtlCache.Get | b24-transfer-lead/src/backend/utils/cache.py:29-50 | a value is served exactly when its key is present and the clock has not passed its expiry; a served lookup leaves the cache alone; a miss leaves the key absent, and only the looked-up key can disappear |
| TtlCache.Set | b24-transfer-lead/src/backend/utils/cache.py:52-62 | the key then holds the value with expiry now plus the effective lifetime; every other key keeps its entry |
| TtlCache.Remove | b24-transfer-lead/src/backend/utils/cache.py:70-78 | the key is absent afterwards and every other entry is kept |
| TtlCache.Clear | b24-transfer-lead/src/backend/utils/cache.py:65-67 | no entries remain, the default lifetime is kept |
| TtlCache.GetAfterSet | b24-transfer-lead/src/backend/utils/cache.py:44-62 | a value set at time t is served at every time up to and including t plus its lifetime |
| TtlCache.GetAfterExpiry | b24-transfer-lead/src/backend/utils/cache.py:44-47 | after its expiry a value is not served and the lookup deletes it |
| TtlCache.ZeroTtlMeansDefault | b24-transfer-lead/src/backend/utils/cache.py:60 | a lifetime of 0 behaves exactly like no lifetime (the default), not like immediate expiry |
| TtlCache.SetOverwrites | b24-transfer-lead/src/backend/utils/cache.py:62 | of two sets to the same key the second one wins, value and expiry alike |
| TtlCache.GetUnknown | b24-transfer-lead/src/backend/utils/cache.py:38-39 | a key never set is not served and the lookup changes nothing |
| TtlCache.RemoveAbsent | b24-transfer-lead/src/backend/utils/cache.py:76 | removing an absent key changes nothing |
| TtlCache.GetAfterRemove | b24-transfer-lead/src/backend/utils/cache.py:70-78 | after removal the key is not served, while other keys are served as before |
| TtlCache.GetAfterClear | b24-transfer-lead/src/backend/utils/cache.py:65-67 | after clearing no key is served |
| ChatTracker.EnterChat | telegram_bot/bot/services/chat_tracker.py:19-20 | entering (re)starts the user's state for the chat with no tracked messages; other users are untouched |
| ChatTracker.ExitChat | telegram_bot/bot/services/chat_tracker.py:23-24 | leaving removes the user (a no-op when absent); other users are untouched |
| ChatTracker.TrackMessage | telegram_bot/bot/services/chat_tracker.py:31-34 | in chat, the id is appended after the tracked ones; outside chat nothing changes |
| ChatTracker.GetAndClear | telegram_bot/bot/services/chat_tracker.py:37-44 | returns the chat and the tracked ids and leaves the user in the same chat with an empty list; `(None, [])` and no change for a user not in chat |
| ChatTracker.GetChatId | telegram_bot/bot/services/chat_tracker.py:47-49 | a chat id exactly when the user is in chat mode (`is_in_chat`, lines 27-28), and it is the entered one |
| ChatTracker.TrackAllAppends | telegram_bot/bot/services/chat_tracker.py:31-34 | messages tracked one after another accumulate in order after those already tracked |
| ChatTracker.TrackAllOutsideChat | telegram_bot/bot/services/chat_tracker.py:32-33 | tracking for a user not in chat records nothing |
| ChatTracker.EnterTrackCollect | telegram_bot/bot/services/chat_tracker.py:19-44 | enter, track, collect: exactly the tracked ids come back in order, and the user stays in the chat with nothing left to collect |
| ChatTracker.ExitForgets | telegram_bot/bot/services/chat_tracker.py:23-49 | after leaving, the user is not in chat, tracking is ignored and collecting yields `(None, [])` |
| ChatTracker.ExitIdempotent | telegram_bot/bot/services/chat_tracker.py:23-24 | leaving twice is leaving once |
| Pagination.TotalPages | telegram_bot/bot/utils/pagination.py:2 | at least one page; an empty list has one page; otherwise the page count is the least number of pages that hold all items |
| Pagination.ClampPage | telegram_bot/bot/utils/pagination.py:3 | the page number is moved into `[0, total)`: kept when inside, 0 below, the last page above |
| Pagination.Window | telegram_bot/bot/utils/pagination.py:4-6 | Python's `items[start:start+len]` for a non-negative start: at most `len` items, fewer only where the list ends, each the item at its offset |
| Pagination.Paginate | telegram_bot/bot/utils/pagination.py:1-6 | the page count as above, and the clamped page's items in order: a full page except possibly the last |
| Pagination.PageStartInRange | telegram_bot/bot/utils/pagination.py:3-4 | the start of an existing page lies within the list |
| Pagination.PageBounds | telegram_bot/bot/utils/pagination.py:2-5 | every page but the last is full, and the last page reaches the end of the list |
| Pagination.ClampedPageIsSame | telegram_bot/bot/utils/pagination.py:3 | asking for an out-of-range page is asking for the nearest page |
| Pagination.PageSlice | telegram_bot/bot/utils/pagination.py:4-6 | page p is the contiguous slice at `p * per_page`; full unless it is the last page, which ends at the end of the list |
| Pagination.PagesFromCover | telegram_bot/bot/utils/pagination.py:1-6 | the pages from a given one onwards, concatenated, are the list from that page's start |
| Pagination.PagesCover | telegram_bot/bot/utils/pagination.py:1-6 | reading all pages in order gives back the whole list: nothing is skipped or repeated |
| WebhookUrl.UrlParse | b24-transfer-lead/src/backend/utils/bitrix24_url.py:20 | the `urlparse` components the code reads: the netloc holds no '/', '?' or '#', the path no '?' or '#'; an unbalanced IPv6 bracket in the netloc is an error |
| WebhookUrl.PortalAndToken | b24-transfer-lead/src/backend/utils/bitrix24_url.py:22-40 | without a scheme or a netloc the URL is rejected as malformed; on success the portal URL is `scheme://netloc` and the token is a non-empty, slash-free path segment |
| WebhookUrl.DomainOf | b24-transfer-lead/src/backend/utils/bitrix24_url.py:60-64 | the domain is the netloc, returned exactly when both scheme and netloc are present, otherwise the format error |
| WebhookUrl.ParseWebhookUrl | b24-transfer-lead/src/backend/utils/bitrix24_url.py:5-40 | on success the portal URL is the scheme, `://` and exactly the domain `extract_domain_from_webhook_url` reads from the same URL; the token is a non-empty, slash-free segment |
| WebhookUrl.ExtractDomain | b24-transfer-lead/src/backend/utils/bitrix24_url.py:43-64 | on success the domain is non-empty, holds no `/`, `?` or `#`, and the URL has a scheme |
| WebhookUrl.SplitLastNonEmpty | b24-transfer-lead/src/backend/utils/bitrix24_url.py:29-35 | a path that does not end in '/' splits into pieces whose last one is not empty |
| WebhookUrl.TokenNeverMissing | b24-transfer-lead/src/backend/utils/bitrix24_url.py:29-38 | the "token not found" error is unreachable: after `strip("/")` a path of three or more pieces always ends with a non-empty one |
| WebhookUrl.ParseNeverMissesToken | b24-transfer-lead/src/backend/utils/bitrix24_url.py:5-40 | no input URL at all makes `parse_bitrix24_webhook_url` raise the "token not found" error |
| WebhookUrl.PortalIsSchemeAndDomain | b24-transfer-lead/src/backend/utils/bitrix24_url.py:22-64 | both functions reject exactly the same parsed URLs for want of scheme or netloc, and the portal URL is the scheme followed by the extracted domain |
| WebhookUrl.ParseWebhookFor | b24-transfer-lead/src/backend/utils/bitrix24_url.py:5-64 | a URL of the handed-out form `scheme://host/rest/user/token`, with or without a trailing slash, parses back to `(scheme://host, token)` and its domain is the host |
| WebhookUrl.TrailingSlashIgnored | b24-transfer-lead/src/backend/utils/bitrix24_url.py:17 | for any URL not ending in whitespace, one more trailing slash changes neither the parsed portal and token nor the domain (see also line 55) |
| WebhookUrl.UrlParseWebhookFor | b24-transfer-lead/src/backend/utils/bitrix24_url.py:20 | `urlparse` of a handed-out URL yields its scheme, host and path `/rest/user/token`, with no query or fragment |
| WebhookUrl.PortalOfWebhookFor | b24-transfer-lead/src/backend/utils/bitrix24_url.py:26-40 | the components of a handed-out URL give its portal URL and token |
| WebhookUrl.CleanWebhookFor | b24-transfer-lead/src/backend/utils/bitrix24_url.py:17-55 | the strip-then-rstrip("/") cleaning leaves a handed-out URL unchanged and removes exactly the trailing slash when there is one |
| WebhookUrl.SpaceBeforeSlashKept | b24-transfer-lead/src/backend/utils/bitrix24_url.py:17 | because `strip` runs before the slashes are removed, a space before the trailing slash stays in the token |
| CsvLeads.Message | b24-transfer-lead/src/backend/utils/csv_parser.py:61-100 | the three error messages, with the row number written in decimal |
| CsvLeads.LastFillIndex | b24-transfer-lead/src/backend/utils/csv_parser.py:53-57 | the last mapping entry for a field whose column has a non-empty cell, or none when no entry fills the field |
| CsvLeads.LastFill | b24-transfer-lead/src/backend/utils/csv_parser.py:53-57 | a field gets a cell exactly when some mapping entry fills it, and the cell is the one of the last such entry |
| CsvLeads.MapRow | b24-transfer-lead/src/backend/utils/csv_parser.py:53-57 | in mapping mode every field holds the stripped cell of the last mapping entry that fills it, and is absent when none does |
| CsvLeads.LastFillStep | b24-transfer-lead/src/backend/utils/csv_parser.py:53-57 | later mapping entries override earlier ones for the same field |
| CsvLeads.MappedLead | b24-transfer-lead/src/backend/utils/csv_parser.py:52-61 | a mapped row succeeds exactly when some entry fills "phone" and some entry fills "name" (a cell that strips to "" still counts); otherwise the mapping error for that row |
| CsvLeads.HeaderKind | b24-transfer-lead/src/backend/utils/csv_parser.py:68-73 | a header is the phone column exactly when its lower-cased, stripped form is one of the phone names, and the name column when it is one of the name names (phone is tested first) |
| CsvLeads.StrippedOrNone | b24-transfer-lead/src/backend/utils/csv_parser.py:70-85 | `value.strip() if value else None`: a value exactly for a non-empty cell, and it is the stripped cell |
| CsvLeads.LastCell | b24-transfer-lead/src/backend/utils/csv_parser.py:67-72 | the phone (name) after the pass is read from the last phone (name) column, `None` when there is no such column; an empty cell in that last column clears it |
| CsvLeads.Extras | b24-transfer-lead/src/backend/utils/csv_parser.py:73-76 | every kept column is neither a phone nor a name column |
| CsvLeads.ExtrasFromRow | b24-transfer-lead/src/backend/utils/csv_parser.py:67-76 | every kept column is a column of the row |
| CsvLeads.ExtrasKeepOthers | b24-transfer-lead/src/backend/utils/csv_parser.py:73-76 | with distinct headers, each other column is kept, stripped, exactly when its cell is non-empty |
| CsvLeads.WithFallback | b24-transfer-lead/src/backend/utils/csv_parser.py:79-85 | a present phone or name is kept; when either is missing and the row has two or more columns, a missing phone comes from the first column and a missing name from the second |
| CsvLeads.AutoLead | b24-transfer-lead/src/backend/utils/csv_parser.py:63-91 | an automatic row succeeds exactly when phone and name after the fallback are both non-empty, stores those two, and keeps the other columns as collected |
| CsvLeads.HeadersWin | b24-transfer-lead/src/backend/utils/csv_parser.py:67-91 | recognised phone and name columns with non-blank cells give the lead its phone and name, without the fallback |
| CsvLeads.FirstColumnsFallback | b24-transfer-lead/src/backend/utils/csv_parser.py:78-91 | without recognised headers the first two columns give the phone and the name |
| CsvLeads.RowLead | b24-transfer-lead/src/backend/utils/csv_parser.py:52-95 | an empty mapping, like none, selects automatic mode; a successful row always has "phone" and "name"; a failure names the row |
| CsvLeads.ParsedCount | b24-transfer-lead/src/backend/utils/csv_parser.py:48-97 | the rows before the count all parse and the row at the count, if any, fails |
| CsvLeads.Rows | b24-transfer-lead/src/backend/utils/csv_parser.py:48-97 | all rows parse exactly when the result is a success, which holds one lead per row in order; otherwise the error is that of the first failing row |
| CsvLeads.ParseCsvLeads | b24-transfer-lead/src/backend/utils/csv_parser.py:26-102 | no data rows is the "no leads" error; a success has one lead per row, row i numbered i + 2, each with phone and name; a failure is the first failing row's error, carrying its number |
| FormKeys.PutWellFormed | b24-transfer-lead/src/backend/api/v1/webhook.py:35-85 | assigning into a dict with distinct keys keeps its keys distinct |
| FormKeys.SplitNested | b24-transfer-lead/src/backend/api/v1/webhook.py:42-71 | a nested key splits at its first '[' and the first ']' after it; the remaining text is a proper suffix of the key |
| FormKeys.Shape | b24-transfer-lead/src/backend/api/v1/webhook.py:27-71 | the remaining text of a nested key is a strictly shorter suffix, so the recursion ends |
| FormKeys.ParseNestedKey | b24-transfer-lead/src/backend/api/v1/webhook.py:19-85 | storing a form value never moves or drops a key of the dict it is stored in: the keys before are a prefix of the keys after, a new key being appended |
| FormKeys.SkipEmptyOuter | b24-transfer-lead/src/backend/api/v1/webhook.py:47-60 | the same for a key that still starts with `[` after its leading bracket was dropped |
| FormKeys.NestUnder | b24-transfer-lead/src/backend/api/v1/webhook.py:62-85 | the same for `outer[inner]...`: `outer` is appended only when missing |
| FormKeys.ParseNestedKeyWellFormed | b24-transfer-lead/src/backend/api/v1/webhook.py:19-85 | parsing a key into a dict with distinct keys at every level keeps every level's keys distinct |
| FormKeys.NestUnderWellFormed | b24-transfer-lead/src/backend/api/v1/webhook.py:73-85 | the same for the branch that writes into `result[outer]` |
| FormKeys.ShapeOfNested | b24-transfer-lead/src/backend/api/v1/webhook.py:42-71 | `outer[inner]tail` with bracket-free `outer` and `inner` is read as outer `outer`, inner `inner`, remaining `tail` |
| FormKeys.FlatWithoutOpenBracket | b24-transfer-lead/src/backend/api/v1/webhook.py:31-40 | a key without '[' is stored flat, with its trailing ']'s dropped (`ID]` is stored as `ID`) |
| FormKeys.FlatWithoutCloseBracket | b24-transfer-lead/src/backend/api/v1/webhook.py:27-40 | a key with no ']' is stored flat, less one leading '[' |
| FormKeys.FlatWithoutClosingAfterOpen | b24-transfer-lead/src/backend/api/v1/webhook.py:62-68 | a key whose first '[' has no ']' after it is stored as a literal |
| FormKeys.OneLevel | b24-transfer-lead/src/backend/api/v1/webhook.py:70-85 | `outer[inner]` stores the value at `result[outer][inner]`, creating `result[outer]` as `{}` when absent |
| FormKeys.NestUnderStore | b24-transfer-lead/src/backend/api/v1/webhook.py:73-85 | with nothing more to read, the value goes under `inner` in the possibly new child dict |
| FormKeys.NestUnderRecurse | b24-transfer-lead/src/backend/api/v1/webhook.py:73-78 | with more brackets to read, parsing recurses into the child dict and its result replaces the child |
| FormKeys.TwoLevelsDropMiddle | b24-transfer-lead/src/backend/api/v1/webhook.py:27-78 | `outer[a][b]` stores the value at `result[outer][b]`: the middle segment is dropped |
| FormKeys.BracketedName | b24-transfer-lead/src/backend/api/v1/webhook.py:27-36 | `[name]`, as met in a recursive call, stores under `name` |
| FormKeys.NestingIntoStringFails | b24-transfer-lead/src/backend/api/v1/webhook.py:73-82 | a nested key whose outer name already holds a string fails with the TypeError Python raises, which the handler turns into a 400 |
| FormKeys.DecodeOne | b24-transfer-lead/src/backend/api/v1/webhook.py:185-187 | a one-field form decodes to what parsing its one key gives |
| FormKeys.DecodeIntoWellFormed | b24-transfer-lead/src/backend/api/v1/webhook.py:185-187 | the decoding loop keeps every level's keys distinct |
| FormKeys.Decode | b24-transfer-lead/src/backend/api/v1/webhook.py:185-187 | a decoded form is a dict tree with distinct keys at every level |
| FormKeys.DecodeIntoFlat | b24-transfer-lead/src/backend/api/v1/webhook.py:185-187 | bracket-free, distinct keys are appended in order, unchanged |
| FormKeys.DecodeFlat | b24-transfer-lead/src/backend/api/v1/webhook.py:185-189 | a form whose keys carry no brackets decodes to itself |
| FormKeys.DecodeDropsFieldsLevel | b24-transfer-lead/src/backend/api/v1/webhook.py:184-189 | `data[FIELDS][ID]=42` decodes to `{"data": {"ID": "42"}}`, not to a `FIELDS` level |
| FormKeys.IntendedAgreesOnOneLevel | b24-transfer-lead/src/backend/api/v1/webhook.py:20 | the corrected nesting rule agrees with the code on every key of one level |
| FormKeys.ParseNestedKeyIntended | b24-transfer-lead/src/backend/api/v1/webhook.py:20 | the nesting the docstring promises keeps every existing key in place, like the code, appending new ones |
| FormKeys.NestUnderIntended | b24-transfer-lead/src/backend/api/v1/webhook.py:73-78 | the same for the branch that hands `inner` and the rest of the key to the child dict |
| FormKeys.IntendedStoresUnder | b24-transfer-lead/src/backend/api/v1/webhook.py:20 | under the corrected rule `outer[inner]` stores the value at `result[outer][inner]`, creating `result[outer]` when it is absent |
| FormKeys.IntendedRecurse | b24-transfer-lead/src/backend/api/v1/webhook.py:20 | under the corrected rule `outer[inner]tail` hands `inner` and the rest of the key on to `result[outer]` |
| FormKeys.IntendedKeepsEveryLevel | b24-transfer-lead/src/backend/api/v1/webhook.py:20 | under the corrected rule `outer[a][b]` stores the value at `result[outer][a][b]`, creating the dicts that are missing |
| FormKeys.IntendedFieldsLevelKept | b24-transfer-lead/src/backend/api/v1/webhook.py:20 | under the corrected rule `data[FIELDS][ID]=42` gives `{"data": {"FIELDS": {"ID": "42"}}}`, as the docstring promises |
| WebhookInput.ExtractAuthField | b24-transfer-lead/src/backend/api/v1/webhook.py:88-111 | a dict-valued `auth` is the only place looked at when present; otherwise the flat key `auth[f]` |
| WebhookInput.NestedAuthShadowsFlat | b24-transfer-lead/src/backend/api/v1/webhook.py:103-109 | while `auth` is a dict, a flat `auth[f]` key has no influence on the answer |
| WebhookInput.AuthFieldFromForm | b24-transfer-lead/src/backend/api/v1/webhook.py:88-111 | a form carrying `auth[f]=v` decodes so that the auth field `f` reads back as `v` (see also lines 184-189) |
| WebhookInput.DirectId | b24-transfer-lead/src/backend/api/v1/webhook.py:133-138 | an id is found directly exactly when the dict has an `ID` or an `ID]` key |
| Text.ParseInt | b24-transfer-lead/src/backend/api/v1/webhook.py:296 | Python `int()` of a text: on success the stripped text is non-empty and is digits with at most a leading sign, and a negative value has a leading minus (see also lines 328, 400, 459) |
| Text.ParseIntToString | b24-transfer-lead/src/backend/api/v1/webhook.py:296 | `int(str(n)) == n`: every integer printed by `str()` reads back (see also line 459) |
| WebhookInput.ExtractId | b24-transfer-lead/src/backend/api/v1/webhook.py:114-159 | whatever the extractor returns is a value stored under an `ID` or `ID]` key somewhere in the tree: it never invents an id |
| WebhookInput.SearchChildren | b24-transfer-lead/src/backend/api/v1/webhook.py:147-157 | the same for the loop over the child dicts |
| WebhookInput.TopLevelIdFirst | b24-transfer-lead/src/backend/api/v1/webhook.py:133-134 | a top-level `ID` wins over everything else, even when empty |
| WebhookInput.IdUnderFields | b24-transfer-lead/src/backend/api/v1/webhook.py:140-143 | `{"FIELDS": {"ID": "42"}}` yields "42" |
| WebhookInput.IdUnderBracketKey | b24-transfer-lead/src/backend/api/v1/webhook.py:136-138 | the malformed key `ID]` left by the form decoder is read as the id |
| WebhookInput.IdUnderEmptyKey | b24-transfer-lead/src/backend/api/v1/webhook.py:147-151 | an id nested under the empty key, as left by `[][ID]`, is found |
| WebhookInput.NoIdInEmptyOrString | b24-transfer-lead/src/backend/api/v1/webhook.py:129-159 | an empty dict or a string carries no id |
| WebhookInput.EmptyIdHidesSibling | b24-transfer-lead/src/backend/api/v1/webhook.py:148-157 | an empty `ID` in one grandchild ends that branch's search, so a non-empty `ID` in a later grandchild of the same child is never seen, although it is in the tree |
| WebhookInput.MatchTenants | b24-transfer-lead/src/backend/api/v1/webhook.py:215-248 | no truthy domain is a 400; no workflow of the domain is a 404; workflows of the domain none of which accepts the token is a 403; otherwise exactly the workflows of the domain that accept the token, drawn from the query; a dict-valued domain cannot be compared and is a 500 |
| WebhookInput.DefaultTenantIsFirstMatch | b24-transfer-lead/src/backend/api/v1/webhook.py:236-251 | the default workflow is the first one, in query order, that both serves the domain and accepts the token |
| WebhookInput.TokenlessWorkflowAlwaysMatches | b24-transfer-lead/src/backend/api/v1/webhook.py:236-241 | a workflow without a token accepts every event of its domain, with a token or without |
| WebhookInput.Route | b24-transfer-lead/src/backend/api/v1/webhook.py:254 | the lead branch is taken exactly when the event mentions a lead update or add; the deal branch exactly when it does not but mentions a deal update or add; `in` is a substring test on a string and a key test on a dict (see also lines 286, 448, 618) |
| WebhookInput.MissingEventIsOther | b24-transfer-lead/src/backend/api/v1/webhook.py:254 | an event without an `event` entry is of no known kind (see also lines 618-619) |
| WebhookInput.FirstIdChild | b24-transfer-lead/src/backend/api/v1/webhook.py:269-274 | the first child dict holding an `ID` key, or none when no child does |
| WebhookInput.SelectFields | b24-transfer-lead/src/backend/api/v1/webhook.py:261-282 | `fields` is empty for a non-dict `data` and is `data.FIELDS` whenever that is truthy |
| WebhookInput.SelectFieldsInside | b24-transfer-lead/src/backend/api/v1/webhook.py:261-282 | the selected `fields` is the event data or one of its children, so an id found in it is an id of the event data |
| WebhookInput.EventId | b24-transfer-lead/src/backend/api/v1/webhook.py:288 | the id the handler reconciles always comes from the event's own `data` tree (see also line 451) |
| Reconcile.FirstWithId | b24-transfer-lead/src/backend/api/v1/webhook.py:305 | `.first()` of the leads with a given CRM id: the first such lead in table order, or none when no lead has it (see also lines 474, 483) |
| Reconcile.SearchLead | b24-transfer-lead/src/backend/api/v1/webhook.py:300-311 | the lead search stops at the first matching workflow, in order, whose database holds the CRM id, returning that database's first such lead; every workflow before it lacks the id; a miss means no matching workflow holds it; a workflow without a database aborts the search |
| Reconcile.SearchDeal | b24-transfer-lead/src/backend/api/v1/webhook.py:464-489 | each workflow in order is tried first by the deal id and then, when `LEAD_ID` is truthy, by the deal's lead id, before the next workflow; every workflow before the hit lacks both; a miss means no matching workflow holds either; an aborted search names a matching workflow without a database, every workflow before it lacking both ids |
| Reconcile.DealSearchIsPerTenant | b24-transfer-lead/src/backend/api/v1/webhook.py:471-489 | a lead-id match in an earlier workflow beats a direct deal-id match in a later one |
| Reconcile.FirstWithIdSameIds | b24-transfer-lead/src/backend/api/v1/webhook.py:305 | the lookup depends only on the leads' CRM ids (see also lines 474, 483) |
| Reconcile.SameIdsLookup | b24-transfer-lead/src/backend/api/v1/webhook.py:305 | two database sets with the same CRM ids give the same first lead for any id in any workflow (see also lines 474, 483) |
| Reconcile.SearchLeadSameIds | b24-transfer-lead/src/backend/api/v1/webhook.py:300-311 | the lead search depends only on the CRM ids stored in each database |
| Reconcile.SearchDealSameIds | b24-transfer-lead/src/backend/api/v1/webhook.py:464-489 | the deal search depends only on the CRM ids stored in each database |
| Reconcile.Store | b24-transfer-lead/src/backend/api/v1/webhook.py:379 | committing replaces the one lead and the extra fields of one workflow database; every other database and every other lead is unchanged, and the set of databases and the number of leads stay the same (see also line 585) |
| Reconcile.StoreSameIds | b24-transfer-lead/src/backend/api/v1/webhook.py:379 | committing a lead with its CRM id unchanged keeps every database's CRM ids as they were (see also line 585) |
| Reconcile.TruthyOrNone | b24-transfer-lead/src/backend/api/v1/webhook.py:320 | `str(x) if x else None`: a value exactly when `x` is truthy, and then `x` itself (see also line 496) |
| Reconcile.FullName | b24-transfer-lead/src/backend/api/v1/webhook.py:330-337 | the assignee name has no surrounding whitespace and is absent exactly when both stripped parts are blank; a null part makes `.strip()` raise, which the handler turns into no name (see also lines 517-524) |
| Reconcile.FullNameParts | b24-transfer-lead/src/backend/api/v1/webhook.py:333 | the name is both stripped parts joined by one space, or the one part that is not blank (see also line 520) |
| Reconcile.JoinedNotBlank | b24-transfer-lead/src/backend/api/v1/webhook.py:333 | joining two parts of which one starts with a non-space character never strips to the empty string (see also line 520) |
| Reconcile.AssignedName | b24-transfer-lead/src/backend/api/v1/webhook.py:325-344 | no assignee without a truthy `ASSIGNED_BY_ID`; a name only when the id parses as an integer, the CRM user can be fetched and is non-empty, and then it is that user's full name (see also lines 512-531) |
| Reconcile.EventMappings | b24-transfer-lead/src/backend/api/v1/webhook.py:347-351 | exactly the mappings of the found workflow, of the event's entity type, that have update-on-event set (see also lines 534-538) |
| Reconcile.LastValue | b24-transfer-lead/src/backend/api/v1/webhook.py:353-377 | the value a field ends with after the mapping loop: that of the last mapping for the field whose CRM value is not null; none when every such value is null (see also lines 540-561) |
| Reconcile.ApplyMappings | b24-transfer-lead/src/backend/api/v1/webhook.py:353-377 | every field with a non-null mapped value is upserted with the last such value; fields of other leads and fields without such a value are unchanged (see also lines 540-561) |
| Reconcile.DealCategory | b24-transfer-lead/src/backend/api/v1/webhook.py:414-415 | the deal's `CATEGORY_ID` when truthy (and `int()` of it, failing when that raises), else the workflow's non-zero funnel, else funnel 0 (see also lines 574-575) |
| Reconcile.StageName | b24-transfer-lead/src/backend/api/v1/webhook.py:411-423 | without a usable funnel, or when the stage list cannot be fetched, the stage id itself is shown (see also lines 571-583) |
| Reconcile.WithFirstDeal | b24-transfer-lead/src/backend/api/v1/webhook.py:397-427 | only the deal fields change; with no deal nothing changes; otherwise the first deal's id and stage are copied, and the amount is cleared exactly when the deal's `OPPORTUNITY` is empty |
| Reconcile.LeadBranch | b24-transfer-lead/src/backend/api/v1/webhook.py:286-446 | an update is reported exactly when the CRM lead can be fetched, has a truthy `STATUS_ID`, and the lead search hits; the update is never a success, carries the event's id, names the hit's workflow and reports the new status; only the hit lead and that workflow's fields change: the status becomes `STATUS_ID`, the semantic id is overwritten only by a truthy one, the responsible becomes the name looked up for `ASSIGNED_BY_ID`, the first deal is looked up only when the new semantic id is "S", and the lead-event field mappings are applied; without an update nothing changes; CRM ids are never changed |
| Reconcile.DealLead | b24-transfer-lead/src/backend/api/v1/webhook.py:491-583 | the lead keeps its identity; deal id and stage are always set; the amount changes only for a truthy `OPPORTUNITY`; a lead found through `LEAD_ID` keeps its status and semantic, any other takes the deal stage and (when truthy) its semantic |
| Reconcile.DealBecame | b24-transfer-lead/src/backend/api/v1/webhook.py:588-598 | a deal event reports success only when its semantic is "S", and never for a lead already successful at the event's stage |
| Reconcile.DealBecameOnce | b24-transfer-lead/src/backend/api/v1/webhook.py:588-598 | once a deal event has been applied to a lead, the same event no longer counts as a transition to success |
| Reconcile.DealBranch | b24-transfer-lead/src/backend/api/v1/webhook.py:448-617 | an update is reported exactly when the CRM deal can be fetched, has a truthy `STAGE_ID`, and the deal search hits; the update names the deal and the hit's workflow and reports `LEAD_ID` (or the deal id when that is empty) as the lead id; only the hit lead and that workflow's fields change: the lead becomes what the deal rules make of it and the deal-event field mappings are applied; success is reported exactly when the deal became successful; the cache is not touched; CRM ids are never changed |
| Reconcile.Prepare | b24-transfer-lead/src/backend/api/v1/webhook.py:173-292 | an undecodable form is a 400; tenant matching decides every other rejection; for a decodable form with matched tenants and a known event kind, nothing is to be done exactly when the id is missing, falsy, dict-valued or non-numeric or the default tenant has no webhook URL; a job carries the matched tenants, the event kind, the integer value of the event's id, the normalised webhook URL of the default tenant and the CRM for that URL (see also lines 445-459) |
| Reconcile.Run | b24-transfer-lead/src/backend/api/v1/webhook.py:286-617 | a branch changes the databases only when it reports an update, and never changes a CRM id |
| Reconcile.Handle | b24-transfer-lead/src/backend/api/v1/webhook.py:163-624 | a rejected request changes nothing; a request is rejected exactly when preparation fails; a response without `lead_update` leaves the databases alone; CRM ids are never changed |
| Reconcile.RunUpdateIndependentOfCache | b24-transfer-lead/src/backend/api/v1/webhook.py:286-617 | whether a run reports an update depends neither on the status cache nor on the clock |
| Reconcile.LeadEventsNeverBecome | b24-transfer-lead/src/backend/api/v1/webhook.py:393-435 | a lead event never reports a transition to success |
| Reconcile.RedeliveryNeverBecomes | b24-transfer-lead/src/backend/api/v1/webhook.py:286-617 | delivering the same event again, whatever the cache and the clock, reports the lead again but never as a new success |
| Reconcile.NoSuccessAfterFirst | b24-transfer-lead/src/backend/api/v1/webhook.py:286-617 | after one delivery, no later delivery of the same event reports a success |
| Reconcile.AtMostOneSuccess | b24-transfer-lead/src/backend/api/v1/webhook.py:286-617 | however often one event is delivered, at most the first delivery reports a success |
| Reconcile.RepeatedRequestReportsOnce | b24-transfer-lead/src/backend/api/v1/webhook.py:163-624 | repeating a whole webhook request never reports a second success |
| Reconcile.DealEventKeepsAmount | b24-transfer-lead/src/backend/api/v1/webhook.py:566-568 | without a truthy `OPPORTUNITY` a deal event keeps the lead's deal amount |
| Reconcile.LeadEventCanBlankAmount | b24-transfer-lead/src/backend/api/v1/webhook.py:404-408 | a lead event that turns the lead "S" copies the first deal's amount, so an empty amount clears the one the lead had |
| B24Crm.PyGet | b24-transfer-lead/src/backend/api/v1/webhook.py:255 | `rec.get(k)`: the stored value for a present key, none for an absent one (see also lines 297, 461) |
| B24Crm.PyGetOr | b24-transfer-lead/src/backend/services/bitrix24.py:127 | `rec.get(k, default)`: the default only for an absent key; a stored null stays null (see also line 425) |
| B24Crm.NormalizeUrl | b24-transfer-lead/src/backend/services/bitrix24.py:16-23 | the client URL ends in exactly one slash and is the given URL without its trailing slashes |
| B24Crm.NormalizeUrlIdempotent | b24-transfer-lead/src/backend/services/bitrix24.py:23 | normalising an already normalised URL changes nothing |
| B24Crm.NormalizeUrlIgnoresTrailingSlash | b24-transfer-lead/src/backend/services/bitrix24.py:23 | URLs that differ by a trailing slash reach the same portal |
| B24Crm.Unwrap | b24-transfer-lead/src/backend/services/bitrix24.py:232-289 | a record only from a dict reply; a dict without a non-null `order0000000000` entry is the record itself; with one, the record is that entry when it is a dict, and a non-dict entry (unusable by every caller) or a raised call gives no record |
| B24Crm.FirstTruthy | b24-transfer-lead/src/backend/services/bitrix24.py:113-125 | Python's `a or b or ... or fallback`: the first truthy candidate, else the fallback; the result is always the fallback or a non-empty candidate |
| B24Crm.FieldLabel | b24-transfer-lead/src/backend/services/bitrix24.py:111-125 | a field's label is one of its non-empty label candidates or its id, and is empty only for an empty id |
| B24Crm.UserFieldTitleLast | b24-transfer-lead/src/backend/services/bitrix24.py:111-118 | a `UF_CRM_` field is labelled by its list label, then its form label, then its filter label, then its title, then its id |
| B24Crm.StandardFieldLabel | b24-transfer-lead/src/backend/services/bitrix24.py:119-125 | any other field is labelled by its title, then its name, then its id |
| B24Crm.FieldList | b24-transfer-lead/src/backend/services/bitrix24.py:93-139 | one row per dict entry of the fields reply, and none for any other entry; every row describes some dict entry with its label and its type (default "string") (see also lines 140-186) |
| B24Crm.FieldListAppend | b24-transfer-lead/src/backend/services/bitrix24.py:93-139 | the rows follow the order of the reply: splitting the reply splits the rows the same way |
| B24Crm.StageEntityId | b24-transfer-lead/src/backend/services/bitrix24.py:437-453 | the stage list of funnel 0 is `DEAL_STAGE` and no other funnel's is |
| B24Crm.StageEntityIdInjective | b24-transfer-lead/src/backend/services/bitrix24.py:453 | two different funnels never share a stage list |
| B24Crm.StatusRows | b24-transfer-lead/src/backend/services/bitrix24.py:420-460 | one `{id, name}` row per reply entry, in order, with `NAME` defaulting to "" |
| B24Crm.StatusesKeyInjective | b24-transfer-lead/src/backend/services/bitrix24.py:409 | two portals never share a cache entry for their statuses |
| B24Crm.LeadStatuses | b24-transfer-lead/src/backend/services/bitrix24.py:399-435 | a cached list is served without a fetch; a failed fetch raises and leaves the cache as the lookup left it; a fetched list is returned, and cached under the portal's key only when it is non-empty |
| B24Crm.StatusesServedFromCache | b24-transfer-lead/src/backend/services/bitrix24.py:411-433 | a non-empty list fetched at time t is served unchanged, whatever a later fetch would return, until one default lifetime has passed |
| B24Crm.EmptyStatusesNotCached | b24-transfer-lead/src/backend/services/bitrix24.py:431-433 | after an empty list, the next call fetches again |
| B24Crm.ResolveName | b24-transfer-lead/src/backend/api/v1/webhook.py:382-391 | the name of the first status whose id matches; the id itself when none matches or the list could not be fetched |
| B24Crm.DedupSound | b24-transfer-lead/src/backend/services/bitrix24.py:516-522 | every contact kept has a truthy id not already seen, and comes from the search results |
| B24Crm.DedupDistinct | b24-transfer-lead/src/backend/services/bitrix24.py:516-522 | no two kept contacts share an id |
| B24Crm.DedupCovers | b24-transfer-lead/src/backend/services/bitrix24.py:516-522 | every candidate with a truthy id is represented by a kept contact with that id |
| B24Crm.DedupFirstOccurrence | b24-transfer-lead/src/backend/services/bitrix24.py:516-522 | a contact is kept only at the first occurrence of its id |
| B24Crm.DedupIdempotent | b24-transfer-lead/src/backend/services/bitrix24.py:516-522 | deduplicating an already deduplicated list changes nothing |
| B24Crm.DedupKeepsDistinct | b24-transfer-lead/src/backend/services/bitrix24.py:516-522 | a list of distinct truthy ids passes unchanged |
| B24Crm.Dedup | b24-transfer-lead/src/backend/services/bitrix24.py:516-522 | the kept contacts come from the candidates, have truthy and distinct ids, and every truthy id among the candidates is kept |
| B24Crm.Flatten | b24-transfer-lead/src/backend/services/bitrix24.py:509-513 | every contact of every variant's result is in the merged list, and nothing else is |
| B24Crm.HasPhoneMatch | b24-transfer-lead/src/backend/services/bitrix24.py:534-547 | true exactly when one of the phones normalises to the search phone |
| B24Crm.FirstMatch | b24-transfer-lead/src/backend/services/bitrix24.py:527-547 | a contact with a matching phone that every earlier contact lacks; none only when no contact has one |
| B24Crm.FindContact | b24-transfer-lead/src/backend/services/bitrix24.py:463-595 | a found id is the integer id of a contact with a matching phone taken from the searches or the full list; when a deduplicated search result matches, the result is the id of the first such contact, or a failure when that id does not parse, and never "not found"; otherwise it is the id of the first matching contact of the full list, and "not found" when that list is missing, has no match, or the first match's id does not parse |
| B24Crm.PhoneForCrm | b24-transfer-lead/src/backend/services/bitrix24.py:607-609 | the stored phone always starts with "+", which is added only when missing |
| B24Crm.PhoneForCrmIdempotent | b24-transfer-lead/src/backend/services/bitrix24.py:609 | adding the prefix to a prefixed phone changes nothing |
| B24Crm.FirstSpace | b24-transfer-lead/src/backend/services/bitrix24.py:612 | the position of the first whitespace character, with none before it, or -1 when there is none |
| B24Crm.SplitWords | b24-transfer-lead/src/backend/services/bitrix24.py:612-614 | a stripped name splits into a first word without whitespace and a rest that starts with a non-space, separated by whitespace; a one-word name is all first name |
| B24Crm.GapSplit | b24-transfer-lead/src/backend/services/bitrix24.py:612 | splitting at the first whitespace run gives a word, a non-empty whitespace gap and a non-empty rest |
| B24Crm.SplitName | b24-transfer-lead/src/backend/services/bitrix24.py:612-614 | a blank name is kept whole as the first name with an empty last name; any other name is split after stripping |
| Notifications.PartnerView | backend/app/services/notification_service.py:45-74 | a partner sees exactly the broadcast notifications and those aimed at them, each flagged read exactly when they have a read record for it |
| Notifications.UnreadIds | backend/app/services/notification_service.py:77-91 | exactly the notifications visible to the partner without a read record of theirs |
| Notifications.UnreadCount | backend/app/services/notification_service.py:77-91 | the number of visible unread notifications, never more than there are notifications |
| Notifications.UnreadSubset | backend/app/services/notification_service.py:77-91 | the unread notifications are among the existing ones |
| Notifications.Create | backend/app/services/notification_service.py:14-25 | a new notification is unread for every partner it is visible to, and no read record changes; `create_notification` adds broadcasts only, and the same insert with a target partner is stated for the other creators |
| Notifications.MarkAsRead | backend/app/services/notification_service.py:94-116 | false exactly for an unknown notification, and then nothing changes; otherwise the partner has read it, no other read record changes, and an existing record is not added again |
| Notifications.MarkAsReadIdempotent | backend/app/services/notification_service.py:100-108 | marking a notification read twice is marking it once |
| Notifications.MarkAsReadCount | backend/app/services/notification_service.py:94-116 | reading a visible unread notification lowers that partner's unread count by exactly one |
| Notifications.NewReadRows | backend/app/services/notification_service.py:121-128 | the records added for a partner are exactly those for the notifications they have not read, visible to them or not |
| Notifications.MarkAllAsRead | backend/app/services/notification_service.py:119-134 | afterwards the partner has read every notification; the records of other partners are unchanged; no record is duplicated |
| Notifications.MarkAllLeavesNothingUnread | backend/app/services/notification_service.py:119-134 | after marking all, the partner's unread count is zero |
| Notifications.MarkAllRecordsInvisible | backend/app/services/notification_service.py:125-131 | marking all also records notifications aimed at another partner, which this partner cannot see |
| Notifications.Delete | backend/app/services/notification_service.py:34-42 | false exactly for an unknown id, and then nothing changes; otherwise the notification and all its read records are gone and nothing else changes |
| Notifications.DeleteKeepsOthers | backend/app/services/notification_service.py:34-42 | deleting a notification removes it from each partner's view and leaves the rest of the view, read flags included, as it was |
| ChatService.View | backend/app/services/chat_service.py:11-21 | a message is shown as coming from the admins exactly when its sender has the admin role; id, sender, name and read flag are carried over |
| ChatService.PartnerUnread | backend/app/services/chat_service.py:54-65 | zero exactly when no message in the partner's conversation from someone else is unread; never more than the messages |
| ChatService.AdminUnread | backend/app/services/chat_service.py:118-127 | zero exactly when no message the partner wrote in their own conversation is unread |
| ChatService.AdminTotalUnread | backend/app/services/chat_service.py:175-185 | zero exactly when no message written by the partner of its conversation is unread |
| ChatService.MarkPartnerRead | backend/app/services/chat_service.py:68-81 | exactly the unread messages to the partner in their conversation become read; every other message is unchanged |
| ChatService.MarkAdminRead | backend/app/services/chat_service.py:188-201 | exactly the partner's own unread messages in their conversation become read; every other message is unchanged |
| ChatService.MarkPartnerReadEffect | backend/app/services/chat_service.py:54-81 | after the partner reads their chat nothing is unread for them, and no admin unread count changes (see also lines 118-127, 175-185) |
| ChatService.MarkAdminReadEffect | backend/app/services/chat_service.py:54-65 | after an admin reads a conversation nothing in it is unread for the admins; other conversations' admin counts and every partner count are unchanged (see also lines 118-127, 188-201) |
| ChatService.Preview | backend/app/services/chat_service.py:129-131 | a text of at most 100 characters is shown whole; a longer one as its first 100 characters and "..." |
| ChatService.LastOf | backend/app/services/chat_service.py:105-116 | none exactly when the conversation has no message; otherwise one of its messages, none of its messages being later |
| ChatService.Collect | backend/app/services/chat_service.py:97-142 | one preview per given conversation whose partner exists and which has a message, and nothing else; each preview holds that partner's details, the preview of the latest message, and the admin unread count |
| ChatService.InsertDesc | backend/app/services/chat_service.py:144 | inserting into a newest-first list keeps it newest-first and adds exactly the one entry |
| ChatService.InsertAt | backend/app/services/chat_service.py:144 | inserting after every entry at least as recent keeps the order and the contents |
| ChatService.InsertAtKeeps | backend/app/services/chat_service.py:144 | an insertion adds exactly the one entry |
| ChatService.InsertAtSorted | backend/app/services/chat_service.py:144 | an insertion at the first older entry keeps a newest-first order |
| ChatService.SortDesc | backend/app/services/chat_service.py:144 | the result is newest-first and a permutation of the input |
| ChatService.Conversations | backend/app/services/chat_service.py:87-145 | newest conversation first; every preview belongs to a listed conversation with a known partner and a message, with the right preview text and admin unread count; every such conversation is listed |
| Reports.CommissionSplit | backend/app/services/report_service.py:47-49 | the paid and the unpaid commission add up to the whole commission: a reward is either paid, or unpaid and non-zero, or zero |
| Reports.CountDisjoint | backend/app/services/report_service.py:71-73 | the approved, rejected and pending counts never exceed the number of requests |
| Reports.OwnClients | backend/app/services/report_service.py:26-42 | exactly the partner's clients whose creation day lies within the given bounds, a missing bound not restricting |
| Reports.OwnRequests | backend/app/services/report_service.py:26-68 | exactly the partner's payment requests whose creation day lies within the bounds |
| Reports.RequestAmounts | backend/app/services/report_service.py:74 | the requested amounts summed; zero for no request |
| Reports.ComputeMetrics | backend/app/services/report_service.py:34-90 | leads, sales (a positive deal amount), leads in progress (no final deal status), commission, paid commission and deal amount are counted or summed over the partner's clients in range; clicks over their links' clicks in range; the request total, the approved, rejected and pending counts and the requested amount over their requests in range; paid plus unpaid equals the commission, the three request counts stay within the total, and sales and leads in progress stay within the leads |
| Reports.InProgressCases | backend/app/services/report_service.py:23-53 | a lead whose deal ended is not in progress; one without a deal status, or in an open stage, is |
| Reports.AddMetrics | backend/app/services/report_service.py:231-243 | adding two consistent rows field by field gives a consistent row |
| Reports.Totals | backend/app/services/report_service.py:220-243 | the totals of no partner are all zero; totals of consistent rows are consistent |
| Reports.AddAssoc | backend/app/services/report_service.py:231-243 | the totals do not depend on how the additions are grouped |
| Reports.AddZero | backend/app/services/report_service.py:220 | the zero row adds nothing |
| Reports.TotalsAppend | backend/app/services/report_service.py:222-243 | one more partner adds exactly its row to the totals |
| Reports.TotalLeadsIsSum | backend/app/services/report_service.py:231 | the leads total is the sum of the partners' lead counts |
| Reports.ReportPartners | backend/app/services/report_service.py:210-217 | with a non-zero partner id, exactly that partner; otherwise exactly the partners of role "partner" |
| Reports.MetricsOf | backend/app/services/report_service.py:222-229 | the metrics of each report row, in row order |
| Reports.AllPartnersReport | backend/app/services/report_service.py:207-256 | one row per covered partner, in order, holding that partner's metrics; the totals are the field-wise sum of the rows, and are consistent |
| Reports.ResolveClientStatus | backend/app/services/report_service.py:133-148 | the client's own status name wins, then its status id, then the lookup by external id, then by phone; any non-empty answer comes from one of those; otherwise "" |
| Reports.LocalStatusWins | backend/app/services/report_service.py:139-142 | a client with its own status never consults the lead lookups |
| Reports.PhoneIsLastResort | backend/app/services/report_service.py:144-148 | the phone lookup is used only when the external id finds nothing |
| AdminService.ApplyPayment | backend/app/services/admin_service.py:42-101 | the client's identity is untouched; each field given in the update is stored; an explicit reward wins, a positive deal amount without one recomputes the reward from the partner's effective percentage, and otherwise the reward stays; marking paid keeps an earlier payment time and otherwise stores the time of the update, marking unpaid clears it |
| AdminService.WithReward | backend/app/services/admin_service.py:44-93 | only the reward changes: the explicit reward, else the automatic one, else the old one |
| AdminService.WithPaid | backend/app/services/admin_service.py:55-101 | only the paid flag and time change, and only when the update sets the flag; paid keeps an earlier time and otherwise takes the time of the update, unpaid has no time |
| AdminService.ApplyPaymentIdempotent | backend/app/services/admin_service.py:34-64 | repeating the same update at any later time changes nothing; the first payment time survives |
| AdminService.PaidAtPreserved | backend/app/services/admin_service.py:57-58 | marking an already paid client paid again keeps its payment time |
| AdminService.UpdateClientPayment | backend/app/services/admin_service.py:34-64 | none exactly for an unknown client; otherwise the updated client, stored back with every other client untouched |
| AdminService.BulkUpdate | backend/app/services/admin_service.py:67-106 | every listed existing client is updated by the same rules as a single update; unlisted clients are untouched; unknown ids add nothing |
| AdminService.BulkOfOneIsSingle | backend/app/services/admin_service.py:34-106 | a bulk update of one client is the single update of that client |
| AdminService.BulkUnknownIdsSkipped | backend/app/services/admin_service.py:70-73 | a bulk update naming only unknown clients changes nothing |
| AdminService.Summary | backend/app/services/admin_service.py:109-151 | none exactly for an unknown partner; otherwise the deal total is the sum of the partner's clients' deal amounts, the reward total the sum of their rewards, the paid and unpaid amounts the sums over the paid and the unpaid clients (a missing amount counting as 0), and a partner without clients sums to zero |
| AdminService.SummarySplit | backend/app/services/admin_service.py:123-125 | the paid and the unpaid rewards of a partner add up to the partner's total reward |
| AdminService.NoneMine | backend/app/services/admin_service.py:122-123 | a partner without clients has zero reward and zero deal amount |
| AdminService.Approve | backend/app/services/admin_service.py:385-400 | an unknown partner is "not found", a registration that is not pending "already processed"; otherwise exactly that partner becomes approved and active |
| AdminService.Reject | backend/app/services/admin_service.py:403-416 | the same refusals; otherwise exactly that partner becomes rejected with the reason recorded, its active flag unchanged |
| AdminService.DecidedOnce | backend/app/services/admin_service.py:390-409 | after an approval or a rejection neither decision is accepted again |
| Partners.EffectivePct | backend/app/services/admin_service.py:28-31 | the partner's own reward percentage when set, else the configured default |
| Partners.Reward | backend/app/services/admin_service.py:52-93 | the reward is never negative for a non-negative amount and percentage, and is the whole amount at 100 percent |
| Partners.PartnerOf | backend/app/services/admin_service.py:48-91 | the client's partner exactly when the partner table holds it |
| PaymentRequests.Pieces | backend/app/services/payment_request_service.py:116 | one piece per id, each the decimal id with a space before all but the first |
| PaymentRequests.DumpIds | backend/app/services/payment_request_service.py:116 | the stored text is bracketed |
| PaymentRequests.ParseClientIds | backend/app/services/payment_request_service.py:19-23 | a missing text or one that is not a JSON list of integers reads as the empty list; otherwise the list it spells |
| PaymentRequests.ParseSpacedInt | backend/app/services/payment_request_service.py:21 | a number after a space reads as that number |
| PaymentRequests.DumpInner | backend/app/services/payment_request_service.py:116 | between the brackets lie the pieces joined by commas |
| PaymentRequests.PiecesRead | backend/app/services/payment_request_service.py:21 | no stored piece holds a comma, and each reads back as its id (see also line 116) |
| PaymentRequests.PieceRead | backend/app/services/payment_request_service.py:21 | one stored piece holds no comma and reads back as its id (see also line 116) |
| PaymentRequests.IntRead | backend/app/services/payment_request_service.py:21 | a decimal number holds no comma and reads back as itself (see also line 116) |
| PaymentRequests.SpacedIntRead | backend/app/services/payment_request_service.py:21 | a decimal number after a space holds no comma and reads back as itself (see also line 116) |
| PaymentRequests.InnerNotBlank | backend/app/services/payment_request_service.py:116 | the inside of a stored non-empty list is not blank |
| PaymentRequests.DumpParse | backend/app/services/payment_request_service.py:19-23 | reading back a stored list gives the ids in order, repeats included (see also line 116) |
| PaymentRequests.Found | backend/app/services/payment_request_service.py:74-81 | exactly the requested ids of existing clients of the partner |
| PaymentRequests.FirstUnrewarded | backend/app/services/payment_request_service.py:89-94 | none exactly when every requested client has a reward; otherwise a requested client without one |
| PaymentRequests.ListedIds | backend/app/services/payment_request_service.py:102 | the client ids a stored request lists |
| PaymentRequests.FirstOverlap | backend/app/services/payment_request_service.py:97-108 | none exactly when no pending request lists a found client; otherwise a pending request with the non-empty set of clients it shares |
| PaymentRequests.Distinct | backend/app/services/payment_request_service.py:81-110 | the same ids without repeats, none of them lost |
| PaymentRequests.Missing | backend/app/services/payment_request_service.py:81-82 | exactly the requested ids that are not clients of the partner; empty exactly when every requested id is one |
| PaymentRequests.OverlapFree | backend/app/services/payment_request_service.py:96-108 | when every requested client is found, no pending request overlaps exactly when no pending request lists a requested client |
| PaymentRequests.Create | backend/app/services/payment_request_service.py:70-123 | a refusal for ids that are not the partner's names exactly those ids; a request is created exactly when every requested client is the partner's and has a reward and none is in a pending request; the new request is pending, unprocessed, lists exactly the requested ids, and asks for the sum of the distinct clients' rewards; whether a client is already paid is not checked |
| PaymentRequests.NoDoubleBooking | backend/app/services/payment_request_service.py:96-108 | while a request is pending, no other request for any of its clients is accepted |
| PaymentRequests.IndexOfRequest | backend/app/services/payment_request_service.py:177-180 | the position of the first request with the id, or none when no request has it |
| PaymentRequests.MarkPaid | backend/app/services/payment_request_service.py:198-206 | every listed existing client becomes paid at the given time; every other client is unchanged; no client is added |
| PaymentRequests.Process | backend/app/services/payment_request_service.py:171-224 | not found exactly for an unknown request; refused exactly for one no longer pending; otherwise only that request records the decision, the time, the admin and the comment, an approval pays the listed clients, a rejection touches no client, and the partner is notified |
| PaymentRequests.ProcessedOnce | backend/app/services/payment_request_service.py:186-190 | a processed request is refused whatever the second decision |
| PaymentRequests.ApprovalPaysRequested | backend/app/services/payment_request_service.py:70-123 | creating a request and then approving it pays exactly the requested clients, and no client becomes unpaid (see also lines 171-224) |
| BotFormatters.LineOf | telegram_bot/bot/utils/formatters.py:186-198 | a message is attributed to the partner exactly when its sender is the partner; a message without a file name shows its text, a file without text shows the clip line only |
| BotFormatters.FormatChatPage | telegram_bot/bot/utils/formatters.py:163-199 | no messages give the empty-chat page 0 of 1; otherwise the page count is the ceiling of the messages over 8, a page in range is shown as asked and any other (-1 included) becomes the last page; every page but the last is full, the last ends at the last message, and each line renders the message at its position |
| BotFormatters.Lines | telegram_bot/bot/utils/formatters.py:183-198 | one line per message of the slice, in order |
| BotFormatters.ChatPageAgreesWithPaginate | telegram_bot/bot/utils/formatters.py:175-183 | on pages that exist the chat shows the same window of messages, and counts the same pages, as the bot's generic pagination; a negative page is the last one |
| BotFormatters.Extension | telegram_bot/bot/utils/formatters.py:155 | without a dot, no extension; with one, the lower-cased text after the last dot |
| BotFormatters.FileType | telegram_bot/bot/utils/formatters.py:153-160 | a name without a dot is a document; an image has one of the five image extensions; a video one of the three video extensions |
| BotFormatters.LastExtensionDecides | telegram_bot/bot/utils/formatters.py:155-160 | only the part after the last dot decides, whatever comes before it |
| BotFormatters.UpperCaseImage | telegram_bot/bot/utils/formatters.py:155-157 | an upper-case image extension still makes an image |
| BotFormatters.LowerJpg | telegram_bot/bot/utils/formatters.py:155 | lower-casing "JPG" gives "jpg" |
| BotFormatters.InnerDotsIgnored | telegram_bot/bot/utils/formatters.py:155-160 | a name like "archive.tar.gz" is a document: inner dots are ignored and "gz" is not a media extension |
| BotFormatters.GzIsDocument | telegram_bot/bot/utils/formatters.py:156-160 | "gz" is neither an image nor a video extension |
| PartnerAuth.IndexOfEmail | backend/app/services/auth_service.py:25-26 | the first partner with the e-mail, or none when no partner has it (see also lines 111-112) |
| PartnerAuth.IndexOfId | backend/app/services/auth_service.py:158-159 | the first partner with the id, or none when no partner has it |
| PartnerAuth.Register | backend/app/services/auth_service.py:24-60 | a new e-mail adds a pending, inactive partner with the hashed password and the given partner code at the end of the table; a rejected e-mail is reset in place to pending and inactive with the new details and no reason, keeping its partner code; any other known e-mail is refused |
| PartnerAuth.RejectionDetail | backend/app/services/auth_service.py:126-134 | the rejection message, with the reason appended exactly when there is a non-empty one |
| PartnerAuth.Login | backend/app/services/auth_service.py:110-145 | tokens are issued exactly for a known e-mail with the right password whose partner is neither pending nor rejected and is active, and they name that partner; bad credentials exactly when the e-mail is unknown or the password wrong; each other refusal names the status that caused it, the rejection carrying its reason |
| PartnerAuth.MayLogIn | backend/app/services/auth_service.py:120-140 | a partner who may log in is active, as the refresh check also demands; a pending or rejected partner may not log in, an active approved one may |
| PartnerAuth.RegisteredAwaitsApproval | backend/app/services/auth_service.py:24-60 | a freshly registered or re-registered partner logging in with the right password is told the registration awaits approval (see also lines 120-124) |
| PartnerAuth.Refresh | backend/app/services/auth_service.py:148-170 | a token that is not a refresh token is refused; new tokens are issued exactly for a refresh token whose subject is the integer id of an active partner, whatever its approval status; a missing or non-numeric subject is an uncaught error |
| PartnerAuth.LoginTokenRefreshes | backend/app/services/auth_service.py:142-170 | a refresh token issued at login refreshes for as long as the partner stays active |
| PublicRouter.FindActiveLink | backend/app/routers/public.py:36-49 | the link with the code exactly when one exists and is active; otherwise a 404 |
| PublicRouter.ClickOf | backend/app/routers/public.py:52-64 | the click records the link, the visitor's address and referer, and the user agent, empty when absent |
| PublicRouter.LandingPath | backend/app/routers/public.py:81-83 | the landing path is the landing prefix followed by the link code |
| PublicRouter.RedirectLink | backend/app/routers/public.py:67-135 | an unknown or inactive link is a 404 with no click recorded; otherwise exactly one click is recorded, a direct link redirects to its target with the UTM query, a landing link to its landing path, and any other link shows the lead form |
| PublicRouter.LandingPage | backend/app/routers/public.py:138-170 | an unknown or inactive link is a 404 with no click; otherwise a click is recorded; a landing link with a landing id shows that landing when it is active and is a 404 (click kept) when it is not; every other link shows the lead form |
| PublicRouter.VisitCountedOnce | backend/app/routers/public.py:73-74 | a served visit appends exactly one click for that link and keeps the earlier ones; a visit adds no click exactly when the link is refused (see also lines 144-145) |
| PublicRouter.OpportunityOf | backend/app/routers/public.py:275-281 | no amount without an opportunity; otherwise the opportunity as `float()` reads it, none when it does not parse |
| PublicRouter.SyncReward | backend/app/routers/public.py:286-297 | a reward exactly when the stored amount is positive and the partner is known, computed with the partner's effective percentage |
| PublicRouter.SyncClient | backend/app/routers/public.py:270-297 | the bookkeeping fields are untouched; the stage and its name are always copied; a positive opportunity replaces the amount and any other leaves it; the reward is recomputed whenever the resulting amount is positive and the partner known, and otherwise stays |
| PublicRouter.SyncIdempotent | backend/app/routers/public.py:270-297 | relaying the same update twice leaves the client as the first relay did |
| PublicRouter.SyncAgreesWithPaymentEdit | backend/app/routers/public.py:283-297 | a positive opportunity sets the same amount and reward as an admin's payment edit with that amount |
| PublicRouter.AdminEdit | backend/app/routers/public.py:283-297 | an admin edit of only the amount stores the amount and leaves the payment state alone |
| PublicRouter.ClientsWithExternalId | backend/app/routers/public.py:265-268 | exactly the clients whose external id is the CRM lead id |
| PublicRouter.NoticeFor | backend/app/routers/public.py:299-319 | a notice exactly when the update reports success and an admin exists; it is sent by that admin to the client's partner, naming the client and showing the amount and the reward only when they are positive |
| PublicRouter.Proxy | backend/app/routers/public.py:228-330 | an unreachable service is a 502 and anything else is relayed unchanged; no client is added or removed; when the service reports a lead update with a non-empty CRM lead id held by exactly one client, that client alone is brought up to date; otherwise no client changes; a notice only for a reported success, sent by an admin |
| PublicRouter.NoticeExactlyOnSuccess | backend/app/routers/public.py:257-319 | a notice is sent exactly when the update reports a success with a non-empty lead id, exactly one client has that external id, and there is an admin |
| PublicRouter.UpdateIn | backend/app/routers/public.py:255-256 | a rejected webhook carries no update; an accepted one carries its own |
| PublicRouter.RedeliveryNotifiesOnce | backend/app/routers/public.py:228-330 | when the CRM delivers the same webhook again, the relay sends no second closed-deal notice, whatever the client and partner tables hold by then |
| UserAuth.CreateSession | b24-transfer-lead/src/backend/services/auth.py:44-66 | the new session, under its key, holds the user and expires one day after creation; every other session is unchanged |
| UserAuth.GetSession | b24-transfer-lead/src/backend/services/auth.py:68-86 | an unknown key gives nothing and changes nothing; an expired session gives nothing and is removed; a live one is returned and kept |
| UserAuth.DeleteSession | b24-transfer-lead/src/backend/services/auth.py:88-96 | the key is gone afterwards, a missing key being no error; every other session is unchanged |
| UserAuth.DeleteIdempotent | b24-transfer-lead/src/backend/services/auth.py:95-96 | deleting a session twice is deleting it once |
| UserAuth.SessionLivesOneDay | b24-transfer-lead/src/backend/services/auth.py:56-86 | a new session is served for a whole day, boundary included, and is gone on the first lookup after it |
| UserAuth.FindUser | b24-transfer-lead/src/backend/services/auth.py:110-140 | the first user with the name, or none when no user has it |
| UserAuth.Authenticate | b24-transfer-lead/src/backend/services/auth.py:98-117 | the user exactly when the name is known and the password matches its hash |
| UserAuth.IsAdmin | b24-transfer-lead/src/backend/services/auth.py:151-161 | exactly the "admin" role is an admin, the role the inline checks of the endpoints compare with; the ordinary user role is not |
| UserAuth.CreateUser | b24-transfer-lead/src/backend/services/auth.py:119-149 | refused exactly when the name is taken, with the "already exists" message, and nothing is inserted; otherwise one user with the hashed password is added at the end |
| UserAuth.CreatedUserAuthenticates | b24-transfer-lead/src/backend/services/auth.py:98-149 | a user just created authenticates with the password given |
| WorkflowsApi.StatusCode | b24-transfer-lead/src/backend/api/v1/workflows.py:119-133 | 404 exactly for a missing workflow or mapping, 403 exactly for denied access or a non-admin caller, 500 exactly when the CRM field list fails or lacks the field (the 400 raised inside the `try` is re-raised as 500), 400 exactly for a bad entity type or a duplicate mapping |
| WorkflowsApi.FindWorkflow | b24-transfer-lead/src/backend/api/v1/workflows.py:117-122 | no index exactly when no workflow has the id; otherwise the first workflow with that id |
| WorkflowsApi.HasAccess | b24-transfer-lead/src/backend/api/v1/workflows.py:235-240 | an admin, the creator and a user the workflow is shared with have access, and nobody else (see also lines 124-129) |
| WorkflowsApi.Authorize | b24-transfer-lead/src/backend/api/v1/workflows.py:110-135 | 404 exactly when the id is unknown, 403 exactly when it is known but the caller is neither admin, owner nor shared with; on success the caller has access to the found workflow |
| WorkflowsApi.ListWorkflows | b24-transfer-lead/src/backend/api/v1/workflows.py:44-70 | a workflow is listed exactly when it is stored and the caller has access to it; an admin sees the whole table |
| WorkflowsApi.ListedIffAuthorized | b24-transfer-lead/src/backend/api/v1/workflows.py:44-70 | with distinct ids, a workflow appears in the list exactly when opening it directly passes the access check |
| WorkflowsApi.BaseUrl | b24-transfer-lead/src/backend/api/v1/workflows.py:249-253 | the request's base URL has no trailing slash and never starts with "http://": an "http://" prefix is replaced by "https://", anything else is kept |
| WorkflowsApi.BaseUrlIdempotent | b24-transfer-lead/src/backend/api/v1/workflows.py:249-253 | normalising an already normalised base URL changes nothing |
| WorkflowsApi.WebhookEndpointUrl | b24-transfer-lead/src/backend/api/v1/workflows.py:248-253 | the endpoint is the base URL followed by "/api/v1/webhook", with no doubled slash, and a plain-http request yields an https endpoint |
| WorkflowsApi.PublicApiUrl | b24-transfer-lead/src/backend/api/v1/workflows.py:256-258 | the public lead endpoint is published exactly when the workflow has a non-empty API token, and it embeds that token |
| WorkflowsApi.ReadSettings | b24-transfer-lead/src/backend/api/v1/workflows.py:248-270 | the reported settings are the stored ones, except that an unset entity type reads as "lead" and an unset lead status as "NEW" |
| WorkflowsApi.GetSettings | b24-transfer-lead/src/backend/api/v1/workflows.py:220-270 | the access check's error, or the settings of the authorised workflow |
| WorkflowsApi.DomainAfter | b24-transfer-lead/src/backend/api/v1/workflows.py:316-323 | the domain follows a new webhook URL when it parses and stays as it was when it does not |
| WorkflowsApi.ApplySettings | b24-transfer-lead/src/backend/api/v1/workflows.py:302-327 | refused exactly for an entity type other than "lead" or "deal"; otherwise the deal and lead settings are replaced, the URL and domain change only when a URL is sent, an empty app token clears it, an absent one keeps it, and identity and API token never change |
| WorkflowsApi.ApplySettingsIdempotent | b24-transfer-lead/src/backend/api/v1/workflows.py:302-327 | sending the same settings a second time changes nothing |
| WorkflowsApi.UpdateThenRead | b24-transfer-lead/src/backend/api/v1/workflows.py:261-327 | after an update, a read reports the values sent, with "NEW" standing in for an unset lead status |
| WorkflowsApi.UpdateSettings | b24-transfer-lead/src/backend/api/v1/workflows.py:273-354 | the access check's error, the entity-type error, or the table with only the authorised workflow replaced by its updated version |
| WorkflowsApi.GenerateToken | b24-transfer-lead/src/backend/api/v1/workflows.py:835-861 | refused to non-admins, 404 for an unknown workflow; otherwise only that workflow's API token changes, to the new token |
| WorkflowsApi.GeneratedTokenPublishes | b24-transfer-lead/src/backend/api/v1/workflows.py:256-258 | after a token is generated, the settings of that workflow publish the public endpoint for exactly that token |
| WorkflowsApi.FindField | b24-transfer-lead/src/backend/api/v1/workflows.py:606 | no index exactly when no CRM field has the id; otherwise the first field with it |
| WorkflowsApi.StripOrFallback | b24-transfer-lead/src/backend/api/v1/workflows.py:636 | as written at creation: only the empty display name falls back to the CRM field's name; any other name is stored stripped, even when that leaves it empty |
| WorkflowsApi.DisplayName | b24-transfer-lead/src/backend/api/v1/workflows.py:747-749 | a display name that is blank after stripping falls back to the CRM field's name; any other is stored stripped |
| WorkflowsApi.BlankDisplayNameStoredEmpty | b24-transfer-lead/src/backend/api/v1/workflows.py:636 | for the name " ", creation as written stores an empty display name where the update rule stores the field's name |
| WorkflowsApi.DisplayNameRulesAgree | b24-transfer-lead/src/backend/api/v1/workflows.py:636 | the creation and update rules agree on every name that is empty or not blank |
| WorkflowsApi.CreateMapping | b24-transfer-lead/src/backend/api/v1/workflows.py:570-661 | checks run in the order admin, workflow, entity type, CRM field list, field id, duplicate; a duplicate is refused exactly when all earlier checks pass and a mapping of that field and entity type exists; a success appends one row naming the found CRM field, with the display name given by the creation rule as written |
| WorkflowsApi.CreateTwiceRefused | b24-transfer-lead/src/backend/api/v1/workflows.py:622-632 | creating the same mapping a second time is refused as a duplicate |
| WorkflowsApi.StaleDisplayNameAsWritten | b24-transfer-lead/src/backend/api/v1/workflows.py:761-766 | as written, moving a mapping whose display name equals the old field's name to another field keeps the old name |
| WorkflowsApi.ChangeFieldAsWritten | b24-transfer-lead/src/backend/api/v1/workflows.py:761-766 | the mapping points at the new CRM field; as written, only an empty display name takes the new field's name, and any other is kept; nothing else changes |
| WorkflowsApi.ChangeField | b24-transfer-lead/src/backend/api/v1/workflows.py:764 | the corrected rule the comment describes: the mapping points at the new CRM field, a display name equal to the old field's name or empty follows the new field's name, and an edited one is kept; nothing else changes |
| WorkflowsApi.ChangeFieldRulesDiffer | b24-transfer-lead/src/backend/api/v1/workflows.py:761-766 | the code's rule and the corrected one give different mappings exactly when the display name is not empty, equals the old field's name and differs from the new field's name |
| WorkflowsApi.UneditedNameFollows | b24-transfer-lead/src/backend/api/v1/workflows.py:764-766 | an unedited display name keeps following the field through successive field changes |
| WorkflowsApi.ApplyChange | b24-transfer-lead/src/backend/api/v1/workflows.py:744-781 | a field change without a field list fails first, an invalid entity type fails next; otherwise each sent attribute is replaced and each absent one kept; an unknown field id leaves the CRM field as it was; a known one takes the new field's id and name, and the display name becomes the new field's name only when it is empty after the display-name update |
| WorkflowsApi.EmptyChangeKeeps | b24-transfer-lead/src/backend/api/v1/workflows.py:744-781 | an update that sends nothing leaves the mapping unchanged |
| WorkflowsApi.FindRow | b24-transfer-lead/src/backend/api/v1/workflows.py:733-737 | no index exactly when no mapping of the workflow has the id; otherwise the first such row |
| WorkflowsApi.LocateMapping | b24-transfer-lead/src/backend/api/v1/workflows.py:719-742 | 403 for non-admins, 404 for an unknown workflow, 404 exactly when the workflow exists but has no mapping with the id; otherwise that row |
| WorkflowsApi.UpdateMapping | b24-transfer-lead/src/backend/api/v1/workflows.py:711-796 | the located row, and only that row, is replaced by the changed mapping under the same id |
| WorkflowsApi.DeleteMapping | b24-transfer-lead/src/backend/api/v1/workflows.py:799-832 | the located row is removed and the others keep their order |
| WorkflowsApi.DeletedMappingGone | b24-transfer-lead/src/backend/api/v1/workflows.py:799-832 | with distinct row ids, a deleted mapping is not found afterwards |
| WorkflowsApi.ConversionStats | b24-transfer-lead/src/backend/api/v1/workflows.py:899-912 | the total counts all leads and the successes those with semantic "S"; the percentage lies in [0, 100], is 0 exactly without successes and 100 exactly when every lead succeeded |
| WorkflowsApi.Percentage | b24-transfer-lead/src/backend/api/v1/workflows.py:905-907 | the share in percent times the total equals the successes times 100, bounded by 0 and 100 and reaching each end only at the matching count |
| LeadsApi.ExtraFields | b24-transfer-lead/src/backend/api/v1/leads.py:171-172 | a request field is an extra exactly when it is present and is neither the name nor the phone |
| LeadsApi.DumpExtrasAreExtra | b24-transfer-lead/src/backend/api/v1/leads.py:171-172 | the declared phone and name of a lead request never reach the extras; every other field does, in order |
| LeadsApi.FieldIdsKeys | b24-transfer-lead/src/backend/api/v1/leads.py:161-168 | a field name has a CRM field id exactly when some mapping of the workflow for its entity type names it |
| LeadsApi.FieldIdsLast | b24-transfer-lead/src/backend/api/v1/leads.py:168 | the CRM field id of a name is that of the last such mapping naming it |
| LeadsApi.Saved | b24-transfer-lead/src/backend/api/v1/leads.py:174-182 | an extra is forwarded and saved exactly when its name has a CRM field id |
| LeadsApi.CrmFieldsLookup | b24-transfer-lead/src/backend/api/v1/leads.py:178-181 | the CRM receives a value under a field id exactly when a saved extra maps to it, and then the value of the last such extra |
| LeadsApi.SaveFieldsOthers | b24-transfer-lead/src/backend/api/v1/leads.py:191-199 | saving a lead's fields leaves every other lead's fields as they were |
| LeadsApi.SaveFieldsLast | b24-transfer-lead/src/backend/api/v1/leads.py:191-199 | after saving, the lead has a field row for each saved name holding the last value saved under it |
| LeadsApi.CrmRequestFor | b24-transfer-lead/src/backend/api/v1/leads.py:201-216 | a deal exactly for a deal workflow, otherwise a lead; the name, phone and extras are passed through; the funnel defaults to 0 and the stage and status to "NEW" |
| LeadsApi.CrmDefaultsNeverEmpty | b24-transfer-lead/src/backend/api/v1/leads.py:208-215 | the CRM is never asked for an empty stage or status |
| LeadsApi.StoreLead | b24-transfer-lead/src/backend/api/v1/leads.py:184-222 | the stored lead is appended as "NEW" with the request's phone and name and the CRM id when the call answered; its mapped extras are saved under its id |
| LeadsApi.CrmFailureKeepsLead | b24-transfer-lead/src/backend/api/v1/leads.py:218-222 | when the CRM call fails the lead is still stored, as "NEW" and without a CRM id, and earlier leads are untouched |
| LeadsApi.CreateLead | b24-transfer-lead/src/backend/api/v1/leads.py:132-265 | the access check's error, a missing workflow database, or the stores with only this workflow's database replaced by one holding the new lead; a workflow without a webhook URL fails with a server error after the lead has been committed, and the error carries those stores, the lead without a CRM id |
| LeadsApi.UploadLimit | b24-transfer-lead/src/backend/api/v1/leads.py:318-332 | an absent or empty limit means none; a non-integer is a format error; an integer below 1 is refused; an accepted limit is at least 1 and is the parsed number |
| LeadsApi.LimitRoundTrip | b24-transfer-lead/src/backend/api/v1/leads.py:318-332 | a printed positive count is accepted as exactly that limit |
| LeadsApi.Take | b24-transfer-lead/src/backend/api/v1/leads.py:338-340 | without a limit all leads; with one, the prefix of length the smaller of the limit and the count |
| LeadsApi.ColumnMapping | b24-transfer-lead/src/backend/api/v1/leads.py:307-316 | an absent or empty column mapping means none; otherwise it is refused exactly when it does not decode, and is the decoded object when it does |
| LeadsApi.RowLead | b24-transfer-lead/src/backend/api/v1/leads.py:357-373 | the lead stored for an upload row is "NEW" under its id, with the row's phone and name, "" when missing |
| LeadsApi.RowLeads | b24-transfer-lead/src/backend/api/v1/leads.py:357-409 | one stored lead per upload row, the i-th built from the i-th row with the i-th consecutive id |
| LeadsApi.StoreAll | b24-transfer-lead/src/backend/api/v1/leads.py:357-409 | the database gains exactly one lead per row, in row order and with consecutive ids, each stored from its row |
| LeadsApi.StoreAllOne | b24-transfer-lead/src/backend/api/v1/leads.py:357-409 | storing a one-row upload is the same as creating that one lead by hand |
| LeadsApi.Upload | b24-transfer-lead/src/backend/api/v1/leads.py:268-440 | checks run in the order access, column mapping, limit, CSV; once they pass and the database exists, the upload fails with a server error before anything is stored exactly when the workflow has no webhook URL; a success stores at most `limit` leads, as many as the limited parse yields, appended to this workflow's database only |
| LeadsApi.StoreUpload | b24-transfer-lead/src/backend/api/v1/leads.py:352-405 | a missing database, then a missing webhook URL, are errors; otherwise every parsed lead is stored, in order, after the existing ones of this workflow's database, and no other database changes |
| LeadsApi.UploadStoresRows | b24-transfer-lead/src/backend/api/v1/leads.py:336-409 | the i-th lead an upload stores comes from the i-th parsed row, with its phone and name, as "NEW" and with id `nextId + i` |
| LeadsApi.StatusMap | b24-transfer-lead/src/backend/api/v1/leads.py:487-502 | a failed status load leaves the status map empty |
| LeadsApi.StatusMapLookup | b24-transfer-lead/src/backend/api/v1/leads.py:499-500 | a status has a display name exactly when the loaded list has it, and it is the name loaded last for it |
| LeadsApi.StatusDisplay | b24-transfer-lead/src/backend/api/v1/leads.py:529 | the status column is the known display name, else the raw status, and "NEW" for a lead without status |
| LeadsApi.DealStageDisplay | b24-transfer-lead/src/backend/api/v1/leads.py:542 | the deal-stage column is the stage name, else the stage id, else empty |
| LeadsApi.ExportedMappings | b24-transfer-lead/src/backend/api/v1/leads.py:505-517 | a mapping gets a column exactly when some lead has a field of its name |
| LeadsApi.ExportHeaders | b24-transfer-lead/src/backend/api/v1/leads.py:511-517 | the eight fixed column titles, then one title per exported mapping in mapping order |
| LeadsApi.ExportRow | b24-transfer-lead/src/backend/api/v1/leads.py:526-551 | a row is as wide as the header; it starts with the lead's name, phone and displayed status, and under each exported field's column holds the lead's value or "" |
| LeadsApi.Export | b24-transfer-lead/src/backend/api/v1/leads.py:443-569 | the header followed by one row per lead, every row as wide as the header |
| LeadsApi.ExportLeadRow | b24-transfer-lead/src/backend/api/v1/leads.py:512-551 | row i + 1 of the export is lead i, and the column of each exported field holds its title in the header and the lead's value, or "", in that row |

## Left out

- Persistence, HTTP and transport: SQLAlchemy sessions and queries, FastAPI routing and request parsing, httpx and the CRM's RPC. Tables become sequences or maps. Every remote call becomes a function parameter, with `None` meaning the call raised.
- The JSON body path of the webhook: only the form-encoded body is decoded. The handler takes the decoded tree.
- Phone normalisation (`normalize_phone`, `format_phone_variants`) is not part of this model. It enters as a function parameter.
- Concurrency: `asyncio.gather` in the contact search, the notification poller and polling intervals. Calls are taken one after another.
- Floating-point money and rounding: amounts are exact reals and `round(..., 2)` is not applied. This affects rewards, report sums and the conversion percentage.
- Crypto, secrets and identifiers: bcrypt, JWT, `secrets.token_urlsafe` and uuid codes. Hashing and verification are parameters; generated tokens and codes are arguments chosen by the caller. `backend/app/utils/security.py` is not part of this model.
- Library wrappers:
  - `csv.DictReader` tokenisation, the byte decoding of uploads and `get_csv_headers`;
  - `urllib` URL splitting, of which only the subset the webhook URL parser relies on is modelled;
  - UTM URL building;
  - datetime parsing and formatting. Creation times enter as already formatted strings or day numbers.
- Text: whitespace is only space, tab, line feed, carriage return, vertical tab and form feed; `strip()` in Python also removes \x1c-\x1f and the Unicode spaces. `lower()` lowers Latin and Russian letters only.
- Text.ParseInt: reads an optional sign and ASCII digits inside that whitespace. Python's `int()` also accepts `_` between digits ("1_000"), non-ASCII decimal digits ("١٢") and Unicode whitespace; the model reads all of these as a failure. This applies to every `int()` the model covers: the webhook ids, `ASSIGNED_BY_ID`, `CATEGORY_ID`, the upload limit and the token subject.
- Text: `str()` of a value the model already holds as text is the identity.
- Logging and `print` diagnostics: they have no effect on results.
- UI and glue: the React frontends, the aiogram handlers, keyboards and states, the schema migrations, configuration loading and `main.py` wiring.
- B24Crm.Unwrap: a non-dict `order0000000000` entry is taken as "no record". The code returns it, but every caller then fails on it.
- B24Crm.PhoneValue: where the code passes a null `VALUE` straight to `normalize_phone` (bitrix24.py:536 and :579), the model passes the text "None" instead.
- Pagination.Paginate: requires `per_page > 0`, since the code divides by it.
- ChatService: `send_message_partner`, `send_message_admin`, `get_partner_messages` and `get_conversation_messages` are plain inserts and ordered selects.
- ChatService.SortDesc: states the descending order and the permutation. It does not state the stability of Python's sort among equal timestamps.
- Reports.Consistent: the paid and unpaid parts add up exactly only because rounding is left out.
- Reports: `_build_lead_status_maps` and `_get_partner_clients_detail` fetch data, so their maps are parameters. `generate_partner_report` is a partner lookup followed by the per-partner metrics.
- AdminService: these are plain queries or field writes and are not modelled:
  - `get_admin_overview`, `get_partners_stats` and `get_partner_detail`;
  - `update_partner_reward_percentage`;
  - `get_pending_registrations` and `get_pending_registrations_count`;
  - `create_partner_workflow`.
- AdminService.Summary: the totals are modelled. The response's client list, the partner's clients newest `created_at` first, is a query and is not modelled.
- PaymentRequests.ParseIdList: reads a flat array of integers in the form `Text.ParseInt` accepts, so it also reads "[+1]" and "[01]", which `json.loads` rejects. Other valid JSON values, such as floats or nested arrays, read as no ids.
- PaymentRequests: `_build_response`, `get_pending_count`, `get_partner_requests`, `get_all_requests` and `get_request_detail` are queries.
- BotFormatters: `format_dashboard`, the other HTML formatters and `_format_dt` render text and are not modelled.
- PartnerAuth: the partner code is drawn from `uuid`; `Register` takes it as an argument.
- PublicRouter: the HTML pages and the UTM target are rendering, and `float()` of the opportunity is a parameter. `bitrix24_lead_id` is taken as text.
- Notifications: `get_all_notifications` is a plain ordered select.
- WorkflowsApi: `create_workflow`, `delete_workflow`, `get_workflow` and the endpoints fetching funnels, stages, lead statuses and fields are thin wrappers over the CRM and the database.
- WorkflowsApi.Percentage: does not round to two decimals.

## Findings

| source | as written | input that shows it | evidently intended | confidence | as-written member | corrected member |
|---|---|---|---|---|---|---|
| b24-transfer-lead/src/backend/api/v1/workflows.py:636 | the fallback to the CRM field's name is taken only for an empty display name; any other name is stripped and stored, so an all-blank name is stored as "" | creating a mapping with `display_name = " "` | a name that is blank after stripping falls back to the field's name, as the update rule at line 749 does | medium, not executed | WorkflowsApi.BlankDisplayNameStoredEmpty | WorkflowsApi.DisplayNameRulesAgree |
| b24-transfer-lead/src/backend/api/v1/webhook.py:76-78 | the recursive call hands the child dict only the text after the first `]`, so the segment between the first pair of brackets is dropped | the form field `data[FIELDS][ID]=42` is stored as `data.ID` | each bracketed segment opens one more level, `data.FIELDS.ID`, as the docstring at line 20 promises | medium, not executed | FormKeys.DecodeDropsFieldsLevel | FormKeys.IntendedKeepsEveryLevel |
| b24-transfer-lead/src/backend/api/v1/workflows.py:761-766 | `bitrix24_field_name` is overwritten with the new field's name before the display name is compared with it, so the "unedited" test only fires for an empty name | a mapping with display name "Phone" for field "Phone", moved to a field named "Mobile", keeps "Phone" | the display name follows the new field when it still equals the old field's name, as the comment at line 764 says | high, not executed | WorkflowsApi.StaleDisplayNameAsWritten | WorkflowsApi.UneditedNameFollows |

=== FILE: admin_service.dfy ===
/** Client payment bookkeeping and the registration decisions of
    backend/app/services/admin_service.py. The clock reading `now` is a
    parameter; `create_partner_workflow`, called after an approval, talks to
    the CRM service and is not part of this model. */
module AdminService {
  import opened Wrappers
  import opened Partners

  /** A payment update: each `None` leaves the stored field alone. */
  datatype PaymentUpdate = PaymentUpdate(
    dealAmount: Option<real>,
    partnerReward: Option<real>,
    isPaid: Option<bool>,
    paymentComment: Option<string>)

  /** The fields a payment update never touches agree. */
  predicate SameIdentity(a: Client, b: Client) {
    a.id == b.id && a.partnerId == b.partnerId && a.name == b.name && a.phone == b.phone &&
    a.externalId == b.externalId && a.dealStatus == b.dealStatus &&
    a.dealStatusName == b.dealStatusName && a.createdAt == b.createdAt
  }

  /** The automatic reward applies: no explicit reward, a positive deal
      amount in the update and a known partner. */
  predicate AutoReward(u: PaymentUpdate, partner: Option<Partner>) {
    u.partnerReward.None? && Positive(u.dealAmount) && partner.Some?
  }

  /** The per-client rules shared by the single and the bulk update. */
  function ApplyPayment(c: Client, u: PaymentUpdate, partner: Option<Partner>, defaultPct: real, now: int): (r: Client)
    ensures SameIdentity(c, r)
    ensures r.dealAmount == (if u.dealAmount.Some? then u.dealAmount else c.dealAmount)
    ensures u.partnerReward.Some? ==> r.partnerReward == u.partnerReward
    ensures AutoReward(u, partner) ==>
      r.partnerReward == Some(Reward(u.dealAmount.value, EffectivePct(partner.value, defaultPct)))
    ensures u.partnerReward.None? && !AutoReward(u, partner) ==> r.partnerReward == c.partnerReward
    ensures r.paymentComment == (if u.paymentComment.Some? then u.paymentComment else c.paymentComment)
    ensures u.isPaid.None? ==> r.isPaid == c.isPaid && r.paidAt == c.paidAt
    ensures u.isPaid == Some(true) ==> r.isPaid && r.paidAt.Some? && (c.paidAt.Some? ==> r.paidAt == c.paidAt)
    ensures u.isPaid == Some(true) && c.paidAt.None? ==> r.paidAt == Some(now)
    ensures u.isPaid == Some(false) ==> !r.isPaid && r.paidAt.None?
  {
    var c1 := if u.dealAmount.Some? then c.(dealAmount := u.dealAmount) else c;
    var c2 := WithReward(c1, u, partner, defaultPct);
    var c3 := if u.paymentComment.Some? then c2.(paymentComment := u.paymentComment) else c2;
    WithPaid(c3, u.isPaid, now)
  }

  /** The reward step: an explicit reward, else the automatic one, else
      the old reward; nothing else changes. */
  function WithReward(c: Client, u: PaymentUpdate, partner: Option<Partner>, defaultPct: real): (r: Client)
    ensures r == c.(partnerReward := r.partnerReward)
    ensures u.partnerReward.Some? ==> r.partnerReward == u.partnerReward
    ensures AutoReward(u, partner) ==>
      r.partnerReward == Some(Reward(u.dealAmount.value, EffectivePct(partner.value, defaultPct)))
    ensures u.partnerReward.None? && !AutoReward(u, partner) ==> r.partnerReward == c.partnerReward
  {
    if u.partnerReward.Some? then c.(partnerReward := u.partnerReward)
    else if AutoReward(u, partner) then
      c.(partnerReward := Some(Reward(u.dealAmount.value, EffectivePct(partner.value, defaultPct))))
    else c
  }

  /** The payment step: marking paid keeps an earlier payment time and
      otherwise stamps `now`; marking unpaid clears it. */
  function WithPaid(c: Client, isPaid: Option<bool>, now: int): (r: Client)
    ensures r == c.(isPaid := r.isPaid, paidAt := r.paidAt)
    ensures isPaid.None? ==> r == c
    ensures isPaid == Some(true) ==> r.isPaid && r.paidAt.Some? && (c.paidAt.Some? ==> r.paidAt == c.paidAt)
    ensures isPaid == Some(true) && c.paidAt.None? ==> r.paidAt == Some(now)
    ensures isPaid == Some(false) ==> !r.isPaid && r.paidAt.None?
  {
    if isPaid.None? then c
    else if isPaid.value then c.(isPaid := true, paidAt := if c.paidAt.None? then Some(now) else c.paidAt)
    else c.(isPaid := false, paidAt := None)
  }

  /** Applying the same update again, at any later time, changes nothing:
      in particular the first payment time survives. */
  lemma ApplyPaymentIdempotent(c: Client, u: PaymentUpdate, partner: Option<Partner>, defaultPct: real, t1: int, t2: int)
    ensures var once := ApplyPayment(c, u, partner, defaultPct, t1);
      ApplyPayment(once, u, partner, defaultPct, t2) == once
  {
  }

  /** Marking a client paid that already has a payment time keeps that
      time, whatever the clock says. */
  lemma PaidAtPreserved(c: Client, partner: Option<Partner>, defaultPct: real, now: int)
    requires c.paidAt.Some?
    ensures ApplyPayment(c, PaymentUpdate(None, None, Some(true), None), partner, defaultPct, now).paidAt == c.paidAt
  {
  }

  /** `update_client_payment`: `None` for an unknown client; otherwise the
      updated client, stored back with every other client untouched. */
  function UpdateClientPayment(clients: Clients, partners: PartnerTable, id: int, u: PaymentUpdate,
                               defaultPct: real, now: int): (r: Option<(Client, Clients)>)
    ensures r.None? <==> id !in clients
    ensures r.Some? ==> (
      var c := clients[id];
      r.value.0 == ApplyPayment(c, u, PartnerOf(partners, c), defaultPct, now) &&
      r.value.1 == clients[id := r.value.0])
  {
    if id !in clients then None
    else
      var c := clients[id];
      var updated := ApplyPayment(c, u, PartnerOf(partners, c), defaultPct, now);
      Some((updated, clients[id := updated]))
  }

  /** `bulk_update_client_payments`: every listed client that exists gets
      the same rules; unknown ids are skipped and a repeated id counts
      once. */
  function BulkUpdate(clients: Clients, partners: PartnerTable, ids: seq<int>, u: PaymentUpdate,
                      defaultPct: real, now: int): (r: Clients)
    ensures r.Keys == clients.Keys
    ensures forall k :: k in clients && k !in ids ==> r[k] == clients[k]
    ensures forall k :: k in clients && k in ids ==>
      r[k] == ApplyPayment(clients[k], u, PartnerOf(partners, clients[k]), defaultPct, now)
  {
    map k | k in clients ::
      if k in ids then ApplyPayment(clients[k], u, PartnerOf(partners, clients[k]), defaultPct, now)
      else clients[k]
  }

  /** The bulk update of one client is the single update of it. */
  lemma BulkOfOneIsSingle(clients: Clients, partners: PartnerTable, id: int, u: PaymentUpdate,
                          defaultPct: real, now: int)
    requires id in clients
    ensures BulkUpdate(clients, partners, [id], u, defaultPct, now) ==
            UpdateClientPayment(clients, partners, id, u, defaultPct, now).value.1
  {
  }

  /** The bulk update with ids that all are unknown changes nothing. */
  lemma BulkUnknownIdsSkipped(clients: Clients, partners: PartnerTable, ids: seq<int>, u: PaymentUpdate,
                              defaultPct: real, now: int)
    requires forall i :: 0 <= i < |ids| ==> ids[i] !in clients
    ensures BulkUpdate(clients, partners, ids, u, defaultPct, now) == clients
  {
  }

  /** The payment summary of one partner. */
  datatype PaymentSummary = PaymentSummary(partnerId: int, partnerName: string, totalDealAmount: real,
                                           totalReward: real, paidAmount: real, unpaidAmount: real)

  /** The tests selecting a partner's clients, all of them, the paid and
      the unpaid ones. */
  function Mine(partnerId: int): Client -> bool {
    (c: Client) => c.partnerId == partnerId
  }

  function PaidMine(partnerId: int): Client -> bool {
    (c: Client) => c.partnerId == partnerId && c.isPaid
  }

  function UnpaidMine(partnerId: int): Client -> bool {
    (c: Client) => c.partnerId == partnerId && !c.isPaid
  }

  /** `get_partner_payment_summary` over the partner's clients (the
      clients of other partners are passed in too and ignored). */
  function Summary(partners: PartnerTable, clients: seq<Client>, partnerId: int): (r: Option<PaymentSummary>)
    ensures r.None? <==> partnerId !in partners
    ensures r.Some? ==> r.value.paidAmount + r.value.unpaidAmount == r.value.totalReward
    ensures r.Some? ==> r.value.partnerId == partnerId && r.value.partnerName == partners[partnerId].name
    ensures r.Some? ==>
      r.value.totalDealAmount == SumWhere(clients, DealOf, Mine(partnerId)) &&
      r.value.totalReward == SumWhere(clients, RewardOf, Mine(partnerId)) &&
      r.value.paidAmount == SumWhere(clients, RewardOf, PaidMine(partnerId)) &&
      r.value.unpaidAmount == SumWhere(clients, RewardOf, UnpaidMine(partnerId))
    ensures r.Some? && (forall i :: 0 <= i < |clients| ==> clients[i].partnerId != partnerId) ==>
      r.value.totalReward == 0.0 && r.value.totalDealAmount == 0.0
  {
    if partnerId !in partners then None
    else
      SummarySplit(clients, partnerId);
      NoneMine(clients, partnerId);
      Some(PaymentSummary(partnerId, partners[partnerId].name, SumWhere(clients, DealOf, Mine(partnerId)),
                          SumWhere(clients, RewardOf, Mine(partnerId)), SumWhere(clients, RewardOf, PaidMine(partnerId)),
                          SumWhere(clients, RewardOf, UnpaidMine(partnerId))))
  }

  lemma {:induction false} SummarySplit(clients: seq<Client>, partnerId: int)
    ensures SumWhere(clients, RewardOf, PaidMine(partnerId)) + SumWhere(clients, RewardOf, UnpaidMine(partnerId)) ==
            SumWhere(clients, RewardOf, Mine(partnerId))
    decreases |clients|
  {
    if |clients| > 0 {
      SummarySplit(clients[1..], partnerId);
    }
  }

  lemma {:induction false} NoneMine(clients: seq<Client>, partnerId: int)
    ensures (forall i :: 0 <= i < |clients| ==> clients[i].partnerId != partnerId) ==>
      SumWhere(clients, RewardOf, Mine(partnerId)) == 0.0 && SumWhere(clients, DealOf, Mine(partnerId)) == 0.0
    decreases |clients|
  {
    if |clients| > 0 {
      NoneMine(clients[1..], partnerId);
    }
  }

  // ---------------------------------------------------------------------
  // Registration decisions

  datatype Refusal = NotFound | AlreadyProcessed

  /** `approve_registration`: only a pending registration can be approved;
      it becomes active. */
  function Approve(partners: PartnerTable, id: int): (r: Result<PartnerTable, Refusal>)
    ensures id !in partners ==> r == Err(NotFound)
    ensures id in partners && partners[id].approvalStatus != "pending" ==> r == Err(AlreadyProcessed)
    ensures r.Ok? <==> id in partners && partners[id].approvalStatus == "pending"
    ensures r.Ok? ==> (
      r.value == partners[id := partners[id].(approvalStatus := "approved", isActive := true)])
  {
    if id !in partners then Err(NotFound)
    else if partners[id].approvalStatus != "pending" then Err(AlreadyProcessed)
    else Ok(partners[id := partners[id].(approvalStatus := "approved", isActive := true)])
  }

  /** `reject_registration`: only a pending registration can be rejected;
      the reason is recorded and the active flag is left as it was. */
  function Reject(partners: PartnerTable, id: int, reason: Option<string>): (r: Result<PartnerTable, Refusal>)
    ensures id !in partners ==> r == Err(NotFound)
    ensures id in partners && partners[id].approvalStatus != "pending" ==> r == Err(AlreadyProcessed)
    ensures r.Ok? <==> id in partners && partners[id].approvalStatus == "pending"
    ensures r.Ok? ==> (
      r.value == partners[id := partners[id].(approvalStatus := "rejected", rejectionReason := reason)])
  {
    if id !in partners then Err(NotFound)
    else if partners[id].approvalStatus != "pending" then Err(AlreadyProcessed)
    else Ok(partners[id := partners[id].(approvalStatus := "rejected", rejectionReason := reason)])
  }

  /** A registration is decided once: after an approval or a rejection
      neither decision is accepted again. */
  lemma DecidedOnce(partners: PartnerTable, id: int, reason: Option<string>, reason2: Option<string>)
    requires id in partners && partners[id].approvalStatus == "pending"
    ensures Approve(Approve(partners, id).value, id) == Err(AlreadyProcessed)
    ensures Reject(Approve(partners, id).value, id, reason2) == Err(AlreadyProcessed)
    ensures Approve(Reject(partners, id, reason).value, id) == Err(AlreadyProcessed)
    ensures Reject(Reject(partners, id, reason).value, id, reason2) == Err(AlreadyProcessed)
  {
  }
}

=== FILE: b24_crm.dfy ===
/** The decision logic of the Bitrix24 REST client in
    b24-transfer-lead/src/backend/services/bitrix24.py. The RPC transport
    is replaced by its replies, passed in as values; a reply of `None`
    stands for a call that raised. */
module B24Crm {
  import opened Wrappers
  import opened Text
  import opened Dicts
  import opened TtlCache

  /** A CRM record as a Python dict of strings: an absent key is not in the
      map, a JSON null is `None`. */
  type Fields = map<string, Option<string>>

  /** Python `rec.get(k)`. */
  function PyGet(f: Fields, k: string): (r: Option<string>)
    ensures k !in f ==> r == None
    ensures k in f ==> r == f[k]
  {
    if k in f then f[k] else None
  }

  /** Python `rec.get(k, default)`: the default only for an absent key. */
  function PyGetOr(f: Fields, k: string, default: string): (r: Option<string>)
    ensures k !in f ==> r == Some(default)
    ensures k in f ==> r == f[k]
  {
    if k in f then f[k] else Some(default)
  }

  /** `webhook_url.rstrip("/") + "/"`. */
  function NormalizeUrl(url: string): (r: string)
    ensures EndsWith(r, "/")
    ensures |r| < 2 || r[|r| - 2] != '/'
    ensures r[..|r| - 1] == RStripChar(url, '/')
  {
    var base := RStripChar(url, '/');
    var r := base + "/";
    assert r[..|r| - 1] == base;
    r
  }

  /** Normalising twice is normalising once. */
  lemma NormalizeUrlIdempotent(url: string)
    ensures NormalizeUrl(NormalizeUrl(url)) == NormalizeUrl(url)
  {
    var n := NormalizeUrl(url);
    var base := RStripChar(url, '/');
    assert n == base + "/";
    assert RStripChar(n, '/') == RStripChar(base, '/') by {
      assert n[..|n| - 1] == base;
    }
    TrimEndIdempotent(base, '/');
  }

  lemma TrimEndIdempotent(s: string, c: char)
    ensures RStripChar(RStripChar(s, c), c) == RStripChar(s, c)
  {
  }

  /** URLs that differ only in trailing slashes reach the same portal. */
  lemma NormalizeUrlIgnoresTrailingSlash(url: string)
    ensures NormalizeUrl(url + "/") == NormalizeUrl(url)
  {
    var u := url + "/";
    assert u[..|u| - 1] == url;
  }

  /** A raw RPC reply: a scalar, or a dict whose `order0000000000` entry,
      when present and not null, is kept apart in `order`. */
  datatype Reply = Scalar(text: string) | Dict(fields: Fields, order: Option<Reply>)

  /** The unwrapping done by `get_lead`, `get_deal` and `get_user`: the
      `order0000000000` entry when it is there, else the dict itself;
      `None` when the reply (or that entry) is not a dict, or the call
      raised. */
  function Unwrap(reply: Option<Reply>): (r: Option<Fields>)
    ensures r.Some? ==> reply.Some? && reply.value.Dict?
    ensures reply.Some? && reply.value.Dict? && reply.value.order.None? ==> r == Some(reply.value.fields)
    ensures reply.Some? && reply.value.Dict? && reply.value.order.Some? ==>
      (r.Some? <==> reply.value.order.value.Dict?) &&
      (r.Some? ==> r.value == reply.value.order.value.fields)
  {
    match reply
    case None => None
    case Some(Scalar(_)) => None
    case Some(Dict(f, None)) => Some(f)
    case Some(Dict(_, Some(Scalar(_)))) => None
    case Some(Dict(_, Some(Dict(g, _)))) => Some(g)
  }

  /** The first truthy value among `candidates`, else `fallback`: Python's
      `a or b or ... or fallback`. */
  function FirstTruthy(candidates: seq<Option<string>>, fallback: string): (r: string)
    ensures (forall i :: 0 <= i < |candidates| ==> !Truthy(candidates[i])) ==> r == fallback
    ensures forall i ::
      (0 <= i < |candidates| && Truthy(candidates[i]) && (forall j :: 0 <= j < i ==> !Truthy(candidates[j]))) ==>
      r == candidates[i].value
    ensures r == fallback || (r != "" && Some(r) in candidates)
    decreases |candidates|
  {
    if |candidates| == 0 then fallback
    else if Truthy(candidates[0]) then candidates[0].value
    else
      var r := FirstTruthy(candidates[1..], fallback);
      assert forall i :: 1 <= i < |candidates| ==> candidates[i] == candidates[1..][i - 1];
      r
  }

  /** The label sources of a field, in priority order: user fields
      (`UF_CRM_*`) prefer their list, form and filter labels over the
      title; standard fields use the title, then the name. */
  function LabelCandidates(id: string, info: Fields): seq<Option<string>> {
    if StartsWith(id, "UF_CRM_") then
      [PyGet(info, "listLabel"), PyGet(info, "formLabel"), PyGet(info, "filterLabel"), PyGet(info, "title")]
    else
      [PyGet(info, "title"), PyGet(info, "name")]
  }

  /** The display name of a CRM field: one of its non-empty labels, else
      its id. */
  function FieldLabel(id: string, info: Fields): (r: string)
    ensures r == id || (r != "" && Some(r) in LabelCandidates(id, info))
    ensures r == "" ==> id == ""
  {
    FirstTruthy(LabelCandidates(id, info), id)
  }

  /** A user field's title is its label only when it has no list, form or
      filter label. */
  lemma UserFieldTitleLast(id: string, info: Fields)
    requires StartsWith(id, "UF_CRM_")
    ensures Truthy(PyGet(info, "listLabel")) ==> FieldLabel(id, info) == PyGet(info, "listLabel").value
    ensures !Truthy(PyGet(info, "listLabel")) && Truthy(PyGet(info, "formLabel")) ==>
      FieldLabel(id, info) == PyGet(info, "formLabel").value
    ensures (!Truthy(PyGet(info, "listLabel")) && !Truthy(PyGet(info, "formLabel")) &&
             !Truthy(PyGet(info, "filterLabel")) && Truthy(PyGet(info, "title"))) ==>
      FieldLabel(id, info) == PyGet(info, "title").value
    ensures (!Truthy(PyGet(info, "listLabel")) && !Truthy(PyGet(info, "formLabel")) &&
             !Truthy(PyGet(info, "filterLabel")) && !Truthy(PyGet(info, "title"))) ==>
      FieldLabel(id, info) == id
  {
    var c := LabelCandidates(id, info);
    assert c[0] == PyGet(info, "listLabel") && c[1] == PyGet(info, "formLabel");
    assert c[2] == PyGet(info, "filterLabel") && c[3] == PyGet(info, "title");
  }

  /** A standard field is labelled by its title, else its name, else its id;
      list and form labels are ignored. */
  lemma StandardFieldLabel(id: string, info: Fields)
    requires !StartsWith(id, "UF_CRM_")
    ensures Truthy(PyGet(info, "title")) ==> FieldLabel(id, info) == PyGet(info, "title").value
    ensures !Truthy(PyGet(info, "title")) && Truthy(PyGet(info, "name")) ==>
      FieldLabel(id, info) == PyGet(info, "name").value
    ensures !Truthy(PyGet(info, "title")) && !Truthy(PyGet(info, "name")) ==> FieldLabel(id, info) == id
  {
    var c := LabelCandidates(id, info);
    assert c[0] == PyGet(info, "title") && c[1] == PyGet(info, "name");
  }

  /** One entry of a `crm.*.fields` reply: a dict of attributes, or
      something else, which is skipped. */
  datatype FieldInfo = NotDict | Info(attrs: Fields)

  /** One row of `get_lead_fields` / `get_deal_fields`. */
  datatype FieldDesc = FieldDesc(id: string, name: string, kind: Option<string>)

  /** The row describing field `id` with attributes `attrs`; the type
      defaults to "string". */
  function DescOf(id: string, attrs: Fields): FieldDesc {
    FieldDesc(id, FieldLabel(id, attrs), PyGetOr(attrs, "type", "string"))
  }

  /** The field list built from a fields reply, in reply order: one row per
      dict entry, other entries skipped. */
  function FieldList(reply: Dicts.Dict<FieldInfo>): (r: seq<FieldDesc>)
    ensures |r| <= |reply|
    ensures forall d :: d in r ==> exists e :: e in reply && e.1.Info? && d == DescOf(e.0, e.1.attrs)
    ensures forall e :: e in reply && e.1.Info? ==> DescOf(e.0, e.1.attrs) in r
    decreases |reply|
  {
    if |reply| == 0 then []
    else
      var rest := FieldList(reply[1..]);
      assert forall e :: e in reply[1..] ==> e in reply;
      assert forall e :: e in reply ==> e == reply[0] || e in reply[1..];
      match reply[0].1
      case NotDict => rest
      case Info(attrs) => [DescOf(reply[0].0, attrs)] + rest
  }

  /** The field list of a reply split in two is the list of the first part
      followed by that of the second: rows keep the order of the reply. */
  lemma {:induction false} FieldListAppend(a: Dicts.Dict<FieldInfo>, b: Dicts.Dict<FieldInfo>)
    ensures FieldList(a + b) == FieldList(a) + FieldList(b)
    decreases |a|
  {
    if |a| > 0 {
      assert (a + b)[0] == a[0] && (a + b)[1..] == a[1..] + b;
      FieldListAppend(a[1..], b);
    } else {
      assert a + b == b;
    }
  }

  /** The status-list entity of a deal funnel: `DEAL_STAGE` for the default
      funnel 0, `DEAL_STAGE_<c>` otherwise. */
  function StageEntityId(category: int): (r: string)
    ensures StartsWith(r, "DEAL_STAGE")
    ensures (r == "DEAL_STAGE") <==> category == 0
  {
    if category == 0 then "DEAL_STAGE" else "DEAL_STAGE_" + IntToString(category)
  }

  /** Distinct funnels never share a stage list. */
  lemma StageEntityIdInjective(a: int, b: int)
    requires StageEntityId(a) == StageEntityId(b)
    ensures a == b
  {
    if a != 0 && b != 0 {
      var p := "DEAL_STAGE_";
      assert StageEntityId(a)[|p|..] == IntToString(a);
      assert StageEntityId(b)[|p|..] == IntToString(b);
      IntToStringInjective(a, b);
    }
  }

  /** One `{"id": STATUS_ID, "name": NAME}` row of a status list. */
  datatype StatusEntry = StatusEntry(id: Option<string>, name: Option<string>)

  /** The rows built from a `crm.status.list` reply: the id is `STATUS_ID`
      (or nothing), the name is `NAME`, defaulting to "". */
  function StatusRows(reply: seq<Fields>): (r: seq<StatusEntry>)
    ensures |r| == |reply|
    ensures forall i :: 0 <= i < |reply| ==>
      r[i] == StatusEntry(PyGet(reply[i], "STATUS_ID"), PyGetOr(reply[i], "NAME", ""))
  {
    seq(|reply|, i requires 0 <= i < |reply| => StatusEntry(PyGet(reply[i], "STATUS_ID"), PyGetOr(reply[i], "NAME", "")))
  }

  /** The cache key of a portal's lead statuses. */
  function StatusesKey(webhookUrl: string): string {
    "lead_statuses:" + webhookUrl
  }

  /** Portals never share cached statuses. */
  lemma StatusesKeyInjective(a: string, b: string)
    requires StatusesKey(a) == StatusesKey(b)
    ensures a == b
  {
    var p := "lead_statuses:";
    assert StatusesKey(a)[|p|..] == a;
    assert StatusesKey(b)[|p|..] == b;
  }

  /** `get_lead_statuses` at time `now`: a cached list is served as is;
      otherwise the list is built from `fetched` (None when the RPC raised,
      and then the call raises too) and cached only when non-empty. */
  function LeadStatuses(cache: Cache<seq<StatusEntry>>, webhookUrl: string, now: real, fetched: Option<seq<Fields>>): (r: (Option<seq<StatusEntry>>, Cache<seq<StatusEntry>>))
    ensures var key := StatusesKey(webhookUrl);
      var hit := TtlCache.Get(cache, key, now);
      (hit.0.Some? ==> r == hit) &&
      (hit.0.None? && fetched.None? ==> r == (None, hit.1)) &&
      (hit.0.None? && fetched.Some? ==> r.0 == Some(StatusRows(fetched.value))) &&
      (hit.0.None? && fetched.Some? && fetched.value == [] ==> r.1 == hit.1) &&
      (hit.0.None? && fetched.Some? && fetched.value != [] ==>
        r.1 == Set(hit.1, key, StatusRows(fetched.value), None, now))
  {
    var key := StatusesKey(webhookUrl);
    var hit := TtlCache.Get(cache, key, now);
    if hit.0.Some? then hit
    else if fetched.None? then (None, hit.1)
    else
      var rows := StatusRows(fetched.value);
      if rows != [] then (Some(rows), Set(hit.1, key, rows, None, now)) else (Some(rows), hit.1)
  }

  /** A non-empty list fetched at time `t` is served from the cache, without
      a fetch, for one day. */
  lemma StatusesServedFromCache(cache: Cache<seq<StatusEntry>>, webhookUrl: string, t: real, rows: seq<Fields>,
                                now: real, later: Option<seq<Fields>>)
    requires TtlCache.Get(cache, StatusesKey(webhookUrl), t).0.None? && rows != []
    requires cache.defaultTtl != 0 && now <= t + cache.defaultTtl as real
    ensures var first := LeadStatuses(cache, webhookUrl, t, Some(rows));
      LeadStatuses(first.1, webhookUrl, now, later).0 == Some(StatusRows(rows))
  {
    var key := StatusesKey(webhookUrl);
    var hit := TtlCache.Get(cache, key, t);
    GetAfterSet(hit.1, key, StatusRows(rows), None, t, now);
  }

  /** An empty status list is never cached: the next call fetches again. */
  lemma EmptyStatusesNotCached(cache: Cache<seq<StatusEntry>>, webhookUrl: string, t: real, now: real, later: Option<seq<Fields>>)
    requires TtlCache.Get(cache, StatusesKey(webhookUrl), t).0.None?
    requires now >= t
    ensures var first := LeadStatuses(cache, webhookUrl, t, Some([]));
      LeadStatuses(first.1, webhookUrl, now, later).0 == (if later.Some? then Some(StatusRows(later.value)) else None)
  {
  }

  /** The name shown for a status or stage id: the `name` of the first row
      whose `id` equals it, else the id itself (also when the list could not
      be fetched). */
  function ResolveName(rows: Option<seq<StatusEntry>>, id: Option<string>): (r: Option<string>)
    ensures rows.None? ==> r == id
    ensures rows.Some? && (forall i :: 0 <= i < |rows.value| ==> rows.value[i].id != id) ==> r == id
    ensures rows.Some? ==> forall i ::
      (0 <= i < |rows.value| && rows.value[i].id == id && (forall j :: 0 <= j < i ==> rows.value[j].id != id)) ==>
      r == rows.value[i].name
    decreases if rows.Some? then |rows.value| else 0
  {
    if rows.None? || |rows.value| == 0 then id
    else if rows.value[0].id == id then rows.value[0].name
    else
      var rest := rows.value[1..];
      assert forall i :: 1 <= i < |rows.value| ==> rows.value[i] == rest[i - 1];
      ResolveName(Some(rest), id)
  }

  /** One phone of a contact: a dict (its `VALUE`, default "") or any other
      value, taken as its text. */
  datatype PhoneEntry = PhoneDict(attrs: Fields) | PhoneText(text: string)

  /** A contact candidate from `crm.contact.list`. */
  datatype Contact = Contact(id: Option<string>, phones: seq<PhoneEntry>)

  /** The phone text compared for one entry; a null `VALUE` is compared
      as "None". */
  function PhoneValue(p: PhoneEntry): string {
    match p
    case PhoneDict(attrs) =>
      var v := PyGetOr(attrs, "VALUE", "");
      if v.Some? then v.value else "None"
    case PhoneText(t) => t
  }

  /** The candidates with a truthy id, each id kept at its first occurrence,
      in order; `seen` holds the ids already taken. */
  function DedupFrom(cs: seq<Contact>, seen: set<string>): (r: seq<Contact>)
    ensures |r| <= |cs|
    decreases |cs|
  {
    if |cs| == 0 then []
    else if Truthy(cs[0].id) && cs[0].id.value !in seen then [cs[0]] + DedupFrom(cs[1..], seen + {cs[0].id.value})
    else DedupFrom(cs[1..], seen)
  }

  /** `unique_contacts`: deduplication by truthy id, first occurrence wins.
      The kept contacts are candidates with truthy, distinct ids, and every
      truthy id of the candidates is kept. */
  function Dedup(cs: seq<Contact>): (r: seq<Contact>)
    ensures forall c :: c in r ==> c in cs && Truthy(c.id)
    ensures DistinctIds(r)
    ensures forall c :: c in cs && Truthy(c.id) ==> exists d :: d in r && d.id == c.id
  {
    DedupSound(cs, {});
    DedupDistinct(cs, {});
    DedupCovers(cs, {});
    DedupFrom(cs, {})
  }

  /** Every kept contact is a candidate with a truthy, not yet seen id. */
  lemma {:induction false} DedupSound(cs: seq<Contact>, seen: set<string>)
    ensures forall c :: c in DedupFrom(cs, seen) ==> c in cs && Truthy(c.id) && c.id.value !in seen
    decreases |cs|
  {
    if |cs| > 0 {
      var tail := cs[1..];
      assert forall c :: c in tail ==> c in cs;
      if Truthy(cs[0].id) && cs[0].id.value !in seen {
        DedupSound(tail, seen + {cs[0].id.value});
      } else {
        DedupSound(tail, seen);
      }
    }
  }

  /** No two contacts of `cs` share an id. */
  predicate DistinctIds(cs: seq<Contact>) {
    forall k, l :: 0 <= k < l < |cs| ==> cs[k].id != cs[l].id
  }

  /** No two kept contacts share an id. */
  lemma {:induction false} DedupDistinct(cs: seq<Contact>, seen: set<string>)
    ensures DistinctIds(DedupFrom(cs, seen))
    decreases |cs|
  {
    if |cs| > 0 {
      var tail := cs[1..];
      if Truthy(cs[0].id) && cs[0].id.value !in seen {
        var seen' := seen + {cs[0].id.value};
        var rest := DedupFrom(tail, seen');
        DedupDistinct(tail, seen');
        assert DistinctIds(rest);
        DedupSound(tail, seen');
        var r := DedupFrom(cs, seen);
        assert r == [cs[0]] + rest;
        forall k, l | 0 <= k < l < |r| ensures r[k].id != r[l].id {
          assert r[l] == rest[l - 1];
          if k == 0 {
            assert r[0] == cs[0];
            assert rest[l - 1] in rest;
            assert Truthy(rest[l - 1].id) && rest[l - 1].id.value !in seen';
          } else {
            assert r[k] == rest[k - 1];
            assert rest[k - 1].id != rest[l - 1].id;
          }
        }
      } else {
        DedupDistinct(tail, seen);
        assert DedupFrom(cs, seen) == DedupFrom(tail, seen);
      }
    }
  }

  /** Every candidate with a truthy id not yet seen is represented by a kept
      contact with the same id. */
  lemma {:induction false} DedupCovers(cs: seq<Contact>, seen: set<string>)
    ensures forall c :: c in cs && Truthy(c.id) && c.id.value !in seen ==>
      exists d :: d in DedupFrom(cs, seen) && d.id == c.id
    decreases |cs|
  {
    if |cs| > 0 {
      var tail := cs[1..];
      var r := DedupFrom(cs, seen);
      if Truthy(cs[0].id) && cs[0].id.value !in seen {
        var seen' := seen + {cs[0].id.value};
        DedupCovers(tail, seen');
        assert r == [cs[0]] + DedupFrom(tail, seen');
        forall c | c in cs && Truthy(c.id) && c.id.value !in seen
          ensures exists d :: d in r && d.id == c.id
        {
          if c.id == cs[0].id {
            assert cs[0] in r;
          } else {
            assert c in tail;
            var d :| d in DedupFrom(tail, seen') && d.id == c.id;
            assert d in r;
          }
        }
      } else {
        DedupCovers(tail, seen);
        forall c | c in cs && Truthy(c.id) && c.id.value !in seen
          ensures exists d :: d in r && d.id == c.id
        {
          assert c != cs[0] ==> c in tail;
          if c == cs[0] {
            assert false;
          }
        }
      }
    }
  }

  /** A contact is kept only at the first occurrence of its id. */
  lemma {:induction false} DedupFirstOccurrence(cs: seq<Contact>, seen: set<string>)
    ensures forall c :: c in DedupFrom(cs, seen) ==>
      exists i :: 0 <= i < |cs| && cs[i] == c && forall j :: 0 <= j < i ==> cs[j].id != c.id
    decreases |cs|
  {
    if |cs| > 0 {
      var tail := cs[1..];
      var r := DedupFrom(cs, seen);
      var seen' := if Truthy(cs[0].id) && cs[0].id.value !in seen then seen + {cs[0].id.value} else seen;
      var rest := DedupFrom(tail, seen');
      DedupFirstOccurrence(tail, seen');
      DedupSound(tail, seen');
      assert forall c :: c in r ==> c == cs[0] || c in rest;
      forall c | c in r
        ensures exists i :: 0 <= i < |cs| && cs[i] == c && forall j :: 0 <= j < i ==> cs[j].id != c.id
      {
        if c in rest && c != cs[0] {
          var i :| 0 <= i < |tail| && tail[i] == c && forall j :: 0 <= j < i ==> tail[j].id != c.id;
          assert cs[i + 1] == c;
          assert cs[0].id != c.id;
          forall j | 0 <= j < i + 1 ensures cs[j].id != c.id {
            if j > 0 {
              assert cs[j] == tail[j - 1];
            }
          }
        } else {
          assert cs[0] == c;
        }
      }
    }
  }

  /** Deduplicating a deduplicated list changes nothing. */
  lemma DedupIdempotent(cs: seq<Contact>)
    ensures Dedup(Dedup(cs)) == Dedup(cs)
  {
    var d := Dedup(cs);
    assert d == DedupFrom(cs, {});
    DedupSound(cs, {});
    DedupDistinct(cs, {});
    assert forall k :: 0 <= k < |d| ==> d[k] in d;
    DedupKeepsDistinct(d, {});
  }

  /** A list of distinct truthy ids, none in `seen`, passes unchanged. */
  lemma {:induction false} DedupKeepsDistinct(cs: seq<Contact>, seen: set<string>)
    requires forall k :: 0 <= k < |cs| ==> Truthy(cs[k].id) && cs[k].id.value !in seen
    requires DistinctIds(cs)
    ensures DedupFrom(cs, seen) == cs
    decreases |cs|
  {
    if |cs| > 0 {
      var tail := cs[1..];
      var seen' := seen + {cs[0].id.value};
      assert forall k :: 0 <= k < |tail| ==> tail[k] == cs[k + 1];
      assert forall k :: 0 <= k < |tail| ==> Truthy(tail[k].id) && tail[k].id.value !in seen' by {
        forall k | 0 <= k < |tail| ensures Truthy(tail[k].id) && tail[k].id.value !in seen' {
          assert cs[0].id != cs[k + 1].id;
        }
      }
      DedupKeepsDistinct(tail, seen');
      assert [cs[0]] + tail == cs;
    }
  }

  /** Concatenation of the per-variant search results. */
  function Flatten(batches: seq<seq<Contact>>): (r: seq<Contact>)
    ensures forall i, k :: 0 <= i < |batches| && 0 <= k < |batches[i]| ==> batches[i][k] in r
    ensures forall k :: 0 <= k < |r| ==> exists i :: 0 <= i < |batches| && r[k] in batches[i]
    decreases |batches|
  {
    if |batches| == 0 then []
    else
      var rest := Flatten(batches[1..]);
      assert forall i :: 1 <= i < |batches| ==> batches[i] == batches[1..][i - 1];
      var r := batches[0] + rest;
      assert forall k :: |batches[0]| <= k < |r| ==> r[k] == rest[k - |batches[0]|];
      r
  }

  /** One of the contact's phones normalises to `target`. */
  predicate PhoneMatches(c: Contact, normalize: string -> string, target: string) {
    exists p :: 0 <= p < |c.phones| && normalize(PhoneValue(c.phones[p])) == target
  }

  function HasPhoneMatch(phones: seq<PhoneEntry>, normalize: string -> string, target: string): (r: bool)
    ensures r <==> exists p :: 0 <= p < |phones| && normalize(PhoneValue(phones[p])) == target
    decreases |phones|
  {
    if |phones| == 0 then false
    else if normalize(PhoneValue(phones[0])) == target then true
    else
      assert forall p :: 1 <= p < |phones| ==> phones[p] == phones[1..][p - 1];
      HasPhoneMatch(phones[1..], normalize, target)
  }

  /** The first contact, in order, with a phone matching `target`. */
  function FirstMatch(cs: seq<Contact>, normalize: string -> string, target: string): (r: Option<Contact>)
    ensures r.Some? ==> r.value in cs && PhoneMatches(r.value, normalize, target)
    ensures r.Some? ==> exists k :: (0 <= k < |cs| && cs[k] == r.value &&
      forall j :: 0 <= j < k ==> !PhoneMatches(cs[j], normalize, target))
    ensures r.None? ==> forall i :: 0 <= i < |cs| ==> !PhoneMatches(cs[i], normalize, target)
    decreases |cs|
  {
    if |cs| == 0 then None
    else if HasPhoneMatch(cs[0].phones, normalize, target) then Some(cs[0])
    else
      assert forall i :: 1 <= i < |cs| ==> cs[i] == cs[1..][i - 1];
      var rest := FirstMatch(cs[1..], normalize, target);
      if rest.Some? then
        var k :| 0 <= k < |cs[1..]| && cs[1..][k] == rest.value &&
          forall j :: 0 <= j < k ==> !PhoneMatches(cs[1..][j], normalize, target);
        assert cs[k + 1] == rest.value && forall j :: 0 <= j < k + 1 ==> !PhoneMatches(cs[j], normalize, target);
        rest
      else rest
  }

  /** `int(contact_id)` raised outside any handler. */
  datatype ContactError = BadContactId

  /** `find_contact_by_phone`: the deduplicated batch results are checked
      first, an unparseable id there raises; then the full contact list
      (`None` when that call raised) is scanned, where an unparseable id
      just means "not found". `normalize` is `normalize_phone`, and
      `target` is the normalised search phone. */
  function FindContact(batches: seq<seq<Contact>>, normalize: string -> string, target: string,
                       fallback: Option<seq<Contact>>): (r: Result<Option<int>, ContactError>)
    ensures r.Ok? && r.value.Some? ==> exists c ::
      (PhoneMatches(c, normalize, target) && c.id.Some? && ParseInt(c.id.value) == Some(r.value.value) &&
       (c in Flatten(batches) || (fallback.Some? && c in fallback.value)))
    ensures (exists i :: 0 <= i < |Dedup(Flatten(batches))| && PhoneMatches(Dedup(Flatten(batches))[i], normalize, target)) ==>
      (r.Ok? ==> r.value.Some?)
    ensures var hit := FirstMatch(Dedup(Flatten(batches)), normalize, target);
      hit.Some? ==> (
        (r.Ok? <==> hit.value.id.Some? && ParseInt(hit.value.id.value).Some?) &&
        (r.Ok? ==> r.value == ParseInt(hit.value.id.value)))
    ensures FirstMatch(Dedup(Flatten(batches)), normalize, target).None? ==> (
      r.Ok? &&
      (fallback.None? ==> r.value.None?) &&
      (fallback.Some? ==> var late := FirstMatch(fallback.value, normalize, target);
        r.value == if late.Some? && late.value.id.Some? then ParseInt(late.value.id.value) else None))
  {
    var unique := Dedup(Flatten(batches));
    DedupSound(Flatten(batches), {});
    var hit := FirstMatch(unique, normalize, target);
    if hit.Some? then
      var n := ParseInt(hit.value.id.value);
      if n.Some? then Ok(Some(n.value)) else Err(BadContactId)
    else if fallback.None? then Ok(None)
    else
      var late := FirstMatch(fallback.value, normalize, target);
      if late.Some? && late.value.id.Some? && ParseInt(late.value.id.value).Some? then
        Ok(Some(ParseInt(late.value.id.value).value))
      else Ok(None)
  }

  /** The phone stored on a new contact: the normalised phone with a
      leading "+" added when it has none. */
  function PhoneForCrm(normalized: string): (r: string)
    ensures StartsWith(r, "+")
    ensures StartsWith(normalized, "+") ==> r == normalized
    ensures !StartsWith(normalized, "+") ==> r == "+" + normalized
  {
    if StartsWith(normalized, "+") then normalized else "+" + normalized
  }

  /** Adding the prefix twice adds it once. */
  lemma PhoneForCrmIdempotent(normalized: string)
    ensures PhoneForCrm(PhoneForCrm(normalized)) == PhoneForCrm(normalized)
  {
  }

  /** Index of the first whitespace character of `s`, or -1. */
  function FirstSpace(s: string): (r: int)
    ensures -1 <= r < |s|
    ensures r >= 0 ==> IsSpace(s[r])
    ensures forall i :: 0 <= i < |s| && (r < 0 || i < r) ==> !IsSpace(s[i])
    decreases |s|
  {
    if |s| == 0 then -1
    else if IsSpace(s[0]) then 0
    else
      var k := FirstSpace(s[1..]);
      assert forall i :: 1 <= i < |s| ==> s[i] == s[1..][i - 1];
      if k < 0 then -1 else k + 1
  }

  /** A stripped, non-empty name split at its first whitespace run: the
      first word and the rest, or the whole name and "" for one word. */
  function SplitWords(t: string): (r: (string, string))
    requires t != "" && !IsSpace(t[0]) && !IsSpace(t[|t| - 1])
    ensures r.0 != "" && NoSpace(r.0)
    ensures r.1 == "" ==> r.0 == t
    ensures r.1 != "" ==> !IsSpace(r.1[0]) && SpaceGap(t, r.0, r.1)
  {
    var k := FirstSpace(t);
    if k < 0 then
      assert NoSpace(t);
      (t, "")
    else
      var m := LeadCount(t[k..], IsSpace);
      GapSplit(t, k, m);
      (t[..k], t[k + m..])
  }

  /** No character of `s` is whitespace. */
  predicate NoSpace(s: string) {
    forall i :: 0 <= i < |s| ==> !IsSpace(s[i])
  }

  /** `t` is `a`, then a non-empty run of whitespace, then `b`. */
  ghost predicate SpaceGap(t: string, a: string, b: string) {
    exists gap :: gap != "" && (forall i :: 0 <= i < |gap| ==> IsSpace(gap[i])) && t == a + gap + b
  }

  lemma GapSplit(t: string, k: int, m: nat)
    requires t != "" && !IsSpace(t[0]) && !IsSpace(t[|t| - 1])
    requires k == FirstSpace(t) && k >= 0 && m == LeadCount(t[k..], IsSpace)
    ensures var a := t[..k]; var b := t[k + m..];
      a != "" && NoSpace(a) && b != "" && !IsSpace(b[0]) && SpaceGap(t, a, b)
  {
    var tail := t[k..];
    assert tail[|tail| - 1] == t[|t| - 1];
    assert m < |tail| && tail[m] == t[k + m];
    var gap := tail[..m];
    assert gap != "" && forall i :: 0 <= i < |gap| ==> gap[i] == tail[i];
    assert t == t[..k] + gap + t[k + m..];
  }

  /** `name.strip().split(maxsplit=1)` read as (first name, last name): the
      first word and the rest, or the whole name (unstripped) and "" when
      there is no word at all. */
  function SplitName(name: string): (r: (string, string))
    ensures Strip(name) == "" ==> r == (name, "")
    ensures Strip(name) != "" ==> r == SplitWords(Strip(name))
  {
    var t := Strip(name);
    if t == "" then (name, "")
    else
      StripEnds(name);
      SplitWords(t)
  }
}

=== FILE: b24_models.dfy ===
/** The records of the lead-transfer service: workflows and field mappings
    in the main database, leads and their extra fields in one database per
    workflow (b24-transfer-lead/src/backend/models). */
module B24Models {
  import opened Wrappers

  /** A lead as stored in a workflow database; every nullable column is an
      `Option`. */
  datatype Lead = Lead(
    id: int,
    phone: string,
    name: string,
    status: Option<string>,
    b24Id: Option<string>,
    assignedByName: Option<string>,
    statusSemanticId: Option<string>,
    dealId: Option<string>,
    dealAmount: Option<string>,
    dealStatus: Option<string>,
    dealStatusName: Option<string>)

  /** A workflow: one CRM portal connection and its settings. */
  datatype Workflow = Workflow(
    id: int,
    name: string,
    webhookUrl: Option<string>,
    userId: int,
    entityType: string,
    dealCategoryId: Option<int>,
    dealStageId: Option<string>,
    leadStatusId: Option<string>,
    appToken: Option<string>,
    domain: Option<string>,
    apiToken: Option<string>)

  /** Which CRM field feeds which local extra field, and whether webhook
      events refresh it. */
  datatype FieldMapping = FieldMapping(
    workflowId: int,
    fieldName: string,
    displayName: string,
    b24FieldId: string,
    b24FieldName: string,
    entityType: string,
    updateOnEvent: bool)

  /** One workflow database: its leads in table order and the extra field
      values, keyed by (lead id, field name). */
  datatype WorkflowDb = WorkflowDb(leads: seq<Lead>, fields: map<(int, string), string>)

  /** All workflow databases by workflow id. A workflow without an entry
      stands for a database file without tables: every query on it fails. */
  type Stores = map<int, WorkflowDb>
}

=== FILE: bot_formatters.dfy ===
/** The paging and file-type decisions of
    telegram_bot/bot/utils/formatters.py: `format_chat_page` and
    `get_notification_file_type`. HTML markup and date formatting are not
    modelled; a rendered message is its sender and its content. */
module BotFormatters {
  import opened Wrappers
  import opened Text
  import Pagination

  /** Messages shown per chat page. */
  const ChatPerPage: nat := 8

  /** A chat message as the bot receives it. */
  datatype ChatMessage = ChatMessage(senderId: Option<int>, text: string, fileName: Option<string>)

  /** Who a rendered message is attributed to: the partner ("Вы") or the
      support team. */
  datatype Sender = Me | Support

  datatype ChatLine = ChatLine(sender: Sender, content: string)

  /** The rendered page, the page actually shown and the page count. */
  datatype ChatPage = ChatPage(lines: seq<ChatLine>, page: nat, totalPages: nat)

  const Clip: string := "\U{1F4CE} "

  /** One message: the file line (when there is a file name) and the text
      (when non-empty), one per line. */
  function LineOf(m: ChatMessage, partnerId: int): (r: ChatLine)
    ensures r.sender == Me <==> m.senderId == Some(partnerId)
    ensures !Truthy(m.fileName) ==> r.content == m.text
    ensures Truthy(m.fileName) && m.text == "" ==> r.content == Clip + m.fileName.value
  {
    var fileLine := if Truthy(m.fileName) then [Clip + m.fileName.value] else [];
    var textLine := if m.text != "" then [m.text] else [];
    var parts := fileLine + textLine;
    ChatLine(if m.senderId == Some(partnerId) then Me else Support, Join(parts, '\n'))
  }

  /** `format_chat_page(messages, partner_id, page)`. A page outside
      `[0, total_pages)`, -1 included, shows the last page. */
  function FormatChatPage(messages: seq<ChatMessage>, partnerId: int, page: int): (r: ChatPage)
    ensures messages == [] ==> r == ChatPage([], 0, 1)
    ensures messages != [] ==> r.totalPages == Pagination.TotalPages(|messages|, ChatPerPage)
    ensures r.page < r.totalPages
    ensures 0 <= page < r.totalPages ==> r.page == page
    ensures (page < 0 || page >= r.totalPages) ==> r.page == r.totalPages - 1
    ensures r.page * ChatPerPage + |r.lines| <= |messages| && |r.lines| <= ChatPerPage
    ensures r.page + 1 < r.totalPages ==> |r.lines| == ChatPerPage
    ensures r.page + 1 == r.totalPages ==> r.page * ChatPerPage + |r.lines| == |messages|
    ensures forall k :: 0 <= k < |r.lines| ==> r.lines[k] == LineOf(messages[r.page * ChatPerPage + k], partnerId)
  {
    if messages == [] then ChatPage([], 0, 1)
    else
      var total := Pagination.TotalPages(|messages|, ChatPerPage);
      var p := if page < 0 || page >= total then total - 1 else page;
      Pagination.PageBounds(|messages|, ChatPerPage, total, p);
      var start := p * ChatPerPage;
      var end := if start + ChatPerPage < |messages| then start + ChatPerPage else |messages|;
      ChatPage(Lines(messages, start, end, partnerId), p, total)
  }

  /** The lines of `messages[start..end]`, one per message. */
  function Lines(messages: seq<ChatMessage>, start: nat, end: nat, partnerId: int): (r: seq<ChatLine>)
    requires start <= end <= |messages|
    ensures |r| == end - start
    ensures forall k :: 0 <= k < |r| ==> r[k] == LineOf(messages[start + k], partnerId)
  {
    seq(end - start, k requires 0 <= k < end - start => LineOf(messages[start + k], partnerId))
  }

  /** On pages that exist, the chat shows the same window as `paginate`
      with eight per page; below page 0 the two differ, the chat showing
      the last page and `paginate` the first. */
  lemma ChatPageAgreesWithPaginate(messages: seq<ChatMessage>, partnerId: int, page: int)
    requires messages != []
    ensures var r := FormatChatPage(messages, partnerId, page);
      var window := Pagination.Paginate(messages, r.page, ChatPerPage).0;
      |r.lines| == |window| && forall k :: 0 <= k < |window| ==> r.lines[k] == LineOf(window[k], partnerId)
    ensures 0 <= page < Pagination.TotalPages(|messages|, ChatPerPage) ==>
      FormatChatPage(messages, partnerId, page).page == page
    ensures page < 0 ==> FormatChatPage(messages, partnerId, page).page == Pagination.TotalPages(|messages|, ChatPerPage) - 1
  {
    var r := FormatChatPage(messages, partnerId, page);
    Pagination.PageSlice(messages, r.page, ChatPerPage);
  }

  /** What a notification attachment is shown as. */
  datatype FileKind = Image | Video | Document

  /** The lower-cased text after the last ".", or "" without a dot. */
  function Extension(name: string): (r: string)
    ensures '.' !in name ==> r == ""
    ensures '.' in name ==> exists i :: 0 <= i < |name| && name[i] == '.' && '.' !in name[i + 1..] && r == Lower(name[i + 1..])
  {
    var i := FindLast(name, '.');
    if i < 0 then ""
    else
      var tail := name[i + 1..];
      assert forall k :: 0 <= k < |tail| ==> tail[k] == name[i + 1 + k];
      Lower(tail)
  }

  function KindOf(ext: string): FileKind {
    if ext in ["jpg", "jpeg", "png", "gif", "webp"] then Image
    else if ext in ["mp4", "mov", "avi"] then Video
    else Document
  }

  /** `get_notification_file_type(file_name)`. */
  function FileType(name: string): (r: FileKind)
    ensures '.' !in name ==> r == Document
    ensures r == Image ==> Extension(name) in ["jpg", "jpeg", "png", "gif", "webp"]
    ensures r == Video ==> Extension(name) in ["mp4", "mov", "avi"]
  {
    KindOf(Extension(name))
  }

  /** Only the part after the last dot counts, whatever comes before it. */
  lemma {:induction false} LastExtensionDecides(stem: string, ext: string)
    requires '.' !in ext
    ensures FileType(stem + "." + ext) == KindOf(Lower(ext))
  {
    var name := stem + "." + ext;
    var i := FindLast(name, '.');
    assert name[|stem|] == '.';
    assert forall k :: |stem| < k < |name| ==> name[k] == ext[k - |stem| - 1];
    assert i == |stem|;
    assert name[i + 1..] == ext;
  }

  /** Upper-case extensions count too. */
  lemma UpperCaseImage()
    ensures FileType("photo.JPG") == Image
  {
    assert "photo" + "." + "JPG" == "photo.JPG";
    LastExtensionDecides("photo", "JPG");
    LowerJpg();
    assert KindOf("jpg") == Image;
  }

  lemma LowerJpg()
    ensures Lower("JPG") == "jpg"
  {
    var l := Lower("JPG");
    assert |l| == 3 && l[0] == 'j' && l[1] == 'p' && l[2] == 'g';
    assert l == ['j', 'p', 'g'];
  }

  /** Only the last extension counts, and an unknown one is a document. */
  lemma InnerDotsIgnored()
    ensures FileType("archive.tar.gz") == Document
  {
    var name := "archive.tar" + "." + "gz";
    assert name == "archive.tar.gz";
    GzIsDocument();
    LastExtensionDecides("archive.tar", "gz");
  }

  lemma GzIsDocument()
    ensures KindOf(Lower("gz")) == Document
  {
    LowerOfLowercase("gz");
  }
}

=== FILE: chat_service.dfy ===
/** Support chat between partners and the admins
    (backend/app/services/chat_service.py). A conversation is identified by
    its partner id; a message in it was sent either by that partner or by
    an admin. The message table is a sequence in table order. */
module ChatService {
  import opened Wrappers
  import opened Partners

  datatype Message = Message(id: int, partnerId: int, senderId: int, text: string, isRead: bool, createdAt: int)

  /** What a client is shown for one message. */
  datatype MessageView = MessageView(id: int, partnerId: int, senderId: int, senderName: string,
                                     isFromAdmin: bool, text: string, isRead: bool)

  /** `_build_message_response`. */
  function View(m: Message, sender: Partner): (r: MessageView)
    ensures r.isFromAdmin <==> sender.role == "admin"
    ensures r.id == m.id && r.senderId == m.senderId && r.senderName == sender.name && r.isRead == m.isRead
  {
    MessageView(m.id, m.partnerId, m.senderId, sender.name, sender.role == "admin", m.text, m.isRead)
  }

  // ---------------------------------------------------------------------
  // Unread counts

  /** An unread message to the partner: in their conversation, not sent by
      them. */
  predicate UnreadForPartner(m: Message, partner: int) {
    m.partnerId == partner && m.senderId != partner && !m.isRead
  }

  /** An unread message to the admins from the partner of its
      conversation. */
  predicate UnreadForAdmin(m: Message) {
    m.senderId == m.partnerId && !m.isRead
  }

  /** `get_partner_unread_count`. */
  function PartnerUnread(msgs: seq<Message>, partner: int): (r: nat)
    ensures r <= |msgs|
    ensures r == 0 <==> forall i :: 0 <= i < |msgs| ==> !UnreadForPartner(msgs[i], partner)
    decreases |msgs|
  {
    if |msgs| == 0 then 0
    else (if UnreadForPartner(msgs[0], partner) then 1 else 0) + PartnerUnread(msgs[1..], partner)
  }

  /** Unread partner messages in one conversation (the count of
      `get_conversations`). */
  function AdminUnread(msgs: seq<Message>, partner: int): (r: nat)
    ensures r <= |msgs|
    ensures r == 0 <==> forall i :: 0 <= i < |msgs| ==> !(msgs[i].partnerId == partner && UnreadForAdmin(msgs[i]))
    decreases |msgs|
  {
    if |msgs| == 0 then 0
    else (if msgs[0].partnerId == partner && UnreadForAdmin(msgs[0]) then 1 else 0) + AdminUnread(msgs[1..], partner)
  }

  /** `get_admin_total_unread_count`. */
  function AdminTotalUnread(msgs: seq<Message>): (r: nat)
    ensures r <= |msgs|
    ensures r == 0 <==> forall i :: 0 <= i < |msgs| ==> !UnreadForAdmin(msgs[i])
    decreases |msgs|
  {
    if |msgs| == 0 then 0
    else (if UnreadForAdmin(msgs[0]) then 1 else 0) + AdminTotalUnread(msgs[1..])
  }

  // ---------------------------------------------------------------------
  // Marking as read

  /** `mark_partner_messages_read`: the admins' unread messages in the
      partner's conversation become read. */
  function MarkPartnerRead(msgs: seq<Message>, partner: int): (r: seq<Message>)
    ensures |r| == |msgs|
    ensures forall i :: 0 <= i < |msgs| ==>
      r[i] == if UnreadForPartner(msgs[i], partner) then msgs[i].(isRead := true) else msgs[i]
    decreases |msgs|
  {
    if |msgs| == 0 then []
    else
      [if UnreadForPartner(msgs[0], partner) then msgs[0].(isRead := true) else msgs[0]] +
      MarkPartnerRead(msgs[1..], partner)
  }

  /** `mark_admin_messages_read`: the partner's unread messages in their own
      conversation become read. */
  function MarkAdminRead(msgs: seq<Message>, partner: int): (r: seq<Message>)
    ensures |r| == |msgs|
    ensures forall i :: 0 <= i < |msgs| ==>
      r[i] == if msgs[i].partnerId == partner && UnreadForAdmin(msgs[i]) then msgs[i].(isRead := true) else msgs[i]
    decreases |msgs|
  {
    if |msgs| == 0 then []
    else
      [if msgs[0].partnerId == partner && UnreadForAdmin(msgs[0]) then msgs[0].(isRead := true) else msgs[0]] +
      MarkAdminRead(msgs[1..], partner)
  }

  /** After the partner reads their chat nothing is unread for them, and
      what the admins have to read is unchanged. */
  lemma {:induction false} MarkPartnerReadEffect(msgs: seq<Message>, partner: int, q: int)
    ensures PartnerUnread(MarkPartnerRead(msgs, partner), partner) == 0
    ensures AdminUnread(MarkPartnerRead(msgs, partner), q) == AdminUnread(msgs, q)
    ensures AdminTotalUnread(MarkPartnerRead(msgs, partner)) == AdminTotalUnread(msgs)
    decreases |msgs|
  {
    if |msgs| > 0 {
      var r := MarkPartnerRead(msgs, partner);
      assert r[1..] == MarkPartnerRead(msgs[1..], partner);
      MarkPartnerReadEffect(msgs[1..], partner, q);
    }
  }

  /** After an admin reads a conversation nothing in it is unread for the
      admins, other conversations keep their counts, and no partner's
      unread count moves. */
  lemma {:induction false} MarkAdminReadEffect(msgs: seq<Message>, partner: int, q: int)
    ensures AdminUnread(MarkAdminRead(msgs, partner), partner) == 0
    ensures q != partner ==> AdminUnread(MarkAdminRead(msgs, partner), q) == AdminUnread(msgs, q)
    ensures PartnerUnread(MarkAdminRead(msgs, partner), q) == PartnerUnread(msgs, q)
    decreases |msgs|
  {
    if |msgs| > 0 {
      var r := MarkAdminRead(msgs, partner);
      assert r[1..] == MarkAdminRead(msgs[1..], partner);
      MarkAdminReadEffect(msgs[1..], partner, q);
    }
  }

  // ---------------------------------------------------------------------
  // Conversation list

  /** The preview text: at most 100 characters, then "..." when cut. */
  function Preview(text: string): (r: string)
    ensures |text| <= 100 ==> r == text
    ensures |text| > 100 ==> |r| == 103 && r[..100] == text[..100] && r[100..] == "..."
  {
    if |text| > 100 then text[..100] + "..." else text
  }

  /** The latest message of a conversation; among equally late ones the
      first in table order. */
  function LastOf(msgs: seq<Message>, partner: int): (r: Option<Message>)
    ensures r.None? <==> forall i :: 0 <= i < |msgs| ==> msgs[i].partnerId != partner
    ensures r.Some? ==> (r.value in msgs && r.value.partnerId == partner &&
      forall i :: 0 <= i < |msgs| && msgs[i].partnerId == partner ==> msgs[i].createdAt <= r.value.createdAt)
    decreases |msgs|
  {
    if |msgs| == 0 then None
    else
      var rest := LastOf(msgs[1..], partner);
      assert forall i :: 1 <= i < |msgs| ==> msgs[i] == msgs[1..][i - 1];
      if msgs[0].partnerId != partner then rest
      else if rest.None? || rest.value.createdAt <= msgs[0].createdAt then Some(msgs[0])
      else rest
  }

  datatype ConversationPreview = ConversationPreview(partnerId: int, partnerName: string, partnerEmail: string,
                                                     lastMessage: string, lastMessageAt: int, unreadCount: nat)

  /** One preview per conversation whose partner exists, in the order the
      conversation ids are given. */
  function Collect(msgs: seq<Message>, partners: map<int, Partner>, pids: seq<int>): (r: seq<ConversationPreview>)
    ensures |r| <= |pids|
    ensures forall c :: c in r ==> (c.partnerId in pids && c.partnerId in partners && LastOf(msgs, c.partnerId).Some? &&
      c == PreviewOf(msgs, c.partnerId, partners[c.partnerId], LastOf(msgs, c.partnerId).value))
    ensures forall i :: 0 <= i < |pids| && pids[i] in partners && LastOf(msgs, pids[i]).Some? ==>
      PreviewOf(msgs, pids[i], partners[pids[i]], LastOf(msgs, pids[i]).value) in r
    decreases |pids|
  {
    if |pids| == 0 then []
    else
      var rest := Collect(msgs, partners, pids[1..]);
      assert forall i :: 1 <= i < |pids| ==> pids[i] == pids[1..][i - 1];
      var pid := pids[0];
      if pid !in partners then rest
      else
        var last := LastOf(msgs, pid);
        if last.None? then rest
        else [PreviewOf(msgs, pid, partners[pid], last.value)] + rest
  }

  function PreviewOf(msgs: seq<Message>, pid: int, partner: Partner, last: Message): ConversationPreview {
    ConversationPreview(pid, partner.name, partner.email, Preview(last.text), last.createdAt, AdminUnread(msgs, pid))
  }

  predicate SortedDesc(s: seq<ConversationPreview>) {
    forall i, j :: 0 <= i < j < |s| ==> s[i].lastMessageAt >= s[j].lastMessageAt
  }

  /** How many entries from the start are at least as recent as `x`. */
  function NewerCount(x: ConversationPreview, s: seq<ConversationPreview>): (k: nat)
    ensures k <= |s|
    ensures forall i :: 0 <= i < k ==> s[i].lastMessageAt >= x.lastMessageAt
    ensures k < |s| ==> s[k].lastMessageAt < x.lastMessageAt
    decreases |s|
  {
    if |s| > 0 && s[0].lastMessageAt >= x.lastMessageAt then
      var m := NewerCount(x, s[1..]);
      assert forall i :: 1 <= i < m + 1 ==> s[i] == s[1..][i - 1];
      m + 1
    else 0
  }

  /** Inserts after every entry at least as recent, which keeps the sort
      stable. */
  function InsertDesc(x: ConversationPreview, s: seq<ConversationPreview>): (r: seq<ConversationPreview>)
    requires SortedDesc(s)
    ensures |r| == |s| + 1
    ensures multiset(r) == multiset(s) + multiset{x}
    ensures SortedDesc(r)
  {
    var k := NewerCount(x, s);
    InsertAt(x, s, k);
    s[..k] + [x] + s[k..]
  }

  lemma InsertAt(x: ConversationPreview, s: seq<ConversationPreview>, k: nat)
    requires SortedDesc(s) && k <= |s|
    requires forall i :: 0 <= i < k ==> s[i].lastMessageAt >= x.lastMessageAt
    requires k < |s| ==> s[k].lastMessageAt < x.lastMessageAt
    ensures multiset(s[..k] + [x] + s[k..]) == multiset(s) + multiset{x}
    ensures SortedDesc(s[..k] + [x] + s[k..])
  {
    InsertAtKeeps(x, s, k);
    InsertAtSorted(x, s, k, s[..k] + [x] + s[k..]);
  }

  lemma InsertAtKeeps(x: ConversationPreview, s: seq<ConversationPreview>, k: nat)
    requires k <= |s|
    ensures multiset(s[..k] + [x] + s[k..]) == multiset(s) + multiset{x}
  {
    assert s == s[..k] + s[k..];
  }

  lemma InsertAtSorted(x: ConversationPreview, s: seq<ConversationPreview>, k: nat, r: seq<ConversationPreview>)
    requires SortedDesc(s) && k <= |s| && r == s[..k] + [x] + s[k..]
    requires forall i :: 0 <= i < k ==> s[i].lastMessageAt >= x.lastMessageAt
    requires k < |s| ==> s[k].lastMessageAt < x.lastMessageAt
    ensures SortedDesc(r)
  {
    assert forall i :: 0 <= i < |r| ==> r[i] == if i < k then s[i] else if i == k then x else s[i - 1];
    forall i, j | 0 <= i < j < |r| ensures r[i].lastMessageAt >= r[j].lastMessageAt {
      if i < k && j > k {
        assert s[i].lastMessageAt >= s[j - 1].lastMessageAt;
      } else if i == k {
        assert s[k].lastMessageAt >= s[j - 1].lastMessageAt;
      }
    }
  }

  /** `sort(key=last_message_at, reverse=True)`. */
  function SortDesc(s: seq<ConversationPreview>): (r: seq<ConversationPreview>)
    ensures SortedDesc(r)
    ensures multiset(r) == multiset(s)
    ensures forall c :: c in r <==> c in s
    decreases |s|
  {
    if |s| == 0 then []
    else
      var init := s[..|s| - 1];
      assert s == init + [s[|s| - 1]];
      InsertDesc(s[|s| - 1], SortDesc(init))
  }

  /** `get_conversations`, given the distinct conversation ids in the order
      the database lists them: newest conversation first. */
  function Conversations(msgs: seq<Message>, partners: map<int, Partner>, pids: seq<int>): (r: seq<ConversationPreview>)
    ensures SortedDesc(r)
    ensures forall c :: c in r ==> (c.partnerId in pids && c.partnerId in partners && LastOf(msgs, c.partnerId).Some? &&
      c.lastMessage == Preview(LastOf(msgs, c.partnerId).value.text) && c.unreadCount == AdminUnread(msgs, c.partnerId))
    ensures forall i :: 0 <= i < |pids| && pids[i] in partners && LastOf(msgs, pids[i]).Some? ==>
      exists c :: c in r && c.partnerId == pids[i]
  {
    SortDesc(Collect(msgs, partners, pids))
  }
}

=== FILE: chat_tracker.dfy ===
/** The in-memory chat-mode tracker of
    telegram_bot/bot/services/chat_tracker.py: per Telegram user, the chat
    to push messages to and the ids of the bot messages to delete later.
    The module-level dictionary becomes an explicit state value. */
module ChatTracker {
  import opened Wrappers

  datatype ChatState = ChatState(chatId: int, messageIds: seq<int>)

  /** Telegram user id to chat state. */
  type States = map<int, ChatState>

  /** The states of users other than `user` agree. */
  ghost predicate OthersUnchanged(a: States, b: States, user: int) {
    forall u :: u != user ==> (u in a <==> u in b) && (u in a ==> a[u] == b[u])
  }

  /** `enter_chat`: (re)creates the user's state with no tracked
      messages. */
  function EnterChat(s: States, user: int, chatId: int): (r: States)
    ensures user in r && r[user] == ChatState(chatId, [])
    ensures OthersUnchanged(s, r, user)
  {
    s[user := ChatState(chatId, [])]
  }

  /** `exit_chat`: forgets the user; a no-op for a user not in chat. */
  function ExitChat(s: States, user: int): (r: States)
    ensures user !in r
    ensures OthersUnchanged(s, r, user)
  {
    s - {user}
  }

  predicate IsInChat(s: States, user: int) {
    user in s
  }

  /** `track_message`: appends to the user's list while in chat. */
  function TrackMessage(s: States, user: int, msgId: int): (r: States)
    ensures user in s ==> user in r && r[user] == ChatState(s[user].chatId, s[user].messageIds + [msgId])
    ensures user !in s ==> r == s
    ensures OthersUnchanged(s, r, user)
  {
    if user in s then s[user := s[user].(messageIds := s[user].messageIds + [msgId])] else s
  }

  /** `get_and_clear_messages`: the chat id and the tracked ids, leaving
      the user in chat with an empty list; `(None, [])` for a user not in
      chat. */
  function GetAndClear(s: States, user: int): (r: (Option<int>, seq<int>, States))
    ensures user !in s ==> r == (None, [], s)
    ensures user in s ==> (r.0 == Some(s[user].chatId) && r.1 == s[user].messageIds &&
      user in r.2 && r.2[user] == ChatState(s[user].chatId, []))
    ensures OthersUnchanged(s, r.2, user)
  {
    if user !in s then (None, [], s)
    else (Some(s[user].chatId), s[user].messageIds, s[user := s[user].(messageIds := [])])
  }

  /** `get_chat_id`. */
  function GetChatId(s: States, user: int): (r: Option<int>)
    ensures r.Some? <==> IsInChat(s, user)
    ensures r.Some? ==> r.value == s[user].chatId
  {
    if user in s then Some(s[user].chatId) else None
  }

  /** Tracking several messages in turn. */
  function TrackAll(s: States, user: int, ids: seq<int>): States
    decreases |ids|
  {
    if |ids| == 0 then s else TrackAll(TrackMessage(s, user, ids[0]), user, ids[1..])
  }

  /** Tracked ids accumulate in order after the ones already there. */
  lemma {:induction false} TrackAllAppends(s: States, user: int, ids: seq<int>)
    requires user in s
    ensures user in TrackAll(s, user, ids)
    ensures TrackAll(s, user, ids)[user] == ChatState(s[user].chatId, s[user].messageIds + ids)
    ensures OthersUnchanged(s, TrackAll(s, user, ids), user)
    decreases |ids|
  {
    if |ids| > 0 {
      var s1 := TrackMessage(s, user, ids[0]);
      TrackAllAppends(s1, user, ids[1..]);
      assert s[user].messageIds + [ids[0]] + ids[1..] == s[user].messageIds + ids;
    }
  }

  /** Tracking for a user not in chat records nothing. */
  lemma {:induction false} TrackAllOutsideChat(s: States, user: int, ids: seq<int>)
    requires user !in s
    ensures TrackAll(s, user, ids) == s
    decreases |ids|
  {
    if |ids| > 0 {
      TrackAllOutsideChat(s, user, ids[1..]);
    }
  }

  /** Enter, track some messages, collect: the collected ids are exactly the
      tracked ones, in order, and the user is still in the same chat with
      nothing left to collect. */
  lemma EnterTrackCollect(s: States, user: int, chatId: int, ids: seq<int>)
    ensures var after := GetAndClear(TrackAll(EnterChat(s, user, chatId), user, ids), user);
      after.0 == Some(chatId) && after.1 == ids &&
      GetChatId(after.2, user) == Some(chatId) && GetAndClear(after.2, user).1 == []
  {
    TrackAllAppends(EnterChat(s, user, chatId), user, ids);
  }

  /** After leaving, nothing is tracked or collected for the user. */
  lemma ExitForgets(s: States, user: int, msgId: int)
    ensures !IsInChat(ExitChat(s, user), user) && GetChatId(ExitChat(s, user), user) == None
    ensures TrackMessage(ExitChat(s, user), user, msgId) == ExitChat(s, user)
    ensures GetAndClear(ExitChat(s, user), user) == (None, [], ExitChat(s, user))
  {
  }

  /** Leaving twice is the same as leaving once. */
  lemma ExitIdempotent(s: States, user: int)
    ensures ExitChat(ExitChat(s, user), user) == ExitChat(s, user)
  {
  }
}

=== FILE: csv_leads.dfy ===
/** `parse_csv_leads` (b24-transfer-lead/src/backend/utils/csv_parser.py):
    CSV rows, already split into cells by the CSV reader, become lead
    records. A row is the reader's dict from header to cell, in header
    order; a cell the row is too short for is `None`. With a column
    mapping, mapped columns are copied under their field names; without
    one, the phone and name columns are recognised by header, falling back
    to the first two columns. */
module CsvLeads {
  import opened Wrappers
  import opened Text
  import opened Dicts

  /** One data row: header to cell. */
  type Row = Dict<Option<string>>

  /** A parsed lead: field name to stripped value. */
  type Lead = Dict<string>

  datatype CsvError =
    /** A mapped row without a phone or a name. */
    | MappedRowIncomplete(rowNum: int)
    /** A row where neither the headers nor the first two columns give a
        phone and a name. */
    | RowIncomplete(rowNum: int)
    | NoLeads

  /** The message the error is raised with. */
  function Message(e: CsvError): (r: string)
    ensures e.NoLeads? ==> r == "No leads found in CSV file"
    ensures e.MappedRowIncomplete? ==>
      r == "Row " + IntToString(e.rowNum) + ": Missing required fields (phone, name) in column mapping"
    ensures e.RowIncomplete? ==> r == "Row " + IntToString(e.rowNum) + ": Missing required fields (phone, name)"
  {
    match e
    case NoLeads => "No leads found in CSV file"
    case MappedRowIncomplete(n) => "Row " + IntToString(n) + ": Missing required fields (phone, name) in column mapping"
    case RowIncomplete(n) => "Row " + IntToString(n) + ": Missing required fields (phone, name)"
  }

  /** The row has column `col` with a non-empty cell. */
  predicate Filled(row: Row, col: string) {
    Get(row, col).Some? && Truthy(Get(row, col).value)
  }

  /** The cell of a filled column. */
  function Cell(row: Row, col: string): string
    requires Filled(row, col)
  {
    Get(row, col).value.value
  }

  // ---------------------------------------------------------------------
  // Mapping mode

  /** Entry `j` of the mapping fills field `f` in this row. */
  predicate Fills(row: Row, mapping: Dict<string>, j: int, f: string) {
    0 <= j < |mapping| && mapping[j].1 == f && Filled(row, mapping[j].0)
  }

  /** Entry `j` is the last one that fills field `f`. */
  predicate LastFillAt(row: Row, mapping: Dict<string>, j: int, f: string) {
    Fills(row, mapping, j, f) && forall j' :: j < j' < |mapping| ==> !Fills(row, mapping, j', f)
  }

  /** The last mapping entry that fills field `f`, or -1 when none
      does. */
  function LastFillIndex(row: Row, mapping: Dict<string>, f: string): (r: int)
    ensures -1 <= r < |mapping|
    ensures r >= 0 ==> LastFillAt(row, mapping, r, f)
    ensures r < 0 ==> forall j :: !Fills(row, mapping, j, f)
    decreases |mapping|
  {
    if |mapping| == 0 then -1
    else
      var n := |mapping| - 1;
      if Fills(row, mapping, n, f) then n
      else
        var r := LastFillIndex(row, mapping[..n], f);
        FillsPrefix(row, mapping, n, f);
        r
  }

  /** The cell field `f` gets from the last mapping entry that fills
      it. */
  function LastFill(row: Row, mapping: Dict<string>, f: string): (r: Option<string>)
    ensures r.Some? <==> exists j :: Fills(row, mapping, j, f)
    ensures r.Some? ==> exists j :: LastFillAt(row, mapping, j, f) && r.value == Cell(row, mapping[j].0)
  {
    var i := LastFillIndex(row, mapping, f);
    if i < 0 then None else Some(Cell(row, mapping[i].0))
  }

  lemma FillsPrefix(row: Row, mapping: Dict<string>, n: nat, f: string)
    requires n <= |mapping|
    ensures forall j :: Fills(row, mapping[..n], j, f) <==> 0 <= j < n && Fills(row, mapping, j, f)
  {
    assert forall j :: 0 <= j < n ==> mapping[..n][j] == mapping[j];
  }

  function StripSome(v: Option<string>): Option<string> {
    if v.Some? then Some(Strip(v.value)) else None
  }

  /** The lead a mapping makes of a row: each mapped column with a
      non-empty cell is stripped and stored under its field, a later
      mapping entry for the same field overwriting an earlier one. */
  function MapRow(row: Row, mapping: Dict<string>): (r: Lead)
    ensures forall f :: Get(r, f) == StripSome(LastFill(row, mapping, f))
    decreases |mapping|
  {
    if |mapping| == 0 then []
    else
      var n := |mapping| - 1;
      var before := MapRow(row, mapping[..n]);
      var col := mapping[n].0;
      var r := if Filled(row, col) then Put(before, mapping[n].1, Strip(Cell(row, col))) else before;
      assert forall f :: Get(r, f) == StripSome(LastFill(row, mapping, f)) by {
        forall f ensures Get(r, f) == StripSome(LastFill(row, mapping, f)) {
          LastFillStep(row, mapping, f);
        }
      }
      r
  }

  /** The last entry decides when it fills the field; otherwise the
      entries before it do. */
  lemma LastFillStep(row: Row, mapping: Dict<string>, f: string)
    requires |mapping| > 0
    ensures var n := |mapping| - 1;
      LastFill(row, mapping, f) ==
        if Fills(row, mapping, n, f) then Some(Cell(row, mapping[n].0)) else LastFill(row, mapping[..n], f)
  {
  }

  /** Mapping mode for one row (numbered from 2, the header being row
      1). */
  function MappedLead(row: Row, mapping: Dict<string>, rowNum: int): (r: Result<Lead, CsvError>)
    ensures r.Ok? <==> (exists j :: Fills(row, mapping, j, "phone")) && (exists j :: Fills(row, mapping, j, "name"))
    ensures r.Ok? ==> r.value == MapRow(row, mapping)
    ensures r.Err? ==> r.error == MappedRowIncomplete(rowNum)
  {
    var lead := MapRow(row, mapping);
    assert HasKey(lead, "phone") <==> LastFill(row, mapping, "phone").Some?;
    assert HasKey(lead, "name") <==> LastFill(row, mapping, "name").Some?;
    if !HasKey(lead, "phone") || !HasKey(lead, "name") then Err(MappedRowIncomplete(rowNum))
    else Ok(lead)
  }

  // ---------------------------------------------------------------------
  // Automatic mode

  const PhoneHeaders: seq<string> := ["phone", "телефон", "tel", "номер"]
  const NameHeaders: seq<string> := ["name", "имя", "fio", "фио"]

  /** How a header is read in automatic mode. */
  datatype ColumnKind = PhoneColumn | NameColumn | OtherColumn

  /** The header is compared lower-cased and stripped, phone names first. */
  function HeaderKind(h: string): (r: ColumnKind)
    ensures r == PhoneColumn <==> Strip(Lower(h)) in PhoneHeaders
    ensures r == NameColumn <==> Strip(Lower(h)) in NameHeaders
  {
    var k := Strip(Lower(h));
    if k in PhoneHeaders then PhoneColumn
    else if k in NameHeaders then NameColumn
    else OtherColumn
  }

  /** A cell read as in `value.strip() if value else None`. */
  function StrippedOrNone(v: Option<string>): (r: Option<string>)
    ensures Truthy(v) <==> r.Some?
    ensures r.Some? ==> r.value == Strip(v.value)
  {
    if Truthy(v) then Some(Strip(v.value)) else None
  }

  /** Column `i` is the last one of kind `c`. */
  predicate LastOfKind(row: Row, kind: string -> ColumnKind, c: ColumnKind, i: int) {
    0 <= i < |row| && kind(row[i].0) == c && forall j :: i < j < |row| ==> kind(row[j].0) != c
  }

  /** No column is of kind `c`. */
  predicate NoneOfKind(row: Row, kind: string -> ColumnKind, c: ColumnKind) {
    forall i :: 0 <= i < |row| ==> kind(row[i].0) != c
  }

  /** The phone (or name) the pass over the columns, in header order,
      ends with: each column of kind `c` overwrites it with its stripped
      cell, or with `None` when the cell is empty. */
  function LastCell(row: Row, kind: string -> ColumnKind, c: ColumnKind): (r: Option<string>)
    ensures forall i :: LastOfKind(row, kind, c, i) ==> r == StrippedOrNone(row[i].1)
    ensures NoneOfKind(row, kind, c) ==> r.None?
    decreases |row|
  {
    if |row| == 0 then None
    else
      var n := |row| - 1;
      assert forall i :: 0 <= i < n ==> row[..n][i] == row[i];
      if kind(row[n].0) == c then StrippedOrNone(row[n].1)
      else LastCell(row[..n], kind, c)
  }

  /** The columns the pass keeps: each non-empty column of kind
      `OtherColumn`, stripped, under its header. */
  function Extras(row: Row, kind: string -> ColumnKind): (r: Lead)
    ensures forall k :: HasKey(r, k) ==> kind(k) == OtherColumn
    decreases |row|
  {
    if |row| == 0 then []
    else
      var n := |row| - 1;
      var kept := Extras(row[..n], kind);
      var (key, value) := row[n];
      if kind(key) == OtherColumn && Truthy(value) then Put(kept, key, Strip(value.value)) else kept
  }

  /** Every kept column comes from the row. */
  lemma {:induction false} ExtrasFromRow(row: Row, kind: string -> ColumnKind, k: string)
    requires HasKey(Extras(row, kind), k)
    ensures exists j :: 0 <= j < |row| && row[j].0 == k
    decreases |row|
  {
    var n := |row| - 1;
    var kept := Extras(row[..n], kind);
    if HasKey(kept, k) {
      ExtrasFromRow(row[..n], kind, k);
      var j :| 0 <= j < n && row[..n][j].0 == k;
      assert row[j].0 == k;
    } else {
      assert row[n].0 == k;
    }
  }

  /** In a row with distinct headers, each column of kind `OtherColumn`
      is kept, stripped, exactly when it is non-empty. */
  lemma {:induction false} ExtrasKeepOthers(row: Row, kind: string -> ColumnKind, i: int)
    requires UniqueKeys(row)
    requires 0 <= i < |row| && kind(row[i].0) == OtherColumn
    ensures Get(Extras(row, kind), row[i].0) == StrippedOrNone(row[i].1)
    decreases |row|
  {
    var n := |row| - 1;
    var prefix := row[..n];
    var kept := Extras(prefix, kind);
    var key := row[n].0;
    assert forall j :: 0 <= j < n ==> prefix[j] == row[j];
    assert UniqueKeys(prefix);
    if i == n {
      if HasKey(kept, key) {
        ExtrasFromRow(prefix, kind, key);
        assert false;
      }
    } else {
      ExtrasKeepOthers(prefix, kind, i);
      assert key != row[i].0;
    }
  }

  /** The phone and name after the fallback: when either is missing and
      the row has two or more columns, a missing phone is read from the
      first column and a missing name from the second. */
  function WithFallback(row: Row, phone: Option<string>, name: Option<string>): (r: (Option<string>, Option<string>))
    ensures Truthy(phone) ==> r.0 == phone
    ensures Truthy(name) ==> r.1 == name
    ensures !Truthy(phone) && |row| >= 2 ==> r.0 == StrippedOrNone(row[0].1)
    ensures !Truthy(name) && |row| >= 2 ==> r.1 == StrippedOrNone(row[1].1)
    ensures |row| < 2 ==> r == (phone, name)
  {
    if (!Truthy(phone) || !Truthy(name)) && |row| >= 2 then
      (if !Truthy(phone) then StrippedOrNone(row[0].1) else phone,
       if !Truthy(name) then StrippedOrNone(row[1].1) else name)
    else (phone, name)
  }

  /** Automatic mode for one row: the kept columns, then "phone", then
      "name". */
  function AutoLead(row: Row, rowNum: int): (r: Result<Lead, CsvError>)
    ensures var pn := WithFallback(row, LastCell(row, HeaderKind, PhoneColumn), LastCell(row, HeaderKind, NameColumn));
      (r.Ok? <==> Truthy(pn.0) && Truthy(pn.1)) &&
      (r.Ok? ==> Get(r.value, "phone") == pn.0 && Get(r.value, "name") == pn.1) &&
      (r.Err? ==> r.error == RowIncomplete(rowNum))
    ensures r.Ok? ==> forall k :: k != "phone" && k != "name" ==> Get(r.value, k) == Get(Extras(row, HeaderKind), k)
  {
    var pn := WithFallback(row, LastCell(row, HeaderKind, PhoneColumn), LastCell(row, HeaderKind, NameColumn));
    if !Truthy(pn.0) || !Truthy(pn.1) then Err(RowIncomplete(rowNum))
    else Ok(Put(Put(Extras(row, HeaderKind), "phone", pn.0.value), "name", pn.1.value))
  }

  /** A row whose phone and name headers hold non-blank cells needs no
      fallback: those columns give the lead its phone and name. */
  lemma HeadersWin(row: Row, p: nat, q: nat)
    requires LastOfKind(row, HeaderKind, PhoneColumn, p) && LastOfKind(row, HeaderKind, NameColumn, q)
    requires Truthy(StrippedOrNone(row[p].1)) && Truthy(StrippedOrNone(row[q].1))
    ensures AutoLead(row, 2).Ok?
    ensures Get(AutoLead(row, 2).value, "phone") == Some(Strip(row[p].1.value))
    ensures Get(AutoLead(row, 2).value, "name") == Some(Strip(row[q].1.value))
  {
  }

  /** Without recognised headers the first two columns are the phone and
      the name. */
  lemma FirstColumnsFallback(row: Row)
    requires NoneOfKind(row, HeaderKind, PhoneColumn) && NoneOfKind(row, HeaderKind, NameColumn)
    requires |row| >= 2 && Truthy(StrippedOrNone(row[0].1)) && Truthy(StrippedOrNone(row[1].1))
    ensures AutoLead(row, 2).Ok?
    ensures Get(AutoLead(row, 2).value, "phone") == Some(Strip(row[0].1.value))
    ensures Get(AutoLead(row, 2).value, "name") == Some(Strip(row[1].1.value))
  {
  }

  // ---------------------------------------------------------------------
  // The whole file

  /** One row, by the mode the mapping selects: an empty mapping, like no
      mapping, means automatic mode. */
  function RowLead(row: Row, mapping: Dict<string>, rowNum: int): (r: Result<Lead, CsvError>)
    ensures |mapping| > 0 ==> r == MappedLead(row, mapping, rowNum)
    ensures |mapping| == 0 ==> r == AutoLead(row, rowNum)
    ensures r.Ok? ==> HasKey(r.value, "phone") && HasKey(r.value, "name")
    ensures r.Err? ==> !r.error.NoLeads? && r.error.rowNum == rowNum
  {
    if |mapping| > 0 then MappedLead(row, mapping, rowNum) else AutoLead(row, rowNum)
  }

  /** A row parser: the row and its number to a lead or an error. */
  type RowParser = (Row, int) -> Result<Lead, CsvError>

  /** Row `i` is the first to fail, with `e`. */
  predicate FirstFailure(rows: seq<Row>, parse: RowParser, rowNum: int, i: int, e: CsvError) {
    0 <= i < |rows| && parse(rows[i], rowNum + i) == Err(e) &&
    forall j :: 0 <= j < i ==> parse(rows[j], rowNum + j).Ok?
  }

  /** How many rows from the start parse. */
  function ParsedCount(rows: seq<Row>, parse: RowParser, rowNum: int): (n: nat)
    ensures n <= |rows|
    ensures forall i :: 0 <= i < n ==> parse(rows[i], rowNum + i).Ok?
    ensures n < |rows| ==> parse(rows[n], rowNum + n).Err?
    decreases |rows|
  {
    if |rows| > 0 && parse(rows[0], rowNum).Ok? then
      var m := ParsedCount(rows[1..], parse, rowNum + 1);
      assert forall i :: 1 <= i < m + 1 ==> rows[i] == rows[1..][i - 1];
      m + 1
    else 0
  }

  /** The leads of `rows`, the first of them being row `rowNum`; the
      first row that fails stops the parse. */
  function Rows(rows: seq<Row>, parse: RowParser, rowNum: int): (r: Result<seq<Lead>, CsvError>)
    ensures r.Ok? <==> forall i :: 0 <= i < |rows| ==> parse(rows[i], rowNum + i).Ok?
    ensures r.Ok? ==> (|r.value| == |rows| &&
      forall i :: 0 <= i < |rows| ==> parse(rows[i], rowNum + i) == Ok(r.value[i]))
    ensures r.Err? ==> exists i :: FirstFailure(rows, parse, rowNum, i, r.error)
  {
    var n := ParsedCount(rows, parse, rowNum);
    if n < |rows| then
      assert FirstFailure(rows, parse, rowNum, n, parse(rows[n], rowNum + n).error);
      Err(parse(rows[n], rowNum + n).error)
    else Ok(seq(|rows|, i requires 0 <= i < |rows| => parse(rows[i], rowNum + i).value))
  }

  function ParserFor(mapping: Dict<string>): RowParser {
    (row: Row, n: int) => RowLead(row, mapping, n)
  }

  /** `parse_csv_leads`: one lead per data row, in order, numbering rows
      from 2; a file without data rows is refused. */
  function ParseCsvLeads(rows: seq<Row>, mapping: Dict<string>): (r: Result<seq<Lead>, CsvError>)
    ensures |rows| == 0 ==> r == Err(NoLeads)
    ensures r.Ok? ==> (|r.value| == |rows| > 0 &&
      forall i :: 0 <= i < |rows| ==> (RowLead(rows[i], mapping, i + 2) == Ok(r.value[i]) &&
        HasKey(r.value[i], "phone") && HasKey(r.value[i], "name")))
    ensures r.Err? && |rows| > 0 ==> (!r.error.NoLeads? &&
      exists i :: FirstFailure(rows, ParserFor(mapping), 2, i, r.error) && r.error.rowNum == i + 2)
  {
    if |rows| == 0 then Err(NoLeads)
    else
      var r := Rows(rows, ParserFor(mapping), 2);
      if r.Ok? then
        assert forall i :: 0 <= i < |rows| ==> RowLead(rows[i], mapping, i + 2) == Ok(r.value[i]);
        r
      else
        var i :| FirstFailure(rows, ParserFor(mapping), 2, i, r.error);
        assert RowLead(rows[i], mapping, 2 + i) == Err(r.error);
        r
  }
}

=== FILE: dicts.dfy ===
/** Python dicts with string keys, as ordered lists of `(key, value)` pairs:
    lookup finds the first pair with the key, assigning to a present key
    keeps its position, assigning to a new key appends it. */
module Dicts {
  import opened Wrappers

  type Dict<V> = seq<(string, V)>

  function Keys<V>(d: Dict<V>): (r: seq<string>)
    ensures |r| == |d|
    ensures forall i :: 0 <= i < |d| ==> r[i] == d[i].0
  {
    seq(|d|, i requires 0 <= i < |d| => d[i].0)
  }

  /** Position of key `k` in `d`, or -1. */
  function IndexOfKey<V>(d: Dict<V>, k: string): (r: int)
    ensures -1 <= r < |d|
    ensures r >= 0 ==> d[r].0 == k
    ensures r == -1 ==> forall i :: 0 <= i < |d| ==> d[i].0 != k
    ensures r >= 0 ==> forall i :: 0 <= i < r ==> d[i].0 != k
    decreases |d|
  {
    if |d| == 0 then -1
    else if d[0].0 == k then 0
    else
      var j := IndexOfKey(d[1..], k);
      if j < 0 then -1 else j + 1
  }

  /** Python `k in d`. */
  predicate HasKey<V>(d: Dict<V>, k: string) {
    IndexOfKey(d, k) >= 0
  }

  /** Python `d.get(k)`. */
  function Get<V>(d: Dict<V>, k: string): (r: Option<V>)
    ensures r.Some? <==> HasKey(d, k)
    ensures r.Some? ==> r.value == d[IndexOfKey(d, k)].1
  {
    var i := IndexOfKey(d, k);
    if i < 0 then None else Some(d[i].1)
  }

  /** Python `d[k] = v`. */
  function Put<V>(d: Dict<V>, k: string, v: V): (r: Dict<V>)
    ensures Get(r, k) == Some(v)
    ensures forall k' :: k' != k ==> Get(r, k') == Get(d, k')
    ensures HasKey(d, k) ==> Keys(r) == Keys(d)
    ensures !HasKey(d, k) ==> r == d + [(k, v)]
  {
    var i := IndexOfKey(d, k);
    if i < 0 then
      var r := d + [(k, v)];
      IndexOfKeyAppend(d, (k, v), k);
      assert forall k' :: k' != k ==> IndexOfKey(r, k') == IndexOfKey(d, k') by {
        forall k' | k' != k ensures IndexOfKey(r, k') == IndexOfKey(d, k') {
          IndexOfKeyAppend(d, (k, v), k');
        }
      }
      r
    else
      var r := d[i := (k, v)];
      assert forall k' :: k' != k ==> IndexOfKey(r, k') == IndexOfKey(d, k') by {
        forall k' | k' != k ensures IndexOfKey(r, k') == IndexOfKey(d, k') {
          IndexOfKeyUpdate(d, i, k, v, k');
        }
      }
      IndexOfKeyUpdate(d, i, k, v, k);
      r
  }

  lemma {:induction false} IndexOfKeyAppend<V>(d: Dict<V>, e: (string, V), k: string)
    ensures IndexOfKey(d + [e], k) ==
      (if IndexOfKey(d, k) >= 0 then IndexOfKey(d, k) else if e.0 == k then |d| else -1)
    decreases |d|
  {
    if |d| > 0 && d[0].0 != k {
      assert (d + [e])[1..] == d[1..] + [e];
      IndexOfKeyAppend(d[1..], e, k);
    }
  }

  lemma {:induction false} IndexOfKeyUpdate<V>(d: Dict<V>, i: int, k: string, v: V, k': string)
    requires 0 <= i < |d| && d[i].0 == k
    ensures IndexOfKey(d[i := (k, v)], k') == IndexOfKey(d, k')
    decreases |d|
  {
    var r := d[i := (k, v)];
    if i > 0 && d[0].0 != k' {
      assert r[1..] == d[1..][i - 1 := (k, v)];
      IndexOfKeyUpdate(d[1..], i - 1, k, v, k');
    }
  }

  /** Assigning twice to one key keeps only the second value, in the
      position the key first took. */
  lemma PutPut<V>(d: Dict<V>, k: string, v1: V, v2: V)
    ensures Put(Put(d, k, v1), k, v2) == Put(d, k, v2)
  {
    var i := IndexOfKey(d, k);
    if i < 0 {
      IndexOfKeyAppend(d, (k, v1), k);
    } else {
      IndexOfKeyUpdate(d, i, k, v1, k);
    }
  }

  /** Assignment keeps every key where it was: the keys before are a
      prefix of the keys after. */
  lemma PutKeysPrefix<V>(d: Dict<V>, k: string, v: V)
    ensures Keys(d) <= Keys(Put(d, k, v))
  {
    if !HasKey(d, k) {
      var r := Put(d, k, v);
      assert Keys(r)[..|d|] == Keys(d);
    }
  }

  lemma PutSame<V>(d: Dict<V>, k: string)
    requires HasKey(d, k)
    ensures Put(d, k, Get(d, k).value) == d
  {
    var i := IndexOfKey(d, k);
    assert d[i := (k, d[i].1)] == d;
  }

  /** Keys are distinct, as they are in a Python dict. */
  predicate UniqueKeys<V>(d: Dict<V>) {
    forall i, j :: 0 <= i < j < |d| ==> d[i].0 != d[j].0
  }

  lemma PutUnique<V>(d: Dict<V>, k: string, v: V)
    requires UniqueKeys(d)
    ensures UniqueKeys(Put(d, k, v))
  {
    if HasKey(d, k) {
      var i := IndexOfKey(d, k);
      assert Put(d, k, v) == d[i := (k, v)];
    } else {
      assert Put(d, k, v) == d + [(k, v)];
      forall i | 0 <= i < |d| ensures d[i].0 != k {
      }
    }
  }
}

=== FILE: form_keys.dfy ===
/** The decoded body of a Bitrix24 form post: flat `a[b][c]` keys folded
    into nested dictionaries by `parse_nested_key`, as in
    b24-transfer-lead/src/backend/api/v1/webhook.py.

    Dicts are the ordered association lists of the Dicts module. */
module FormKeys {
  import opened Wrappers
  import opened Text
  import opened Dicts

  /** A form value: a string, or a dict of further values. */
  datatype Node = Leaf(s: string) | Obj(entries: Dict<Node>)

  /** Raised by `parse_nested_key` when it indexes into a string value. */
  datatype ParseError = TypeError

  /** Python truthiness of a form value: a non-empty string or dict. */
  predicate Truthy(n: Node) {
    match n
    case Leaf(s) => s != ""
    case Obj(es) => es != []
  }

  predicate WellFormed(n: Node)
    decreases n
  {
    match n
    case Leaf(_) => true
    case Obj(es) => UniqueKeys(es) && forall i :: 0 <= i < |es| ==> WellFormed(es[i].1)
  }

  lemma PutWellFormed(d: Dict<Node>, k: string, v: Node)
    requires WellFormed(Obj(d)) && WellFormed(v)
    ensures WellFormed(Obj(Put(d, k, v)))
  {
    var r := Put(d, k, v);
    if HasKey(d, k) {
      var i := IndexOfKey(d, k);
      assert r == d[i := (k, v)];
    } else {
      assert r == d + [(k, v)];
      forall i | 0 <= i < |d| ensures d[i].0 != k {
      }
    }
  }

  /** How `parse_nested_key` reads one key: either a plain name to store
      the value under, or `outer[inner]remaining` with the text after the
      first `]` still to be read. */
  datatype KeyShape = Plain(name: string) | Nested(outer: string, inner: string, remaining: string)

  /** `key` split at its first `[` (at `open`) and the first `]` after
      it; without such a `]` the key is plain. */
  function SplitNested(key: string, open: int): (r: KeyShape)
    requires 0 <= open < |key| && key[open] == '['
    ensures r.Nested? ==> |r.remaining| + 2 <= |key| && key[|key| - |r.remaining|..] == r.remaining
  {
    var rest := key[open + 1..];
    var close := Find(rest, ']');
    if close < 0 then Plain(key)
    else
      assert rest[close + 1..] == key[open + close + 2..];
      Nested(key[..open], rest[..close], rest[close + 1..])
  }

  function Shape(key0: string): (r: KeyShape)
    ensures r.Nested? ==> |r.remaining| + 2 <= |key0|
    ensures r.Nested? ==> key0[|key0| - |r.remaining|..] == r.remaining
  {
    var key := if StartsWith(key0, "[") then key0[1..] else key0;
    if EndsWith(key, "]") && '[' !in key then Plain(RStripChar(key, ']'))
    else if '[' !in key || ']' !in key then Plain(key)
    else
      var r := SplitNested(key, Find(key, '['));
      assert r.Nested? ==> key0[|key0| - |r.remaining|..] == key[|key| - |r.remaining|..];
      r
  }

  /** `parse_nested_key(key, value, result)`: store `value` in `result`
      under the path `key` describes, or fail with the TypeError Python
      raises when the path runs into a string. */
  function ParseNestedKey(key0: string, value: string, result: Dict<Node>): (r: Result<Dict<Node>, ParseError>)
    ensures r.Ok? ==> Keys(result) <= Keys(r.value)
    decreases |key0|
  {
    match Shape(key0)
    case Plain(name) => PutKeysPrefix(result, name, Leaf(value)); Ok(Put(result, name, Leaf(value)))
    case Nested(outer, inner, remaining) =>
      if outer == "" then SkipEmptyOuter(result, inner, remaining, value)
      else NestUnder(result, outer, inner, remaining, value)
  }

  /** The branch of `parse_nested_key` for a key that still starts with `[`
      after its leading bracket was dropped (`[[inner]remaining`): recurse
      into the same dict with `remaining`, or store under `inner`. */
  function SkipEmptyOuter(result: Dict<Node>, inner: string, remaining: string, value: string): (r: Result<Dict<Node>, ParseError>)
    ensures r.Ok? ==> Keys(result) <= Keys(r.value)
    decreases |remaining| + 1
  {
    if StartsWith(remaining, "[") then ParseNestedKey(remaining, value, result)
    else PutKeysPrefix(result, inner, Leaf(value)); Ok(Put(result, inner, Leaf(value)))
  }

  /** The branch of `parse_nested_key` for `outer[inner]remaining` with a
      non-empty `outer`: make sure `result[outer]` exists, then either
      recurse into it with `remaining` or store under `inner`. */
  function NestUnder(result: Dict<Node>, outer: string, inner: string, remaining: string, value: string): (r: Result<Dict<Node>, ParseError>)
    ensures r.Ok? ==> Keys(result) <= Keys(r.value)
    decreases |remaining| + 1
  {
    PutKeysPrefix(result, outer, Obj([]));
    var base := if HasKey(result, outer) then result else Put(result, outer, Obj([]));
    match Get(base, outer).value
    case Leaf(_) => Err(TypeError)
    case Obj(child) =>
      if StartsWith(remaining, "[") then
        match ParseNestedKey(remaining, value, child)
        case Ok(child') => Ok(Put(base, outer, Obj(child')))
        case Err(e) => Err(e)
      else
        Ok(Put(base, outer, Obj(Put(child, inner, Leaf(value)))))
  }

  lemma GetWellFormed(d: Dict<Node>, k: string)
    requires WellFormed(Obj(d)) && HasKey(d, k)
    ensures WellFormed(Get(d, k).value)
  {
    var i := IndexOfKey(d, k);
    assert d[i] in d;
  }

  /** Parsing never breaks the dict shape: keys stay distinct at every level. */
  lemma {:induction false} ParseNestedKeyWellFormed(key: string, value: string, d: Dict<Node>)
    requires WellFormed(Obj(d))
    ensures ParseNestedKey(key, value, d).Ok? ==> WellFormed(Obj(ParseNestedKey(key, value, d).value))
    decreases |key|
  {
    match Shape(key)
    case Plain(name) =>
      PutWellFormed(d, name, Leaf(value));
    case Nested(outer, inner, remaining) =>
      if outer == "" {
        if StartsWith(remaining, "[") {
          ParseNestedKeyWellFormed(remaining, value, d);
        } else {
          PutWellFormed(d, inner, Leaf(value));
        }
      } else {
        NestUnderWellFormed(d, outer, inner, remaining, value);
      }
  }

  lemma {:induction false} NestUnderWellFormed(d: Dict<Node>, outer: string, inner: string, remaining: string, value: string)
    requires WellFormed(Obj(d))
    ensures NestUnder(d, outer, inner, remaining, value).Ok? ==>
      WellFormed(Obj(NestUnder(d, outer, inner, remaining, value).value))
    decreases |remaining| + 1
  {
    var base := if HasKey(d, outer) then d else Put(d, outer, Obj([]));
    if !HasKey(d, outer) {
      PutWellFormed(d, outer, Obj([]));
    }
    GetWellFormed(base, outer);
    var got := Get(base, outer).value;
    if got.Obj? {
      var child := got.entries;
      if StartsWith(remaining, "[") {
        ParseNestedKeyWellFormed(remaining, value, child);
        var res := ParseNestedKey(remaining, value, child);
        if res.Ok? {
          PutWellFormed(base, outer, Obj(res.value));
        }
      } else {
        PutWellFormed(child, inner, Leaf(value));
        PutWellFormed(base, outer, Obj(Put(child, inner, Leaf(value))));
      }
    }
  }

  predicate BracketFree(s: string) {
    '[' !in s && ']' !in s
  }

  /** The dict `result[outer]` that a nested key writes into: a fresh `{}`
      when `outer` is absent, nothing when it holds a string. */
  function ChildOf(d: Dict<Node>, outer: string): Option<Dict<Node>> {
    match Get<Node>(d, outer)
    case None => Some([])
    case Some(Obj(es)) => Some(es)
    case Some(Leaf(_)) => None
  }

  lemma ShapeOfNested(outer: string, inner: string, tail: string)
    requires outer != "" && BracketFree(outer) && BracketFree(inner)
    ensures Shape(outer + "[" + inner + "]" + tail) == Nested(outer, inner, tail)
  {
    NestedKeyOpens(outer, inner, tail);
    SplitNestedAt(outer, inner, tail);
  }

  /** Where the first `[` of such a key is. */
  lemma NestedKeyOpens(outer: string, inner: string, tail: string)
    requires outer != "" && BracketFree(outer)
    ensures var key := outer + "[" + inner + "]" + tail;
      !StartsWith(key, "[") && '[' in key && ']' in key && Find(key, '[') == |outer|
  {
    var key := outer + "[" + inner + "]" + tail;
    assert key[0] == outer[0];
    assert key[|outer|] == '[';
    assert key[|outer| + 1 + |inner|] == ']';
    assert key[..|outer|] == outer;
    FindAt(key, '[', |outer|);
  }

  lemma SplitNestedAt(outer: string, inner: string, tail: string)
    requires BracketFree(inner)
    ensures var key := outer + "[" + inner + "]" + tail;
      SplitNested(key, |outer|) == Nested(outer, inner, tail)
  {
    var key := outer + "[" + inner + "]" + tail;
    var rest := key[|outer| + 1..];
    assert rest == inner + "]" + tail;
    assert rest[..|inner|] == inner;
    FindAt(rest, ']', |inner|);
    assert key[..|outer|] == outer;
    assert rest[|inner| + 1..] == tail;
  }

  /** A key without `[` is stored flat, with any trailing `]`s dropped
      (`ID]` is stored as `ID`). */
  lemma FlatWithoutOpenBracket(key: string, value: string, d: Dict<Node>)
    requires '[' !in key
    ensures ParseNestedKey(key, value, d) == Ok(Put(d, RStripChar(key, ']'), Leaf(value)))
  {
    if key != [] {
      assert key[0] in key && key[..1] == [key[0]];
    }
    assert !StartsWith(key, "[");
    if !EndsWith(key, "]") {
      if key != [] {
        assert key[|key| - 1..] == [key[|key| - 1]];
      }
      RStripCharUnchanged(key, ']');
    }
    assert Shape(key) == Plain(RStripChar(key, ']'));
  }

  /** A key with `[` but no `]` anywhere is stored flat, as written (less
      one leading `[`). */
  lemma FlatWithoutCloseBracket(key: string, value: string, d: Dict<Node>)
    requires ']' !in key
    ensures var k := if StartsWith(key, "[") then key[1..] else key;
      ParseNestedKey(key, value, d) == Ok(Put(d, k, Leaf(value)))
  {
    var k := if StartsWith(key, "[") then key[1..] else key;
    assert ']' !in k;
    assert !EndsWith(k, "]") by {
      assert k != [] ==> k[|k| - 1] in k && k[|k| - 1..] == [k[|k| - 1]];
    }
    assert Shape(key) == Plain(k);
  }

  /** A key whose first `[` is not followed by any `]` is stored flat as a
      literal. */
  lemma FlatWithoutClosingAfterOpen(key: string, value: string, d: Dict<Node>)
    requires !StartsWith(key, "[") && '[' in key && ']' !in key[Find(key, '[') + 1..]
    ensures ParseNestedKey(key, value, d) == Ok(Put(d, key, Leaf(value)))
  {
  }

  /** `outer[inner]` stores the value at `result[outer][inner]`, creating
      `result[outer]` when it is absent. */
  lemma OneLevel(outer: string, inner: string, value: string, d: Dict<Node>)
    requires outer != "" && BracketFree(outer) && BracketFree(inner)
    requires ChildOf(d, outer).Some?
    ensures var child := ChildOf(d, outer).value;
      ParseNestedKey(outer + "[" + inner + "]", value, d) ==
      Ok(Put(d, outer, Obj(Put(child, inner, Leaf(value)))))
  {
    var key := outer + "[" + inner + "]";
    assert key + "" == key;
    ShapeOfNested(outer, inner, "");
    assert ParseNestedKey(key, value, d) == NestUnder(d, outer, inner, "", value);
    NestUnderStore(d, outer, inner, "", value);
  }

  /** `NestUnder` with nothing more to read stores under `inner` in the
      (possibly fresh) child dict. */
  lemma NestUnderStore(d: Dict<Node>, outer: string, inner: string, remaining: string, value: string)
    requires ChildOf(d, outer).Some? && !StartsWith(remaining, "[")
    ensures NestUnder(d, outer, inner, remaining, value) ==
      Ok(Put(d, outer, Obj(Put(ChildOf(d, outer).value, inner, Leaf(value)))))
  {
    if !HasKey(d, outer) {
      PutPut(d, outer, Obj([]), Obj(Put([], inner, Leaf(value))));
    } else {
      PutSame(d, outer);
    }
  }

  /** `NestUnder` with more brackets to read recurses into the child dict. */
  lemma NestUnderRecurse(d: Dict<Node>, outer: string, inner: string, remaining: string, value: string)
    requires ChildOf(d, outer).Some? && StartsWith(remaining, "[")
    ensures var child := ChildOf(d, outer).value;
      NestUnder(d, outer, inner, remaining, value) ==
      match ParseNestedKey(remaining, value, child)
      case Ok(child') => Ok(Put(d, outer, Obj(child')))
      case Err(e) => Err(e)
  {
    var child := ChildOf(d, outer).value;
    var res := ParseNestedKey(remaining, value, child);
    if !HasKey(d, outer) && res.Ok? {
      PutPut(d, outer, Obj([]), Obj(res.value));
    }
  }

  /** `outer[a][b]` stores the value at `result[outer][b]`: the middle
      segment `a` is dropped. */
  lemma TwoLevelsDropMiddle(outer: string, a: string, b: string, value: string, d: Dict<Node>)
    requires outer != "" && BracketFree(outer) && BracketFree(a) && BracketFree(b)
    requires ChildOf(d, outer).Some?
    ensures var child := ChildOf(d, outer).value;
      ParseNestedKey(outer + "[" + a + "][" + b + "]", value, d) ==
      Ok(Put(d, outer, Obj(Put(child, b, Leaf(value)))))
  {
    var tail := "[" + b + "]";
    var child := ChildOf(d, outer).value;
    assert outer + "[" + a + "][" + b + "]" == outer + "[" + a + "]" + tail;
    NestedKeyParses(outer, a, tail, value, d);
    assert StartsWith(tail, "[");
    NestUnderRecurse(d, outer, a, tail, value);
    BracketedName(b, value, child);
    assert ParseNestedKey(tail, value, child) == Ok(Put(child, b, Leaf(value)));
  }

  /** A key `outer[inner]tail` with a non-empty, bracket-free `outer` takes
      the nesting branch. */
  lemma NestedKeyParses(outer: string, inner: string, tail: string, value: string, d: Dict<Node>)
    requires outer != "" && BracketFree(outer) && BracketFree(inner)
    ensures ParseNestedKey(outer + "[" + inner + "]" + tail, value, d) == NestUnder(d, outer, inner, tail, value)
  {
    ShapeOfNested(outer, inner, tail);
  }

  /** `[name]`, as met inside a recursion, stores under `name`. */
  lemma BracketedName(name: string, value: string, d: Dict<Node>)
    requires BracketFree(name)
    ensures ParseNestedKey("[" + name + "]", value, d) == Ok(Put(d, name, Leaf(value)))
  {
    var key := "[" + name + "]";
    var k := name + "]";
    assert StartsWith(key, "[") && key[1..] == k;
    assert EndsWith(k, "]");
    assert '[' !in k;
    assert k[..|name|] == name;
    assert name != [] ==> name[|name| - 1] in name;
    assert RStripChar(k, ']') == name;
  }

  /** A nested key whose outer name already holds a string raises
      TypeError (the handler answers 400). */
  lemma NestingIntoStringFails(outer: string, inner: string, tail: string, value: string, d: Dict<Node>)
    requires outer != "" && BracketFree(outer) && BracketFree(inner)
    requires Get(d, outer).Some? && Get(d, outer).value.Leaf?
    ensures ParseNestedKey(outer + "[" + inner + "]" + tail, value, d) == Err(TypeError)
  {
    ShapeOfNested(outer, inner, tail);
  }

  /** The handler's decoding loop: every `(key, value)` pair of the form, in
      order, parsed into one dict; the first TypeError aborts decoding. */
  function DecodeInto(pairs: seq<(string, string)>, acc: Dict<Node>): (r: Result<Dict<Node>, ParseError>)
    decreases |pairs|
  {
    if |pairs| == 0 then Ok(acc)
    else
      match ParseNestedKey(pairs[0].0, pairs[0].1, acc)
      case Ok(acc') => DecodeInto(pairs[1..], acc')
      case Err(e) => Err(e)
  }

  /** The whole form decoded from an empty dict: a well-formed tree. */
  function Decode(pairs: seq<(string, string)>): (r: Result<Dict<Node>, ParseError>)
    ensures r.Ok? ==> WellFormed(Obj(r.value))
  {
    DecodeIntoWellFormed(pairs, []);
    DecodeInto(pairs, [])
  }

  /** A one-field form decodes to what parsing its one key gives. */
  lemma DecodeOne(key: string, value: string)
    ensures Decode([(key, value)]) == ParseNestedKey(key, value, [])
  {
    var step := ParseNestedKey(key, value, []);
    assert [(key, value)][1..] == [];
    if step.Ok? {
      assert DecodeInto([], step.value) == Ok(step.value);
    }
  }

  lemma {:induction false} DecodeIntoWellFormed(pairs: seq<(string, string)>, acc: Dict<Node>)
    requires WellFormed(Obj(acc))
    ensures DecodeInto(pairs, acc).Ok? ==> WellFormed(Obj(DecodeInto(pairs, acc).value))
    decreases |pairs|
  {
    if |pairs| > 0 {
      ParseNestedKeyWellFormed(pairs[0].0, pairs[0].1, acc);
      var step := ParseNestedKey(pairs[0].0, pairs[0].1, acc);
      if step.Ok? {
        DecodeIntoWellFormed(pairs[1..], step.value);
      }
    }
  }

  /** The form pairs as a dict of strings, unchanged. */
  function AsEntries(pairs: seq<(string, string)>): (r: Dict<Node>)
    ensures |r| == |pairs|
    ensures forall i :: 0 <= i < |pairs| ==> r[i] == (pairs[i].0, Leaf(pairs[i].1))
  {
    seq(|pairs|, i requires 0 <= i < |pairs| => (pairs[i].0, Leaf(pairs[i].1)))
  }

  lemma FlatStep(k: string, v: string, acc: Dict<Node>)
    requires BracketFree(k) && !HasKey(acc, k)
    ensures ParseNestedKey(k, v, acc) == Ok(acc + [(k, Leaf(v))])
  {
    FlatWithoutOpenBracket(k, v, acc);
    if k != [] {
      assert k[|k| - 1] in k;
    }
    RStripCharUnchanged(k, ']');
  }

  /** Keys without brackets, each used once. */
  predicate FlatKeys(pairs: seq<(string, string)>) {
    (forall i :: 0 <= i < |pairs| ==> BracketFree(pairs[i].0)) &&
    (forall i, j :: 0 <= i < j < |pairs| ==> pairs[i].0 != pairs[j].0)
  }

  /** None of the keys is in `acc` yet. */
  predicate FreshFor(pairs: seq<(string, string)>, acc: Dict<Node>) {
    forall i :: 0 <= i < |pairs| ==> !HasKey(acc, pairs[i].0)
  }

  lemma FlatTail(pairs: seq<(string, string)>)
    requires |pairs| > 0 && FlatKeys(pairs)
    ensures BracketFree(pairs[0].0) && FlatKeys(pairs[1..])
  {
    var tail := pairs[1..];
    assert forall i :: 0 <= i < |tail| ==> tail[i] == pairs[i + 1];
  }

  lemma FreshAfterAppend(pairs: seq<(string, string)>, acc: Dict<Node>)
    requires |pairs| > 0 && FlatKeys(pairs) && FreshFor(pairs, acc)
    ensures !HasKey(acc, pairs[0].0)
    ensures FreshFor(pairs[1..], acc + [(pairs[0].0, Leaf(pairs[0].1))])
  {
    var tail := pairs[1..];
    var acc' := acc + [(pairs[0].0, Leaf(pairs[0].1))];
    forall i | 0 <= i < |tail| ensures !HasKey(acc', tail[i].0) {
      assert tail[i] == pairs[i + 1];
      IndexOfKeyAppend(acc, (pairs[0].0, Leaf(pairs[0].1)), pairs[i + 1].0);
    }
  }

  /** Decoding goes on from the first pair's result. */
  lemma DecodeIntoCons(pairs: seq<(string, string)>, acc: Dict<Node>, next: Dict<Node>)
    requires |pairs| > 0 && ParseNestedKey(pairs[0].0, pairs[0].1, acc) == Ok(next)
    ensures DecodeInto(pairs, acc) == DecodeInto(pairs[1..], next)
  {
  }

  lemma AsEntriesCons(pairs: seq<(string, string)>)
    requires |pairs| > 0
    ensures AsEntries(pairs) == [(pairs[0].0, Leaf(pairs[0].1))] + AsEntries(pairs[1..])
  {
  }

  lemma AppendAssoc(a: Dict<Node>, b: Dict<Node>, c: Dict<Node>)
    ensures (a + b) + c == a + (b + c)
  {
  }

  lemma {:induction false} DecodeIntoFlat(pairs: seq<(string, string)>, acc: Dict<Node>)
    requires FlatKeys(pairs) && FreshFor(pairs, acc)
    ensures DecodeInto(pairs, acc) == Ok(acc + AsEntries(pairs))
    decreases |pairs|
  {
    if |pairs| == 0 {
      assert acc + AsEntries(pairs) == acc;
    } else {
      var head := (pairs[0].0, Leaf(pairs[0].1));
      var acc' := acc + [head];
      FlatTail(pairs);
      FreshAfterAppend(pairs, acc);
      FlatStep(pairs[0].0, pairs[0].1, acc);
      DecodeIntoCons(pairs, acc, acc');
      DecodeIntoFlat(pairs[1..], acc');
      AsEntriesCons(pairs);
      AppendAssoc(acc, [head], AsEntries(pairs[1..]));
    }
  }

  /** A form whose keys carry no brackets decodes to itself. */
  lemma DecodeFlat(pairs: seq<(string, string)>)
    requires FlatKeys(pairs)
    ensures Decode(pairs) == Ok(AsEntries(pairs))
  {
    var empty: Dict<Node> := [];
    assert FreshFor(pairs, empty);
    DecodeIntoFlat(pairs, empty);
    assert empty + AsEntries(pairs) == AsEntries(pairs);
  }

  /** `data[FIELDS][ID]=42` decodes to `{"data": {"ID": "42"}}`: the
      `FIELDS` level is dropped. */
  lemma DecodeDropsFieldsLevel()
    ensures Decode([("data[FIELDS][ID]", "42")]) == Ok([("data", Obj([("ID", Leaf("42"))]))])
  {
    var key := "data" + "[" + "FIELDS" + "][" + "ID" + "]";
    assert key == "data[FIELDS][ID]";
    TwoLevelsDropMiddle("data", "FIELDS", "ID", "42", []);
    var inner := Put([], "ID", Leaf("42"));
    assert inner == [("ID", Leaf("42"))];
    var outer := Put([], "data", Obj(inner));
    assert outer == [("data", Obj(inner))];
    assert ParseNestedKey(key, "42", []) == Ok(outer);
    assert DecodeInto([(key, "42")], []) == DecodeInto([], outer);
  }

  /** Every part of a nested key is shorter than the key itself. */
  lemma ShapeLengths(key0: string)
    ensures var sh := Shape(key0);
      sh.Nested? ==> |sh.outer| + |sh.inner| + |sh.remaining| + 2 <= |key0|
  {
  }

  /** The nesting the docstring of `parse_nested_key` promises: every
      bracketed segment opens one more level, so the child dict of `outer`
      receives `inner` followed by the rest of the key. It differs from
      `ParseNestedKey` only in that recursive call. */
  function ParseNestedKeyIntended(key0: string, value: string, result: Dict<Node>): (r: Result<Dict<Node>, ParseError>)
    ensures r.Ok? ==> Keys(result) <= Keys(r.value)
    decreases |key0|
  {
    ShapeLengths(key0);
    match Shape(key0)
    case Plain(name) => PutKeysPrefix(result, name, Leaf(value)); Ok(Put(result, name, Leaf(value)))
    case Nested(outer, inner, remaining) =>
      if outer == "" then
        if StartsWith(remaining, "[") then ParseNestedKeyIntended(remaining, value, result)
        else PutKeysPrefix(result, inner, Leaf(value)); Ok(Put(result, inner, Leaf(value)))
      else NestUnderIntended(result, outer, inner, remaining, value)
  }

  /** `NestUnder` with the intended recursion: the child dict is handed
      `inner` followed by `remaining`. */
  function NestUnderIntended(result: Dict<Node>, outer: string, inner: string, remaining: string, value: string)
    : (r: Result<Dict<Node>, ParseError>)
    ensures r.Ok? ==> Keys(result) <= Keys(r.value)
    decreases |inner| + |remaining| + 1
  {
    PutKeysPrefix(result, outer, Obj([]));
    var base := if HasKey(result, outer) then result else Put(result, outer, Obj([]));
    match Get(base, outer).value
    case Leaf(_) => Err(TypeError)
    case Obj(child) =>
      if StartsWith(remaining, "[") then
        match ParseNestedKeyIntended(inner + remaining, value, child)
        case Ok(child') => Ok(Put(base, outer, Obj(child')))
        case Err(e) => Err(e)
      else
        Ok(Put(base, outer, Obj(Put(child, inner, Leaf(value)))))
  }

  /** The two rules agree on a key of one level. */
  lemma IntendedAgreesOnOneLevel(outer: string, inner: string, value: string, d: Dict<Node>)
    requires outer != "" && BracketFree(outer) && BracketFree(inner)
    ensures ParseNestedKeyIntended(outer + "[" + inner + "]", value, d) == ParseNestedKey(outer + "[" + inner + "]", value, d)
  {
    assert outer + "[" + inner + "]" + "" == outer + "[" + inner + "]";
    ShapeOfNested(outer, inner, "");
  }

  /** Under the intended rule `outer[a][b]` stores the value at
      `result[outer][a][b]`, creating the dicts that are missing. */
  lemma IntendedKeepsEveryLevel(outer: string, a: string, b: string, value: string, d: Dict<Node>)
    requires outer != "" && a != "" && BracketFree(outer) && BracketFree(a) && BracketFree(b)
    requires ChildOf(d, outer).Some? && ChildOf(ChildOf(d, outer).value, a).Some?
    ensures var child := ChildOf(d, outer).value;
      var grandchild := ChildOf(child, a).value;
      ParseNestedKeyIntended(outer + "[" + a + "][" + b + "]", value, d) ==
      Ok(Put(d, outer, Obj(Put(child, a, Obj(Put(grandchild, b, Leaf(value)))))))
  {
    var tail := "[" + b + "]";
    assert outer + "[" + a + "][" + b + "]" == outer + "[" + a + "]" + tail;
    assert a + tail == a + "[" + b + "]";
    IntendedRecurse(outer, a, tail, value, d);
    IntendedStoresUnder(a, b, value, ChildOf(d, outer).value);
  }

  /** Under the intended rule, `outer[inner]tail` with more brackets in
      `tail` hands `inner` and `tail` on to the child dict. */
  lemma IntendedRecurse(outer: string, inner: string, tail: string, value: string, d: Dict<Node>)
    requires outer != "" && BracketFree(outer) && BracketFree(inner) && StartsWith(tail, "[")
    requires ChildOf(d, outer).Some?
    ensures ParseNestedKeyIntended(outer + "[" + inner + "]" + tail, value, d) ==
      match ParseNestedKeyIntended(inner + tail, value, ChildOf(d, outer).value)
      case Ok(child') => Ok(Put(d, outer, Obj(child')))
      case Err(e) => Err(e)
  {
    ShapeOfNested(outer, inner, tail);
    assert ParseNestedKeyIntended(outer + "[" + inner + "]" + tail, value, d) == NestUnderIntended(d, outer, inner, tail, value);
    var res := ParseNestedKeyIntended(inner + tail, value, ChildOf(d, outer).value);
    if !HasKey(d, outer) && res.Ok? {
      PutPut(d, outer, Obj([]), Obj(res.value));
    }
  }

  /** One level of the intended rule, into an existing or fresh child. */
  lemma IntendedStoresUnder(outer: string, inner: string, value: string, d: Dict<Node>)
    requires outer != "" && BracketFree(outer) && BracketFree(inner)
    requires ChildOf(d, outer).Some?
    ensures ParseNestedKeyIntended(outer + "[" + inner + "]", value, d) ==
      Ok(Put(d, outer, Obj(Put(ChildOf(d, outer).value, inner, Leaf(value)))))
  {
    IntendedAgreesOnOneLevel(outer, inner, value, d);
    OneLevel(outer, inner, value, d);
  }

  /** `data[FIELDS][ID]=42` under the intended rule: `{"data": {"FIELDS":
      {"ID": "42"}}}`. */
  lemma IntendedFieldsLevelKept()
    ensures ParseNestedKeyIntended("data[FIELDS][ID]", "42", []) ==
      Ok([("data", Obj([("FIELDS", Obj([("ID", Leaf("42"))]))]))])
  {
    var key := "data" + "[" + "FIELDS" + "][" + "ID" + "]";
    assert key == "data[FIELDS][ID]";
    IntendedKeepsEveryLevel("data", "FIELDS", "ID", "42", []);
    var leaf := Put([], "ID", Leaf("42"));
    assert leaf == [("ID", Leaf("42"))];
    var mid := Put([], "FIELDS", Obj(leaf));
    assert mid == [("FIELDS", Obj(leaf))];
    assert Put([], "data", Obj(mid)) == [("data", Obj(mid))];
  }
}

=== FILE: leads_api.dfy ===
/** The lead endpoints of b24-transfer-lead/src/backend/api/v1/leads.py:
    creating a lead by hand or from a CSV upload (stored locally, then sent
    to the CRM with the extra fields the workflow maps), and the CSV
    export. The CRM call is a parameter answering the new entity's id, or
    `None` when it fails. */
module LeadsApi {
  import opened Wrappers
  import opened Text
  import opened Dicts
  import opened B24Models
  import WorkflowsApi
  import CsvLeads
  import Seqs

  datatype LeadsError =
    /** The workflow lookup or access check failed. */
    | Denied(reason: WorkflowsApi.ApiError)
    /** The workflow has no database to write to. */
    | StoreMissing
    /** 400 "Invalid column_mapping JSON format". */
    | BadMappingJson
    /** 400 "Invalid limit format". */
    | BadLimitFormat
    /** 400 "limit must be a positive integer". */
    | LimitNotPositive
    /** The CSV parser's error, which the endpoint does not catch. */
    | CsvRejected(csv: CsvLeads.CsvError)
    /** A 500 before anything is stored: the workflow has no webhook URL,
        and building the CRM client calls `rstrip` on `None`. */
    | NoWebhookUrl
    /** A 500 raised after the new lead was committed; `stores` are the
        databases as the request leaves them. */
    | FailedAfterCommit(stores: Stores)

  // ---------------------------------------------------------------------
  // Extra fields

  predicate IsExtra(p: (string, string)) {
    p.0 != "name" && p.0 != "phone"
  }

  /** The request's fields other than the phone and the name, in request
      order. */
  function ExtraFields(fields: Dict<string>): (r: Dict<string>)
    ensures forall p :: p in r <==> p in fields && IsExtra(p)
  {
    Seqs.Filter(fields, IsExtra)
  }

  /** A mapping of this workflow for its entity type. */
  predicate Selected(m: FieldMapping, workflowId: int, entityType: string) {
    m.workflowId == workflowId && m.entityType == entityType
  }

  /** `{m.field_name: m.bitrix24_field_id for m in mappings}` over the
      workflow's mappings of its entity type: a later mapping of the same
      field name wins. */
  function FieldIds(mappings: seq<FieldMapping>, workflowId: int, entityType: string): (r: Dict<string>)
    decreases |mappings|
  {
    if |mappings| == 0 then []
    else
      var n := |mappings| - 1;
      var before := FieldIds(mappings[..n], workflowId, entityType);
      var m := mappings[n];
      if Selected(m, workflowId, entityType) then Put(before, m.fieldName, m.b24FieldId) else before
  }

  /** Mapping `i` is the last selected one for its field name. */
  predicate LastSelected(mappings: seq<FieldMapping>, workflowId: int, entityType: string, i: int) {
    0 <= i < |mappings| && Selected(mappings[i], workflowId, entityType) &&
    forall j :: i < j < |mappings| && Selected(mappings[j], workflowId, entityType) ==>
      mappings[j].fieldName != mappings[i].fieldName
  }

  /** A field name is mapped exactly when some selected mapping names it. */
  lemma {:induction false} FieldIdsKeys(mappings: seq<FieldMapping>, workflowId: int, entityType: string, f: string)
    ensures HasKey(FieldIds(mappings, workflowId, entityType), f) <==>
      exists i :: 0 <= i < |mappings| && Selected(mappings[i], workflowId, entityType) && mappings[i].fieldName == f
    decreases |mappings|
  {
    if |mappings| > 0 {
      var n := |mappings| - 1;
      var prefix := mappings[..n];
      var m := mappings[n];
      FieldIdsKeys(prefix, workflowId, entityType, f);
      assert forall i :: 0 <= i < n ==> prefix[i] == mappings[i];
      var before := FieldIds(prefix, workflowId, entityType);
      var r := FieldIds(mappings, workflowId, entityType);
      if Selected(m, workflowId, entityType) && m.fieldName == f {
        assert Get(r, f).Some?;
      } else {
        assert Get(r, f) == Get(before, f);
        if exists i :: 0 <= i < |mappings| && Selected(mappings[i], workflowId, entityType) && mappings[i].fieldName == f {
          var i :| 0 <= i < |mappings| && Selected(mappings[i], workflowId, entityType) && mappings[i].fieldName == f;
          assert i < n && Selected(prefix[i], workflowId, entityType) && prefix[i].fieldName == f;
        }
      }
    }
  }

  /** The field id sent for a name is that of its last selected mapping. */
  lemma {:induction false} FieldIdsLast(mappings: seq<FieldMapping>, workflowId: int, entityType: string, i: int)
    requires LastSelected(mappings, workflowId, entityType, i)
    ensures Get(FieldIds(mappings, workflowId, entityType), mappings[i].fieldName) == Some(mappings[i].b24FieldId)
    decreases |mappings|
  {
    var n := |mappings| - 1;
    if i < n {
      var prefix := mappings[..n];
      assert forall j :: 0 <= j < n ==> prefix[j] == mappings[j];
      assert LastSelected(prefix, workflowId, entityType, i);
      FieldIdsLast(prefix, workflowId, entityType, i);
    }
  }

  /** The extras whose name is mapped, in request order: these are the
      ones forwarded to the CRM and saved as lead fields. */
  function Saved(extras: Dict<string>, fieldIds: Dict<string>): (r: Dict<string>)
    ensures forall p :: p in r <==> p in extras && HasKey(fieldIds, p.0)
    ensures forall i :: 0 <= i < |r| ==> HasKey(fieldIds, r[i].0)
  {
    Seqs.Filter(extras, (p: (string, string)) => HasKey(fieldIds, p.0))
  }

  /** Every saved name has a CRM field id. */
  predicate AllMapped(saved: Dict<string>, fieldIds: Dict<string>) {
    forall i :: 0 <= i < |saved| ==> HasKey(fieldIds, saved[i].0)
  }

  /** Each saved entry under the CRM field id of its name. */
  function CrmPairs(saved: Dict<string>, fieldIds: Dict<string>): (r: seq<(string, string)>)
    requires AllMapped(saved, fieldIds)
    ensures |r| == |saved|
  {
    seq(|saved|, i requires 0 <= i < |saved| => (Get(fieldIds, saved[i].0).value, saved[i].1))
  }

  /** The extra fields sent to the CRM: each saved value under its CRM
      field id, a later one overwriting an earlier one for the same id. */
  function CrmFields(saved: Dict<string>, fieldIds: Dict<string>): (r: Dict<string>)
    requires AllMapped(saved, fieldIds)
  {
    PutAll([], CrmPairs(saved, fieldIds))
  }

  /** What the CRM receives under field id `k`: something exactly when a
      saved entry maps to `k`, and then the last such entry's value. */
  lemma CrmFieldsLookup(saved: Dict<string>, fieldIds: Dict<string>, k: string)
    requires AllMapped(saved, fieldIds)
    ensures var r := Get(CrmFields(saved, fieldIds), k);
      (r.Some? <==> exists i :: 0 <= i < |saved| && Get(fieldIds, saved[i].0) == Some(k)) &&
      (r.Some? ==> exists i :: (0 <= i < |saved| && Get(fieldIds, saved[i].0) == Some(k) && saved[i].1 == r.value &&
        forall j :: i < j < |saved| ==> Get(fieldIds, saved[j].0) != Some(k)))
  {
    var pairs := CrmPairs(saved, fieldIds);
    CrmPairsKeys(saved, fieldIds, k);
    PutAllKeys(pairs, k);
    var r := Get(CrmFields(saved, fieldIds), k);
    if r.Some? {
      var i :| 0 <= i < |pairs| && pairs[i].0 == k;
      var last := LastIndex(pairs, k, i);
      PutAllLast(pairs, last);
      assert pairs[last] == (k, r.value);
      CrmPairsLast(saved, fieldIds, k, last);
    }
  }

  /** Pair `i` of the CRM pairs has key `k` exactly when saved entry `i`
      maps to `k`. */
  lemma CrmPairsKeys(saved: Dict<string>, fieldIds: Dict<string>, k: string)
    requires AllMapped(saved, fieldIds)
    ensures var pairs := CrmPairs(saved, fieldIds);
      forall i :: 0 <= i < |saved| ==> (pairs[i].0 == k <==> Get(fieldIds, saved[i].0) == Some(k)) && pairs[i].1 == saved[i].1
  {
  }

  lemma CrmPairsLast(saved: Dict<string>, fieldIds: Dict<string>, k: string, last: int)
    requires AllMapped(saved, fieldIds)
    requires LastPair(CrmPairs(saved, fieldIds), last) && CrmPairs(saved, fieldIds)[last].0 == k
    ensures 0 <= last < |saved| && Get(fieldIds, saved[last].0) == Some(k) && saved[last].1 == CrmPairs(saved, fieldIds)[last].1
    ensures forall j :: last < j < |saved| ==> Get(fieldIds, saved[j].0) != Some(k)
  {
    CrmPairsKeys(saved, fieldIds, k);
  }

  /** The lead fields after saving the entries of lead `leadId`, one row
      per saved name. */
  function SaveFields(fields: map<(int, string), string>, leadId: int, saved: Dict<string>): (r: map<(int, string), string>)
    decreases |saved|
  {
    if |saved| == 0 then fields
    else
      var n := |saved| - 1;
      SaveFields(fields, leadId, saved[..n])[(leadId, saved[n].0) := saved[n].1]
  }

  /** Other leads' fields are untouched. */
  lemma {:induction false} SaveFieldsOthers(fields: map<(int, string), string>, leadId: int, saved: Dict<string>, key: (int, string))
    requires key.0 != leadId
    ensures var r := SaveFields(fields, leadId, saved);
      (key in r <==> key in fields) && (key in fields ==> r[key] == fields[key])
    decreases |saved|
  {
    if |saved| > 0 {
      SaveFieldsOthers(fields, leadId, saved[..|saved| - 1], key);
    }
  }

  /** The lead gains a row for each saved name, holding the last value
      saved under it. */
  lemma {:induction false} SaveFieldsLast(fields: map<(int, string), string>, leadId: int, saved: Dict<string>, i: int)
    requires 0 <= i < |saved| && forall j :: i < j < |saved| ==> saved[j].0 != saved[i].0
    ensures var r := SaveFields(fields, leadId, saved);
      (leadId, saved[i].0) in r && r[(leadId, saved[i].0)] == saved[i].1
    decreases |saved|
  {
    var n := |saved| - 1;
    if i < n {
      var prefix := saved[..n];
      assert forall j :: 0 <= j < n ==> prefix[j] == saved[j];
      SaveFieldsLast(fields, leadId, prefix, i);
    }
  }

  // ---------------------------------------------------------------------
  // The CRM call

  /** What the CRM is asked to create. */
  datatype CrmRequest =
    | CreateDeal(name: string, phone: string, categoryId: int, stageId: string, extra: Dict<string>)
    | CreateCrmLead(name: string, phone: string, statusId: string, extra: Dict<string>)

  /** A deal for a deal workflow, a lead otherwise (an unset entity type
      meaning "lead"), with the workflow's funnel, stage or status, or the
      defaults funnel 0, stage "NEW" and status "NEW". */
  function CrmRequestFor(w: Workflow, name: string, phone: string, extra: Dict<string>): (r: CrmRequest)
    ensures r.CreateDeal? <==> w.entityType == "deal"
    ensures r.name == name && r.phone == phone && r.extra == extra
    ensures r.CreateDeal? ==> (r.categoryId == (if w.dealCategoryId.Some? then w.dealCategoryId.value else 0) &&
      r.stageId == (if Truthy(w.dealStageId) then w.dealStageId.value else "NEW"))
    ensures r.CreateCrmLead? ==> r.statusId == (if Truthy(w.leadStatusId) then w.leadStatusId.value else "NEW")
  {
    var entityType := if w.entityType != "" then w.entityType else "lead";
    if entityType == "deal" then
      CreateDeal(name, phone, w.dealCategoryId.GetOr(0), OrElse(w.dealStageId, Some("NEW")).value, extra)
    else
      CreateCrmLead(name, phone, OrElse(w.leadStatusId, Some("NEW")).value, extra)
  }

  /** The CRM is never asked for an empty stage or status. */
  lemma CrmDefaultsNeverEmpty(w: Workflow, name: string, phone: string, extra: Dict<string>)
    ensures var r := CrmRequestFor(w, name, phone, extra);
      (r.CreateDeal? ==> r.stageId != "") && (r.CreateCrmLead? ==> r.statusId != "")
  {
  }

  /** A freshly stored lead: status "NEW", the CRM id if the call
      succeeded, nothing else set. */
  function NewLead(id: int, phone: string, name: string, b24Id: Option<string>): Lead {
    Lead(id, phone, name, Some("NEW"), b24Id, None, None, None, None, None, None)
  }

  /** The CRM call for a new lead: its mapped extras under their field ids. */
  function LeadCrmRequest(w: Workflow, mappings: seq<FieldMapping>, phone: string, name: string, extras: Dict<string>): CrmRequest {
    var ids := FieldIds(mappings, w.id, w.entityType);
    CrmRequestFor(w, name, phone, CrmFields(Saved(extras, ids), ids))
  }

  /** One lead stored and sent to the CRM: the lead row and its mapped
      fields are committed first, then the CRM id is filled in if the call
      succeeded; a failed call is only logged. */
  function StoreLead(db: WorkflowDb, w: Workflow, mappings: seq<FieldMapping>, phone: string, name: string,
                     extras: Dict<string>, newId: int, crm: CrmRequest -> Option<string>): (r: (WorkflowDb, Lead))
    ensures r.1 == NewLead(newId, phone, name, crm(LeadCrmRequest(w, mappings, phone, name, extras)))
    ensures r.0.leads == db.leads + [r.1]
    ensures r.0.fields == SaveFields(db.fields, newId, Saved(extras, FieldIds(mappings, w.id, w.entityType)))
  {
    var ids := FieldIds(mappings, w.id, w.entityType);
    var saved := Saved(extras, ids);
    var lead := NewLead(newId, phone, name, crm(LeadCrmRequest(w, mappings, phone, name, extras)));
    (WorkflowDb(db.leads + [lead], SaveFields(db.fields, newId, saved)), lead)
  }

  /** A failing CRM still leaves the lead stored, as "NEW" and without a
      CRM id; earlier leads are untouched. */
  lemma CrmFailureKeepsLead(db: WorkflowDb, w: Workflow, mappings: seq<FieldMapping>, phone: string, name: string,
                            extras: Dict<string>, newId: int, crm: CrmRequest -> Option<string>)
    requires forall q :: crm(q).None?
    ensures var r := StoreLead(db, w, mappings, phone, name, extras, newId, crm);
      r.1 in r.0.leads && r.1.status == Some("NEW") && r.1.b24Id.None? && r.0.leads[..|db.leads|] == db.leads
  {
    var r := StoreLead(db, w, mappings, phone, name, extras, newId, crm);
    assert r.0.leads[|db.leads|] == r.1;
  }

  // ---------------------------------------------------------------------
  // Endpoints

  datatype LeadRequest = LeadRequest(phone: string, name: string, extra: Dict<string>)

  /** The request as `model_dump` gives it: the declared fields, then the
      extra ones. */
  function Dump(req: LeadRequest): Dict<string> {
    [("phone", req.phone), ("name", req.name)] + req.extra
  }

  /** A CRM client that could not be built: no call is made. */
  function NoCrm(q: CrmRequest): Option<string> {
    None
  }

  /** `create_lead`. The lead and its fields are committed before the CRM
      client is built. For a workflow without a webhook URL building it
      raises inside the `try`, and the `except` then reads `entity_type`
      before it was bound, so the request ends in a 500 with the lead
      already stored and no CRM id. */
  function CreateLead(workflows: seq<Workflow>, workflowId: int, c: WorkflowsApi.Caller, mappings: seq<FieldMapping>,
                      stores: Stores, req: LeadRequest, newId: int, crm: CrmRequest -> Option<string>)
    : (r: Result<(Stores, Lead), LeadsError>)
    ensures WorkflowsApi.Authorize(workflows, workflowId, c).Err? ==>
      r == Err(Denied(WorkflowsApi.Authorize(workflows, workflowId, c).error))
    ensures WorkflowsApi.Authorize(workflows, workflowId, c).Ok? && workflowId !in stores ==> r == Err(StoreMissing)
    ensures r.Ok? ==> (
      var w := workflows[WorkflowsApi.Authorize(workflows, workflowId, c).value];
      var stored := StoreLead(stores[workflowId], w, mappings, req.phone, req.name, ExtraFields(Dump(req)), newId, crm);
      r.value == (stores[workflowId := stored.0], stored.1))
    ensures r.Ok? ==> workflows[WorkflowsApi.Authorize(workflows, workflowId, c).value].webhookUrl.Some?
    ensures (WorkflowsApi.Authorize(workflows, workflowId, c).Ok? && workflowId in stores &&
             workflows[WorkflowsApi.Authorize(workflows, workflowId, c).value].webhookUrl.None?) ==> (
      var w := workflows[WorkflowsApi.Authorize(workflows, workflowId, c).value];
      var stored := StoreLead(stores[workflowId], w, mappings, req.phone, req.name, ExtraFields(Dump(req)), newId, NoCrm);
      r == Err(FailedAfterCommit(stores[workflowId := stored.0])) && stored.1 in stored.0.leads && stored.1.b24Id.None?)
  {
    var i :- WorkflowsApi.Authorize(workflows, workflowId, c).MapFailure(e => Denied(e));
    if workflowId !in stores then Err(StoreMissing)
    else if workflows[i].webhookUrl.None? then
      var stored := StoreLead(stores[workflowId], workflows[i], mappings, req.phone, req.name, ExtraFields(Dump(req)), newId, NoCrm);
      Err(FailedAfterCommit(stores[workflowId := stored.0]))
    else
      var stored := StoreLead(stores[workflowId], workflows[i], mappings, req.phone, req.name, ExtraFields(Dump(req)), newId, crm);
      Ok((stores[workflowId := stored.0], stored.1))
  }

  /** The declared phone and name are never forwarded as extras. */
  lemma DumpExtrasAreExtra(req: LeadRequest)
    requires forall p :: p in req.extra ==> IsExtra(p)
    ensures ExtraFields(Dump(req)) == req.extra
  {
    var d := Dump(req);
    assert !IsExtra(d[0]) && !IsExtra(d[1..][0]);
    assert d[1..][1..] == req.extra;
    assert Seqs.Filter(d, IsExtra) == Seqs.Filter(d[1..], IsExtra) == Seqs.Filter(req.extra, IsExtra);
    Seqs.FilterAll(req.extra, IsExtra);
  }

  /** The upload's `limit` form field: absent or empty means no limit;
      otherwise it must be an integer of at least 1. */
  function UploadLimit(limit: Option<string>): (r: Result<Option<int>, LeadsError>)
    ensures !Truthy(limit) ==> r == Ok(None)
    ensures Truthy(limit) && ParseInt(limit.value).None? ==> r == Err(BadLimitFormat)
    ensures Truthy(limit) && ParseInt(limit.value).Some? && ParseInt(limit.value).value < 1 ==> r == Err(LimitNotPositive)
    ensures r.Ok? && r.value.Some? ==> r.value.value >= 1 && ParseInt(limit.value) == Some(r.value.value)
  {
    if !Truthy(limit) then Ok(None)
    else
      var n := ParseInt(limit.value);
      if n.None? then Err(BadLimitFormat)
      else if n.value < 1 then Err(LimitNotPositive)
      else Ok(Some(n.value))
  }

  /** A printed positive count is accepted as that limit. */
  lemma LimitRoundTrip(n: int)
    requires n >= 1
    ensures UploadLimit(Some(IntToString(n))) == Ok(Some(n))
  {
    ParseIntToString(n);
  }

  /** `leads_data[:limit]`. */
  function Take<T>(s: seq<T>, limit: Option<int>): (r: seq<T>)
    requires limit.Some? ==> limit.value >= 0
    ensures limit.None? ==> r == s
    ensures limit.Some? ==> |r| == (if limit.value < |s| then limit.value else |s|) && r == s[..|r|]
  {
    if limit.None? || limit.value >= |s| then s else s[..limit.value]
  }

  /** A row's `phone` and `name` columns, "" when missing. */
  function RowPhone(row: CsvLeads.Lead): string {
    Get(row, "phone").GetOr("")
  }

  function RowName(row: CsvLeads.Lead): string {
    Get(row, "name").GetOr("")
  }

  /** `lead` is the one stored for `row` under `id`: "NEW", with the row's
      phone and name. */
  predicate StoredFrom(lead: Lead, row: CsvLeads.Lead, id: int) {
    lead.id == id && lead.status == Some("NEW") && lead.phone == RowPhone(row) && lead.name == RowName(row)
  }

  /** The lead stored for one upload row, its columns other than phone
      and name sent to the CRM as extras. */
  function RowLead(w: Workflow, mappings: seq<FieldMapping>, row: CsvLeads.Lead, id: int,
                   crm: CrmRequest -> Option<string>): (r: Lead)
    ensures StoredFrom(r, row, id)
  {
    NewLead(id, RowPhone(row), RowName(row), crm(LeadCrmRequest(w, mappings, RowPhone(row), RowName(row), ExtraFields(row))))
  }

  /** The mapped fields of the first `|rows|` upload rows, saved in row
      order. */
  function RowFields(fields: map<(int, string), string>, w: Workflow, mappings: seq<FieldMapping>,
                     rows: seq<CsvLeads.Lead>, nextId: int): map<(int, string), string>
    decreases |rows|
  {
    if |rows| == 0 then fields
    else
      var n := |rows| - 1;
      SaveFields(RowFields(fields, w, mappings, rows[..n], nextId), nextId + n,
                 Saved(ExtraFields(rows[n]), FieldIds(mappings, w.id, w.entityType)))
  }

  function RowLeads(w: Workflow, mappings: seq<FieldMapping>, rows: seq<CsvLeads.Lead>, nextId: int,
                    crm: CrmRequest -> Option<string>): (r: seq<Lead>)
    ensures |r| == |rows|
    ensures forall i :: 0 <= i < |rows| ==> r[i] == RowLead(w, mappings, rows[i], nextId + i, crm)
  {
    seq(|rows|, i requires 0 <= i < |rows| => RowLead(w, mappings, rows[i], nextId + i, crm))
  }

  /** The leads of an upload stored one by one, with consecutive ids from
      `nextId`: the `i`-th stored lead is the `i`-th row's, as "NEW", with
      id `nextId + i`. The CRM is a function of the request alone, so each
      lead's CRM id does not depend on the leads stored before it. */
  function StoreAll(db: WorkflowDb, w: Workflow, mappings: seq<FieldMapping>, leads: seq<CsvLeads.Lead>,
                    nextId: int, crm: CrmRequest -> Option<string>): (r: (WorkflowDb, seq<Lead>))
    ensures |r.1| == |leads| && r.0.leads == db.leads + r.1
    ensures forall i :: 0 <= i < |leads| ==> StoredFrom(r.1[i], leads[i], nextId + i)
  {
    var stored := RowLeads(w, mappings, leads, nextId, crm);
    (WorkflowDb(db.leads + stored, RowFields(db.fields, w, mappings, leads, nextId)), stored)
  }

  /** Storing a single row is storing one lead. */
  lemma StoreAllOne(db: WorkflowDb, w: Workflow, mappings: seq<FieldMapping>, row: CsvLeads.Lead,
                    id: int, crm: CrmRequest -> Option<string>)
    ensures var r := StoreLead(db, w, mappings, RowPhone(row), RowName(row), ExtraFields(row), id, crm);
      StoreAll(db, w, mappings, [row], id, crm) == (r.0, [r.1])
  {
    var r := StoreLead(db, w, mappings, RowPhone(row), RowName(row), ExtraFields(row), id, crm);
    assert [row][..0] == [] && [row][0] == row;
    assert RowFields(db.fields, w, mappings, [row], id) == r.0.fields;
    assert RowLeads(w, mappings, [row], id, crm) == [r.1];
  }

  /** The upload's `column_mapping` form field: absent or empty means
      none; otherwise it must decode, through `parseJson`, to a JSON object
      of column to field name. */
  function ColumnMapping(columnMapping: Option<string>, parseJson: string -> Option<Dict<string>>): (r: Result<Dict<string>, LeadsError>)
    ensures !Truthy(columnMapping) ==> r == Ok([])
    ensures Truthy(columnMapping) ==> (r.Err? <==> parseJson(columnMapping.value).None?)
    ensures r.Err? ==> r.error == BadMappingJson
    ensures Truthy(columnMapping) && r.Ok? ==> Some(r.value) == parseJson(columnMapping.value)
  {
    if !Truthy(columnMapping) then Ok([])
    else if parseJson(columnMapping.value).None? then Err(BadMappingJson)
    else Ok(parseJson(columnMapping.value).value)
  }

  /** The storing half of `upload_leads_csv` (lines 352-405): the
      workflow database is opened, the CRM client built, and the chosen
      leads stored in order. */
  function StoreUpload(stores: Stores, workflowId: int, w: Workflow, mappings: seq<FieldMapping>,
                       leads: seq<CsvLeads.Lead>, nextId: int, crm: CrmRequest -> Option<string>)
    : (r: Result<(Stores, seq<Lead>), LeadsError>)
    ensures workflowId !in stores ==> r == Err(StoreMissing)
    ensures workflowId in stores && w.webhookUrl.None? ==> r == Err(NoWebhookUrl)
    ensures r.Ok? ==> (workflowId in stores && w.webhookUrl.Some? && |r.value.1| == |leads| &&
      workflowId in r.value.0 && r.value.0 == stores[workflowId := r.value.0[workflowId]] &&
      r.value.0[workflowId].leads == stores[workflowId].leads + r.value.1 &&
      forall i :: 0 <= i < |leads| ==> StoredFrom(r.value.1[i], leads[i], nextId + i))
    ensures workflowId in stores && w.webhookUrl.Some? ==> r.Ok?
  {
    if workflowId !in stores then Err(StoreMissing)
    else if w.webhookUrl.None? then Err(NoWebhookUrl)
    else
      var stored := StoreAll(stores[workflowId], w, mappings, leads, nextId, crm);
      Ok((stores[workflowId := stored.0], stored.1))
  }

  /** `upload_leads_csv` over rows already split by the CSV reader. The
      checks run in the order access, column mapping, limit, CSV; then the
      first `limit` parsed leads are stored. A workflow without a webhook
      URL fails with a 500 before anything is stored. */
  function Upload(workflows: seq<Workflow>, workflowId: int, c: WorkflowsApi.Caller, mappings: seq<FieldMapping>,
                  stores: Stores, rows: seq<CsvLeads.Row>, columnMapping: Option<string>,
                  parseJson: string -> Option<Dict<string>>, limit: Option<string>, nextId: int,
                  crm: CrmRequest -> Option<string>)
    : (r: Result<(Stores, seq<Lead>), LeadsError>)
    ensures WorkflowsApi.Authorize(workflows, workflowId, c).Err? ==>
      r == Err(Denied(WorkflowsApi.Authorize(workflows, workflowId, c).error))
    ensures WorkflowsApi.Authorize(workflows, workflowId, c).Ok? && ColumnMapping(columnMapping, parseJson).Err? ==>
      r == Err(BadMappingJson)
    ensures (WorkflowsApi.Authorize(workflows, workflowId, c).Ok? && ColumnMapping(columnMapping, parseJson).Ok? &&
      UploadLimit(limit).Err?) ==> r == Err(UploadLimit(limit).error)
    ensures r.Err? && r.error.CsvRejected? ==> (ColumnMapping(columnMapping, parseJson).Ok? &&
      CsvLeads.ParseCsvLeads(rows, ColumnMapping(columnMapping, parseJson).value) == Err(r.error.csv))
    ensures r.Ok? ==> (ColumnMapping(columnMapping, parseJson).Ok? && UploadLimit(limit).Ok? &&
      CsvLeads.ParseCsvLeads(rows, ColumnMapping(columnMapping, parseJson).value).Ok? && (
      var n := UploadLimit(limit).value;
      var parsed := CsvLeads.ParseCsvLeads(rows, ColumnMapping(columnMapping, parseJson).value).value;
      |r.value.1| == |Take(parsed, n)| && (n.Some? ==> |r.value.1| <= n.value) &&
      workflowId in stores && workflowId in r.value.0 &&
      r.value.0 == stores[workflowId := r.value.0[workflowId]] &&
      r.value.0[workflowId].leads == stores[workflowId].leads + r.value.1))
    ensures r.Ok? ==> workflows[WorkflowsApi.Authorize(workflows, workflowId, c).value].webhookUrl.Some?
    ensures (WorkflowsApi.Authorize(workflows, workflowId, c).Ok? && ColumnMapping(columnMapping, parseJson).Ok? &&
      UploadLimit(limit).Ok? && CsvLeads.ParseCsvLeads(rows, ColumnMapping(columnMapping, parseJson).value).Ok? &&
      workflowId in stores) ==>
      (r == Err(NoWebhookUrl) <==> workflows[WorkflowsApi.Authorize(workflows, workflowId, c).value].webhookUrl.None?)
  {
    var i :- WorkflowsApi.Authorize(workflows, workflowId, c).MapFailure(e => Denied(e));
    var mapping :- ColumnMapping(columnMapping, parseJson);
    var n :- UploadLimit(limit);
    var parsed :- CsvLeads.ParseCsvLeads(rows, mapping).MapFailure(e => CsvRejected(e));
    StoreUpload(stores, workflowId, workflows[i], mappings, Take(parsed, n), nextId, crm)
  }

  /** The `i`-th lead an upload stores is the `i`-th data row's, with its
      phone and name, as "NEW" and with id `nextId + i`. */
  lemma UploadStoresRows(workflows: seq<Workflow>, workflowId: int, c: WorkflowsApi.Caller, mappings: seq<FieldMapping>,
                         stores: Stores, rows: seq<CsvLeads.Row>, columnMapping: Option<string>,
                         parseJson: string -> Option<Dict<string>>, limit: Option<string>, nextId: int,
                         crm: CrmRequest -> Option<string>, i: int)
    requires Upload(workflows, workflowId, c, mappings, stores, rows, columnMapping, parseJson, limit, nextId, crm).Ok?
    requires 0 <= i < |Upload(workflows, workflowId, c, mappings, stores, rows, columnMapping, parseJson, limit, nextId, crm).value.1|
    ensures var stored := Upload(workflows, workflowId, c, mappings, stores, rows, columnMapping, parseJson, limit, nextId, crm).value.1[i];
      var parsed := CsvLeads.ParseCsvLeads(rows, ColumnMapping(columnMapping, parseJson).value).value;
      i < |parsed| && Some(stored.phone) == Get(parsed[i], "phone") && Some(stored.name) == Get(parsed[i], "name") &&
      stored.id == nextId + i && stored.status == Some("NEW")
  {
    var w := workflows[WorkflowsApi.Authorize(workflows, workflowId, c).value];
    var parsed := CsvLeads.ParseCsvLeads(rows, ColumnMapping(columnMapping, parseJson).value).value;
    var chosen := Take(parsed, UploadLimit(limit).value);
    assert chosen[i] == parsed[i];
  }

  // ---------------------------------------------------------------------
  // Export

  /** The status names loaded for the export, id to name, a later entry
      overwriting an earlier one; a failed load leaves the map empty. */
  function StatusMap(statuses: Option<seq<(string, string)>>): (r: Dict<string>)
    ensures statuses.None? ==> r == []
  {
    if statuses.None? then [] else PutAll([], statuses.value)
  }

  /** The pairs assigned in order, `d[k] = v` for each. */
  function PutAll(d: Dict<string>, pairs: seq<(string, string)>): Dict<string>
    decreases |pairs|
  {
    if |pairs| == 0 then d
    else
      var n := |pairs| - 1;
      Put(PutAll(d, pairs[..n]), pairs[n].0, pairs[n].1)
  }

  /** Pair `i` is the last one for its key. */
  predicate LastPair(pairs: seq<(string, string)>, i: int) {
    0 <= i < |pairs| && forall j :: i < j < |pairs| ==> pairs[j].0 != pairs[i].0
  }

  /** The last pair with key `k` from position `i` on. */
  function LastIndex(pairs: seq<(string, string)>, k: string, i: int): (r: int)
    requires 0 <= i < |pairs| && pairs[i].0 == k
    ensures i <= r < |pairs| && pairs[r].0 == k && LastPair(pairs, r)
    decreases |pairs| - i
  {
    if forall j :: i < j < |pairs| ==> pairs[j].0 != k then i
    else
      var j :| i < j < |pairs| && pairs[j].0 == k;
      LastIndex(pairs, k, j)
  }

  /** Assigning pairs from empty gives exactly their keys. */
  lemma {:induction false} PutAllKeys(pairs: seq<(string, string)>, k: string)
    ensures HasKey(PutAll([], pairs), k) <==> exists i :: 0 <= i < |pairs| && pairs[i].0 == k
    decreases |pairs|
  {
    if |pairs| > 0 {
      var n := |pairs| - 1;
      var prefix := pairs[..n];
      PutAllKeys(prefix, k);
      if pairs[n].0 == k {
        assert Get(PutAll([], pairs), k).Some?;
      } else {
        KeyInPrefix(pairs, prefix, k);
        assert Get(PutAll([], pairs), k) == Get(PutAll([], prefix), k);
      }
    }
  }

  /** A key the last pair does not have occurs in the pairs exactly when
      it occurs before the last. */
  lemma KeyInPrefix(pairs: seq<(string, string)>, prefix: seq<(string, string)>, k: string)
    requires |pairs| > 0 && prefix == pairs[..|pairs| - 1] && pairs[|pairs| - 1].0 != k
    ensures (exists i :: 0 <= i < |pairs| && pairs[i].0 == k) <==> (exists i :: 0 <= i < |prefix| && prefix[i].0 == k)
  {
    assert forall i :: 0 <= i < |prefix| ==> prefix[i] == pairs[i];
  }

  /** A later assignment to a key wins. */
  lemma {:induction false} PutAllLast(pairs: seq<(string, string)>, i: int)
    requires LastPair(pairs, i)
    ensures Get(PutAll([], pairs), pairs[i].0) == Some(pairs[i].1)
    decreases |pairs|
  {
    var n := |pairs| - 1;
    if i < n {
      var prefix := pairs[..n];
      assert forall j :: 0 <= j < n ==> prefix[j] == pairs[j];
      assert LastPair(prefix, i);
      PutAllLast(prefix, i);
    }
  }

  /** A status has a display name exactly when the loaded list has it, and
      it is the name loaded last for it. */
  lemma StatusMapLookup(statuses: seq<(string, string)>, k: string)
    ensures var r := Get(StatusMap(Some(statuses)), k);
      (r.Some? <==> exists i :: 0 <= i < |statuses| && statuses[i].0 == k) &&
      (r.Some? ==> exists i :: (LastPair(statuses, i) && statuses[i] == (k, r.value)))
  {
    PutAllKeys(statuses, k);
    var r := Get(StatusMap(Some(statuses)), k);
    if r.Some? {
      var i :| 0 <= i < |statuses| && statuses[i].0 == k;
      var last := LastIndex(statuses, k, i);
      PutAllLast(statuses, last);
    }
  }

  /** The status column: the status's display name when one is known,
      the raw status otherwise, and "NEW" for a lead without status. */
  function StatusDisplay(status: Option<string>, statusMap: Dict<string>): (r: string)
    ensures !Truthy(status) ==> r == "NEW"
    ensures Truthy(status) && HasKey(statusMap, status.value) ==> r == Get(statusMap, status.value).value
    ensures Truthy(status) && !HasKey(statusMap, status.value) ==> r == status.value
  {
    if !Truthy(status) then "NEW" else Get(statusMap, status.value).GetOr(status.value)
  }

  /** The deal-stage column: the stage name, else the stage id, else
      empty. */
  function DealStageDisplay(l: Lead): (r: string)
    ensures Truthy(l.dealStatusName) ==> r == l.dealStatusName.value
    ensures !Truthy(l.dealStatusName) && Truthy(l.dealStatus) ==> r == l.dealStatus.value
    ensures !Truthy(l.dealStatusName) && !Truthy(l.dealStatus) ==> r == ""
  {
    OrElse(OrElse(l.dealStatusName, l.dealStatus), Some("")).value
  }

  const FixedHeaders: seq<string> :=
    ["Имя", "Телефон", "Статус", "Ответственный", "Bitrix24 ID", "Сумма сделки", "Стадия сделки", "Создан"]

  /** The mappings that get a column: those whose field some lead has. */
  function ExportedMappings(mappings: seq<FieldMapping>, names: set<string>): (r: seq<FieldMapping>)
    ensures forall m :: m in r <==> m in mappings && m.fieldName in names
  {
    Seqs.Filter(mappings, (m: FieldMapping) => m.fieldName in names)
  }

  /** The header row: the fixed columns, then one per exported mapping,
      in mapping order. */
  function ExportHeaders(exported: seq<FieldMapping>): (r: seq<string>)
    ensures |r| == |FixedHeaders| + |exported| && r[..|FixedHeaders|] == FixedHeaders
    ensures forall k :: 0 <= k < |exported| ==>
      r[|FixedHeaders| + k] == WorkflowsApi.StripOrFallback(exported[k].displayName, exported[k].b24FieldName)
  {
    FixedHeaders + seq(|exported|, k requires 0 <= k < |exported| =>
      WorkflowsApi.StripOrFallback(exported[k].displayName, exported[k].b24FieldName))
  }

  /** One data row: the fixed columns, then the lead's value of each
      exported field, or "" when it has none. `created` is the formatted
      creation time. */
  function ExportRow(l: Lead, created: string, fields: map<(int, string), string>, exported: seq<FieldMapping>,
                     statusMap: Dict<string>): (r: seq<string>)
    ensures |r| == |ExportHeaders(exported)|
    ensures r[2] == StatusDisplay(l.status, statusMap) && r[6] == DealStageDisplay(l)
    ensures r[0] == l.name && r[1] == l.phone
    ensures forall k :: 0 <= k < |exported| ==>
      r[|FixedHeaders| + k] == (if (l.id, exported[k].fieldName) in fields then fields[(l.id, exported[k].fieldName)] else "")
  {
    [l.name, l.phone, StatusDisplay(l.status, statusMap), OrElse(l.assignedByName, Some("")).value,
     OrElse(l.b24Id, Some("")).value, OrElse(l.dealAmount, Some("")).value, DealStageDisplay(l), created] +
    seq(|exported|, k requires 0 <= k < |exported| =>
      var key := (l.id, exported[k].fieldName);
      if key in fields then fields[key] else "")
  }

  /** The field names some lead of the database has. */
  function FieldNames(db: WorkflowDb): set<string> {
    set key | key in db.fields && exists i :: 0 <= i < |db.leads| && db.leads[i].id == key.0 :: key.1
  }

  /** `export_leads_csv` before CSV encoding: the header row, then one row
      per lead in table order, every row as wide as the header.
      `mappings` are the workflow's mappings of its entity type,
      `statuses` the loaded status names (`None` when loading failed) and
      `created` the formatted creation time. */
  function Export(db: WorkflowDb, mappings: seq<FieldMapping>, statuses: Option<seq<(string, string)>>,
                  created: Lead -> string): (r: seq<seq<string>>)
    ensures |r| == |db.leads| + 1
    ensures r[0] == ExportHeaders(ExportedMappings(mappings, FieldNames(db)))
    ensures forall i :: 0 <= i < |r| ==> |r[i]| == |r[0]|
  {
    var exported := ExportedMappings(mappings, FieldNames(db));
    var statusMap := StatusMap(statuses);
    var header := ExportHeaders(exported);
    var rows := seq(|db.leads|, i requires 0 <= i < |db.leads| =>
      ExportRow(db.leads[i], created(db.leads[i]), db.fields, exported, statusMap));
    assert forall i :: 0 <= i < |rows| ==> |rows[i]| == |header|;
    [header] + rows
  }

  /** Row `i + 1` of the export is lead `i`: its name, phone and displayed
      status, and under each exported field's column its value, or "". */
  lemma ExportLeadRow(db: WorkflowDb, mappings: seq<FieldMapping>, statuses: Option<seq<(string, string)>>,
                      created: Lead -> string, i: int, k: int)
    requires 0 <= i < |db.leads|
    requires 0 <= k < |ExportedMappings(mappings, FieldNames(db))|
    ensures var r := Export(db, mappings, statuses, created);
      var l := db.leads[i];
      var m := ExportedMappings(mappings, FieldNames(db))[k];
      r[i + 1][0] == l.name && r[i + 1][1] == l.phone && r[i + 1][2] == StatusDisplay(l.status, StatusMap(statuses)) &&
      r[0][|FixedHeaders| + k] == WorkflowsApi.StripOrFallback(m.displayName, m.b24FieldName) &&
      r[i + 1][|FixedHeaders| + k] == (if (l.id, m.fieldName) in db.fields then db.fields[(l.id, m.fieldName)] else "")
  {
    var r := Export(db, mappings, statuses, created);
    var exported := ExportedMappings(mappings, FieldNames(db));
    assert r[i + 1] == ExportRow(db.leads[i], created(db.leads[i]), db.fields, exported, StatusMap(statuses));
  }
}

=== FILE: notifications.dfy ===
/** Visibility and read tracking of partner notifications
    (backend/app/services/notification_service.py). Each notification is
    its id and its optional target partner; the read table counts the rows
    per (notification id, partner id) pair, so that a duplicate row would be
    seen if an operation created one. */
module Notifications {
  import opened Wrappers

  datatype NotifDb = NotifDb(targets: map<int, Option<int>>, readRows: map<(int, int), nat>)

  /** A notification for everybody, or one aimed at `partner`. */
  predicate Visible(db: NotifDb, nid: int, partner: int)
    requires nid in db.targets
  {
    db.targets[nid].None? || db.targets[nid] == Some(partner)
  }

  predicate IsRead(db: NotifDb, nid: int, partner: int) {
    (nid, partner) in db.readRows
  }

  /** The notifications a partner sees, with their read flags. */
  function PartnerView(db: NotifDb, partner: int): (r: map<int, bool>)
    ensures forall nid :: nid in r <==> nid in db.targets && Visible(db, nid, partner)
    ensures forall nid :: nid in r ==> (r[nid] <==> IsRead(db, nid, partner))
  {
    map nid | nid in db.targets && Visible(db, nid, partner) :: IsRead(db, nid, partner)
  }

  /** The visible notifications a partner has not read. */
  function UnreadIds(db: NotifDb, partner: int): (r: set<int>)
    ensures forall nid :: nid in r <==> nid in db.targets && Visible(db, nid, partner) && !IsRead(db, nid, partner)
  {
    set nid | nid in db.targets && Visible(db, nid, partner) && !IsRead(db, nid, partner)
  }

  /** `get_unread_count`. */
  function UnreadCount(db: NotifDb, partner: int): (r: nat)
    ensures r == |UnreadIds(db, partner)|
    ensures r <= |db.targets.Keys|
  {
    UnreadSubset(db, partner);
    |UnreadIds(db, partner)|
  }

  lemma UnreadSubset(db: NotifDb, partner: int)
    ensures UnreadIds(db, partner) <= db.targets.Keys
    ensures |UnreadIds(db, partner)| <= |db.targets.Keys|
  {
    SubsetCard(UnreadIds(db, partner), db.targets.Keys);
  }

  lemma SubsetCard(a: set<int>, b: set<int>)
    requires a <= b
    ensures |a| <= |b|
  {
    assert b == a + (b - a);
  }

  /** No (notification, partner) pair is recorded twice. */
  ghost predicate NoDuplicateReads(db: NotifDb) {
    forall row :: row in db.readRows ==> db.readRows[row] == 1
  }

  /** A new notification with a fresh id: unread for everyone it targets.
      `create_notification` only ever adds broadcasts (`target` is
      `None`); the targeted rows come from `process_request` in
      payment_request_service.py and from the deal-won branch of
      public.py, which insert them the same way. */
  function Create(db: NotifDb, nid: int, target: Option<int>): (r: NotifDb)
    requires nid !in db.targets && forall p: int :: (nid, p) !in db.readRows
    ensures r.targets == db.targets[nid := target] && r.readRows == db.readRows
    ensures forall p :: (target.None? || target == Some(p)) ==> nid in UnreadIds(r, p)
  {
    NotifDb(db.targets[nid := target], db.readRows)
  }

  /** `mark_as_read`: `false` for an unknown notification; otherwise adds
      the read row unless it is there already. Visibility is not
      checked. */
  function MarkAsRead(db: NotifDb, nid: int, partner: int): (r: (bool, NotifDb))
    ensures !r.0 <==> nid !in db.targets
    ensures !r.0 ==> r.1 == db
    ensures r.0 ==> r.1.targets == db.targets && IsRead(r.1, nid, partner)
    ensures forall row: (int, int) :: row != (nid, partner) ==>
      (row in r.1.readRows <==> row in db.readRows) && (row in db.readRows ==> r.1.readRows[row] == db.readRows[row])
    ensures NoDuplicateReads(db) ==> NoDuplicateReads(r.1)
  {
    if nid !in db.targets then (false, db)
    else if (nid, partner) in db.readRows then (true, db)
    else (true, db.(readRows := db.readRows[(nid, partner) := 1]))
  }

  /** Marking the same notification twice is the same as marking it once. */
  lemma MarkAsReadIdempotent(db: NotifDb, nid: int, partner: int)
    ensures MarkAsRead(MarkAsRead(db, nid, partner).1, nid, partner) == MarkAsRead(db, nid, partner)
  {
  }

  /** Reading a visible unread notification lowers the partner's unread
      count by one. */
  lemma MarkAsReadCount(db: NotifDb, nid: int, partner: int)
    requires nid in db.targets && Visible(db, nid, partner) && !IsRead(db, nid, partner)
    ensures UnreadCount(MarkAsRead(db, nid, partner).1, partner) == UnreadCount(db, partner) - 1
  {
    var after := MarkAsRead(db, nid, partner).1;
    assert UnreadIds(after, partner) == UnreadIds(db, partner) - {nid};
  }

  /** The notifications `mark_all_as_read` records for `partner`: every
      notification not yet read by them, targeted at others or not. */
  function NewReadRows(db: NotifDb, partner: int): (r: set<(int, int)>)
    ensures forall row :: row in r <==> row.0 in db.targets && row.1 == partner && !IsRead(db, row.0, partner)
  {
    set nid | nid in db.targets && !IsRead(db, nid, partner) :: (nid, partner)
  }

  /** `mark_all_as_read`. */
  function MarkAllAsRead(db: NotifDb, partner: int): (r: NotifDb)
    ensures r.targets == db.targets
    ensures forall nid :: nid in db.targets ==> IsRead(r, nid, partner)
    ensures forall row: (int, int) :: row.1 != partner ==>
      (row in r.readRows <==> row in db.readRows) && (row in db.readRows ==> r.readRows[row] == db.readRows[row])
    ensures NoDuplicateReads(db) ==> NoDuplicateReads(r)
  {
    var rows := NewReadRows(db, partner);
    db.(readRows := map row | row in db.readRows.Keys + rows :: if row in rows then 1 else db.readRows[row])
  }

  /** After `mark_all_as_read` nothing is unread for that partner. */
  lemma MarkAllLeavesNothingUnread(db: NotifDb, partner: int)
    ensures UnreadCount(MarkAllAsRead(db, partner), partner) == 0
  {
    assert UnreadIds(MarkAllAsRead(db, partner), partner) == {};
  }

  /** `mark_all_as_read` also records notifications aimed at other
      partners, which the partner never sees. */
  lemma MarkAllRecordsInvisible(db: NotifDb, partner: int, nid: int, other: int)
    requires nid in db.targets && db.targets[nid] == Some(other) && other != partner
    ensures !Visible(db, nid, partner) && IsRead(MarkAllAsRead(db, partner), nid, partner)
  {
  }

  /** `delete_notification`: `false` for an unknown id; otherwise the
      notification and all of its read rows go. */
  function Delete(db: NotifDb, nid: int): (r: (bool, NotifDb))
    ensures !r.0 <==> nid !in db.targets
    ensures !r.0 ==> r.1 == db
    ensures r.0 ==> r.1.targets == db.targets - {nid}
    ensures r.0 ==> forall row: (int, int) ::
      (row in r.1.readRows <==> row in db.readRows && row.0 != nid) &&
      (row in r.1.readRows ==> r.1.readRows[row] == db.readRows[row])
  {
    if nid !in db.targets then (false, db)
    else (true, NotifDb(db.targets - {nid}, map row | row in db.readRows && row.0 != nid :: db.readRows[row]))
  }

  /** Deleting a notification leaves every other partner view as it was,
      less that notification. */
  lemma DeleteKeepsOthers(db: NotifDb, nid: int, partner: int)
    requires nid in db.targets
    ensures PartnerView(Delete(db, nid).1, partner) == PartnerView(db, partner) - {nid}
  {
  }
}

=== FILE: pagination.dfy ===
/** `paginate` of telegram_bot/bot/utils/pagination.py: one page of a list
    and the number of pages. */
module Pagination {

  /** `max(1, ceil(n / perPage))`. */
  function TotalPages(n: nat, perPage: nat): (r: nat)
    requires perPage > 0
    ensures r >= 1
    ensures n == 0 ==> r == 1
    ensures n > 0 ==> (r - 1) * perPage < n <= r * perPage
  {
    var q := (n + perPage - 1) / perPage;
    CeilBounds(n, perPage);
    if q < 1 then 1 else q
  }

  /** The quotient `(n + perPage - 1) // perPage` brackets `n`. */
  lemma CeilBounds(n: nat, perPage: nat)
    requires perPage > 0
    ensures var q := (n + perPage - 1) / perPage;
      q >= 0 && (n > 0 ==> q >= 1 && (q - 1) * perPage < n <= q * perPage)
  {
    var q := (n + perPage - 1) / perPage;
    var m := (n + perPage - 1) % perPage;
    assert n + perPage - 1 == q * perPage + m && 0 <= m < perPage;
    if n > 0 {
      assert (q - 1) * perPage == q * perPage - perPage;
    }
  }

  /** The requested page clamped into `[0, total - 1]`. */
  function ClampPage(page: int, total: nat): (r: nat)
    requires total >= 1
    ensures r < total
    ensures 0 <= page < total ==> r == page
    ensures page < 0 ==> r == 0
    ensures page >= total ==> r == total - 1
  {
    if page < 0 then 0 else if page > total - 1 then total - 1 else page
  }

  /** Python's `items[start:start + len]` for `0 <= start`: the slice stops
      at the end of the list. */
  function Window<T>(items: seq<T>, start: nat, len: nat): (r: seq<T>)
    ensures |r| <= len
    ensures start <= |items| ==> |r| == if start + len <= |items| then len else |items| - start
    ensures forall k :: 0 <= k < |r| ==> start + k < |items| && r[k] == items[start + k]
  {
    if start >= |items| then []
    else if start + len <= |items| then items[start..start + len]
    else items[start..]
  }

  /** `paginate(items, page, per_page)`: the page (after clamping) and the
      number of pages. */
  function Paginate<T>(items: seq<T>, page: int, perPage: nat): (r: (seq<T>, nat))
    requires perPage > 0
    ensures r.1 == TotalPages(|items|, perPage)
    ensures |r.0| <= perPage
    ensures items == [] ==> r == ([], 1)
    ensures var p := ClampPage(page, r.1);
      p * perPage <= |items| &&
      |r.0| == (if (p + 1) * perPage <= |items| then perPage else |items| - p * perPage) &&
      forall k :: 0 <= k < |r.0| ==> r.0[k] == items[p * perPage + k]
  {
    var total := TotalPages(|items|, perPage);
    var p := ClampPage(page, total);
    PageStartInRange(|items|, perPage, total, p);
    (Window(items, p * perPage, perPage), total)
  }

  /** A page number below the page count starts inside the list, and the
      next page starts one page further on. */
  lemma PageStartInRange(n: nat, perPage: nat, total: nat, p: nat)
    requires perPage > 0 && total == TotalPages(n, perPage) && p < total
    ensures p * perPage <= n
    ensures (p + 1) * perPage == p * perPage + perPage
  {
    MulMono(p, total - 1, perPage);
  }

  /** Every page but the last is full; the last one reaches the end. */
  lemma PageBounds(n: nat, perPage: nat, total: nat, p: nat)
    requires perPage > 0 && total == TotalPages(n, perPage) && p < total
    ensures p * perPage <= n
    ensures p + 1 < total ==> p * perPage + perPage <= n
    ensures p + 1 == total ==> n <= p * perPage + perPage
  {
    PageStartInRange(n, perPage, total, p);
    if p + 1 < total {
      PageStartInRange(n, perPage, total, p + 1);
    }
  }

  /** Out-of-range page numbers read as the nearest page. */
  lemma ClampedPageIsSame<T>(items: seq<T>, page: int, perPage: nat)
    requires perPage > 0
    ensures Paginate(items, page, perPage) == Paginate(items, ClampPage(page, TotalPages(|items|, perPage)), perPage)
  {
  }

  /** Pages `from`, `from + 1`, ... up to the last, concatenated. */
  function PagesFrom<T>(items: seq<T>, perPage: nat, from: nat): seq<T>
    requires perPage > 0
    decreases TotalPages(|items|, perPage) - from
  {
    if from >= TotalPages(|items|, perPage) then []
    else Paginate(items, from, perPage).0 + PagesFrom(items, perPage, from + 1)
  }

  lemma MulMono(a: nat, b: nat, c: nat)
    requires a <= b
    ensures a * c <= b * c
  {
  }

  /** Page `p` is the slice at `p * perPage`; every page but the last is
      full, and the last one reaches the end of the list. */
  lemma PageSlice<T>(items: seq<T>, p: nat, perPage: nat)
    requires perPage > 0 && p < TotalPages(|items|, perPage)
    ensures var page := Paginate(items, p, perPage).0;
      p * perPage + |page| <= |items| &&
      page == items[p * perPage..p * perPage + |page|] &&
      (p + 1 < TotalPages(|items|, perPage) ==> |page| == perPage && (p + 1) * perPage == p * perPage + |page|) &&
      (p + 1 == TotalPages(|items|, perPage) ==> p * perPage + |page| == |items|)
  {
    var total := TotalPages(|items|, perPage);
    var page := Paginate(items, p, perPage).0;
    assert ClampPage(p, total) == p;
    assert (p + 1) * perPage == p * perPage + perPage;
    if p + 1 < total {
      MulMono(p + 1, total - 1, perPage);
    }
    assert page == items[p * perPage..p * perPage + |page|];
  }

  lemma SliceJoin<T>(items: seq<T>, i: nat, j: nat, a: seq<T>, b: seq<T>)
    requires i <= j <= |items| && a == items[i..j] && b == items[j..]
    ensures a + b == items[i..]
  {
  }

  /** Reading the pages from `from` on gives back the list from
      `start = from * perPage` on. */
  lemma {:induction false} PagesFromCover<T>(items: seq<T>, perPage: nat, from: nat, start: nat)
    requires perPage > 0 && from < TotalPages(|items|, perPage) && start == from * perPage
    ensures start <= |items|
    ensures PagesFrom(items, perPage, from) == items[start..]
    decreases TotalPages(|items|, perPage) - from
  {
    var total := TotalPages(|items|, perPage);
    var page := Paginate(items, from, perPage).0;
    var rest := PagesFrom(items, perPage, from + 1);
    assert PagesFrom(items, perPage, from) == page + rest;
    PageSlice(items, from, perPage);
    var next := start + |page|;
    if from + 1 < total {
      PagesFromCover(items, perPage, from + 1, next);
      SliceJoin(items, start, next, page, rest);
    } else {
      SliceJoin(items, start, next, page, rest);
    }
  }

  /** Reading every page in order gives back the whole list. */
  lemma PagesCover<T>(items: seq<T>, perPage: nat)
    requires perPage > 0
    ensures PagesFrom(items, perPage, 0) == items
  {
    PagesFromCover(items, perPage, 0, 0);
  }
}

=== FILE: partner_auth.dfy ===
/** Partner registration, login gating and token refresh of
    backend/app/services/auth_service.py. The partner table is a sequence
    in table order, looked up by e-mail or id (both unique in the table).
    Password hashing, its check and token decoding live in
    app/utils/security.py, which is not part of this model: they are
    parameters, and a token is represented by its decoded payload. */
module PartnerAuth {
  import opened Wrappers
  import opened Text
  import opened Partners

  /** The first partner with the e-mail, in table order. */
  function IndexOfEmail(partners: seq<Partner>, email: string): (r: Option<nat>)
    ensures r.None? <==> forall i :: 0 <= i < |partners| ==> partners[i].email != email
    ensures r.Some? ==> (r.value < |partners| && partners[r.value].email == email &&
      forall i :: 0 <= i < r.value ==> partners[i].email != email)
    decreases |partners|
  {
    if |partners| == 0 then None
    else if partners[0].email == email then Some(0)
    else
      var rest := IndexOfEmail(partners[1..], email);
      assert forall i :: 1 <= i < |partners| ==> partners[i] == partners[1..][i - 1];
      if rest.None? then None else Some(rest.value + 1)
  }

  /** The first partner with the id, in table order. */
  function IndexOfId(partners: seq<Partner>, id: int): (r: Option<nat>)
    ensures r.None? <==> forall i :: 0 <= i < |partners| ==> partners[i].id != id
    ensures r.Some? ==> (r.value < |partners| && partners[r.value].id == id &&
      forall i :: 0 <= i < r.value ==> partners[i].id != id)
    decreases |partners|
  {
    if |partners| == 0 then None
    else if partners[0].id == id then Some(0)
    else
      var rest := IndexOfId(partners[1..], id);
      assert forall i :: 1 <= i < |partners| ==> partners[i] == partners[1..][i - 1];
      if rest.None? then None else Some(rest.value + 1)
  }

  datatype Registration = Registration(email: string, password: string, name: string, company: Option<string>)

  datatype RegisterError = EmailTaken

  /** `register_partner`: a new e-mail adds a pending, inactive partner at
      the end of the table, with the partner code `code` (the first eight
      hex digits of a random UUID, chosen by the caller); a rejected e-mail
      is reset to pending and inactive in place, its reason cleared and its
      code kept; any other known e-mail is refused. */
  function Register(partners: seq<Partner>, reg: Registration, hash: string -> string, newId: int, code: string)
    : (r: Result<seq<Partner>, RegisterError>)
    ensures IndexOfEmail(partners, reg.email).None? ==> (r.Ok? &&
      r.value == partners + [Partner(newId, reg.email, hash(reg.password), reg.name, reg.company, code, "partner",
                                     false, "pending", None, None)])
    ensures IndexOfEmail(partners, reg.email).Some? ==> (
      var i := IndexOfEmail(partners, reg.email).value;
      var p := partners[i];
      (p.approvalStatus != "rejected" ==> r == Err(EmailTaken)) &&
      (p.approvalStatus == "rejected" ==> r.Ok? && r.value == partners[i := p.(
        passwordHash := hash(reg.password), name := reg.name, company := reg.company,
        approvalStatus := "pending", rejectionReason := None, isActive := false)]))
  {
    var idx := IndexOfEmail(partners, reg.email);
    if idx.None? then
      Ok(partners + [Partner(newId, reg.email, hash(reg.password), reg.name, reg.company, code, "partner",
                             false, "pending", None, None)])
    else
      var p := partners[idx.value];
      if p.approvalStatus != "rejected" then Err(EmailTaken)
      else
        Ok(partners[idx.value := p.(passwordHash := hash(reg.password), name := reg.name, company := reg.company,
                                    approvalStatus := "pending", rejectionReason := None, isActive := false)])
  }

  /** Why a login is refused: 401 for bad credentials, 403 otherwise. */
  datatype LoginError =
    | BadCredentials
    | AwaitingApproval
    | RegistrationRejected(detail: string)
    | Deactivated

  /** The text of the rejection, with the reason appended when there is
      one. */
  function RejectionDetail(reason: Option<string>): (r: string)
    ensures !Truthy(reason) ==> r == "Ваша заявка на регистрацию отклонена"
    ensures Truthy(reason) ==> r == "Ваша заявка на регистрацию отклонена. Причина: " + reason.value
  {
    var base := "Ваша заявка на регистрацию отклонена";
    if Truthy(reason) then base + ". Причина: " + reason.value else base
  }

  /** A partner that may receive tokens. */
  predicate MayLogIn(p: Partner): (r: bool)
    ensures r ==> p.isActive
    ensures p.approvalStatus == "pending" || p.approvalStatus == "rejected" ==> !r
    ensures p.approvalStatus == "approved" && p.isActive ==> r
  {
    p.approvalStatus != "pending" && p.approvalStatus != "rejected" && p.isActive
  }

  /** `login_partner`: the id the tokens are issued for, or the first
      refusal in the order credentials, pending, rejected, inactive. */
  function Login(partners: seq<Partner>, email: string, password: string, verify: (string, string) -> bool): (r: Result<int, LoginError>)
    ensures r.Ok? <==> (IndexOfEmail(partners, email).Some? &&
      verify(password, partners[IndexOfEmail(partners, email).value].passwordHash) &&
      MayLogIn(partners[IndexOfEmail(partners, email).value]))
    ensures r.Ok? ==> r.value == partners[IndexOfEmail(partners, email).value].id
    ensures r == Err(BadCredentials) <==> (IndexOfEmail(partners, email).None? ||
      !verify(password, partners[IndexOfEmail(partners, email).value].passwordHash))
    ensures r == Err(AwaitingApproval) ==> partners[IndexOfEmail(partners, email).value].approvalStatus == "pending"
    ensures r.Err? && r.error.RegistrationRejected? ==> (
      var p := partners[IndexOfEmail(partners, email).value];
      p.approvalStatus == "rejected" && r.error.detail == RejectionDetail(p.rejectionReason))
    ensures r == Err(Deactivated) ==> (
      var p := partners[IndexOfEmail(partners, email).value];
      p.approvalStatus != "pending" && p.approvalStatus != "rejected" && !p.isActive)
  {
    var idx := IndexOfEmail(partners, email);
    if idx.None? || !verify(password, partners[idx.value].passwordHash) then Err(BadCredentials)
    else
      var p := partners[idx.value];
      if p.approvalStatus == "pending" then Err(AwaitingApproval)
      else if p.approvalStatus == "rejected" then Err(RegistrationRejected(RejectionDetail(p.rejectionReason)))
      else if !p.isActive then Err(Deactivated)
      else Ok(p.id)
  }

  /** A fresh registration cannot log in until it is approved: with the
      right password the answer is "awaiting approval". */
  lemma RegisteredAwaitsApproval(partners: seq<Partner>, reg: Registration, hash: string -> string,
                                 verify: (string, string) -> bool, newId: int, code: string)
    requires verify(reg.password, hash(reg.password))
    requires Register(partners, reg, hash, newId, code).Ok?
    ensures Login(Register(partners, reg, hash, newId, code).value, reg.email, reg.password, verify) == Err(AwaitingApproval)
  {
    var after := Register(partners, reg, hash, newId, code).value;
    var idx := IndexOfEmail(partners, reg.email);
    if idx.None? {
      assert after[|partners|].email == reg.email;
      assert forall i :: 0 <= i < |partners| ==> after[i] == partners[i];
      assert IndexOfEmail(after, reg.email) == Some(|partners|);
    } else {
      assert forall i :: 0 <= i < idx.value ==> after[i] == partners[i];
      assert after[idx.value].email == reg.email;
      assert IndexOfEmail(after, reg.email) == idx;
    }
  }

  /** The decoded refresh token: its "type" and "sub" claims. */
  datatype TokenPayload = TokenPayload(kind: Option<string>, sub: Option<string>)

  datatype RefreshError =
    | WrongTokenType
    | PartnerNotFound
    /** `int()` of a missing or non-numeric subject raises an error the
        service does not catch. */
    | BadSubject

  /** `refresh_tokens`: the id new tokens are issued for. Approval status
      is not looked at, only the active flag. */
  function Refresh(partners: seq<Partner>, payload: TokenPayload): (r: Result<int, RefreshError>)
    ensures payload.kind != Some("refresh") ==> r == Err(WrongTokenType)
    ensures r.Ok? <==> (payload.kind == Some("refresh") && payload.sub.Some? && ParseInt(payload.sub.value).Some? &&
      IndexOfId(partners, ParseInt(payload.sub.value).value).Some? &&
      partners[IndexOfId(partners, ParseInt(payload.sub.value).value).value].isActive)
    ensures r.Ok? ==> r.value == ParseInt(payload.sub.value).value
    ensures r == Err(BadSubject) <==> (payload.kind == Some("refresh") &&
      (payload.sub.None? || ParseInt(payload.sub.value).None?))
  {
    if payload.kind != Some("refresh") then Err(WrongTokenType)
    else if payload.sub.None? then Err(BadSubject)
    else
      var id := ParseInt(payload.sub.value);
      if id.None? then Err(BadSubject)
      else
        var idx := IndexOfId(partners, id.value);
        if idx.None? || !partners[idx.value].isActive then Err(PartnerNotFound)
        else Ok(partners[idx.value].id)
  }

  /** A token issued at login refreshes for as long as the partner stays
      active: the subject is the printed id. */
  lemma LoginTokenRefreshes(partners: seq<Partner>, email: string, password: string, verify: (string, string) -> bool)
    requires Login(partners, email, password, verify).Ok?
    requires forall i, j :: 0 <= i < j < |partners| ==> partners[i].id != partners[j].id
    ensures var id := Login(partners, email, password, verify).value;
      Refresh(partners, TokenPayload(Some("refresh"), Some(IntToString(id)))) == Ok(id)
  {
    var id := Login(partners, email, password, verify).value;
    var i := IndexOfEmail(partners, email).value;
    ParseIntToString(id);
    assert IndexOfId(partners, id) == Some(i);
  }
}

=== FILE: partners.dfy ===
/** The partner-portal records shared by its services (backend/app/models):
    clients brought in by partners, the partners themselves, and the money
    rules that several services apply the same way. Money is an exact
    `real`; dates and times are whole numbers on one clock. */
module Partners {
  import opened Wrappers

  datatype Client = Client(
    id: int,
    partnerId: int,
    name: string,
    phone: Option<string>,
    externalId: Option<string>,
    dealAmount: Option<real>,
    partnerReward: Option<real>,
    isPaid: bool,
    paidAt: Option<int>,
    paymentComment: Option<string>,
    dealStatus: Option<string>,
    dealStatusName: Option<string>,
    createdAt: int)

  datatype Partner = Partner(
    id: int,
    email: string,
    passwordHash: string,
    name: string,
    company: Option<string>,
    partnerCode: string,
    role: string,
    isActive: bool,
    approvalStatus: string,
    rejectionReason: Option<string>,
    rewardPercentage: Option<real>)

  /** A payout request; `clientIds` is the stored JSON text. */
  datatype PaymentRequest = PaymentRequest(
    id: int,
    partnerId: int,
    status: string,
    totalAmount: real,
    clientIds: string,
    comment: Option<string>,
    adminComment: Option<string>,
    createdAt: int,
    processedAt: Option<int>,
    processedBy: Option<int>)

  /** Client table by id. */
  type Clients = map<int, Client>

  /** Partner table by id. */
  type PartnerTable = map<int, Partner>

  /** Python `x or 0` on an optional amount (`None` and `0.0` both give 0). */
  function AmountOr0(a: Option<real>): (r: real)
    ensures a.None? ==> r == 0.0
    ensures a.Some? ==> r == a.value
  {
    if a.Some? then a.value else 0.0
  }

  /** The client's deal amount, `deal_amount or 0`. */
  function DealOf(c: Client): real {
    AmountOr0(c.dealAmount)
  }

  /** The client's reward, `partner_reward or 0`. */
  function RewardOf(c: Client): real {
    AmountOr0(c.partnerReward)
  }

  /** `x and x > 0` on an optional amount. */
  predicate Positive(a: Option<real>) {
    a.Some? && a.value > 0.0
  }

  /** The partner's own reward percentage, or the configured default. */
  function EffectivePct(p: Partner, defaultPct: real): (r: real)
    ensures p.rewardPercentage.Some? ==> r == p.rewardPercentage.value
    ensures p.rewardPercentage.None? ==> r == defaultPct
  {
    p.rewardPercentage.GetOr(defaultPct)
  }

  /** `amount * pct / 100`, before rounding to kopecks. */
  function Reward(amount: real, pct: real): (r: real)
    ensures amount >= 0.0 && pct >= 0.0 ==> r >= 0.0
    ensures pct == 100.0 ==> r == amount
  {
    amount * pct / 100.0
  }

  /** The partner of a client, when the partner table holds it. */
  function PartnerOf(partners: PartnerTable, c: Client): (r: Option<Partner>)
    ensures r.Some? <==> c.partnerId in partners
    ensures r.Some? ==> r.value == partners[c.partnerId]
  {
    if c.partnerId in partners then Some(partners[c.partnerId]) else None
  }

  /** Sum of `f` over the clients that pass `p`. */
  function SumWhere(cs: seq<Client>, f: Client -> real, p: Client -> bool): real
    decreases |cs|
  {
    if |cs| == 0 then 0.0
    else (if p(cs[0]) then f(cs[0]) else 0.0) + SumWhere(cs[1..], f, p)
  }
}

=== FILE: payment_requests.dfy ===
/** The payout-request lifecycle of
    backend/app/services/payment_request_service.py: the stored id list, the
    checks a new request must pass, and the one-time approval or rejection.
    The request table is a sequence in table order; the clock reading `now`
    and the id of a new request are parameters. */
module PaymentRequests {
  import opened Wrappers
  import opened Text
  import opened Partners
  import Seqs

  // ---------------------------------------------------------------------
  // The stored id list

  /** The pieces `json.dumps` writes between the brackets: the numbers,
      each but the first after a space. */
  function Pieces(ids: seq<int>): (r: seq<string>)
    ensures |r| == |ids|
  {
    seq(|ids|, i requires 0 <= i < |ids| => (if i == 0 then "" else " ") + IntToString(ids[i]))
  }

  /** `json.dumps(client_ids)`: `[1, 5, 12]`. */
  function DumpIds(ids: seq<int>): (r: string)
    ensures |r| >= 2 && r[0] == '[' && r[|r| - 1] == ']'
  {
    "[" + Join(Pieces(ids), ',') + "]"
  }

  /** A JSON array of integers, with whitespace around its parts. */
  function ParseIdList(raw: string): Option<seq<int>> {
    ParseBracketed(Strip(raw))
  }

  function ParseBracketed(t: string): Option<seq<int>> {
    if |t| >= 2 && t[0] == '[' && t[|t| - 1] == ']' then ParseInner(t[1..|t| - 1]) else None
  }

  /** The comma-separated numbers between the brackets. */
  function ParseInner(inner: string): Option<seq<int>> {
    if Strip(inner) == "" then Some([]) else Seqs.MapAll(Split(inner, ','), ParseInt)
  }

  /** `_parse_client_ids`: the stored list, or `[]` when the text is not
      an integer array or is missing. */
  function ParseClientIds(raw: Option<string>): (r: seq<int>)
    ensures raw.None? ==> r == []
    ensures raw.Some? && ParseIdList(raw.value).None? ==> r == []
    ensures raw.Some? && ParseIdList(raw.value).Some? ==> r == ParseIdList(raw.value).value
  {
    if raw.None? then []
    else
      var parsed := ParseIdList(raw.value);
      if parsed.None? then [] else parsed.value
  }

  /** A number after a space reads as the number. */
  lemma ParseSpacedInt(n: int)
    ensures ParseInt(" " + IntToString(n)) == Some(n)
  {
    var s := IntToString(n);
    IntToStringChars(n);
    StripLeadingSpace(s);
    StripUnspaced(s);
    ParseIntOfStripped(" " + s, s);
    ParseIntToString(n);
  }

  /** The inside of the brackets joined with commas. */
  lemma DumpInner(ids: seq<int>)
    ensures var d := DumpIds(ids);
      Strip(d) == d && d[1..|d| - 1] == Join(Pieces(ids), ',')
  {
    var d := DumpIds(ids);
    StripUnspaced(d);
  }

  /** Every stored piece is free of commas and reads as its number. */
  lemma PiecesRead(ids: seq<int>)
    ensures forall i :: 0 <= i < |ids| ==> ',' !in Pieces(ids)[i] && ParseInt(Pieces(ids)[i]) == Some(ids[i])
  {
    forall i | 0 <= i < |ids| ensures ',' !in Pieces(ids)[i] && ParseInt(Pieces(ids)[i]) == Some(ids[i]) {
      PieceRead(ids, i);
    }
  }

  lemma PieceRead(ids: seq<int>, i: int)
    requires 0 <= i < |ids|
    ensures ',' !in Pieces(ids)[i] && ParseInt(Pieces(ids)[i]) == Some(ids[i])
  {
    if i == 0 {
      assert Pieces(ids)[i] == IntToString(ids[i]);
      IntRead(ids[i]);
    } else {
      assert Pieces(ids)[i] == " " + IntToString(ids[i]);
      SpacedIntRead(ids[i]);
    }
  }

  lemma IntRead(n: int)
    ensures ',' !in IntToString(n) && ParseInt(IntToString(n)) == Some(n)
  {
    IntToStringChars(n);
    ParseIntToString(n);
  }

  lemma SpacedIntRead(n: int)
    ensures ',' !in " " + IntToString(n) && ParseInt(" " + IntToString(n)) == Some(n)
  {
    IntToStringChars(n);
    ParseSpacedInt(n);
  }

  /** The inside of a non-empty list is not blank. */
  lemma InnerNotBlank(ids: seq<int>)
    requires ids != []
    ensures Strip(Join(Pieces(ids), ',')) != ""
  {
    var ps := Pieces(ids);
    assert ps[0] == IntToString(ids[0]);
    IntToStringChars(ids[0]);
    JoinHead(ps, ',');
    StripKeeps(Join(ps, ','), 0);
  }

  /** Reading back what was stored gives the ids in order, repeats
      included. */
  lemma DumpParse(ids: seq<int>)
    ensures ParseClientIds(Some(DumpIds(ids))) == ids
  {
    DumpInner(ids);
    var d := DumpIds(ids);
    var ps := Pieces(ids);
    assert ParseIdList(d) == ParseInner(Join(ps, ','));
    if ids == [] {
      assert Join(ps, ',') == "";
    } else {
      PiecesRead(ids);
      SplitJoin(ps, ',');
      InnerNotBlank(ids);
      Seqs.MapAllAll(ps, ParseInt, ids);
      assert ParseInner(Join(ps, ',')) == Some(ids);
    }
  }

  // ---------------------------------------------------------------------
  // Creating a request

  datatype CreateError =
    | NotOwned(missing: set<int>)
    | NoReward(clientId: int)
    | AlreadyRequested(requestId: int, overlap: set<int>)

  /** The requested clients that exist and belong to the partner. */
  function Found(clients: Clients, partnerId: int, ids: seq<int>): (r: set<int>)
    ensures forall x :: x in r <==> x in ids && x in clients && clients[x].partnerId == partnerId
  {
    set x | x in ids && x in clients && clients[x].partnerId == partnerId
  }

  /** The first requested client, in request order, without a reward. */
  function FirstUnrewarded(clients: Clients, ids: seq<int>): (r: Option<int>)
    requires forall i :: 0 <= i < |ids| ==> ids[i] in clients
    ensures r.None? <==> forall i :: 0 <= i < |ids| ==> clients[ids[i]].partnerReward.Some?
    ensures r.Some? ==> r.value in ids && clients[r.value].partnerReward.None?
    decreases |ids|
  {
    if |ids| == 0 then None
    else if clients[ids[0]].partnerReward.None? then Some(ids[0])
    else
      assert forall i :: 1 <= i < |ids| ==> ids[i] == ids[1..][i - 1];
      FirstUnrewarded(clients, ids[1..])
  }

  /** The clients a stored request lists. */
  function ListedIds(pr: PaymentRequest): (r: set<int>)
  {
    set x | x in ParseClientIds(Some(pr.clientIds))
  }

  /** Some pending request with id `id` shares exactly `shared` with
      `found`. */
  predicate SharesAt(requests: seq<PaymentRequest>, found: set<int>, id: int, shared: set<int>) {
    exists i :: 0 <= i < |requests| && requests[i].status == "pending" && requests[i].id == id &&
      shared == found * ListedIds(requests[i])
  }

  /** A pending request that lists one of `found`. */
  predicate Overlaps(request: PaymentRequest, found: set<int>) {
    request.status == "pending" && found * ListedIds(request) != {}
  }

  /** The first pending request, in table order, sharing a client with
      `found`, and what they share. */
  function FirstOverlap(requests: seq<PaymentRequest>, found: set<int>): (r: Option<(int, set<int>)>)
    ensures r.None? <==> forall i :: 0 <= i < |requests| && requests[i].status == "pending" ==>
      found * ListedIds(requests[i]) == {}
    ensures r.Some? ==> r.value.1 != {} && SharesAt(requests, found, r.value.0, r.value.1)
  {
    var n := Seqs.Misses(requests, (pr: PaymentRequest) => Overlaps(pr, found));
    if n == |requests| then None
    else
      assert requests[n].status == "pending";
      Some((requests[n].id, found * ListedIds(requests[n])))
  }

  /** The ids in order with repeats dropped. */
  function Distinct(ids: seq<int>): (r: seq<int>)
    ensures forall x :: x in r <==> x in ids
    ensures forall i, j :: 0 <= i < j < |r| ==> r[i] != r[j]
    decreases |ids|
  {
    if |ids| == 0 then []
    else
      var rest := Distinct(ids[1..]);
      if ids[0] in rest then rest else [ids[0]] + rest
  }

  /** The rewards of the given clients added up (an unknown client or a
      missing reward adds nothing). */
  function RewardTotal(clients: Clients, ids: seq<int>): real
    decreases |ids|
  {
    if |ids| == 0 then 0.0
    else (if ids[0] in clients then AmountOr0(clients[ids[0]].partnerReward) else 0.0) + RewardTotal(clients, ids[1..])
  }

  /** Every requested client exists, is the partner's and has a reward. */
  predicate Eligible(clients: Clients, partnerId: int, ids: seq<int>) {
    forall i :: 0 <= i < |ids| ==>
      ids[i] in clients && clients[ids[i]].partnerId == partnerId && clients[ids[i]].partnerReward.Some?
  }

  /** No pending request lists a requested client. */
  predicate NotPending(requests: seq<PaymentRequest>, ids: seq<int>) {
    forall i, x :: 0 <= i < |requests| && requests[i].status == "pending" && x in ListedIds(requests[i]) ==> x !in ids
  }

  /** The ids that are not the partner's clients. */
  function Missing(clients: Clients, partnerId: int, ids: seq<int>): (r: set<int>)
    ensures forall x :: x in r <==> x in ids && !(x in clients && clients[x].partnerId == partnerId)
    ensures r == {} <==> forall i :: 0 <= i < |ids| ==> ids[i] in clients && clients[ids[i]].partnerId == partnerId
  {
    var found := Found(clients, partnerId, ids);
    var r := set x | x in ids && x !in found;
    assert r == {} <==> forall i :: 0 <= i < |ids| ==> ids[i] in found by {
      if r == {} {
        forall i | 0 <= i < |ids| ensures ids[i] in found {
          var x := ids[i];
          assert x in ids && x !in r;
        }
      }
    }
    r
  }

  /** With every requested client found, no pending request shares one
      exactly when no pending request lists one. */
  lemma OverlapFree(requests: seq<PaymentRequest>, found: set<int>, ids: seq<int>)
    requires forall x :: x in found <==> x in ids
    ensures FirstOverlap(requests, found).None? <==> NotPending(requests, ids)
  {
    if FirstOverlap(requests, found).None? {
      forall i, x | 0 <= i < |requests| && requests[i].status == "pending" && x in ListedIds(requests[i])
        ensures x !in ids
      {
        assert x !in found * ListedIds(requests[i]);
      }
    } else {
      var r := FirstOverlap(requests, found).value;
      var i :| 0 <= i < |requests| && requests[i].status == "pending" && requests[i].id == r.0 &&
        r.1 == found * ListedIds(requests[i]);
      var x := Seqs.Pick(r.1);
      assert x in ListedIds(requests[i]) && x in ids;
    }
  }

  /** `create_payment_request`: refused when a requested client is not the
      partner's, when one has no reward yet, or when one is already in a
      pending request; otherwise a pending request for the sum of the
      distinct clients' rewards. Whether a client is already paid is not
      checked. */
  function Create(requests: seq<PaymentRequest>, clients: Clients, partnerId: int, ids: seq<int>,
                  comment: Option<string>, newId: int, now: int): (r: Result<PaymentRequest, CreateError>)
    ensures r.Err? && r.error.NotOwned? ==> r.error.missing != {} && r.error.missing == Missing(clients, partnerId, ids)
    ensures r.Ok? <==> Eligible(clients, partnerId, ids) && NotPending(requests, ids)
    ensures r.Ok? ==> (r.value.status == "pending" && r.value.partnerId == partnerId && r.value.id == newId &&
      r.value.processedAt.None? && r.value.processedBy.None? &&
      ParseClientIds(Some(r.value.clientIds)) == ids)
    ensures r.Ok? ==> r.value.totalAmount == RewardTotal(clients, Distinct(ids))
  {
    var missing := Missing(clients, partnerId, ids);
    if missing != {} then Err(NotOwned(missing))
    else
      var unrewarded := FirstUnrewarded(clients, ids);
      if unrewarded.Some? then Err(NoReward(unrewarded.value))
      else
        var found := Found(clients, partnerId, ids);
        OverlapFree(requests, found, ids);
        var overlap := FirstOverlap(requests, found);
        if overlap.Some? then Err(AlreadyRequested(overlap.value.0, overlap.value.1))
        else
          DumpParse(ids);
          Ok(PaymentRequest(newId, partnerId, "pending", RewardTotal(clients, Distinct(ids)), DumpIds(ids),
                            comment, None, now, None, None))
  }

  /** While a request is pending its clients cannot be requested again. */
  lemma NoDoubleBooking(requests: seq<PaymentRequest>, clients: Clients, partnerId: int, ids: seq<int>,
                        comment: Option<string>, newId: int, now: int, ids2: seq<int>, x: int,
                        comment2: Option<string>, newId2: int, later: int)
    requires Create(requests, clients, partnerId, ids, comment, newId, now).Ok?
    requires x in ids && x in ids2
    ensures Create(requests + [Create(requests, clients, partnerId, ids, comment, newId, now).value],
                   clients, partnerId, ids2, comment2, newId2, later).Err?
  {
    var pr := Create(requests, clients, partnerId, ids, comment, newId, now).value;
    var all := requests + [pr];
    assert all[|requests|] == pr && pr.status == "pending";
    assert x in ParseClientIds(Some(pr.clientIds));
  }

  // ---------------------------------------------------------------------
  // Processing a request

  /** The admin's decision; the request schema admits only these two. */
  datatype Decision = Approved | Rejected

  function StatusOf(d: Decision): string {
    if d == Approved then "approved" else "rejected"
  }

  datatype ProcessError = RequestNotFound | AlreadyProcessed

  /** The notification the partner receives about the decision. */
  datatype Notice = Notice(targetPartnerId: int, createdBy: int, approved: bool, requestId: int,
                           comment: Option<string>)

  /** The first request with the id, in table order. */
  function IndexOfRequest(requests: seq<PaymentRequest>, id: int): (r: Option<nat>)
    ensures r.None? <==> forall i :: 0 <= i < |requests| ==> requests[i].id != id
    ensures r.Some? ==> (r.value < |requests| && requests[r.value].id == id &&
      forall i :: 0 <= i < r.value ==> requests[i].id != id)
  {
    Seqs.FirstIndex(requests, (x: PaymentRequest) => x.id == id)
  }

  /** Approval marks every listed client that exists as paid now. */
  function MarkPaid(clients: Clients, ids: seq<int>, now: int): (r: Clients)
    ensures r.Keys == clients.Keys
    ensures forall k :: k in clients && k in ids ==> r[k] == clients[k].(isPaid := true, paidAt := Some(now))
    ensures forall k :: k in clients && k !in ids ==> r[k] == clients[k]
  {
    map k | k in clients :: if k in ids then clients[k].(isPaid := true, paidAt := Some(now)) else clients[k]
  }

  /** `process_request`: an unknown request is not found, a request no
      longer pending is refused; otherwise the decision is recorded, an
      approval pays the listed clients, and the partner is notified. */
  function Process(requests: seq<PaymentRequest>, clients: Clients, id: int, adminId: int, d: Decision,
                   adminComment: Option<string>, now: int): (r: Result<(seq<PaymentRequest>, Clients, Notice), ProcessError>)
    ensures r == Err(RequestNotFound) <==> IndexOfRequest(requests, id).None?
    ensures r == Err(AlreadyProcessed) <==>
      IndexOfRequest(requests, id).Some? && requests[IndexOfRequest(requests, id).value].status != "pending"
    ensures r.Ok? ==> (
      var i := IndexOfRequest(requests, id).value;
      var pr := requests[i];
      pr.status == "pending" &&
      r.value.0 == requests[i := pr.(status := StatusOf(d), processedAt := Some(now), processedBy := Some(adminId),
                                     adminComment := adminComment)] &&
      r.value.2 == Notice(pr.partnerId, adminId, d == Approved, pr.id, adminComment) &&
      (d == Rejected ==> r.value.1 == clients) &&
      (d == Approved ==> r.value.1 == MarkPaid(clients, ParseClientIds(Some(pr.clientIds)), now)))
  {
    var idx := IndexOfRequest(requests, id);
    if idx.None? then Err(RequestNotFound)
    else
      var pr := requests[idx.value];
      if pr.status != "pending" then Err(AlreadyProcessed)
      else
        var updated := pr.(status := StatusOf(d), processedAt := Some(now), processedBy := Some(adminId),
                           adminComment := adminComment);
        var paid := if d == Approved then MarkPaid(clients, ParseClientIds(Some(pr.clientIds)), now) else clients;
        Ok((requests[idx.value := updated], paid, Notice(pr.partnerId, adminId, d == Approved, pr.id, adminComment)))
  }

  /** A request is processed at most once: whatever the second decision,
      it is refused. */
  lemma ProcessedOnce(requests: seq<PaymentRequest>, clients: Clients, id: int, admin1: int, admin2: int,
                      d1: Decision, d2: Decision, c1: Option<string>, c2: Option<string>, t1: int, t2: int)
    requires Process(requests, clients, id, admin1, d1, c1, t1).Ok?
    ensures var after := Process(requests, clients, id, admin1, d1, c1, t1).value;
      Process(after.0, after.1, id, admin2, d2, c2, t2) == Err(AlreadyProcessed)
  {
    var i := IndexOfRequest(requests, id).value;
    var after := Process(requests, clients, id, admin1, d1, c1, t1).value;
    assert forall j :: 0 <= j < i ==> after.0[j] == requests[j];
    assert after.0[i].id == id && after.0[i].status != "pending";
    assert IndexOfRequest(after.0, id) == Some(i);
  }

  /** Creating a request and approving it pays exactly the requested
      clients. */
  lemma ApprovalPaysRequested(requests: seq<PaymentRequest>, clients: Clients, partnerId: int, ids: seq<int>,
                              comment: Option<string>, newId: int, now: int, adminId: int, later: int)
    requires Create(requests, clients, partnerId, ids, comment, newId, now).Ok?
    requires forall i :: 0 <= i < |requests| ==> requests[i].id != newId
    ensures var pr := Create(requests, clients, partnerId, ids, comment, newId, now).value;
      var after := Process(requests + [pr], clients, newId, adminId, Approved, None, later);
      after.Ok? && after.value.1 == MarkPaid(clients, ids, later) &&
      forall k :: k in clients ==> (after.value.1[k].isPaid <==> k in ids || clients[k].isPaid)
  {
    var pr := Create(requests, clients, partnerId, ids, comment, newId, now).value;
    var all := requests + [pr];
    assert all[|requests|] == pr;
    assert forall i :: 0 <= i < |requests| ==> all[i].id != newId;
    assert IndexOfRequest(all, newId) == Some(|requests|);
  }
}

=== FILE: public_router.dfy ===
/** The public endpoints of the partner portal (backend/app/routers/public.py):
    following a partner link, and relaying the CRM webhook to the lead
    transfer service, where the answer's `lead_update` brings the partner's
    client up to date and announces a closed deal once. Links are keyed by
    their code, which the table keeps unique. Rendering HTML, building the
    UTM query and parsing a number with `float()` are parameters or left
    out. */
module PublicRouter {
  import opened Wrappers
  import opened Partners
  import Reconcile
  import AdminService
  import B24Models
  import Seqs

  datatype PartnerLink = PartnerLink(
    id: int,
    partnerId: int,
    linkCode: string,
    linkType: string,
    targetUrl: Option<string>,
    landingId: Option<int>,
    isActive: bool)

  /** Links by their (unique) code. */
  type Links = map<string, PartnerLink>

  /** What the request tells about the visitor. */
  datatype Visitor = Visitor(host: Option<string>, userAgent: Option<string>, referer: Option<string>)

  /** A recorded visit of a link. */
  datatype Click = Click(linkId: int, ipAddress: Option<string>, userAgent: string, referer: Option<string>)

  /** `_find_active_link`: the link with the code, unless it is missing or
      switched off (404). */
  function FindActiveLink(links: Links, code: string): (r: Option<PartnerLink>)
    ensures r.Some? <==> code in links && links[code].isActive
    ensures r.Some? ==> r.value == links[code]
  {
    if code in links && links[code].isActive then Some(links[code]) else None
  }

  /** `_record_click`: the user agent defaults to the empty text. */
  function ClickOf(link: PartnerLink, v: Visitor): (r: Click)
    ensures r.linkId == link.id && r.ipAddress == v.host && r.referer == v.referer
    ensures v.userAgent.None? ==> r.userAgent == ""
    ensures v.userAgent.Some? ==> r.userAgent == v.userAgent.value
  {
    Click(link.id, v.host, v.userAgent.GetOr(""), v.referer)
  }

  /** The answer to a visit: a 302 to a location, the lead form of a link,
      or the rendered landing page. */
  datatype Page = Found(location: string) | LeadForm(linkCode: string) | LandingHtml(landingId: int)

  datatype VisitError = LinkNotFound | LandingNotFound

  /** The path that shows the landing of a link. */
  function LandingPath(code: string): (r: string)
    ensures |r| == |"/api/public/landing/"| + |code|
    ensures r[..|"/api/public/landing/"|] == "/api/public/landing/" && r[|"/api/public/landing/"|..] == code
  {
    "/api/public/landing/" + code
  }

  /** `redirect_link`: the click is recorded before the answer is chosen;
      a direct link goes to its target with the UTM query added
      (`withUtm`), a landing link to the landing path, anything else shows
      the lead form. */
  function RedirectLink(links: Links, clicks: seq<Click>, code: string, v: Visitor,
                        withUtm: PartnerLink -> string): (r: Result<(Page, seq<Click>), VisitError>)
    ensures r.Err? <==> FindActiveLink(links, code).None?
    ensures r.Err? ==> r.error == LinkNotFound
    ensures r.Ok? ==> (
      var link := links[code];
      r.value.1 == clicks + [ClickOf(link, v)] &&
      (link.linkType == "direct" ==> r.value.0 == Found(withUtm(link))) &&
      (link.linkType == "landing" ==> r.value.0 == Found(LandingPath(code))) &&
      (link.linkType != "direct" && link.linkType != "landing" ==> r.value.0 == LeadForm(code)))
  {
    match FindActiveLink(links, code)
    case None => Err(LinkNotFound)
    case Some(link) =>
      var clicks' := clicks + [ClickOf(link, v)];
      if link.linkType == "direct" then Ok((Found(withUtm(link)), clicks'))
      else if link.linkType == "landing" then Ok((Found(LandingPath(code)), clicks'))
      else Ok((LeadForm(code), clicks'))
  }

  /** `landing_page`: a landing link with a landing id shows that landing
      if it is active and 404s otherwise; every other link shows the lead
      form. The click is committed before the landing is looked up, so it
      stays recorded when the landing is missing. */
  function LandingPage(links: Links, activeLandings: set<int>, clicks: seq<Click>, code: string,
                       v: Visitor): (r: (Result<Page, VisitError>, seq<Click>))
    ensures FindActiveLink(links, code).None? ==> r == (Err(LinkNotFound), clicks)
    ensures FindActiveLink(links, code).Some? ==> r.1 == clicks + [ClickOf(links[code], v)]
    ensures r.0.Ok? && r.0.value.LandingHtml? ==> (
      var link := links[code];
      link.linkType == "landing" && link.landingId == Some(r.0.value.landingId) &&
      r.0.value.landingId != 0 && r.0.value.landingId in activeLandings)
    ensures r.0 == Err(LandingNotFound) <==> (FindActiveLink(links, code).Some? &&
      links[code].linkType == "landing" && links[code].landingId.Some? && links[code].landingId.value != 0 &&
      links[code].landingId.value !in activeLandings)
    ensures r.0.Ok? && r.0.value.LeadForm? ==> (
      var link := links[code];
      r.0.value.linkCode == code && (link.linkType != "landing" || link.landingId.None? || link.landingId.value == 0))
  {
    match FindActiveLink(links, code)
    case None => (Err(LinkNotFound), clicks)
    case Some(link) =>
      var clicks' := clicks + [ClickOf(link, v)];
      if link.linkType == "landing" && link.landingId.Some? && link.landingId.value != 0 then
        if link.landingId.value in activeLandings then (Ok(LandingHtml(link.landingId.value)), clicks')
        else (Err(LandingNotFound), clicks')
      else (Ok(LeadForm(code)), clicks')
  }

  /** Every served visit is counted once and a refused one not at all. */
  lemma VisitCountedOnce(links: Links, clicks: seq<Click>, code: string, v: Visitor, withUtm: PartnerLink -> string)
    ensures var r := RedirectLink(links, clicks, code, v, withUtm);
      r.Ok? ==> |r.value.1| == |clicks| + 1 && r.value.1[..|clicks|] == clicks && r.value.1[|clicks|].linkId == links[code].id
    ensures var r := LandingPage(links, {}, clicks, code, v);
      (r.0 == Err(LinkNotFound) <==> |r.1| == |clicks|)
  {
  }

  // ---------------------------------------------------------------------
  // Relaying the CRM webhook

  /** What the lead transfer service answered: its status and body, and
      the `lead_update` the body carries (`None` when it has none or is
      not JSON). */
  datatype Upstream = Upstream(statusCode: int, content: string, leadUpdate: Option<Reconcile.LeadUpdate>)

  /** The notification about a closed deal, sent by the first admin to the
      client's partner; the amount and the reward appear in the text only
      when they are positive. */
  datatype DealNotice = DealNotice(createdBy: int, targetPartnerId: int, clientName: string,
                                   amount: Option<real>, reward: Option<real>)

  datatype ProxyReply = BadGateway | Relayed(statusCode: int, content: string)

  datatype ProxyOutcome = ProxyOutcome(reply: ProxyReply, clients: Clients, notice: Option<DealNotice>)

  /** The deal amount the update carries: its `opportunity` read by
      `float()` (`parseFloat`, which fails with `None`). */
  function OpportunityOf(u: Reconcile.LeadUpdate, parseFloat: string -> Option<real>): (r: Option<real>)
    ensures u.opportunity.None? ==> r.None?
    ensures u.opportunity.Some? ==> r == parseFloat(u.opportunity.value)
  {
    if u.opportunity.Some? then parseFloat(u.opportunity.value) else None
  }

  /** The reward a client earns on its stored amount, when the amount is
      positive and its partner is known. */
  function SyncReward(c: Client, partners: PartnerTable, defaultPct: real): (r: Option<real>)
    ensures r.Some? <==> Positive(c.dealAmount) && c.partnerId in partners
    ensures r.Some? ==> r.value == Reward(c.dealAmount.value, EffectivePct(partners[c.partnerId], defaultPct))
  {
    if Positive(c.dealAmount) && c.partnerId in partners then
      Some(Reward(c.dealAmount.value, EffectivePct(partners[c.partnerId], defaultPct)))
    else None
  }

  /** The fields the webhook relay never touches agree. */
  predicate SameBookkeeping(a: Client, b: Client) {
    a.id == b.id && a.partnerId == b.partnerId && a.name == b.name && a.phone == b.phone &&
    a.externalId == b.externalId && a.isPaid == b.isPaid && a.paidAt == b.paidAt &&
    a.paymentComment == b.paymentComment && a.createdAt == b.createdAt
  }

  /** The client after a `lead_update`: the stage is copied (its name even
      when absent), a positive opportunity replaces the amount, and the
      reward is recomputed from the stored amount; the second component is
      the reward computed, if any. */
  function SyncClient(c: Client, u: Reconcile.LeadUpdate, partners: PartnerTable, defaultPct: real,
                      parseFloat: string -> Option<real>): (r: (Client, Option<real>))
    ensures SameBookkeeping(c, r.0)
    ensures r.0.dealStatus == Some(u.status) && r.0.dealStatusName == u.statusName
    ensures Positive(OpportunityOf(u, parseFloat)) ==> r.0.dealAmount == OpportunityOf(u, parseFloat)
    ensures !Positive(OpportunityOf(u, parseFloat)) ==> r.0.dealAmount == c.dealAmount
    ensures r.1 == SyncReward(r.0, partners, defaultPct)
    ensures r.1.Some? ==> r.0.partnerReward == r.1
    ensures r.1.None? ==> r.0.partnerReward == c.partnerReward
  {
    var c1 := c.(dealStatus := Some(u.status), dealStatusName := u.statusName);
    var amount := OpportunityOf(u, parseFloat);
    var c2 := if Positive(amount) then c1.(dealAmount := amount) else c1;
    var reward := SyncReward(c2, partners, defaultPct);
    if reward.Some? then (c2.(partnerReward := reward), reward) else (c2, None)
  }

  /** Relaying the same update twice leaves the client as the first relay
      left it. */
  lemma SyncIdempotent(c: Client, u: Reconcile.LeadUpdate, partners: PartnerTable, defaultPct: real,
                       parseFloat: string -> Option<real>)
    ensures var once := SyncClient(c, u, partners, defaultPct, parseFloat).0;
      SyncClient(once, u, partners, defaultPct, parseFloat).0 == once
  {
  }

  /** A positive opportunity sets the same amount and reward an admin's
      payment edit with that amount would set (the reward rule is one rule
      in both places). */
  lemma SyncAgreesWithPaymentEdit(c: Client, u: Reconcile.LeadUpdate, partners: PartnerTable, defaultPct: real,
                                  parseFloat: string -> Option<real>, now: int)
    requires Positive(OpportunityOf(u, parseFloat)) && c.partnerId in partners
    ensures var synced := SyncClient(c, u, partners, defaultPct, parseFloat).0;
      var edited := AdminEdit(c, OpportunityOf(u, parseFloat), partners, defaultPct, now);
      synced.dealAmount == edited.dealAmount && synced.partnerReward == edited.partnerReward
  {
  }

  /** The admin's edit of only the deal amount, for comparison. */
  function AdminEdit(c: Client, amount: Option<real>, partners: PartnerTable, defaultPct: real, now: int): (r: Client)
    ensures r.dealAmount == (if amount.Some? then amount else c.dealAmount)
    ensures r.isPaid == c.isPaid && r.paidAt == c.paidAt
  {
    AdminService.ApplyPayment(c, AdminService.PaymentUpdate(amount, None, None, None), PartnerOf(partners, c), defaultPct, now)
  }

  /** The clients whose external id is the CRM lead id. */
  function ClientsWithExternalId(clients: Clients, key: string): (r: set<int>)
    ensures forall k :: k in r <==> k in clients && clients[k].externalId == Some(key)
  {
    set k | k in clients && clients[k].externalId == Some(key)
  }

  /** The notice for a deal that became successful, if there is an admin
      to send it. */
  function NoticeFor(c: Client, reward: Option<real>, becameSuccessful: bool, firstAdmin: Option<int>): (r: Option<DealNotice>)
    ensures r.Some? <==> becameSuccessful && firstAdmin.Some?
    ensures r.Some? ==> (r.value.createdBy == firstAdmin.value && r.value.targetPartnerId == c.partnerId &&
      r.value.clientName == c.name &&
      (r.value.amount.Some? <==> Positive(c.dealAmount)) && (r.value.amount.Some? ==> r.value.amount == c.dealAmount) &&
      (r.value.reward.Some? <==> Positive(reward)) && (r.value.reward.Some? ==> r.value.reward == reward))
  {
    if becameSuccessful && firstAdmin.Some? then
      Some(DealNotice(firstAdmin.value, c.partnerId, c.name,
                      if Positive(c.dealAmount) then c.dealAmount else None,
                      if Positive(reward) then reward else None))
    else None
  }

  /** `k` is the one client with the external id, and only it was
      brought up to date. */
  predicate SyncedOnly(before: Clients, after: Clients, k: int, key: string, u: Reconcile.LeadUpdate,
                       partners: PartnerTable, defaultPct: real, parseFloat: string -> Option<real>) {
    ClientsWithExternalId(before, key) == {k} && k in before &&
    after == before[k := SyncClient(before[k], u, partners, defaultPct, parseFloat).0]
  }

  /** The answer carries a lead update with a CRM lead id that exactly
      one client has as its external id. */
  predicate SingleMatch(upstream: Option<Upstream>, clients: Clients) {
    upstream.Some? && upstream.value.leadUpdate.Some? && upstream.value.leadUpdate.value.b24LeadId != "" &&
    |ClientsWithExternalId(clients, upstream.value.leadUpdate.value.b24LeadId)| == 1
  }

  /** `proxy_b24_webhook`. `upstream` is `None` when the service could not
      be reached; `firstAdmin` is the id of the admin the query returns
      first. The client is updated only when exactly one has the CRM lead
      id as external id: with several, the lookup raises and the error is
      swallowed. The upstream answer is passed on unchanged in every case. */
  function Proxy(upstream: Option<Upstream>, clients: Clients, partners: PartnerTable, firstAdmin: Option<int>,
                 defaultPct: real, parseFloat: string -> Option<real>): (r: ProxyOutcome)
    requires firstAdmin.Some? ==> firstAdmin.value in partners && partners[firstAdmin.value].role == "admin"
    ensures upstream.None? <==> r.reply == BadGateway
    ensures upstream.Some? ==> r.reply == Relayed(upstream.value.statusCode, upstream.value.content)
    ensures r.clients.Keys == clients.Keys
    ensures SingleMatch(upstream, clients) ==> exists k :: SyncedOnly(clients, r.clients, k,
      upstream.value.leadUpdate.value.b24LeadId, upstream.value.leadUpdate.value, partners, defaultPct, parseFloat)
    ensures !SingleMatch(upstream, clients) ==> r.clients == clients
    ensures r.notice.Some? ==> (upstream.Some? && upstream.value.leadUpdate.Some? &&
      upstream.value.leadUpdate.value.becameSuccessful && firstAdmin.Some? &&
      r.notice.value.createdBy == firstAdmin.value && partners[r.notice.value.createdBy].role == "admin")
  {
    if upstream.None? then ProxyOutcome(BadGateway, clients, None)
    else
      var reply := Relayed(upstream.value.statusCode, upstream.value.content);
      var lu := upstream.value.leadUpdate;
      if lu.None? || lu.value.b24LeadId == "" then ProxyOutcome(reply, clients, None)
      else
        var matches := ClientsWithExternalId(clients, lu.value.b24LeadId);
        if |matches| != 1 then ProxyOutcome(reply, clients, None)
        else
          var k := Seqs.TheOnly(matches);
          var synced := SyncClient(clients[k], lu.value, partners, defaultPct, parseFloat);
          assert SyncedOnly(clients, clients[k := synced.0], k, lu.value.b24LeadId, lu.value, partners, defaultPct, parseFloat);
          ProxyOutcome(reply, clients[k := synced.0], NoticeFor(synced.0, synced.1, lu.value.becameSuccessful, firstAdmin))
  }

  /** A notice is sent exactly when the update reports a success for a
      client the portal knows and there is an admin. */
  lemma NoticeExactlyOnSuccess(upstream: Option<Upstream>, clients: Clients, partners: PartnerTable, firstAdmin: Option<int>,
                               defaultPct: real, parseFloat: string -> Option<real>)
    requires firstAdmin.Some? ==> firstAdmin.value in partners && partners[firstAdmin.value].role == "admin"
    ensures Proxy(upstream, clients, partners, firstAdmin, defaultPct, parseFloat).notice.Some? <==> (
      upstream.Some? && upstream.value.leadUpdate.Some? && upstream.value.leadUpdate.value.becameSuccessful &&
      upstream.value.leadUpdate.value.b24LeadId != "" &&
      |ClientsWithExternalId(clients, upstream.value.leadUpdate.value.b24LeadId)| == 1 && firstAdmin.Some?)
  {
  }

  /** The `lead_update` the proxy sees in an answer of the webhook handler. */
  function UpdateIn(resp: Reconcile.Response): (r: Option<Reconcile.LeadUpdate>)
    ensures resp.Rejected? ==> r.None?
    ensures resp.Accepted? ==> r == resp.update
  {
    if resp.Accepted? then resp.update else None
  }

  /** Redelivery, end to end: when the CRM delivers the same webhook again,
      the handler's second answer makes the relay send no second
      closed-deal notice, whatever the client and partner tables hold by
      then. */
  lemma RedeliveryNotifiesOnce(form: seq<(string, string)>, workflows: seq<B24Models.Workflow>,
                               mappings: seq<B24Models.FieldMapping>, stores: B24Models.Stores,
                               crmFor: string -> Reconcile.Crm, cache: Reconcile.StatusCache, now: real, now2: real,
                               statusCode: int, content: string, clients: Clients, partners: PartnerTable,
                               firstAdmin: Option<int>, defaultPct: real, parseFloat: string -> Option<real>)
    requires firstAdmin.Some? ==> firstAdmin.value in partners && partners[firstAdmin.value].role == "admin"
    ensures var first := Reconcile.Handle(form, workflows, mappings, stores, crmFor, cache, now);
      var second := Reconcile.Handle(form, workflows, mappings, first.stores, crmFor, first.cache, now2);
      Proxy(Some(Upstream(statusCode, content, UpdateIn(second.response))), clients, partners, firstAdmin,
            defaultPct, parseFloat).notice.None?
  {
    var first := Reconcile.Handle(form, workflows, mappings, stores, crmFor, cache, now);
    Reconcile.RepeatedRequestReportsOnce(form, workflows, mappings, stores, crmFor, cache, now, now2);
    var second := Reconcile.Handle(form, workflows, mappings, first.stores, crmFor, first.cache, now2);
    NoticeExactlyOnSuccess(Some(Upstream(statusCode, content, UpdateIn(second.response))), clients, partners,
                           firstAdmin, defaultPct, parseFloat);
  }
}

=== FILE: reconcile.dfy ===
/** The state update of `handle_bitrix24_webhook`
    (b24-transfer-lead/src/backend/api/v1/webhook.py): a lead or deal event
    from a CRM portal is matched to a local lead in one of the matching
    workflows, the lead is brought up to date, and the handler reports a
    `lead_update` whose `became_successful` flag drives one-time payout
    notifications downstream. */
module Reconcile {
  import opened Wrappers
  import opened Text
  import opened B24Models
  import opened B24Crm
  import FormKeys
  import Seqs
  import TtlCache
  import WebhookInput

  /** The process-wide lead-status cache. */
  type StatusCache = TtlCache.Cache<seq<StatusEntry>>

  /** What one CRM portal answers to each call the handler makes; `None`
      stands for a call that raised. `dealsByLead` never raises (the client
      returns [] instead) and `statusList` is keyed by status entity id. */
  datatype Crm = Crm(
    lead: int -> Option<Reply>,
    deal: int -> Option<Reply>,
    user: int -> Option<Reply>,
    dealsByLead: int -> seq<Fields>,
    statusList: string -> Option<seq<Fields>>)

  /** The `lead_update` object of the response. */
  datatype LeadUpdate = LeadUpdate(
    b24LeadId: string,
    workflowId: int,
    status: string,
    statusName: Option<string>,
    semantic: Option<string>,
    becameSuccessful: bool,
    opportunity: Option<string>,
    dealId: Option<string>)

  /** An HTTP error, or `{"status": "ok"}` with an optional `lead_update`. */
  datatype Response = Rejected(reason: WebhookInput.Rejection) | Accepted(update: Option<LeadUpdate>)

  /** The response together with the workflow databases and the status
      cache after the request. */
  datatype Outcome = Outcome(response: Response, stores: Stores, cache: StatusCache)

  /** The result of one branch: the update, if any, and the new state. */
  datatype Step = Step(update: Option<LeadUpdate>, stores: Stores, cache: StatusCache)

  // ---------------------------------------------------------------------
  // Looking a lead up across workflows

  /** Index of the first lead whose CRM id is `key` (`.first()` in table
      order). */
  function FirstWithId(leads: seq<Lead>, key: string): (r: Option<nat>)
    ensures r.Some? ==> (r.value < |leads| && leads[r.value].b24Id == Some(key) &&
      forall j :: 0 <= j < r.value ==> leads[j].b24Id != Some(key))
    ensures r.None? ==> forall j :: 0 <= j < |leads| ==> leads[j].b24Id != Some(key)
    decreases |leads|
  {
    if |leads| == 0 then None
    else if leads[0].b24Id == Some(key) then Some(0)
    else
      var rest := FirstWithId(leads[1..], key);
      assert forall j :: 1 <= j < |leads| ==> leads[j] == leads[1..][j - 1];
      if rest.None? then None else Some(rest.value + 1)
  }

  /** Where a search ended: the lead at `index` in the database of
      `tenants[tenant]`, nothing, or a workflow database whose query raised
      (which aborts the event). */
  datatype Search = Hit(tenant: nat, index: nat) | Miss | Broken

  /** The workflow's database holds no lead with CRM id `key`. */
  predicate Lacks(stores: Stores, w: Workflow, key: string) {
    w.id in stores && FirstWithId(stores[w.id].leads, key).None?
  }

  /** A search hit names an existing lead. */
  predicate ValidHit(tenants: seq<Workflow>, stores: Stores, s: Search) {
    s.Hit? && s.tenant < |tenants| && tenants[s.tenant].id in stores &&
    s.index < |stores[tenants[s.tenant].id].leads|
  }

  /** The lead-event search: the tenants in order, each by CRM lead id. */
  function SearchLead(tenants: seq<Workflow>, stores: Stores, key: string, from: nat): (r: Search)
    requires from <= |tenants|
    ensures r.Hit? ==> (ValidHit(tenants, stores, r) && from <= r.tenant &&
      Some(r.index) == FirstWithId(stores[tenants[r.tenant].id].leads, key) &&
      forall t :: from <= t < r.tenant ==> Lacks(stores, tenants[t], key))
    ensures r.Miss? ==> forall t :: from <= t < |tenants| ==> Lacks(stores, tenants[t], key)
    ensures r.Broken? ==> exists t :: (from <= t < |tenants| && tenants[t].id !in stores &&
      forall u :: from <= u < t ==> Lacks(stores, tenants[u], key))
    decreases |tenants| - from
  {
    if from == |tenants| then Miss
    else if tenants[from].id !in stores then Broken
    else
      var found := FirstWithId(stores[tenants[from].id].leads, key);
      if found.Some? then Hit(from, found.value)
      else SearchLead(tenants, stores, key, from + 1)
  }

  /** The deal-event search: each tenant in order is tried first by the deal
      id, then by the deal's lead id (`leadKey`, present when `LEAD_ID` is
      truthy), before the next tenant is tried. */
  function SearchDeal(tenants: seq<Workflow>, stores: Stores, dealKey: string, leadKey: Option<string>, from: nat): (r: Search)
    requires from <= |tenants|
    ensures r.Hit? ==> (ValidHit(tenants, stores, r) && from <= r.tenant &&
      var leads := stores[tenants[r.tenant].id].leads;
      (Some(r.index) == FirstWithId(leads, dealKey) ||
       (FirstWithId(leads, dealKey).None? && leadKey.Some? && Some(r.index) == FirstWithId(leads, leadKey.value))))
    ensures r.Hit? ==> forall t :: from <= t < r.tenant ==>
      Lacks(stores, tenants[t], dealKey) && (leadKey.Some? ==> Lacks(stores, tenants[t], leadKey.value))
    ensures r.Miss? ==> forall t :: from <= t < |tenants| ==>
      Lacks(stores, tenants[t], dealKey) && (leadKey.Some? ==> Lacks(stores, tenants[t], leadKey.value))
    ensures r.Broken? ==> exists t :: (from <= t < |tenants| && tenants[t].id !in stores &&
      forall u :: from <= u < t ==>
        Lacks(stores, tenants[u], dealKey) && (leadKey.Some? ==> Lacks(stores, tenants[u], leadKey.value)))
    decreases |tenants| - from
  {
    if from == |tenants| then Miss
    else if tenants[from].id !in stores then Broken
    else
      var leads := stores[tenants[from].id].leads;
      var direct := FirstWithId(leads, dealKey);
      if direct.Some? then Hit(from, direct.value)
      else if leadKey.Some? && FirstWithId(leads, leadKey.value).Some? then Hit(from, FirstWithId(leads, leadKey.value).value)
      else SearchDeal(tenants, stores, dealKey, leadKey, from + 1)
  }

  /** A lead-id match in an earlier tenant beats a direct deal-id match in a
      later one. */
  lemma DealSearchIsPerTenant(tenants: seq<Workflow>, stores: Stores, dealKey: string, leadKey: string)
    requires |tenants| >= 2 && Lacks(stores, tenants[0], dealKey)
    requires FirstWithId(stores[tenants[0].id].leads, leadKey).Some?
    ensures SearchDeal(tenants, stores, dealKey, Some(leadKey), 0) == Hit(0, FirstWithId(stores[tenants[0].id].leads, leadKey).value)
  {
  }

  /** Two generations of the databases that hold the same leads under the
      same CRM ids, index by index. */
  predicate SameIds(a: Stores, b: Stores) {
    a.Keys == b.Keys &&
    forall k :: k in a ==> (|a[k].leads| == |b[k].leads| &&
      forall j :: 0 <= j < |a[k].leads| ==> a[k].leads[j].b24Id == b[k].leads[j].b24Id)
  }

  lemma {:induction false} FirstWithIdSameIds(a: seq<Lead>, b: seq<Lead>, key: string)
    requires |a| == |b| && forall j :: 0 <= j < |a| ==> a[j].b24Id == b[j].b24Id
    ensures FirstWithId(a, key) == FirstWithId(b, key)
    decreases |a|
  {
    if |a| > 0 {
      assert forall j :: 0 <= j < |a| - 1 ==> a[1..][j].b24Id == b[1..][j].b24Id by {
        forall j | 0 <= j < |a| - 1 ensures a[1..][j].b24Id == b[1..][j].b24Id {
          assert a[1..][j] == a[j + 1] && b[1..][j] == b[j + 1];
        }
      }
      FirstWithIdSameIds(a[1..], b[1..], key);
    }
  }

  lemma SameIdsLookup(a: Stores, b: Stores, k: int, key: string)
    requires SameIds(a, b) && k in a
    ensures FirstWithId(a[k].leads, key) == FirstWithId(b[k].leads, key)
  {
    FirstWithIdSameIds(a[k].leads, b[k].leads, key);
  }

  /** Searches only look at CRM ids. */
  lemma {:induction false} SearchLeadSameIds(tenants: seq<Workflow>, a: Stores, b: Stores, key: string, from: nat)
    requires from <= |tenants| && SameIds(a, b)
    ensures SearchLead(tenants, a, key, from) == SearchLead(tenants, b, key, from)
    decreases |tenants| - from
  {
    if from < |tenants| && tenants[from].id in a {
      SameIdsLookup(a, b, tenants[from].id, key);
      SearchLeadSameIds(tenants, a, b, key, from + 1);
    }
  }

  lemma {:induction false} SearchDealSameIds(tenants: seq<Workflow>, a: Stores, b: Stores, dealKey: string, leadKey: Option<string>, from: nat)
    requires from <= |tenants| && SameIds(a, b)
    ensures SearchDeal(tenants, a, dealKey, leadKey, from) == SearchDeal(tenants, b, dealKey, leadKey, from)
    decreases |tenants| - from
  {
    if from < |tenants| && tenants[from].id in a {
      SameIdsLookup(a, b, tenants[from].id, dealKey);
      if leadKey.Some? {
        SameIdsLookup(a, b, tenants[from].id, leadKey.value);
      }
      SearchDealSameIds(tenants, a, b, dealKey, leadKey, from + 1);
    }
  }

  /** `after` differs from `before` at most in lead `index` of workflow
      `wfId` and in that workflow's extra fields. */
  predicate OnlyLeadChanged(before: Stores, after: Stores, wfId: int, index: nat) {
    wfId in before && wfId in after && before.Keys == after.Keys &&
    |after[wfId].leads| == |before[wfId].leads| && index < |before[wfId].leads| &&
    (forall k :: k in before && k != wfId ==> after[k] == before[k]) &&
    forall j :: 0 <= j < |before[wfId].leads| && j != index ==> after[wfId].leads[j] == before[wfId].leads[j]
  }

  /** The databases with lead `index` of workflow `wfId` replaced and its
      extra fields replaced. */
  function Store(stores: Stores, wfId: int, index: nat, lead: Lead, fields: map<(int, string), string>): (r: Stores)
    requires wfId in stores && index < |stores[wfId].leads|
    ensures r.Keys == stores.Keys
    ensures forall k :: k in stores && k != wfId ==> r[k] == stores[k]
    ensures |r[wfId].leads| == |stores[wfId].leads| && r[wfId].leads[index] == lead && r[wfId].fields == fields
    ensures forall j :: 0 <= j < |stores[wfId].leads| && j != index ==> r[wfId].leads[j] == stores[wfId].leads[j]
    ensures OnlyLeadChanged(stores, r, wfId, index)
  {
    stores[wfId := WorkflowDb(stores[wfId].leads[index := lead], fields)]
  }

  /** Replacing a lead by one with the same CRM id keeps every search
      result. */
  lemma StoreSameIds(stores: Stores, wfId: int, index: nat, lead: Lead, fields: map<(int, string), string>)
    requires wfId in stores && index < |stores[wfId].leads|
    requires lead.b24Id == stores[wfId].leads[index].b24Id
    ensures SameIds(stores, Store(stores, wfId, index, lead, fields))
  {
  }

  // ---------------------------------------------------------------------
  // Pieces shared by both branches

  /** `str(x) if x else None` on a CRM string value: the value when truthy. */
  function TruthyOrNone(x: Option<string>): (r: Option<string>)
    ensures r.Some? <==> Truthy(x)
    ensures r.Some? ==> r == x
  {
    if Truthy(x) then x else None
  }

  /** Two stripped parts joined by a space strip to something non-empty
      when either part is non-empty. */
  lemma JoinedNotBlank(n: string, l: string)
    requires (n != "" && !IsSpace(n[0])) || (l != "" && !IsSpace(l[0]))
    ensures Strip(n + " " + l) != ""
  {
    var joined := n + " " + l;
    if n != "" && !IsSpace(n[0]) {
      assert joined[0] == n[0];
      StripKeeps(joined, 0);
    } else {
      assert joined[|n| + 1] == l[0];
      StripKeeps(joined, |n| + 1);
    }
  }

  /** `f"{name.strip()} {last.strip()}".strip()` when either part is not
      blank, else nothing; a null part makes `.strip()` raise, which the
      handler turns into "no name". */
  function FullName(name: Option<string>, last: Option<string>): (r: Option<string>)
    ensures r.Some? ==> r.value != "" && !IsSpace(r.value[0]) && !IsSpace(r.value[|r.value| - 1])
    ensures (name.None? || last.None?) ==> r == None
    ensures name.Some? && last.Some? ==> (r.None? <==> Strip(name.value) == "" && Strip(last.value) == "")
  {
    if name.None? || last.None? then None
    else
      var n := Strip(name.value);
      var l := Strip(last.value);
      if n != "" || l != "" then
        StripEnds(name.value);
        StripEnds(last.value);
        JoinedNotBlank(n, l);
        StripEnds(n + " " + l);
        Some(Strip(n + " " + l))
      else None
  }

  /** The name is the two stripped parts joined by one space, or whichever
      part is not blank. */
  lemma FullNameParts(name: string, last: string)
    ensures var n := Strip(name); var l := Strip(last);
      (n != "" && l != "" ==> FullName(Some(name), Some(last)) == Some(n + " " + l)) &&
      (n != "" && l == "" ==> FullName(Some(name), Some(last)) == Some(n)) &&
      (n == "" && l != "" ==> FullName(Some(name), Some(last)) == Some(l))
  {
    var n := Strip(name);
    var l := Strip(last);
    StripEnds(name);
    StripEnds(last);
    if n != "" && l != "" {
      var joined := n + " " + l;
      assert joined[0] == n[0] && joined[|joined| - 1] == l[|l| - 1];
      StripUnspaced(joined);
    } else if n != "" {
      assert n + " " + l == n + " ";
      StripTrailingSpace(n);
    } else if l != "" {
      assert n + " " + l == " " + l;
      StripLeadingSpace(l);
    }
  }

  /** The `assigned_by_name` an event gives the lead: the full name of the
      CRM user `ASSIGNED_BY_ID`, or nothing when the id is missing or not a
      number, the user cannot be fetched or is empty, or has no name. */
  function AssignedName(crm: Crm, assignedById: Option<string>): (r: Option<string>)
    ensures !Truthy(assignedById) ==> r == None
    ensures r.Some? ==> r.value != "" && !IsSpace(r.value[0]) && !IsSpace(r.value[|r.value| - 1])
    ensures r.Some? ==> (ParseInt(assignedById.value).Some? &&
      var user := Unwrap(crm.user(ParseInt(assignedById.value).value));
      user.Some? && user.value != map[] &&
      r == FullName(PyGetOr(user.value, "NAME", ""), PyGetOr(user.value, "LAST_NAME", "")))
  {
    if !Truthy(assignedById) then None
    else
      var uid := ParseInt(assignedById.value);
      if uid.None? then None
      else
        var user := Unwrap(crm.user(uid.value));
        if user.None? || user.value == map[] then None
        else FullName(PyGetOr(user.value, "NAME", ""), PyGetOr(user.value, "LAST_NAME", ""))
  }

  /** The extra-field mappings an event of `entity` refreshes in workflow
      `wfId`, in table order. */
  function EventMappings(mappings: seq<FieldMapping>, wfId: int, entity: string): (r: seq<FieldMapping>)
    ensures forall i :: 0 <= i < |r| ==> r[i] in mappings && r[i].workflowId == wfId && r[i].entityType == entity && r[i].updateOnEvent
    ensures forall i ::
      (0 <= i < |mappings| && mappings[i].workflowId == wfId && mappings[i].entityType == entity && mappings[i].updateOnEvent) ==>
      mappings[i] in r
  {
    Seqs.Filter(mappings, (m: FieldMapping) => m.workflowId == wfId && m.entityType == entity && m.updateOnEvent)
  }

  /** The value the last of `ms` named `name` with a non-null CRM value
      stores, if any. */
  function LastValue(ms: seq<FieldMapping>, data: Fields, name: string): (r: Option<string>)
    ensures r.None? <==> forall i :: 0 <= i < |ms| && ms[i].fieldName == name ==> PyGet(data, ms[i].b24FieldId).None?
    ensures r.Some? ==> exists i :: (0 <= i < |ms| && ms[i].fieldName == name && PyGet(data, ms[i].b24FieldId) == r &&
      forall j :: i < j < |ms| && ms[j].fieldName == name ==> PyGet(data, ms[j].b24FieldId).None?)
    decreases |ms|
  {
    if |ms| == 0 then None
    else
      var m := ms[|ms| - 1];
      var init := ms[..|ms| - 1];
      assert forall i :: 0 <= i < |ms| - 1 ==> ms[i] == init[i];
      if m.fieldName == name && PyGet(data, m.b24FieldId).Some? then PyGet(data, m.b24FieldId)
      else LastValue(init, data, name)
  }

  /** The extra fields after the mapping loop: each mapping with a non-null
      CRM value upserts `str(value)` under (lead, field name), in order. */
  function ApplyMappings(fields: map<(int, string), string>, leadId: int, ms: seq<FieldMapping>, data: Fields): (r: map<(int, string), string>)
    ensures forall k: (int, string) :: k.0 != leadId ==> (k in r <==> k in fields) && (k in r ==> r[k] == fields[k])
    ensures forall name :: LastValue(ms, data, name).Some? ==>
      (leadId, name) in r && r[(leadId, name)] == LastValue(ms, data, name).value
    ensures forall name :: LastValue(ms, data, name).None? ==>
      ((leadId, name) in r <==> (leadId, name) in fields) && ((leadId, name) in r ==> r[(leadId, name)] == fields[(leadId, name)])
    decreases |ms|
  {
    if |ms| == 0 then fields
    else
      var m := ms[|ms| - 1];
      var before := ApplyMappings(fields, leadId, ms[..|ms| - 1], data);
      var v := PyGet(data, m.b24FieldId);
      if v.Some? then before[(leadId, m.fieldName) := v.value] else before
  }

  /** `deal.get("CATEGORY_ID") or fallback or 0`, then `int(...)`; `None`
      when `int()` raises. */
  function DealCategory(categoryField: Option<string>, fallback: Option<int>): (r: Option<int>)
    ensures Truthy(categoryField) ==> r == ParseInt(categoryField.value)
    ensures !Truthy(categoryField) && fallback.Some? && fallback.value != 0 ==> r == fallback
    ensures !Truthy(categoryField) && (fallback.None? || fallback.value == 0) ==> r == Some(0)
  {
    if Truthy(categoryField) then ParseInt(categoryField.value)
    else if fallback.Some? && fallback.value != 0 then fallback
    else Some(0)
  }

  /** The stage name shown for `stage`: its name in the funnel's stage list,
      or the stage id itself when the category is unusable, the list cannot
      be fetched or does not have it. */
  function StageName(crm: Crm, category: Option<int>, stage: Option<string>): (r: Option<string>)
    ensures category.None? ==> r == stage
    ensures category.Some? && crm.statusList(StageEntityId(category.value)).None? ==> r == stage
  {
    if category.None? then stage
    else
      var rows := crm.statusList(StageEntityId(category.value));
      if rows.None? then stage else ResolveName(Some(StatusRows(rows.value)), stage)
  }

  /** `str(x)` of an optional CRM value. */
  function StrOf(x: Option<string>): string {
    if x.Some? then x.value else "None"
  }

  // ---------------------------------------------------------------------
  // Lead events

  /** The deal data a lead picks up when it turns "S": the first deal of the
      lead, if it has any. */
  function WithFirstDeal(lead: Lead, crm: Crm, deals: seq<Fields>): (r: Lead)
    ensures deals == [] ==> r == lead
    ensures r.(dealId := lead.dealId, dealAmount := lead.dealAmount, dealStatus := lead.dealStatus,
               dealStatusName := lead.dealStatusName) == lead
    ensures deals != [] ==> (r.dealAmount.None? <==> !Truthy(PyGetOr(deals[0], "OPPORTUNITY", "")))
    ensures deals != [] ==> (r.dealId == Some(StrOf(PyGetOr(deals[0], "ID", ""))) &&
      r.dealStatus == PyGetOr(deals[0], "STAGE_ID", ""))
  {
    if deals == [] then lead
    else
      var deal := deals[0];
      var opportunity := PyGetOr(deal, "OPPORTUNITY", "");
      var stage := PyGetOr(deal, "STAGE_ID", "");
      lead.(dealId := Some(StrOf(PyGetOr(deal, "ID", ""))),
            dealAmount := TruthyOrNone(opportunity),
            dealStatus := stage,
            dealStatusName := StageName(crm, DealCategory(PyGet(deal, "CATEGORY_ID"), None), stage))
  }

  /** The deal columns of two leads agree. */
  predicate SameDeal(a: Lead, b: Lead) {
    a.dealId == b.dealId && a.dealAmount == b.dealAmount && a.dealStatus == b.dealStatus &&
    a.dealStatusName == b.dealStatusName
  }

  /** What a lead event does to the stored lead (lines 316-427): the status
      is the event's `STATUS_ID`, the semantic is overwritten only by a
      truthy one, the responsible user's name is looked up again, and the
      deal columns are taken from the lead's first deal only when the new
      semantic is "S". Identity, phone and name are kept. */
  predicate LeadEventRules(before: Lead, after: Lead, data: Fields, crm: Crm, deals: seq<Fields>) {
    var newSem := TruthyOrNone(PyGet(data, "STATUS_SEMANTIC_ID"));
    after.status == PyGet(data, "STATUS_ID") &&
    after.statusSemanticId == OrElse(newSem, before.statusSemanticId) &&
    after.assignedByName == AssignedName(crm, PyGet(data, "ASSIGNED_BY_ID")) &&
    after.id == before.id && after.phone == before.phone && after.name == before.name && after.b24Id == before.b24Id &&
    (newSem != Some("S") ==> SameDeal(after, before)) &&
    (newSem == Some("S") ==> SameDeal(after, WithFirstDeal(before, crm, deals)))
  }

  /** Lines 286-446: the lead event with CRM id `key` (= `int` value `n`),
      answered by portal `crm` whose normalised webhook URL is `url`. */
  function LeadBranch(tenants: seq<Workflow>, mappings: seq<FieldMapping>, stores: Stores, crm: Crm, url: string,
                      cache: StatusCache, now: real, key: string, n: int): (r: Step)
    ensures r.update.None? ==> r.stores == stores && r.cache == cache
    ensures r.update.Some? ==> !r.update.value.becameSuccessful && r.update.value.b24LeadId == key
    ensures SameIds(stores, r.stores)
    ensures r.update.Some? <==> (Unwrap(crm.lead(n)).Some? && Truthy(PyGet(Unwrap(crm.lead(n)).value, "STATUS_ID")) &&
      SearchLead(tenants, stores, key, 0).Hit?)
    ensures r.update.Some? ==> (
      var data := Unwrap(crm.lead(n)).value;
      var hit := SearchLead(tenants, stores, key, 0);
      var wf := tenants[hit.tenant];
      var lead := stores[wf.id].leads[hit.index];
      OnlyLeadChanged(stores, r.stores, wf.id, hit.index) &&
      LeadEventRules(lead, r.stores[wf.id].leads[hit.index], data, crm, crm.dealsByLead(n)) &&
      r.stores[wf.id].fields == ApplyMappings(stores[wf.id].fields, lead.id, EventMappings(mappings, wf.id, "lead"), data) &&
      r.update.value.workflowId == wf.id && Some(r.update.value.status) == PyGet(data, "STATUS_ID"))
  {
    var data := Unwrap(crm.lead(n));
    if data.None? then Step(None, stores, cache)
    else
      var status := PyGet(data.value, "STATUS_ID");
      if !Truthy(status) then Step(None, stores, cache)
      else
        var hit := SearchLead(tenants, stores, key, 0);
        if !hit.Hit? then Step(None, stores, cache)
        else
          var wf := tenants[hit.tenant];
          var db := stores[wf.id];
          var lead := db.leads[hit.index];
          var newSem := TruthyOrNone(PyGet(data.value, "STATUS_SEMANTIC_ID"));
          var lead1 := lead.(status := status,
                             statusSemanticId := if newSem.Some? then newSem else lead.statusSemanticId,
                             assignedByName := AssignedName(crm, PyGet(data.value, "ASSIGNED_BY_ID")));
          var fields := ApplyMappings(db.fields, lead.id, EventMappings(mappings, wf.id, "lead"), data.value);
          var statuses := LeadStatuses(cache, url, now, crm.statusList("STATUS"));
          var statusName := ResolveName(statuses.0, status);
          var lead2 := if newSem == Some("S") then WithFirstDeal(lead1, crm, crm.dealsByLead(n)) else lead1;
          var stores' := Store(stores, wf.id, hit.index, lead2, fields);
          StoreSameIds(stores, wf.id, hit.index, lead2, fields);
          var update := LeadUpdate(key, wf.id, status.value, statusName, OrElse(newSem, lead2.statusSemanticId), false,
                                   OrElse(lead2.dealAmount, PyGet(data.value, "OPPORTUNITY")), lead2.dealId);
          Step(Some(update), stores', statuses.1)
  }

  // ---------------------------------------------------------------------
  // Deal events

  /** `deal_lead_id and lead.bitrix24_lead_id == str(deal_lead_id)`: the
      lead was found through the deal's `LEAD_ID`. */
  predicate FoundViaLeadId(lead: Lead, dealLeadId: Option<string>) {
    Truthy(dealLeadId) && lead.b24Id == dealLeadId
  }

  /** The lead after a deal event (lines 498-583). */
  function DealLead(lead: Lead, data: Fields, crm: Crm, wf: Workflow, key: string): (r: Lead)
    requires Truthy(PyGet(data, "STAGE_ID"))
    ensures r.id == lead.id && r.phone == lead.phone && r.name == lead.name && r.b24Id == lead.b24Id
    ensures r.dealId == Some(key) && r.dealStatus == PyGet(data, "STAGE_ID")
    ensures r.dealAmount == (if Truthy(PyGet(data, "OPPORTUNITY")) then PyGet(data, "OPPORTUNITY") else lead.dealAmount)
    ensures FoundViaLeadId(lead, PyGet(data, "LEAD_ID")) ==>
      r.status == lead.status && r.statusSemanticId == lead.statusSemanticId
    ensures !FoundViaLeadId(lead, PyGet(data, "LEAD_ID")) ==> (r.status == PyGet(data, "STAGE_ID") &&
      r.statusSemanticId == OrElse(TruthyOrNone(PyGet(data, "STAGE_SEMANTIC_ID")), lead.statusSemanticId))
  {
    var stage := PyGet(data, "STAGE_ID");
    var newSem := TruthyOrNone(PyGet(data, "STAGE_SEMANTIC_ID"));
    var lead1 := if FoundViaLeadId(lead, PyGet(data, "LEAD_ID")) then lead
                 else lead.(status := stage, statusSemanticId := if newSem.Some? then newSem else lead.statusSemanticId);
    var opportunity := PyGet(data, "OPPORTUNITY");
    lead1.(assignedByName := AssignedName(crm, PyGet(data, "ASSIGNED_BY_ID")),
           dealId := Some(key),
           dealAmount := if Truthy(opportunity) then opportunity else lead1.dealAmount,
           dealStatus := stage,
           dealStatusName := StageName(crm, DealCategory(PyGet(data, "CATEGORY_ID"), wf.dealCategoryId), stage))
  }

  /** `became_successful` of a deal event, from the lead as it was before
      the event: for a lead found through `LEAD_ID`, the deal reached "S"
      and its stage changed; otherwise the lead's semantic moved to "S".
      Only an event whose semantic is "S" counts, and never for a lead that
      is already successful at the event's stage. */
  function DealBecame(lead: Lead, data: Fields): (r: bool)
    ensures r ==> TruthyOrNone(PyGet(data, "STAGE_SEMANTIC_ID")) == Some("S")
    ensures lead.statusSemanticId == Some("S") && lead.dealStatus == PyGet(data, "STAGE_ID") ==> !r
  {
    var newSem := TruthyOrNone(PyGet(data, "STAGE_SEMANTIC_ID"));
    if FoundViaLeadId(lead, PyGet(data, "LEAD_ID")) then newSem == Some("S") && lead.dealStatus != PyGet(data, "STAGE_ID")
    else lead.statusSemanticId != Some("S") && newSem == Some("S")
  }

  /** Once a deal event has been applied to a lead, the same event finds
      nothing new to report. */
  lemma DealBecameOnce(lead: Lead, data: Fields, crm: Crm, wf: Workflow, key: string)
    requires Truthy(PyGet(data, "STAGE_ID"))
    ensures !DealBecame(DealLead(lead, data, crm, wf, key), data)
  {
  }

  /** Lines 448-617: the deal event with CRM id `key` (= `int` value `n`). */
  function DealBranch(tenants: seq<Workflow>, mappings: seq<FieldMapping>, stores: Stores, crm: Crm,
                      cache: StatusCache, key: string, n: int): (r: Step)
    ensures r.cache == cache
    ensures r.update.None? ==> r.stores == stores
    ensures SameIds(stores, r.stores)
    ensures r.update.Some? ==> (r.update.value.dealId == Some(key) && Unwrap(crm.deal(n)).Some? &&
      Some(r.update.value.b24LeadId) == OrElse(PyGet(Unwrap(crm.deal(n)).value, "LEAD_ID"), Some(key)))
    ensures r.update.Some? <==> (Unwrap(crm.deal(n)).Some? && Truthy(PyGet(Unwrap(crm.deal(n)).value, "STAGE_ID")) &&
      SearchDeal(tenants, stores, key, TruthyOrNone(PyGet(Unwrap(crm.deal(n)).value, "LEAD_ID")), 0).Hit?)
    ensures r.update.Some? ==> (
      var data := Unwrap(crm.deal(n)).value;
      var hit := SearchDeal(tenants, stores, key, TruthyOrNone(PyGet(data, "LEAD_ID")), 0);
      var wf := tenants[hit.tenant];
      var lead := stores[wf.id].leads[hit.index];
      OnlyLeadChanged(stores, r.stores, wf.id, hit.index) &&
      r.stores[wf.id].leads[hit.index] == DealLead(lead, data, crm, wf, key) &&
      r.stores[wf.id].fields == ApplyMappings(stores[wf.id].fields, lead.id, EventMappings(mappings, wf.id, "deal"), data) &&
      r.update.value.workflowId == wf.id && r.update.value.becameSuccessful == DealBecame(lead, data))
  {
    var data := Unwrap(crm.deal(n));
    if data.None? then Step(None, stores, cache)
    else
      var stage := PyGet(data.value, "STAGE_ID");
      if !Truthy(stage) then Step(None, stores, cache)
      else
        var dealLeadId := PyGet(data.value, "LEAD_ID");
        var hit := SearchDeal(tenants, stores, key, TruthyOrNone(dealLeadId), 0);
        if !hit.Hit? then Step(None, stores, cache)
        else
          var wf := tenants[hit.tenant];
          var db := stores[wf.id];
          var lead := db.leads[hit.index];
          var lead' := DealLead(lead, data.value, crm, wf, key);
          var fields := ApplyMappings(db.fields, lead.id, EventMappings(mappings, wf.id, "deal"), data.value);
          var stores' := Store(stores, wf.id, hit.index, lead', fields);
          StoreSameIds(stores, wf.id, hit.index, lead', fields);
          var update := LeadUpdate(OrElse(dealLeadId, Some(key)).value, wf.id, stage.value, lead'.dealStatusName,
                                   OrElse(TruthyOrNone(PyGet(data.value, "STAGE_SEMANTIC_ID")), lead'.statusSemanticId),
                                   DealBecame(lead, data.value), PyGet(data.value, "OPPORTUNITY"), Some(key));
          Step(Some(update), stores', cache)
  }

  // ---------------------------------------------------------------------
  // The whole request

  /** Everything the handler settles before it touches a workflow
      database. */
  datatype Job = Job(kind: WebhookInput.EventKind, tenants: seq<Workflow>, crm: Crm, url: string, key: string, n: int)

  /** Lines 173-285 and the start of each branch: decode the form, match
      the tenants, route the event, find its id and the CRM portal of the
      default tenant. `Ok(None)` is a request answered `{"status": "ok"}`
      with nothing to do. */
  function Prepare(form: seq<(string, string)>, workflows: seq<Workflow>, crmFor: string -> Crm): (r: Result<Option<Job>, WebhookInput.Rejection>)
    ensures FormKeys.Decode(form).Err? ==> r == Err(WebhookInput.BadRequest)
    ensures FormKeys.Decode(form).Ok? ==>
      (r.Err? <==> WebhookInput.MatchTenants(FormKeys.Decode(form).value, workflows).Err?) &&
      (r.Err? ==> r == Err(WebhookInput.MatchTenants(FormKeys.Decode(form).value, workflows).error))
    ensures r.Ok? && r.value.Some? ==> (r.value.value.kind != WebhookInput.OtherEvent &&
      r.value.value.tenants != [] && ParseInt(r.value.value.key) == Some(r.value.value.n))
    ensures FormKeys.Decode(form).Ok? && WebhookInput.Route(FormKeys.Decode(form).value) == WebhookInput.OtherEvent ==>
      r.Err? || r == Ok(None)
    ensures r.Ok? && r.value.Some? ==> (
      FormKeys.Decode(form).Ok? &&
      var data := FormKeys.Decode(form).value;
      var job := r.value.value;
      WebhookInput.MatchTenants(data, workflows) == Ok(job.tenants) &&
      job.kind == WebhookInput.Route(data) &&
      WebhookInput.EventId(data) == Some(FormKeys.Leaf(job.key)) &&
      job.tenants[0].webhookUrl.Some? && job.url == NormalizeUrl(job.tenants[0].webhookUrl.value) &&
      job.crm == crmFor(job.url))
    ensures (FormKeys.Decode(form).Ok? && WebhookInput.MatchTenants(FormKeys.Decode(form).value, workflows).Ok? &&
             WebhookInput.Route(FormKeys.Decode(form).value) != WebhookInput.OtherEvent) ==> (
      var data := FormKeys.Decode(form).value;
      var id := WebhookInput.EventId(data);
      var tenants := WebhookInput.MatchTenants(data, workflows).value;
      r == Ok(None) <==>
        (id.None? || !WebhookInput.IdTruthy(id.value) || id.value.Obj? || ParseInt(id.value.s).None? ||
         tenants[0].webhookUrl.None?))
  {
    var data :- (match FormKeys.Decode(form) case Ok(d) => Ok(d) case Err(_) => Err(WebhookInput.BadRequest));
    var tenants :- WebhookInput.MatchTenants(data, workflows);
    var kind := WebhookInput.Route(data);
    if kind == WebhookInput.OtherEvent then Ok(None)
    else
      var id := WebhookInput.EventId(data);
      if id.None? || !WebhookInput.IdTruthy(id.value) || id.value.Obj? then Ok(None)
      else
        var n := ParseInt(id.value.s);
        var url := tenants[0].webhookUrl;
        if n.None? || url.None? then Ok(None)
        else
          var base := NormalizeUrl(url.value);
          Ok(Some(Job(kind, tenants, crmFor(base), base, id.value.s, n.value)))
  }

  /** The branch of a prepared job. */
  function Run(job: Job, mappings: seq<FieldMapping>, stores: Stores, cache: StatusCache, now: real): (r: Step)
    requires job.kind != WebhookInput.OtherEvent
    ensures SameIds(stores, r.stores)
    ensures r.update.None? ==> r.stores == stores && r.cache == cache
  {
    if job.kind == WebhookInput.LeadEvent then
      LeadBranch(job.tenants, mappings, stores, job.crm, job.url, cache, now, job.key, job.n)
    else
      DealBranch(job.tenants, mappings, stores, job.crm, cache, job.key, job.n)
  }

  /** `handle_bitrix24_webhook` on form pairs (the framework has already
      merged repeated keys), the workflows in query order, the field
      mappings, the workflow databases, the CRM portal behind each
      normalised webhook URL, the lead-status cache and the clock. */
  function Handle(form: seq<(string, string)>, workflows: seq<Workflow>, mappings: seq<FieldMapping>, stores: Stores,
                  crmFor: string -> Crm, cache: StatusCache, now: real): (r: Outcome)
    ensures r.response.Rejected? ==> r.stores == stores && r.cache == cache
    ensures r.response.Rejected? <==> Prepare(form, workflows, crmFor).Err?
    ensures r.response.Accepted? && r.response.update.None? ==> r.stores == stores
    ensures SameIds(stores, r.stores)
  {
    match Prepare(form, workflows, crmFor)
    case Err(e) => Outcome(Rejected(e), stores, cache)
    case Ok(None) => Outcome(Accepted(None), stores, cache)
    case Ok(Some(job)) =>
      var step := Run(job, mappings, stores, cache, now);
      Outcome(Accepted(step.update), step.stores, step.cache)
  }

  // ---------------------------------------------------------------------
  // Redelivery

  /** Whether a run reports a transition to success. */
  predicate Became(s: Step) {
    s.update.Some? && s.update.value.becameSuccessful
  }

  /** Whether a run reports anything does not depend on the cache or the
      clock. */
  lemma RunUpdateIndependentOfCache(job: Job, mappings: seq<FieldMapping>, stores: Stores,
                                    c1: StatusCache, t1: real, c2: StatusCache, t2: real)
    requires job.kind != WebhookInput.OtherEvent
    ensures Run(job, mappings, stores, c1, t1).update.Some? == Run(job, mappings, stores, c2, t2).update.Some?
  {
  }

  /** A lead event never reports success. */
  lemma LeadEventsNeverBecome(job: Job, mappings: seq<FieldMapping>, stores: Stores, cache: StatusCache, now: real)
    requires job.kind == WebhookInput.LeadEvent
    ensures !Became(Run(job, mappings, stores, cache, now))
  {
  }

  /** Delivering the same event a second time, whatever the cache and the
      clock, reports the lead again but never as a new success. */
  lemma RedeliveryNeverBecomes(job: Job, mappings: seq<FieldMapping>, stores: Stores,
                               cache: StatusCache, now: real, cache2: StatusCache, now2: real)
    requires job.kind != WebhookInput.OtherEvent
    requires Run(job, mappings, stores, cache, now).update.Some?
    ensures var second := Run(job, mappings, Run(job, mappings, stores, cache, now).stores, cache2, now2);
      second.update.Some? && !Became(second)
  {
    var first := Run(job, mappings, stores, cache, now);
    var s1 := first.stores;
    if job.kind == WebhookInput.DealEvent {
      var data := Unwrap(job.crm.deal(job.n)).value;
      var leadKey := TruthyOrNone(PyGet(data, "LEAD_ID"));
      var hit := SearchDeal(job.tenants, stores, job.key, leadKey, 0);
      SearchDealSameIds(job.tenants, stores, s1, job.key, leadKey, 0);
      var wf := job.tenants[hit.tenant];
      var lead := stores[wf.id].leads[hit.index];
      var fields := ApplyMappings(stores[wf.id].fields, lead.id, EventMappings(mappings, wf.id, "deal"), data);
      assert s1 == Store(stores, wf.id, hit.index, DealLead(lead, data, job.crm, wf, job.key), fields);
      assert s1[wf.id].leads[hit.index] == DealLead(lead, data, job.crm, wf, job.key);
      DealBecameOnce(lead, data, job.crm, wf, job.key);
    } else {
      var data := Unwrap(job.crm.lead(job.n)).value;
      SearchLeadSameIds(job.tenants, stores, s1, job.key, 0);
    }
  }

  /** The `became_successful` flags of a run of deliveries of one event at
      the given times, starting from `stores` and `cache`; a delivery
      without update counts as `false`. */
  function Flags(job: Job, mappings: seq<FieldMapping>, stores: Stores, cache: StatusCache, times: seq<real>): (r: seq<bool>)
    requires job.kind != WebhookInput.OtherEvent
    ensures |r| == |times|
    decreases |times|
  {
    if |times| == 0 then []
    else
      var step := Run(job, mappings, stores, cache, times[0]);
      [Became(step)] + Flags(job, mappings, step.stores, step.cache, times[1..])
  }

  /** After one delivery, no later delivery of the same event reports a
      success. */
  lemma {:induction false} NoSuccessAfterFirst(job: Job, mappings: seq<FieldMapping>, prev: Stores, prevCache: StatusCache,
                                               prevTime: real, cache: StatusCache, times: seq<real>)
    requires job.kind != WebhookInput.OtherEvent
    ensures var stores := Run(job, mappings, prev, prevCache, prevTime).stores;
      forall i :: 0 <= i < |times| ==> !Flags(job, mappings, stores, cache, times)[i]
    decreases |times|
  {
    var stores := Run(job, mappings, prev, prevCache, prevTime).stores;
    if |times| > 0 {
      var step := Run(job, mappings, stores, cache, times[0]);
      if Run(job, mappings, prev, prevCache, prevTime).update.Some? {
        RedeliveryNeverBecomes(job, mappings, prev, prevCache, prevTime, cache, times[0]);
      } else {
        RunUpdateIndependentOfCache(job, mappings, prev, prevCache, prevTime, cache, times[0]);
      }
      NoSuccessAfterFirst(job, mappings, stores, cache, times[0], step.cache, times[1..]);
      var rest := Flags(job, mappings, step.stores, step.cache, times[1..]);
      assert Flags(job, mappings, stores, cache, times) == [Became(step)] + rest;
    }
  }

  /** However often one event is delivered, at most the first delivery
      reports a success. */
  lemma AtMostOneSuccess(job: Job, mappings: seq<FieldMapping>, stores: Stores, cache: StatusCache, times: seq<real>)
    requires job.kind != WebhookInput.OtherEvent
    ensures forall i :: 1 <= i < |times| ==> !Flags(job, mappings, stores, cache, times)[i]
  {
    if |times| > 0 {
      var step := Run(job, mappings, stores, cache, times[0]);
      NoSuccessAfterFirst(job, mappings, stores, cache, times[0], step.cache, times[1..]);
      assert Flags(job, mappings, stores, cache, times) == [Became(step)] + Flags(job, mappings, step.stores, step.cache, times[1..]);
    }
  }

  /** The same, for whole requests: repeating the webhook request yields
      the same job, so at most its first delivery reports a success. */
  lemma RepeatedRequestReportsOnce(form: seq<(string, string)>, workflows: seq<Workflow>, mappings: seq<FieldMapping>,
                                   stores: Stores, crmFor: string -> Crm, cache: StatusCache, now: real, now2: real)
    ensures var first := Handle(form, workflows, mappings, stores, crmFor, cache, now);
      var second := Handle(form, workflows, mappings, first.stores, crmFor, first.cache, now2);
      second.response.Accepted? ==> second.response.update.None? || !second.response.update.value.becameSuccessful
  {
    var p := Prepare(form, workflows, crmFor);
    if p.Ok? && p.value.Some? {
      var job := p.value.value;
      var first := Run(job, mappings, stores, cache, now);
      assert Handle(form, workflows, mappings, stores, crmFor, cache, now) == Outcome(Accepted(first.update), first.stores, first.cache);
      var second := Run(job, mappings, first.stores, first.cache, now2);
      assert Handle(form, workflows, mappings, first.stores, crmFor, first.cache, now2) == Outcome(Accepted(second.update), second.stores, second.cache);
      NoSuccessAfterFirst(job, mappings, stores, cache, now, first.cache, [now2]);
      assert Flags(job, mappings, first.stores, first.cache, [now2])[0] == Became(second);
    }
  }

  // ---------------------------------------------------------------------
  // What each branch overwrites

  /** A deal event never erases a deal amount: without a truthy
      `OPPORTUNITY` the amount stays as it was. */
  lemma DealEventKeepsAmount(lead: Lead, data: Fields, crm: Crm, wf: Workflow, key: string)
    requires Truthy(PyGet(data, "STAGE_ID")) && !Truthy(PyGet(data, "OPPORTUNITY"))
    ensures DealLead(lead, data, crm, wf, key).dealAmount == lead.dealAmount
  {
  }

  /** A lead event that turns the lead "S" copies the first deal's amount,
      and an empty amount blanks one the lead already had. */
  lemma LeadEventCanBlankAmount(lead: Lead, crm: Crm, deal: Fields)
    requires lead.dealAmount == Some("1000")
    requires "OPPORTUNITY" in deal && deal["OPPORTUNITY"] == Some("")
    ensures WithFirstDeal(lead, crm, [deal]).dealAmount == None
  {
  }
}

=== FILE: reports.dfy ===
/** Report aggregation of backend/app/services/report_service.py: the date
    filter, the per-partner metrics, the status shown for a client, and the
    totals row of the all-partners report. Each record's calendar day is
    `dayOf` of its timestamp; amounts are summed exactly, without the final
    rounding to two places. */
module Reports {
  import opened Wrappers
  import opened Partners
  import Seqs

  /** Deal statuses after which a lead is no longer in progress. */
  const FinalDealStatuses: set<string> := {"WON", "LOSE", "C:WON", "C:LOSE"}

  /** Optional inclusive bounds on a calendar day. */
  datatype DateFilter = DateFilter(from: Option<int>, to: Option<int>)

  /** `_apply_date_filter`: a missing bound does not restrict. */
  predicate Within(day: int, f: DateFilter) {
    (f.from.None? || f.from.value <= day) && (f.to.None? || day <= f.to.value)
  }

  /** A click on one of a partner's links. */
  datatype Click = Click(partnerId: int, createdAt: int)

  datatype Metrics = Metrics(
    totalLeads: nat,
    totalSales: nat,
    totalDealAmount: real,
    totalCommission: real,
    paidCommission: real,
    unpaidCommission: real,
    leadsInProgress: nat,
    totalClicks: nat,
    requestsTotal: nat,
    requestsApproved: nat,
    requestsRejected: nat,
    requestsPending: nat,
    requestsAmount: real)

  const NoMetrics: Metrics := Metrics(0, 0, 0.0, 0.0, 0.0, 0.0, 0, 0, 0, 0, 0, 0, 0.0)

  predicate IsSale(c: Client) {
    Positive(c.dealAmount)
  }

  predicate InProgress(c: Client) {
    c.dealStatus.None? || c.dealStatus.value !in FinalDealStatuses
  }

  predicate PaidClient(c: Client) {
    c.isPaid
  }

  /** Unpaid with a reward that is set and non-zero. */
  predicate UnpaidClient(c: Client) {
    !c.isPaid && c.partnerReward.Some? && c.partnerReward.value != 0.0
  }

  predicate AnyClient(c: Client) {
    true
  }

  /** The paid and the unpaid commission together are the whole
      commission: an unpaid client left out of the unpaid sum has no
      reward to add. */
  lemma {:induction false} CommissionSplit(cs: seq<Client>)
    ensures SumWhere(cs, RewardOf, PaidClient) + SumWhere(cs, RewardOf, UnpaidClient) == SumWhere(cs, RewardOf, AnyClient)
    decreases |cs|
  {
    if |cs| > 0 {
      CommissionSplit(cs[1..]);
    }
  }

  /** Elements passing one of three mutually exclusive tests are no more
      than all elements. */
  lemma {:induction false} CountDisjoint<T>(s: seq<T>, p: T -> bool, q: T -> bool, w: T -> bool)
    requires forall x :: !(p(x) && q(x)) && !(p(x) && w(x)) && !(q(x) && w(x))
    ensures Seqs.Count(s, p) + Seqs.Count(s, q) + Seqs.Count(s, w) <= |s|
    decreases |s|
  {
    if |s| > 0 {
      CountDisjoint(s[1..], p, q, w);
    }
  }

  /** The records of one partner inside the date range. */
  function OwnClients(clients: seq<Client>, partnerId: int, f: DateFilter, dayOf: int -> int): (r: seq<Client>)
    ensures forall c :: c in r <==> c in clients && c.partnerId == partnerId && Within(dayOf(c.createdAt), f)
  {
    Seqs.Filter(clients, (c: Client) => c.partnerId == partnerId && Within(dayOf(c.createdAt), f))
  }

  function OwnRequests(requests: seq<PaymentRequest>, partnerId: int, f: DateFilter, dayOf: int -> int): (r: seq<PaymentRequest>)
    ensures forall q :: q in r <==> q in requests && q.partnerId == partnerId && Within(dayOf(q.createdAt), f)
  {
    Seqs.Filter(requests, (q: PaymentRequest) => q.partnerId == partnerId && Within(dayOf(q.createdAt), f))
  }

  function RequestAmounts(rs: seq<PaymentRequest>): (r: real)
    ensures rs == [] ==> r == 0.0
    decreases |rs|
  {
    if |rs| == 0 then 0.0 else rs[0].totalAmount + RequestAmounts(rs[1..])
  }

  predicate ApprovedRequest(q: PaymentRequest) {
    q.status == "approved"
  }

  predicate RejectedRequest(q: PaymentRequest) {
    q.status == "rejected"
  }

  predicate PendingRequest(q: PaymentRequest) {
    q.status == "pending"
  }

  /** The metrics invariants every metrics row keeps. */
  predicate Consistent(m: Metrics) {
    m.paidCommission + m.unpaidCommission == m.totalCommission &&
    m.requestsApproved + m.requestsRejected + m.requestsPending <= m.requestsTotal &&
    m.totalSales <= m.totalLeads && m.leadsInProgress <= m.totalLeads
  }

  /** `_compute_partner_metrics` for one partner and date range. */
  function ComputeMetrics(clients: seq<Client>, clicks: seq<Click>, requests: seq<PaymentRequest>,
                          partnerId: int, f: DateFilter, dayOf: int -> int): (r: Metrics)
    ensures Consistent(r)
    ensures var own := OwnClients(clients, partnerId, f, dayOf);
      r.totalLeads == |own| &&
      r.totalSales == Seqs.Count(own, IsSale) &&
      r.leadsInProgress == Seqs.Count(own, InProgress) &&
      r.totalCommission == SumWhere(own, RewardOf, AnyClient) &&
      r.paidCommission == SumWhere(own, RewardOf, PaidClient) &&
      r.totalDealAmount == SumWhere(own, DealOf, AnyClient)
    ensures r.totalClicks == Seqs.Count(clicks, (k: Click) => k.partnerId == partnerId && Within(dayOf(k.createdAt), f))
    ensures var reqs := OwnRequests(requests, partnerId, f, dayOf);
      r.requestsTotal == |reqs| &&
      r.requestsApproved == Seqs.Count(reqs, ApprovedRequest) &&
      r.requestsRejected == Seqs.Count(reqs, RejectedRequest) &&
      r.requestsPending == Seqs.Count(reqs, PendingRequest) &&
      r.requestsAmount == RequestAmounts(reqs)
  {
    var own := OwnClients(clients, partnerId, f, dayOf);
    var reqs := OwnRequests(requests, partnerId, f, dayOf);
    CommissionSplit(own);
    var approved := Seqs.Count(reqs, ApprovedRequest);
    var rejected := Seqs.Count(reqs, RejectedRequest);
    var pending := Seqs.Count(reqs, PendingRequest);
    CountDisjoint(reqs, ApprovedRequest, RejectedRequest, PendingRequest);
    Metrics(
      |own|,
      Seqs.Count(own, IsSale),
      SumWhere(own, DealOf, AnyClient),
      SumWhere(own, RewardOf, AnyClient),
      SumWhere(own, RewardOf, PaidClient),
      SumWhere(own, RewardOf, UnpaidClient),
      Seqs.Count(own, InProgress),
      Seqs.Count(clicks, (k: Click) => k.partnerId == partnerId && Within(dayOf(k.createdAt), f)),
      |reqs|, approved, rejected, pending,
      RequestAmounts(reqs))
  }

  /** A lead whose deal ended, won or lost, is not in progress; one with no
      deal status is. */
  lemma InProgressCases(c: Client)
    ensures c.dealStatus == Some("C:WON") ==> !InProgress(c)
    ensures c.dealStatus.None? ==> InProgress(c)
    ensures c.dealStatus == Some("C:NEW") ==> InProgress(c)
  {
  }

  /** Field-wise sum of two metrics rows. */
  function AddMetrics(a: Metrics, b: Metrics): (r: Metrics)
    ensures Consistent(a) && Consistent(b) ==> Consistent(r)
  {
    Metrics(
      a.totalLeads + b.totalLeads,
      a.totalSales + b.totalSales,
      a.totalDealAmount + b.totalDealAmount,
      a.totalCommission + b.totalCommission,
      a.paidCommission + b.paidCommission,
      a.unpaidCommission + b.unpaidCommission,
      a.leadsInProgress + b.leadsInProgress,
      a.totalClicks + b.totalClicks,
      a.requestsTotal + b.requestsTotal,
      a.requestsApproved + b.requestsApproved,
      a.requestsRejected + b.requestsRejected,
      a.requestsPending + b.requestsPending,
      a.requestsAmount + b.requestsAmount)
  }

  /** The totals row: every field is the sum of that field over the rows. */
  function Totals(rows: seq<Metrics>): (r: Metrics)
    ensures rows == [] ==> r == NoMetrics
    ensures (forall i :: 0 <= i < |rows| ==> Consistent(rows[i])) ==> Consistent(r)
    decreases |rows|
  {
    if |rows| == 0 then NoMetrics
    else
      var rest := Totals(rows[1..]);
      assert forall i :: 1 <= i < |rows| ==> rows[i] == rows[1..][i - 1];
      AddMetrics(rows[0], rest)
  }

  lemma AddAssoc(a: Metrics, b: Metrics, c: Metrics)
    ensures AddMetrics(a, AddMetrics(b, c)) == AddMetrics(AddMetrics(a, b), c)
  {
  }

  lemma AddZero(m: Metrics)
    ensures AddMetrics(m, NoMetrics) == m && AddMetrics(NoMetrics, m) == m
  {
  }

  /** Adding one more partner adds its row to the totals. */
  lemma {:induction false} TotalsAppend(rows: seq<Metrics>, m: Metrics)
    ensures Totals(rows + [m]) == AddMetrics(Totals(rows), m)
    decreases |rows|
  {
    if |rows| == 0 {
      assert rows + [m] == [m];
      AddZero(m);
    } else {
      var rest := Totals(rows[1..]);
      assert (rows + [m])[1..] == rows[1..] + [m];
      assert (rows + [m])[0] == rows[0];
      TotalsAppend(rows[1..], m);
      AddAssoc(rows[0], rest, m);
    }
  }

  /** The leads total of the report is the number of leads over all
      reported partners. */
  lemma {:induction false} TotalLeadsIsSum(rows: seq<Metrics>, leads: seq<int>)
    requires |leads| == |rows| && forall i :: 0 <= i < |rows| ==> leads[i] == rows[i].totalLeads
    ensures Totals(rows).totalLeads == Seqs.Sum(leads)
    decreases |rows|
  {
    if |rows| > 0 {
      TotalLeadsIsSum(rows[1..], leads[1..]);
    }
  }

  /** The partners a report covers: the one asked for (a zero id asks for
      none), or every partner with role "partner" in the given order. */
  function ReportPartners(partners: seq<Partner>, only: Option<int>): (r: seq<Partner>)
    ensures only.Some? && only.value != 0 ==> forall p :: p in r <==> p in partners && p.id == only.value
    ensures (only.None? || only.value == 0) ==> forall p :: p in r <==> p in partners && p.role == "partner"
  {
    if only.Some? && only.value != 0 then Seqs.Filter(partners, (p: Partner) => p.id == only.value)
    else Seqs.Filter(partners, (p: Partner) => p.role == "partner")
  }

  datatype ReportRow = ReportRow(partnerId: int, partnerName: string, partnerEmail: string, metrics: Metrics)

  function MetricsOf(rows: seq<ReportRow>): (r: seq<Metrics>)
    ensures |r| == |rows| && forall i :: 0 <= i < |rows| ==> r[i] == rows[i].metrics
  {
    seq(|rows|, i requires 0 <= i < |rows| => rows[i].metrics)
  }

  /** `generate_all_partners_report`: one row per covered partner, and the
      totals of their metrics. */
  function AllPartnersReport(partners: seq<Partner>, only: Option<int>, clients: seq<Client>, clicks: seq<Click>,
                             requests: seq<PaymentRequest>, f: DateFilter, dayOf: int -> int): (r: (seq<ReportRow>, Metrics))
    ensures var covered := ReportPartners(partners, only);
      |r.0| == |covered| &&
      forall i :: 0 <= i < |covered| ==>
        r.0[i] == ReportRow(covered[i].id, covered[i].name, covered[i].email,
                            ComputeMetrics(clients, clicks, requests, covered[i].id, f, dayOf))
    ensures r.1 == Totals(MetricsOf(r.0))
    ensures Consistent(r.1)
  {
    var covered := ReportPartners(partners, only);
    var rows := seq(|covered|, i requires 0 <= i < |covered| =>
      ReportRow(covered[i].id, covered[i].name, covered[i].email,
                ComputeMetrics(clients, clicks, requests, covered[i].id, f, dayOf)));
    var ms := MetricsOf(rows);
    assert forall i :: 0 <= i < |ms| ==> Consistent(ms[i]) by {
      forall i | 0 <= i < |ms| ensures Consistent(ms[i]) {
        assert ms[i] == ComputeMetrics(clients, clicks, requests, covered[i].id, f, dayOf);
      }
    }
    (rows, Totals(ms))
  }

  /** `_resolve_client_status`: the first source that has an answer wins —
      the status name, the status, the lead found by external id, the lead
      found by phone — and "" when none has one. */
  function ResolveClientStatus(c: Client, byExternalId: map<string, string>, byPhone: map<string, string>): (r: string)
    ensures Truthy(c.dealStatusName) ==> r == c.dealStatusName.value
    ensures !Truthy(c.dealStatusName) && Truthy(c.dealStatus) ==> r == c.dealStatus.value
    ensures !Truthy(c.dealStatusName) && !Truthy(c.dealStatus) && Truthy(c.externalId) && c.externalId.value in byExternalId ==>
      r == byExternalId[c.externalId.value]
    ensures r != "" ==> (Some(r) == c.dealStatusName || Some(r) == c.dealStatus ||
      r in byExternalId.Values || r in byPhone.Values)
  {
    if Truthy(c.dealStatusName) then c.dealStatusName.value
    else if Truthy(c.dealStatus) then c.dealStatus.value
    else if Truthy(c.externalId) && c.externalId.value in byExternalId then byExternalId[c.externalId.value]
    else if Truthy(c.phone) && c.phone.value in byPhone then byPhone[c.phone.value]
    else ""
  }

  /** A client with its own status never consults the lead lookups. */
  lemma LocalStatusWins(c: Client, e1: map<string, string>, p1: map<string, string>,
                        e2: map<string, string>, p2: map<string, string>)
    requires Truthy(c.dealStatusName) || Truthy(c.dealStatus)
    ensures ResolveClientStatus(c, e1, p1) == ResolveClientStatus(c, e2, p2)
  {
  }

  /** The phone lookup is used only when the external id finds nothing. */
  lemma PhoneIsLastResort(c: Client, byExternalId: map<string, string>, byPhone: map<string, string>)
    requires !Truthy(c.dealStatusName) && !Truthy(c.dealStatus)
    requires !(Truthy(c.externalId) && c.externalId.value in byExternalId)
    ensures ResolveClientStatus(c, byExternalId, byPhone) ==
      (if Truthy(c.phone) && c.phone.value in byPhone then byPhone[c.phone.value] else "")
  {
  }
}

=== FILE: seqs.dfy ===
/** Order-preserving selection over sequences, the shape of every
    "collect the items that pass a test" loop in the services. */
module Seqs {
  import opened Wrappers

  /** The elements of `s` that satisfy `p`, in their original order. */
  function Filter<T(==)>(s: seq<T>, p: T -> bool): (r: seq<T>)
    ensures |r| <= |s|
    ensures forall i :: 0 <= i < |r| ==> r[i] in s
    ensures forall i :: 0 <= i < |s| && p(s[i]) ==> s[i] in r
    ensures forall i :: 0 <= i < |r| ==> p(r[i])
    ensures r == [] <==> forall i :: 0 <= i < |s| ==> !p(s[i])
    decreases |s|
  {
    if |s| == 0 then []
    else
      var rest := Filter(s[1..], p);
      assert forall i :: 1 <= i < |s| ==> s[i] == s[1..][i - 1];
      if p(s[0]) then [s[0]] + rest else rest
  }

  /** The number of leading elements of `s` that fail `p`: the index of
      the first one that passes, or `|s|` when none does. */
  function Misses<T>(s: seq<T>, p: T -> bool): (n: nat)
    ensures n <= |s|
    ensures forall j :: 0 <= j < n ==> !p(s[j])
    ensures n < |s| ==> p(s[n])
    decreases |s|
  {
    if |s| == 0 || p(s[0]) then 0
    else
      var n := Misses(s[1..], p);
      assert forall j :: 1 <= j < |s| ==> s[j] == s[1..][j - 1];
      n + 1
  }

  /** The index of the first element of `s` that passes `p`, if any. */
  function FirstIndex<T>(s: seq<T>, p: T -> bool): (r: Option<nat>)
    ensures r.None? <==> forall i :: 0 <= i < |s| ==> !p(s[i])
    ensures r.Some? ==> (r.value < |s| && p(s[r.value]) && forall i :: 0 <= i < r.value ==> !p(s[i]))
  {
    var n := Misses(s, p);
    if n < |s| then Some(n) else None
  }

  /** A non-empty filter starts with the first element that passes. */
  lemma {:induction false} FilterHead<T>(s: seq<T>, p: T -> bool)
    requires Filter(s, p) != []
    ensures Misses(s, p) < |s| && Filter(s, p)[0] == s[Misses(s, p)]
    decreases |s|
  {
    if !p(s[0]) {
      assert Filter(s, p) == Filter(s[1..], p);
      FilterHead(s[1..], p);
      assert s[1..][Misses(s[1..], p)] == s[Misses(s, p)];
    }
  }

  /** Filtering with a test that every element passes changes nothing. */
  lemma {:induction false} FilterAll<T>(s: seq<T>, p: T -> bool)
    requires forall i :: 0 <= i < |s| ==> p(s[i])
    ensures Filter(s, p) == s
    decreases |s|
  {
    if |s| > 0 {
      AllTail(s, p);
      FilterAll(s[1..], p);
      assert [s[0]] + s[1..] == s;
    }
  }

  lemma AllTail<T>(s: seq<T>, p: T -> bool)
    requires |s| > 0 && forall i :: 0 <= i < |s| ==> p(s[i])
    ensures forall i :: 0 <= i < |s[1..]| ==> p(s[1..][i])
  {
    assert forall i :: 0 <= i < |s[1..]| ==> s[1..][i] == s[i + 1];
  }

  /** Filtering twice with the same test is filtering once. */
  lemma FilterIdempotent<T>(s: seq<T>, p: T -> bool)
    ensures Filter(Filter(s, p), p) == Filter(s, p)
  {
    FilterAll(Filter(s, p), p);
  }

  /** Filtering by `p` and then by `q` is filtering by their conjunction. */
  lemma {:induction false} FilterFilter<T>(s: seq<T>, p: T -> bool, q: T -> bool, pq: T -> bool)
    requires forall x :: pq(x) == (p(x) && q(x))
    ensures Filter(Filter(s, p), q) == Filter(s, pq)
    decreases |s|
  {
    if |s| > 0 {
      var t := s[1..];
      FilterFilter(t, p, q, pq);
      if p(s[0]) {
        var fp := Filter(s, p);
        assert fp == [s[0]] + Filter(t, p);
        assert fp[0] == s[0] && fp[1..] == Filter(t, p);
      } else {
        assert Filter(s, p) == Filter(t, p);
      }
    }
  }

  function Sum(s: seq<int>): int
    decreases |s|
  {
    if |s| == 0 then 0 else s[0] + Sum(s[1..])
  }

  lemma {:induction false} SumAppend(a: seq<int>, b: seq<int>)
    ensures Sum(a + b) == Sum(a) + Sum(b)
    decreases |a|
  {
    if |a| > 0 {
      assert (a + b)[1..] == a[1..] + b;
      SumAppend(a[1..], b);
    } else {
      assert a + b == b;
    }
  }

  /** Number of elements of `s` satisfying `p`. */
  function Count<T(==)>(s: seq<T>, p: T -> bool): (r: nat)
    ensures r <= |s|
    ensures r == |Filter(s, p)|
    decreases |s|
  {
    if |s| == 0 then 0 else (if p(s[0]) then 1 else 0) + Count(s[1..], p)
  }

  /** `f` applied to every element, or `None` as soon as one application
      fails. */
  function MapAll<A, B>(xs: seq<A>, f: A -> Option<B>): (r: Option<seq<B>>)
    ensures r.Some? <==> forall i :: 0 <= i < |xs| ==> f(xs[i]).Some?
    ensures r.Some? ==> |r.value| == |xs| && forall i :: 0 <= i < |xs| ==> Some(r.value[i]) == f(xs[i])
    decreases |xs|
  {
    if |xs| == 0 then Some([])
    else
      var head := f(xs[0]);
      var rest := MapAll(xs[1..], f);
      assert forall i :: 1 <= i < |xs| ==> xs[i] == xs[1..][i - 1];
      if head.None? || rest.None? then None else Some([head.value] + rest.value)
  }

  /** When every application succeeds, `MapAll` collects the results. */
  lemma MapAllAll<A, B>(xs: seq<A>, f: A -> Option<B>, ys: seq<B>)
    requires |xs| == |ys| && forall i :: 0 <= i < |xs| ==> f(xs[i]) == Some(ys[i])
    ensures MapAll(xs, f) == Some(ys)
  {
    var r := MapAll(xs, f);
    assert r.Some?;
    assert |r.value| == |ys|;
    assert forall i :: 0 <= i < |xs| ==> r.value[i] == ys[i];
    assert r.value == ys;
  }

  /** A non-empty set has a member. */
  lemma SomeMember<T>(s: set<T>)
    requires s != {}
    ensures exists x :: x in s
  {
    NoMemberEmpty(s);
  }

  lemma NoMemberEmpty<T>(s: set<T>)
    ensures (forall x :: x !in s) ==> s == {}
  {
    if forall x :: x !in s {
      assert s == {};
    }
  }

  /** Some member of a non-empty set. */
  ghost function Pick<T>(s: set<T>): (r: T)
    requires s != {}
    ensures r in s
  {
    SomeMember(s);
    var x :| x in s;
    x
  }

  /** A one-element set has no two different members. */
  lemma OneMember<T>(s: set<T>)
    requires |s| == 1
    ensures forall a, b :: a in s && b in s ==> a == b
  {
    var x := Pick(s);
    assert |s - {x}| == 0;
    assert s == {x};
  }

  /** The member of a one-element set. */
  function TheOnly<T>(s: set<T>): (r: T)
    requires |s| == 1
    ensures s == {r}
  {
    SomeMember(s);
    OneMember(s);
    var x :| x in s;
    assert s == {x};
    x
  }
}

=== FILE: text.dfy ===
/** The handful of Python `str` operations the services rely on, written
    over `seq<char>`: `strip`, `rstrip(c)`, `startswith`, `in`, `find`,
    `split(c)`, `lower` and `str(int)`. Whitespace is the six ASCII
    whitespace characters of `IsSpace`, and lower-casing covers the Latin
    and Russian letters only. */
module Text {
  import opened Wrappers

  predicate IsSpace(c: char) {
    c == ' ' || c == '\t' || c == '\n' || c == '\r' || c == '\U{B}' || c == '\U{C}'
  }

  /** How many leading characters of `s` satisfy `drop`. */
  function LeadCount(s: string, drop: char -> bool): (n: nat)
    ensures n <= |s|
    ensures forall i :: 0 <= i < n ==> drop(s[i])
    ensures n < |s| ==> !drop(s[n])
    decreases |s|
  {
    if |s| > 0 && drop(s[0]) then
      var m := LeadCount(s[1..], drop);
      assert forall i :: 1 <= i < m + 1 ==> s[i] == s[1..][i - 1];
      m + 1
    else 0
  }

  /** How many characters of `s` remain once the trailing ones satisfying
      `drop` are removed. */
  function KeptCount(s: string, drop: char -> bool): (n: nat)
    ensures n <= |s|
    ensures forall i :: n <= i < |s| ==> drop(s[i])
    ensures n > 0 ==> !drop(s[n - 1])
    decreases |s|
  {
    if |s| > 0 && drop(s[|s| - 1]) then
      var m := KeptCount(s[..|s| - 1], drop);
      assert forall i :: 0 <= i < |s| - 1 ==> s[i] == s[..|s| - 1][i];
      m
    else |s|
  }

  /** The leading count is the only one the postconditions allow. */
  lemma LeadCountIs(s: string, drop: char -> bool, n: nat)
    requires n <= |s| && (forall i :: 0 <= i < n ==> drop(s[i])) && (n < |s| ==> !drop(s[n]))
    ensures LeadCount(s, drop) == n
  {
  }

  /** The kept count is the only one the postconditions allow. */
  lemma KeptCountIs(s: string, drop: char -> bool, n: nat)
    requires n <= |s| && (forall i :: n <= i < |s| ==> drop(s[i])) && (n > 0 ==> !drop(s[n - 1]))
    ensures KeptCount(s, drop) == n
  {
  }

  /** `s` with every leading character satisfying `drop` removed. */
  function TrimStart(s: string, drop: char -> bool): string {
    s[LeadCount(s, drop)..]
  }

  /** `s` with every trailing character satisfying `drop` removed. */
  function TrimEnd(s: string, drop: char -> bool): string {
    s[..KeptCount(s, drop)]
  }

  /** Python `s.strip()`. */
  function Strip(s: string): string {
    TrimEnd(TrimStart(s, IsSpace), IsSpace)
  }

  /** Python `s.rstrip(c)` for a single character `c`. */
  function RStripChar(s: string, c: char): string {
    TrimEnd(s, x => x == c)
  }

  /** Python `s.strip(c)` for a single character `c`. */
  function StripChar(s: string, c: char): string {
    TrimEnd(TrimStart(s, x => x == c), x => x == c)
  }

  /** Nothing to strip at either end. */
  lemma StripCharUnchanged(s: string, c: char)
    requires s == [] || (s[0] != c && s[|s| - 1] != c)
    ensures StripChar(s, c) == s
  {
  }

  /** A leading `c` is stripped. */
  lemma StripCharLeading(s: string, c: char)
    ensures StripChar([c] + s, c) == StripChar(s, c)
  {
    var t := [c] + s;
    assert t[1..] == s;
  }

  /** After `strip(c)` the text neither starts nor ends with `c`. */
  lemma StripCharEnds(s: string, c: char)
    ensures var r := StripChar(s, c);
      r == [] || (r[0] != c && r[|r| - 1] != c)
  {
    var l := TrimStart(s, x => x == c);
    var r := TrimEnd(l, x => x == c);
    if r != [] {
      assert r[0] == l[0];
    }
  }

  /** `rstrip(c)` leaves text not ending in `c` alone. */
  lemma RStripCharUnchanged(s: string, c: char)
    requires s == [] || s[|s| - 1] != c
    ensures RStripChar(s, c) == s
  {
  }

  /** A trailing `c` makes no difference to `rstrip(c)`. */
  lemma RStripCharAppend(s: string, c: char)
    ensures RStripChar(s + [c], c) == RStripChar(s, c)
  {
    var t := s + [c];
    assert t[..|t| - 1] == s;
  }

  /** A stripped string neither starts nor ends with whitespace. */
  lemma StripEnds(s: string)
    ensures var r := Strip(s);
      r == [] || (!IsSpace(r[0]) && !IsSpace(r[|r| - 1]))
  {
    var l := TrimStart(s, IsSpace);
    var r := TrimEnd(l, IsSpace);
    if r != [] {
      assert r[0] == l[0];
    }
  }

  /** The kept text of `strip` is the slice after the leading whitespace. */
  lemma StripSlice(s: string)
    ensures var i := |s| - |TrimStart(s, IsSpace)|;
      i + |Strip(s)| <= |s| && Strip(s) == s[i..i + |Strip(s)|]
  {
    var l := TrimStart(s, IsSpace);
    var r := TrimEnd(l, IsSpace);
    var i := |s| - |l|;
    assert l == s[i..];
    assert r == l[..|r|];
  }

  /** Everything after the kept text of `strip` is whitespace. */
  lemma StripTail(s: string)
    ensures forall k :: |s| - |TrimStart(s, IsSpace)| + |Strip(s)| <= k < |s| ==> IsSpace(s[k])
  {
    var l := TrimStart(s, IsSpace);
    var i := |s| - |l|;
    var n := |Strip(s)|;
    forall k | i + n <= k < |s| ensures IsSpace(s[k]) {
      assert s[k] == l[k - i];
    }
  }

  /** `strip` cuts whitespace off both ends and nothing else. */
  lemma StripShape(s: string)
    ensures var r := Strip(s);
      (r == [] || (!IsSpace(r[0]) && !IsSpace(r[|r| - 1]))) &&
      exists i, j :: 0 <= i <= j <= |s| && r == s[i..j] &&
        (forall k :: 0 <= k < i ==> IsSpace(s[k])) &&
        (forall k :: j <= k < |s| ==> IsSpace(s[k]))
  {
    StripEnds(s);
    StripSlice(s);
    StripTail(s);
    var i := |s| - |TrimStart(s, IsSpace)|;
    var j := i + |Strip(s)|;
    assert 0 <= i <= j <= |s| && Strip(s) == s[i..j];
  }

  /** A stripped string is non-empty as soon as the input has a
      non-whitespace character. */
  lemma StripKeeps(s: string, i: int)
    requires 0 <= i < |s| && !IsSpace(s[i])
    ensures Strip(s) != ""
  {
    var l := TrimStart(s, IsSpace);
    assert l != [] && !IsSpace(l[0]);
  }

  /** A non-whitespace character appended after text that does not end
      in whitespace survives `strip`. */
  lemma StripAppend(u: string, c: char)
    requires u == [] || !IsSpace(u[|u| - 1])
    requires !IsSpace(c)
    ensures Strip(u + [c]) == Strip(u) + [c]
  {
    var n := LeadCount(u, IsSpace);
    TrimStartAppend(u, c, n);
    var l := u[n..];
    TrimEndWhole(l + [c]);
    if l != [] {
      assert l[|l| - 1] == u[|u| - 1];
    }
    TrimEndWhole(l);
  }

  /** Text that does not end in whitespace keeps its end. */
  lemma TrimEndWhole(s: string)
    requires s == [] || !IsSpace(s[|s| - 1])
    ensures TrimEnd(s, IsSpace) == s
  {
    KeptCountIs(s, IsSpace, |s|);
  }

  /** The leading whitespace of `u + [c]` is that of `u`. */
  lemma TrimStartAppend(u: string, c: char, n: nat)
    requires u == [] || !IsSpace(u[|u| - 1])
    requires !IsSpace(c) && n == LeadCount(u, IsSpace)
    ensures TrimStart(u + [c], IsSpace) == u[n..] + [c]
  {
    var t := u + [c];
    if u == [] {
      assert t == [c];
    } else {
      assert n < |u| by {
        assert !IsSpace(u[|u| - 1]);
      }
      forall i | 0 <= i < n
        ensures IsSpace(t[i])
      {
        assert t[i] == u[i];
      }
      assert t[n] == u[n];
      LeadCountIs(t, IsSpace, n);
      assert t[n..] == u[n..] + [c];
    }
  }

  /** Strip of a stripped word followed by a space. */
  lemma StripTrailingSpace(n: string)
    requires n != "" && !IsSpace(n[0]) && !IsSpace(n[|n| - 1])
    ensures Strip(n + " ") == n
  {
    var t := n + " ";
    LeadCountIs(t, IsSpace, 0);
    assert TrimStart(t, IsSpace) == t;
    KeptCountIs(t, IsSpace, |n|);
    assert t[..|n|] == n;
  }

  /** Strip of a space followed by a stripped word. */
  lemma StripLeadingSpace(l: string)
    requires l != "" && !IsSpace(l[0]) && !IsSpace(l[|l| - 1])
    ensures Strip(" " + l) == l
  {
    var t := " " + l;
    assert t[1..] == l;
    assert TrimStart(t, IsSpace) == TrimStart(l, IsSpace);
  }

  predicate StartsWith(s: string, p: string) {
    |p| <= |s| && s[..|p|] == p
  }

  predicate EndsWith(s: string, p: string) {
    |p| <= |s| && s[|s| - |p|..] == p
  }

  /** Python `p in s` for strings: `p` occurs somewhere in `s`. */
  predicate Contains(s: string, p: string)
    decreases |s|
  {
    StartsWith(s, p) || (|s| > 0 && Contains(s[1..], p))
  }

  lemma ContainsAt(s: string, p: string, i: int)
    requires 0 <= i && i + |p| <= |s| && s[i..i + |p|] == p
    ensures Contains(s, p)
    decreases i
  {
    if i > 0 {
      assert s[1..][i - 1..i - 1 + |p|] == p;
      ContainsAt(s[1..], p, i - 1);
    }
  }

  /** Python `s.find(c)` for one character: the first index of `c`, or -1. */
  function Find(s: string, c: char): (r: int)
    ensures -1 <= r < |s|
    ensures r == -1 <==> c !in s
    ensures r >= 0 ==> s[r] == c && c !in s[..r]
    decreases |s|
  {
    if |s| == 0 then -1
    else if s[0] == c then 0
    else
      var k := Find(s[1..], c);
      if k < 0 then -1 else k + 1
  }

  lemma FindAt(s: string, c: char, i: int)
    requires 0 <= i < |s| && s[i] == c && c !in s[..i]
    ensures Find(s, c) == i
  {
    var r := Find(s, c);
    assert forall j :: 0 <= j < i ==> s[..i][j] == s[j];
    assert forall j :: 0 <= j < r ==> s[..r][j] == s[j];
  }

  /** Index of the last `c` in `s`, or -1. */
  function FindLast(s: string, c: char): (r: int)
    ensures -1 <= r < |s|
    ensures r >= 0 ==> s[r] == c
    ensures forall k :: r < k < |s| ==> s[k] != c
    decreases |s|
  {
    if |s| == 0 then -1
    else if s[|s| - 1] == c then |s| - 1
    else FindLast(s[..|s| - 1], c)
  }

  /** Python `s.split(c)`: the pieces between occurrences of `c`; there is
      always at least one piece. */
  function Split(s: string, c: char): (r: seq<string>)
    ensures |r| >= 1
    ensures Unseparated(r, c)
    decreases |s|
  {
    var k := Find(s, c);
    if k < 0 then [s]
    else
      var rest := Split(s[k + 1..], c);
      UnseparatedCons(s[..k], rest, c);
      [s[..k]] + rest
  }

  /** No piece contains the separator. */
  predicate Unseparated(parts: seq<string>, c: char) {
    forall i :: 0 <= i < |parts| ==> c !in parts[i]
  }

  lemma UnseparatedCons(x: string, rest: seq<string>, c: char)
    requires c !in x && Unseparated(rest, c)
    ensures Unseparated([x] + rest, c)
  {
    assert forall i :: 1 <= i <= |rest| ==> ([x] + rest)[i] == rest[i - 1];
  }

  /** Python `c.join(parts)`. */
  function Join(parts: seq<string>, c: char): string
    decreases |parts|
  {
    if |parts| == 0 then ""
    else if |parts| == 1 then parts[0]
    else parts[0] + [c] + Join(parts[1..], c)
  }

  /** A join starts with the first part. */
  lemma JoinHead(parts: seq<string>, c: char)
    requires |parts| >= 1 && parts[0] != ""
    ensures Join(parts, c) != "" && Join(parts, c)[0] == parts[0][0]
  {
    if |parts| > 1 {
      assert Join(parts, c) == parts[0] + ([c] + Join(parts[1..], c));
    }
  }

  lemma JoinCons(x: string, rest: seq<string>, c: char)
    requires |rest| >= 1
    ensures Join([x] + rest, c) == x + [c] + Join(rest, c)
  {
    assert ([x] + rest)[1..] == rest;
  }

  lemma SplitAround(s: string, k: int)
    requires 0 <= k < |s|
    ensures s == s[..k] + [s[k]] + s[k + 1..]
  {
  }

  /** Joining the pieces of a split with the same separator gives back the
      original string. */
  lemma {:induction false} JoinSplit(s: string, c: char)
    ensures Join(Split(s, c), c) == s
    decreases |s|
  {
    var k := Find(s, c);
    if k >= 0 {
      var head, tail := s[..k], s[k + 1..];
      var rest := Split(tail, c);
      assert Split(s, c) == [head] + rest;
      JoinSplit(tail, c);
      JoinCons(head, rest, c);
      SplitAround(s, k);
    } else {
      assert Split(s, c) == [s];
    }
  }

  /** Splitting a join of pieces free of the separator gives the pieces
      back. */
  lemma {:induction false} SplitJoin(parts: seq<string>, c: char)
    requires |parts| >= 1
    requires Unseparated(parts, c)
    ensures Split(Join(parts, c), c) == parts
    decreases |parts|
  {
    if |parts| > 1 {
      var rest := parts[1..];
      SplitJoin(rest, c);
      assert [parts[0]] + rest == parts;
      JoinCons(parts[0], rest, c);
      var s := Join(parts, c);
      var k := |parts[0]|;
      assert s[..k] == parts[0];
      FindAt(s, c, k);
      assert s[k + 1..] == Join(rest, c);
    }
  }

  /** The lower case of a Latin or Russian letter; other characters stay. */
  function LowerChar(c: char): char {
    if 'A' <= c <= 'Z' || 'А' <= c <= 'Я' then (c as int + 32) as char
    else if c == 'Ё' then 'ё'
    else c
  }

  /** Python `s.lower()` on Latin and Russian letters. */
  function Lower(s: string): (r: string)
    ensures |r| == |s|
    ensures forall i :: 0 <= i < |s| ==> r[i] == LowerChar(s[i])
  {
    seq(|s|, i requires 0 <= i < |s| => LowerChar(s[i]))
  }

  /** Lower-case Latin text is its own lower case. */
  lemma LowerOfLowercase(s: string)
    requires forall i :: 0 <= i < |s| ==> 'a' <= s[i] <= 'z'
    ensures Lower(s) == s
  {
    assert forall i :: 0 <= i < |s| ==> Lower(s)[i] == s[i];
  }

  /** The decimal digit character for `d`. */
  function DigitChar(d: int): (c: char)
    requires 0 <= d < 10
    ensures '0' <= c <= '9' && c as int - '0' as int == d
  {
    ('0' as int + d) as char
  }

  /** Decimal digits of a natural number, most significant first. */
  function NatToString(n: nat): (r: string)
    ensures |r| >= 1
    ensures forall i :: 0 <= i < |r| ==> '0' <= r[i] <= '9'
    ensures (|r| == 1) == (n < 10)
    decreases n
  {
    if n < 10 then [DigitChar(n)] else NatToString(n / 10) + [DigitChar(n % 10)]
  }

  /** Python `str(n)` for an int. */
  function IntToString(n: int): (r: string)
    ensures |r| >= 1
  {
    if n < 0 then "-" + NatToString(-n) else NatToString(n)
  }

  /** `str(n)` uses only digits and a leading minus sign. */
  lemma IntToStringChars(n: int)
    ensures forall i :: 0 <= i < |IntToString(n)| ==> IntToString(n)[i] == '-' || IsDigit(IntToString(n)[i])
    ensures !IsSpace(IntToString(n)[0]) && !IsSpace(IntToString(n)[|IntToString(n)| - 1])
  {
  }

  predicate IsDigit(c: char) {
    '0' <= c <= '9'
  }

  predicate AllDigits(s: string) {
    forall i :: 0 <= i < |s| ==> IsDigit(s[i])
  }

  /** The value of a run of decimal digits, most significant first. */
  function DigitsValue(s: string): (r: nat)
    requires AllDigits(s)
    decreases |s|
  {
    if |s| == 0 then 0
    else DigitsValue(s[..|s| - 1]) * 10 + (s[|s| - 1] as int - '0' as int)
  }

  /** Python `int(s)` on a string, restricted to ASCII: surrounding
      `IsSpace` whitespace, an optional sign and at least one ASCII digit
      read as a number; anything else is `None`, where Python raises.
      Python also accepts `_` between digits, non-ASCII decimal digits and
      Unicode whitespace, which this reading refuses. */
  function ParseInt(s: string): (r: Option<int>)
    ensures r.Some? ==> Strip(s) != []
    ensures r.Some? ==> forall i :: 0 <= i < |Strip(s)| ==>
      IsDigit(Strip(s)[i]) || (i == 0 && (Strip(s)[0] == '-' || Strip(s)[0] == '+'))
    ensures r.Some? && r.value < 0 ==> Strip(s)[0] == '-'
  {
    var t := Strip(s);
    if |t| > 0 && (t[0] == '-' || t[0] == '+') then
      var d := t[1..];
      if d != [] && AllDigits(d) then
        var v: int := DigitsValue(d);
        Some(if t[0] == '-' then -v else v)
      else None
    else if t != [] && AllDigits(t) then Some(DigitsValue(t))
    else None
  }

  /** `int()` only looks at the stripped text. */
  lemma ParseIntOfStripped(a: string, b: string)
    requires Strip(a) == Strip(b)
    ensures ParseInt(a) == ParseInt(b)
  {
  }

  lemma {:induction false} DigitsValueOfNat(n: nat)
    ensures AllDigits(NatToString(n))
    ensures DigitsValue(NatToString(n)) == n
    decreases n
  {
    var r := NatToString(n);
    if n >= 10 {
      var q, d := n / 10, n % 10;
      DigitsValueOfNat(q);
      assert r == NatToString(q) + [DigitChar(d)];
      assert r[..|r| - 1] == NatToString(q);
      assert DigitsValue(r) == DigitsValue(NatToString(q)) * 10 + d;
      assert q * 10 + d == n;
    } else {
      assert r == [DigitChar(n)];
      assert r[..0] == [];
    }
  }

  /** A string whose ends are not whitespace is its own `strip()`. */
  lemma StripUnspaced(s: string)
    requires s != [] && !IsSpace(s[0]) && !IsSpace(s[|s| - 1])
    ensures Strip(s) == s
  {
    LeadCountIs(s, IsSpace, 0);
    assert TrimStart(s, IsSpace) == s;
    KeptCountIs(s, IsSpace, |s|);
  }

  /** `int()` of a stripped sign and digits. */
  lemma ParseSigned(t: string)
    requires Strip(t) == t && |t| > 1 && (t[0] == '-' || t[0] == '+') && AllDigits(t[1..])
    ensures ParseInt(t) == Some(if t[0] == '-' then -(DigitsValue(t[1..]) as int) else DigitsValue(t[1..]))
  {
  }

  /** `int()` of stripped digits. */
  lemma ParseUnsigned(t: string)
    requires Strip(t) == t && t != [] && AllDigits(t)
    ensures ParseInt(t) == Some(DigitsValue(t))
  {
  }

  /** `int()` of a minus sign and digits. */
  lemma ParseMinusDigits(d: string)
    requires d != [] && AllDigits(d)
    ensures ParseInt("-" + d) == Some(-(DigitsValue(d) as int))
  {
    var r := "-" + d;
    assert r[|r| - 1] == d[|d| - 1];
    StripUnspaced(r);
    assert r[1..] == d;
    ParseSigned(r);
  }

  /** `int()` of digits alone. */
  lemma ParseDigits(d: string)
    requires d != [] && AllDigits(d)
    ensures ParseInt(d) == Some(DigitsValue(d))
  {
    StripUnspaced(d);
    ParseUnsigned(d);
  }

  /** `int(str(n)) == n`: printing an int and parsing it back loses
      nothing. */
  lemma ParseIntToString(n: int)
    ensures ParseInt(IntToString(n)) == Some(n)
  {
    if n < 0 {
      var m: nat := -n;
      var d := NatToString(m);
      DigitsValueOfNat(m);
      ParseMinusDigits(d);
      assert ParseInt("-" + d) == Some(n);
      assert IntToString(n) == "-" + d;
    } else {
      DigitsValueOfNat(n);
      ParseDigits(NatToString(n));
    }
  }

  lemma DigitCharInjective(a: int, b: int)
    requires 0 <= a < 10 && 0 <= b < 10 && DigitChar(a) == DigitChar(b)
    ensures a == b
  {
  }

  lemma {:induction false} NatToStringInjective(a: nat, b: nat)
    requires NatToString(a) == NatToString(b)
    ensures a == b
    decreases a
  {
    var ra, rb := NatToString(a), NatToString(b);
    if a < 10 {
      DigitCharInjective(a, b);
    } else {
      var pa, pb := NatToString(a / 10), NatToString(b / 10);
      assert ra == pa + [DigitChar(a % 10)];
      assert rb == pb + [DigitChar(b % 10)];
      assert ra[|ra| - 1] == rb[|rb| - 1];
      DigitCharInjective(a % 10, b % 10);
      assert pa == ra[..|ra| - 1] == rb[..|rb| - 1] == pb;
      NatToStringInjective(a / 10, b / 10);
    }
  }

  /** `str` on ints loses nothing: distinct ints print differently. */
  lemma IntToStringInjective(a: int, b: int)
    requires IntToString(a) == IntToString(b)
    ensures a == b
  {
    var ra := IntToString(a);
    assert ra[0] == '-' <==> a < 0;
    if a < 0 {
      assert NatToString(-a) == ra[1..] == NatToString(-b);
      NatToStringInjective(-a, -b);
    } else {
      NatToStringInjective(a, b);
    }
  }
}

=== FILE: ttl_cache.dfy ===
/** The in-memory cache with per-entry expiry of
    b24-transfer-lead/src/backend/utils/cache.py. The clock is an explicit
    parameter `now` (seconds); every operation returns the new cache. */
module TtlCache {
  import opened Wrappers

  /** The default lifetime of an entry: one day. */
  const DefaultTtl: int := 86400

  /** Entries map a key to its value and absolute expiry time. */
  datatype Cache<V> = Cache(entries: map<string, (V, real)>, defaultTtl: int)

  function Empty<V>(defaultTtl: int): (c: Cache<V>)
    ensures c.entries == map[]
  {
    Cache(map[], defaultTtl)
  }

  /** `ttl or default_ttl`: a missing or zero lifetime means the default. */
  function EffectiveTtl<V>(c: Cache<V>, ttl: Option<int>): (r: int)
    ensures ttl.Some? && ttl.value != 0 ==> r == ttl.value
    ensures ttl.None? || ttl.value == 0 ==> r == c.defaultTtl
  {
    if ttl.Some? && ttl.value != 0 then ttl.value else c.defaultTtl
  }

  /** `get(key)` at time `now`: the value while `now` has not passed the
      expiry; an expired entry is deleted. */
  function Get<V>(c: Cache<V>, key: string, now: real): (r: (Option<V>, Cache<V>))
    ensures r.0.Some? <==> key in c.entries && now <= c.entries[key].1
    ensures r.0.Some? ==> r.0.value == c.entries[key].0 && r.1 == c
    ensures r.0.None? ==> key !in r.1.entries
    ensures r.1.entries.Keys <= c.entries.Keys && r.1.defaultTtl == c.defaultTtl
    ensures forall k :: k in r.1.entries ==> r.1.entries[k] == c.entries[k]
    ensures forall k :: k in c.entries && k != key ==> k in r.1.entries
  {
    if key !in c.entries then (None, c)
    else if now > c.entries[key].1 then (None, c.(entries := c.entries - {key}))
    else (Some(c.entries[key].0), c)
  }

  /** `set(key, value, ttl)` at time `now`: overwrites both the value and
      the expiry. */
  function Set<V>(c: Cache<V>, key: string, value: V, ttl: Option<int>, now: real): (r: Cache<V>)
    ensures key in r.entries && r.entries[key] == (value, now + EffectiveTtl(c, ttl) as real)
    ensures forall k :: k != key ==> (k in r.entries <==> k in c.entries)
    ensures forall k :: k != key && k in c.entries ==> r.entries[k] == c.entries[k]
    ensures r.defaultTtl == c.defaultTtl
  {
    c.(entries := c.entries[key := (value, now + EffectiveTtl(c, ttl) as real)])
  }

  /** `remove(key)`. */
  function Remove<V>(c: Cache<V>, key: string): (r: Cache<V>)
    ensures key !in r.entries
    ensures forall k :: k != key ==> (k in r.entries <==> k in c.entries)
    ensures forall k :: k != key && k in c.entries ==> r.entries[k] == c.entries[k]
  {
    if key in c.entries then c.(entries := c.entries - {key}) else c
  }

  /** `clear()`. */
  function Clear<V>(c: Cache<V>): (r: Cache<V>)
    ensures r.entries == map[] && r.defaultTtl == c.defaultTtl
  {
    c.(entries := map[])
  }

  /** A value set at time `t` is served at every later time up to and
      including `t + ttl` (the expiry test is strict). */
  lemma GetAfterSet<V>(c: Cache<V>, key: string, value: V, ttl: Option<int>, t: real, now: real)
    requires now <= t + EffectiveTtl(c, ttl) as real
    ensures Get(Set(c, key, value, ttl, t), key, now).0 == Some(value)
  {
  }

  /** Past its expiry an entry is gone, and the lookup deletes it. */
  lemma GetAfterExpiry<V>(c: Cache<V>, key: string, value: V, ttl: Option<int>, t: real, now: real)
    requires now > t + EffectiveTtl(c, ttl) as real
    ensures var r := Get(Set(c, key, value, ttl, t), key, now);
      r.0 == None && key !in r.1.entries
  {
  }

  /** A zero lifetime is not "expire at once": it falls back to the
      default. */
  lemma ZeroTtlMeansDefault<V>(c: Cache<V>, key: string, value: V, t: real)
    ensures Set(c, key, value, Some(0), t) == Set(c, key, value, None, t)
    ensures Set(c, key, value, Some(0), t).entries[key].1 == t + c.defaultTtl as real
  {
  }

  /** The second of two sets to one key wins, value and expiry alike. */
  lemma SetOverwrites<V>(c: Cache<V>, key: string, v1: V, v2: V, ttl1: Option<int>, ttl2: Option<int>, t1: real, t2: real)
    ensures Set(Set(c, key, v1, ttl1, t1), key, v2, ttl2, t2) == Set(c, key, v2, ttl2, t2)
  {
  }

  /** A key never set is never served, and looking it up changes nothing. */
  lemma GetUnknown<V>(c: Cache<V>, key: string, now: real)
    requires key !in c.entries
    ensures Get(c, key, now) == (None, c)
  {
  }

  /** Removing an absent key is a no-op. */
  lemma RemoveAbsent<V>(c: Cache<V>, key: string)
    requires key !in c.entries
    ensures Remove(c, key) == c
  {
  }

  /** After `remove(key)` the key is not served until it is set again; other
      keys are served as before. */
  lemma GetAfterRemove<V>(c: Cache<V>, key: string, other: string, now: real)
    requires other != key
    ensures Get(Remove(c, key), key, now).0 == None
    ensures Get(Remove(c, key), other, now).0 == Get(c, other, now).0
  {
  }

  /** After `clear()` nothing is served. */
  lemma GetAfterClear<V>(c: Cache<V>, key: string, now: real)
    ensures Get(Clear(c), key, now).0 == None
  {
  }
}

=== FILE: user_auth.dfy ===
/** The service's own users and their login sessions
    (b24-transfer-lead/src/backend/services/auth.py). Sessions live in a
    process-wide dict, here a map passed in and returned; the clock is a
    parameter counting seconds, and the random session key is chosen by the
    caller. Password hashing is a parameter as well. */
module UserAuth {
  import opened Wrappers
  import Seqs

  /** Sessions last a day (`SESSION_EXPIRE_MINUTES` of
      b24-transfer-lead/src/backend/core/config.py). */
  const SessionExpireMinutes: int := 60 * 24

  datatype Session = Session(userId: int, username: string, role: string, expiresAt: int)

  type Sessions = map<string, Session>

  /** `create_session`: the new session expires a day after `now`. */
  function CreateSession(sessions: Sessions, key: string, userId: int, username: string, role: string, now: int): (r: Sessions)
    ensures key in r && r[key] == Session(userId, username, role, now + SessionExpireMinutes * 60)
    ensures forall k :: k != key ==> (k in r <==> k in sessions) && (k in sessions ==> r[k] == sessions[k])
  {
    sessions[key := Session(userId, username, role, now + SessionExpireMinutes * 60)]
  }

  /** `get_session`: the live session under `key`, and the store
      afterwards; an expired session is dropped. */
  function GetSession(sessions: Sessions, key: string, now: int): (r: (Option<Session>, Sessions))
    ensures key !in sessions ==> r == (None, sessions)
    ensures key in sessions && now > sessions[key].expiresAt ==> r.0.None? && r.1 == DeleteSession(sessions, key)
    ensures key in sessions && now <= sessions[key].expiresAt ==> r == (Some(sessions[key]), sessions)
  {
    if key !in sessions then (None, sessions)
    else if now > sessions[key].expiresAt then (None, sessions - {key})
    else (Some(sessions[key]), sessions)
  }

  /** `delete_session`: only `key` goes, and a missing key is no error. */
  function DeleteSession(sessions: Sessions, key: string): (r: Sessions)
    ensures key !in r
    ensures forall k :: k != key ==> (k in r <==> k in sessions) && (k in sessions ==> r[k] == sessions[k])
  {
    sessions - {key}
  }

  lemma DeleteIdempotent(sessions: Sessions, key: string)
    ensures DeleteSession(DeleteSession(sessions, key), key) == DeleteSession(sessions, key)
  {
    var once := DeleteSession(sessions, key);
    assert DeleteSession(once, key) == once;
  }

  /** A new session is served for a whole day, boundary included, and not
      a moment longer; the lookup that finds it expired removes it. */
  lemma SessionLivesOneDay(sessions: Sessions, key: string, userId: int, username: string, role: string, now: int, t: int)
    ensures var s := CreateSession(sessions, key, userId, username, role, now);
      var got := GetSession(s, key, t);
      (got.0.Some? <==> t <= now + 86400) &&
      (got.0.Some? ==> got.0.value.userId == userId && got.0.value.role == role && got.1 == s) &&
      (got.0.None? ==> key !in got.1)
  {
  }

  /** A row of the `users` table. */
  datatype User = User(id: int, username: string, passwordHash: string, role: string)

  /** The first user with the name, in table order. */
  function FindUser(users: seq<User>, username: string): (r: Option<nat>)
    ensures r.None? <==> forall i :: 0 <= i < |users| ==> users[i].username != username
    ensures r.Some? ==> (r.value < |users| && users[r.value].username == username &&
      forall i :: 0 <= i < r.value ==> users[i].username != username)
  {
    Seqs.FirstIndex(users, (x: User) => x.username == username)
  }

  /** `authenticate_user`: the user, when the name is known and the
      password checks against the stored hash. */
  function Authenticate(users: seq<User>, username: string, password: string, verify: (string, string) -> bool): (r: Option<User>)
    ensures r.Some? <==> (FindUser(users, username).Some? &&
      verify(password, users[FindUser(users, username).value].passwordHash))
    ensures r.Some? ==> r.value == users[FindUser(users, username).value] && r.value.username == username
  {
    var i := FindUser(users, username);
    if i.None? || !verify(password, users[i.value].passwordHash) then None
    else Some(users[i.value])
  }

  datatype UserError = UserExists(message: string)

  /** `create_user`: a taken name is refused and nothing is inserted;
      otherwise the user is appended with the hashed password. */
  function CreateUser(users: seq<User>, username: string, password: string, role: string,
                      hash: string -> string, newId: int): (r: Result<seq<User>, UserError>)
    ensures FindUser(users, username).Some? <==> r.Err?
    ensures r.Err? ==> r.error.message == "User " + username + " already exists"
    ensures r.Ok? ==> r.value == users + [User(newId, username, hash(password), role)]
  {
    if FindUser(users, username).Some? then Err(UserExists("User " + username + " already exists"))
    else Ok(users + [User(newId, username, hash(password), role)])
  }

  /** A user just created logs in with the password given, when the hash
      verifies against it; creating the same name again is refused. */
  lemma CreatedUserAuthenticates(users: seq<User>, username: string, password: string, role: string,
                                 hash: string -> string, verify: (string, string) -> bool, newId: int)
    requires verify(password, hash(password))
    requires CreateUser(users, username, password, role, hash, newId).Ok?
    ensures var after := CreateUser(users, username, password, role, hash, newId).value;
      Authenticate(after, username, password, verify) == Some(User(newId, username, hash(password), role)) &&
      CreateUser(after, username, password, role, hash, newId).Err?
  {
    var after := CreateUser(users, username, password, role, hash, newId).value;
    assert forall i :: 0 <= i < |users| ==> after[i] == users[i];
    assert after[|users|].username == username;
    assert FindUser(after, username) == Some(|users|);
  }

  const AdminRole: string := "admin"
  const UserRole: string := "user"

  /** `is_admin`: only the "admin" role, which is also what the inline
      `role == "admin"` checks of the workflow endpoints test. */
  predicate IsAdmin(role: string): (r: bool)
    ensures r <==> role == "admin"
    ensures role == UserRole ==> !r
  {
    role == AdminRole
  }
}

=== FILE: webhook_input.dfy ===
/** What the Bitrix24 webhook handler reads out of a decoded form before it
    touches any lead: the `auth[...]` fields, the tenant (workflow) the
    event belongs to, the event kind, the event's fields and the CRM id
    (b24-transfer-lead/src/backend/api/v1/webhook.py). */
module WebhookInput {
  import opened Wrappers
  import opened Text
  import opened Dicts
  import opened FormKeys
  import opened B24Models
  import opened Seqs

  /** `extract_auth_field(data, f)`: the entry of a dict-valued `auth`, or
      else the flat key `auth[f]`, or nothing. */
  function ExtractAuthField(data: Dict<Node>, f: string): (r: Option<Node>)
    ensures (HasKey(data, "auth") && Get(data, "auth").value.Obj?) ==>
      r == Get(Get(data, "auth").value.entries, f)
    ensures !(HasKey(data, "auth") && Get(data, "auth").value.Obj?) ==>
      r == Get(data, "auth[" + f + "]")
  {
    var auth := Get(data, "auth");
    if auth.Some? && auth.value.Obj? then Get(auth.value.entries, f)
    else Get(data, "auth[" + f + "]")
  }

  /** When `auth` is a dict, the flat `auth[f]` key is never consulted:
      adding or changing it does not change the answer. */
  lemma NestedAuthShadowsFlat(data: Dict<Node>, f: string, v: Node)
    requires HasKey(data, "auth") && Get(data, "auth").value.Obj?
    ensures ExtractAuthField(Put(data, "auth[" + f + "]", v), f) == ExtractAuthField(data, f)
  {
    var flat := "auth[" + f + "]";
    assert flat != "auth" by {
      assert |flat| > |"auth"|;
    }
  }

  /** A form carrying `auth[f]=v` decodes so that the field reads back as
      `v`. */
  lemma AuthFieldFromForm(f: string, v: string)
    requires BracketFree(f)
    ensures Decode([("auth[" + f + "]", v)]).Ok?
    ensures ExtractAuthField(Decode([("auth[" + f + "]", v)]).value, f) == Some(Leaf(v))
  {
    var key := "auth[" + f + "]";
    assert key == "auth" + "[" + f + "]";
    var inner: Dict<Node> := [(f, Leaf(v))];
    var d: Dict<Node> := [("auth", Obj(inner))];
    assert Put([], f, Leaf(v)) == inner;
    assert Put([], "auth", Obj(inner)) == d;
    OneLevel("auth", f, v, []);
    assert ParseNestedKey(key, v, []) == Ok(d);
    DecodeOne(key, v);
    assert Get(d, "auth") == Some(Obj(inner));
    assert Get(inner, f) == Some(Leaf(v));
  }

  /** Python truthiness of `str(x)` for an extracted id: a dict prints as a
      non-empty text, a string is truthy when non-empty. */
  predicate IdTruthy(n: Node) {
    n.Obj? || n.s != ""
  }

  /** The value stored under `ID`, else `ID]`, in a dict. */
  function DirectId(d: Dict<Node>): (r: Option<Node>)
    ensures r.None? <==> !HasKey(d, "ID") && !HasKey(d, "ID]")
  {
    if HasKey(d, "ID") then Get(d, "ID") else Get(d, "ID]")
  }

  /** `v` sits under an `ID` or `ID]` key of some dict in the tree. */
  predicate IdIn(n: Node, v: Node)
    decreases n
  {
    match n
    case Leaf(_) => false
    case Obj(d) =>
      Get(d, "ID") == Some(v) || Get(d, "ID]") == Some(v) ||
      exists i :: 0 <= i < |d| && IdIn(d[i].1, v)
  }

  lemma DirectIdIn(d: Dict<Node>)
    requires DirectId(d).Some?
    ensures IdIn(Obj(d), DirectId(d).value)
  {
  }

  lemma ChildIdIn(d: Dict<Node>, i: int, v: Node)
    requires 0 <= i < |d| && IdIn(d[i].1, v)
    ensures IdIn(Obj(d), v)
  {
  }

  /** `extract_id_from_nested_dict`: `ID`, `ID]`, `FIELDS.ID`,
      `FIELDS.ID]`, then every child dict in order (its own `ID`/`ID]`
      first, then a truthy result of searching it recursively). Whatever
      it returns really is an `ID`/`ID]` value somewhere in the tree: it
      never invents an id. */
  function ExtractId(n: Node): (r: Option<Node>)
    ensures r.Some? ==> IdIn(n, r.value)
    decreases n, 1, 0
  {
    match n
    case Leaf(_) => None
    case Obj(d) =>
      if DirectId(d).Some? then DirectIdIn(d); DirectId(d)
      else
        var fields := Get(d, "FIELDS");
        if fields.Some? && fields.value.Obj? && DirectId(fields.value.entries).Some? then
          DirectIdIn(fields.value.entries);
          ChildIdIn(d, IndexOfKey(d, "FIELDS"), DirectId(fields.value.entries).value);
          DirectId(fields.value.entries)
        else SearchChildren(n, 0)
  }

  /** The loop over `data.values()` from position `i` on; it too only
      returns an `ID`/`ID]` value of the tree. */
  function SearchChildren(n: Node, i: nat): (r: Option<Node>)
    requires n.Obj? && i <= |n.entries|
    ensures r.Some? ==> IdIn(n, r.value)
    decreases n, 0, |n.entries| - i
  {
    if i == |n.entries| then None
    else
      var child := n.entries[i].1;
      match child
      case Leaf(_) => SearchChildren(n, i + 1)
      case Obj(c) =>
        if DirectId(c).Some? then
          DirectIdIn(c);
          ChildIdIn(n.entries, i, DirectId(c).value);
          DirectId(c)
        else
          var nested := ExtractId(child);
          if nested.Some? && IdTruthy(nested.value) then
            ChildIdIn(n.entries, i, nested.value);
            nested
          else SearchChildren(n, i + 1)
  }

  /** A top-level `ID` wins over everything else, even when it is empty. */
  lemma TopLevelIdFirst(d: Dict<Node>)
    requires HasKey(d, "ID")
    ensures ExtractId(Obj(d)) == Get(d, "ID")
  {
  }

  /** `{"FIELDS": {"ID": "42"}}` gives "42". */
  lemma IdUnderFields()
    ensures ExtractId(Obj([("FIELDS", Obj([("ID", Leaf("42"))]))])) == Some(Leaf("42"))
  {
    var inner: Dict<Node> := [("ID", Leaf("42"))];
    var d: Dict<Node> := [("FIELDS", Obj(inner))];
    assert IndexOfKey(d, "ID") == -1;
    assert IndexOfKey(d, "ID]") == -1;
    assert IndexOfKey(d, "FIELDS") == 0;
    assert IndexOfKey(inner, "ID") == 0;
  }

  /** `{"ID]": "42"}`, left by the form decoder for a key `ID]`, gives "42". */
  lemma IdUnderBracketKey()
    ensures ExtractId(Obj([("ID]", Leaf("42"))])) == Some(Leaf("42"))
  {
    var d: Dict<Node> := [("ID]", Leaf("42"))];
    assert IndexOfKey(d, "ID") == -1;
    assert IndexOfKey(d, "ID]") == 0;
  }

  /** `{"": {"ID": "42"}}`, left by a key `[][ID]`, gives "42". */
  lemma IdUnderEmptyKey()
    ensures ExtractId(Obj([("", Obj([("ID", Leaf("42"))]))])) == Some(Leaf("42"))
  {
    var inner: Dict<Node> := [("ID", Leaf("42"))];
    var d: Dict<Node> := [("", Obj(inner))];
    assert IndexOfKey(d, "ID") == -1;
    assert IndexOfKey(d, "ID]") == -1;
    assert IndexOfKey(d, "FIELDS") == -1;
    assert IndexOfKey(inner, "ID") == 0;
    assert SearchChildren(Obj(d), 0) == Some(Leaf("42"));
  }

  /** An empty dict and a string carry no id. */
  lemma NoIdInEmptyOrString(s: string)
    ensures ExtractId(Obj([])) == None
    ensures ExtractId(Leaf(s)) == None
  {
    assert SearchChildren(Obj([]), 0) == None;
  }

  /** An empty `ID` in one grandchild stops the search of its branch, so a
      truthy `ID` in a later grandchild of the same child is never seen:
      `{"a": {"x": {"ID": ""}, "y": {"ID": "5"}}}` yields no id. */
  lemma EmptyIdHidesSibling()
    ensures var a: Dict<Node> := [("x", Obj([("ID", Leaf(""))])), ("y", Obj([("ID", Leaf("5"))]))];
      IdIn(Obj([("a", Obj(a))]), Leaf("5")) && ExtractId(Obj([("a", Obj(a))])) == None
  {
    var x: Dict<Node> := [("ID", Leaf(""))];
    var y: Dict<Node> := [("ID", Leaf("5"))];
    var a: Dict<Node> := [("x", Obj(x)), ("y", Obj(y))];
    var top: Dict<Node> := [("a", Obj(a))];
    assert IndexOfKey(x, "ID") == 0;
    assert IndexOfKey(y, "ID") == 0;
    assert IdIn(Obj(y), Leaf("5"));
    assert IdIn(Obj(a), Leaf("5")) by {
      ChildIdIn(a, 1, Leaf("5"));
    }
    ChildIdIn(top, 0, Leaf("5"));
    assert IndexOfKey(a, "ID") == -1 && IndexOfKey(a, "ID]") == -1 && IndexOfKey(a, "FIELDS") == -1;
    assert IndexOfKey(top, "ID") == -1 && IndexOfKey(top, "ID]") == -1 && IndexOfKey(top, "FIELDS") == -1;
    assert SearchChildren(Obj(a), 0) == Some(Leaf(""));
    assert ExtractId(Obj(a)) == Some(Leaf(""));
    assert SearchChildren(Obj(top), 1) == None;
    assert SearchChildren(Obj(top), 0) == None;
  }

  /** Why the handler gave up on a request, as an HTTP status code. */
  datatype Rejection = BadRequest | Forbidden | NotFound | ServerError {
    function Code(): int {
      match this
      case BadRequest => 400
      case Forbidden => 403
      case NotFound => 404
      case ServerError => 500
    }
  }

  /** Node truthiness for the handler's `if not x` tests on possibly
      missing values. */
  predicate Present(n: Option<Node>) {
    n.Some? && FormKeys.Truthy(n.value)
  }

  /** A workflow accepts the event's token when it has no token of its own,
      or when the event carries exactly that (non-empty) string. */
  predicate TokenAccepts(w: Workflow, token: Option<Node>) {
    !Wrappers.Truthy(w.appToken) || token == Some(Leaf(w.appToken.value))
  }

  /** Tenant matching: the workflows of the event's portal domain that
      accept its application token, in query order. */
  function MatchTenants(data: Dict<Node>, workflows: seq<Workflow>): (r: Result<seq<Workflow>, Rejection>)
    ensures r == Err(BadRequest) <==> !Present(ExtractAuthField(data, "domain"))
    ensures r.Ok? ==> r.value != [] && ExtractAuthField(data, "domain").value.Leaf?
    ensures r.Ok? ==> var d := ExtractAuthField(data, "domain").value.s;
      var token := ExtractAuthField(data, "application_token");
      (forall i :: 0 <= i < |r.value| ==>
         r.value[i] in workflows && r.value[i].domain == Some(d) && TokenAccepts(r.value[i], token)) &&
      (forall i :: 0 <= i < |workflows| && workflows[i].domain == Some(d) && TokenAccepts(workflows[i], token) ==>
         workflows[i] in r.value)
    ensures r == Err(NotFound) ==> (ExtractAuthField(data, "domain").value.Leaf? &&
      var d := ExtractAuthField(data, "domain").value.s;
      forall i :: 0 <= i < |workflows| ==> workflows[i].domain != Some(d))
    ensures r == Err(Forbidden) ==> (ExtractAuthField(data, "domain").value.Leaf? &&
      var d := ExtractAuthField(data, "domain").value.s;
      (exists i :: 0 <= i < |workflows| && workflows[i].domain == Some(d)) &&
      forall i :: 0 <= i < |workflows| && workflows[i].domain == Some(d) ==>
        !TokenAccepts(workflows[i], ExtractAuthField(data, "application_token")))
    ensures r == Err(ServerError) <==> Present(ExtractAuthField(data, "domain")) && ExtractAuthField(data, "domain").value.Obj?
  {
    var domain := ExtractAuthField(data, "domain");
    if !Present(domain) then Err(BadRequest)
    else if domain.value.Obj? then Err(ServerError)
    else
      var d := domain.value.s;
      var ofDomain := Filter(workflows, (w: Workflow) => w.domain == Some(d));
      if ofDomain == [] then Err(NotFound)
      else
        var token := ExtractAuthField(data, "application_token");
        var matching := Filter(ofDomain, (w: Workflow) => TokenAccepts(w, token));
        if matching == [] then
          assert forall i :: 0 <= i < |workflows| && workflows[i].domain == Some(d) ==> workflows[i] in ofDomain;
          Err(Forbidden)
        else
          assert forall i :: 0 <= i < |workflows| && workflows[i].domain == Some(d) ==> workflows[i] in ofDomain;
          Ok(matching)
  }

  /** The default tenant is the first workflow, in query order, that both
      serves the domain and accepts the token. */
  lemma DefaultTenantIsFirstMatch(data: Dict<Node>, workflows: seq<Workflow>)
    requires MatchTenants(data, workflows).Ok?
    ensures var tenants := MatchTenants(data, workflows).value;
      var d := ExtractAuthField(data, "domain").value.s;
      var token := ExtractAuthField(data, "application_token");
      exists i :: 0 <= i < |workflows| && workflows[i] == tenants[0] &&
        workflows[i].domain == Some(d) && TokenAccepts(workflows[i], token) &&
        forall j :: 0 <= j < i ==> !(workflows[j].domain == Some(d) && TokenAccepts(workflows[j], token))
  {
    var d := ExtractAuthField(data, "domain").value.s;
    var token := ExtractAuthField(data, "application_token");
    var p := (w: Workflow) => w.domain == Some(d);
    var q := (w: Workflow) => TokenAccepts(w, token);
    var pq := (w: Workflow) => p(w) && q(w);
    var ofDomain := Filter(workflows, p);
    var tenants := Filter(ofDomain, q);
    assert MatchTenants(data, workflows).value == tenants;
    FilterFilter(workflows, p, q, pq);
    FilterHead(workflows, pq);
    var i := Misses(workflows, pq);
    assert workflows[i] == tenants[0];
  }

  /** A workflow with no token accepts any event of its domain, tokenless
      or not. */
  lemma TokenlessWorkflowAlwaysMatches(data: Dict<Node>, workflows: seq<Workflow>, i: int)
    requires 0 <= i < |workflows| && !Wrappers.Truthy(workflows[i].appToken)
    requires Present(ExtractAuthField(data, "domain")) && ExtractAuthField(data, "domain").value.Leaf?
    requires workflows[i].domain == Some(ExtractAuthField(data, "domain").value.s)
    ensures MatchTenants(data, workflows).Ok? && workflows[i] in MatchTenants(data, workflows).value
  {
    var d := ExtractAuthField(data, "domain").value.s;
    var ofDomain := Filter(workflows, (w: Workflow) => w.domain == Some(d));
    assert workflows[i] in ofDomain;
  }

  /** The kinds of event the handler distinguishes. */
  datatype EventKind = LeadEvent | DealEvent | OtherEvent

  /** Python `name in event`: a substring test on a string, a key test on
      a dict. */
  predicate Mentions(event: Node, name: string) {
    match event
    case Leaf(s) => Contains(s, name)
    case Obj(d) => HasKey(d, name)
  }

  /** The branch the handler takes for `data.get("event", "")`. */
  function Route(data: Dict<Node>): (r: EventKind)
    ensures var e := Get(data, "event").GetOr(Leaf(""));
      (r == LeadEvent <==> Mentions(e, "ONCRMLEADUPDATE") || Mentions(e, "ONCRMLEADADD")) &&
      (r == DealEvent <==> (!(Mentions(e, "ONCRMLEADUPDATE") || Mentions(e, "ONCRMLEADADD")) &&
        (Mentions(e, "ONCRMDEALUPDATE") || Mentions(e, "ONCRMDEALADD"))))
  {
    var e := Get(data, "event").GetOr(Leaf(""));
    if Mentions(e, "ONCRMLEADUPDATE") || Mentions(e, "ONCRMLEADADD") then LeadEvent
    else if Mentions(e, "ONCRMDEALUPDATE") || Mentions(e, "ONCRMDEALADD") then DealEvent
    else OtherEvent
  }

  /** An event without an `event` entry is of no known kind. */
  lemma MissingEventIsOther(data: Dict<Node>)
    requires !HasKey(data, "event")
    ensures Route(data) == OtherEvent
  {
    assert !Contains("", "ONCRMLEADUPDATE") && !Contains("", "ONCRMLEADADD");
    assert !Contains("", "ONCRMDEALUPDATE") && !Contains("", "ONCRMDEALADD");
  }

  /** `data.get("data", {})`. */
  function EventData(data: Dict<Node>): Node {
    Get(data, "data").GetOr(Obj([]))
  }

  /** The first child dict of `d` holding an `ID` key, if any. */
  function FirstIdChild(d: Dict<Node>): (r: Option<Node>)
    ensures r.Some? ==> (r.value.Obj? && HasKey(r.value.entries, "ID") &&
      exists i :: 0 <= i < |d| && d[i].1 == r.value &&
        forall j :: 0 <= j < i ==> !(d[j].1.Obj? && HasKey(d[j].1.entries, "ID")))
    ensures r.None? ==> forall i :: 0 <= i < |d| ==> !(d[i].1.Obj? && HasKey(d[i].1.entries, "ID"))
    decreases |d|
  {
    if |d| == 0 then None
    else if d[0].1.Obj? && HasKey(d[0].1.entries, "ID") then Some(d[0].1)
    else
      var r := FirstIdChild(d[1..]);
      assert forall i :: 1 <= i < |d| ==> d[i] == d[1..][i - 1];
      if r.Some? then
        var i :| 0 <= i < |d[1..]| && d[1..][i].1 == r.value &&
          forall j :: 0 <= j < i ==> !(d[1..][j].1.Obj? && HasKey(d[1..][j].1.entries, "ID"));
        assert d[i + 1].1 == r.value;
        r
      else r
  }

  /** The event's `fields`: `data.FIELDS` when truthy, else the first child
      dict with an `ID`, else the event data itself when truthy. */
  function SelectFields(eventData: Node): (r: Node)
    ensures eventData.Leaf? ==> r == Obj([])
    ensures eventData.Obj? && FormKeys.Truthy(Get(eventData.entries, "FIELDS").GetOr(Obj([]))) ==>
      r == Get(eventData.entries, "FIELDS").value
  {
    match eventData
    case Leaf(_) => Obj([])
    case Obj(d) =>
      var fields := Get(d, "FIELDS").GetOr(Obj([]));
      if FormKeys.Truthy(fields) then fields
      else
        var child := FirstIdChild(d);
        if child.Some? then child.value
        else if d != [] then eventData
        else fields
  }

  /** An id found in the selected `fields` is an id of the event data:
      `fields` is the event data itself or one of its children. */
  lemma SelectFieldsInside(eventData: Node, v: Node)
    requires IdIn(SelectFields(eventData), v)
    ensures IdIn(eventData, v)
  {
    if eventData.Obj? && SelectFields(eventData) != eventData {
      var d := eventData.entries;
      if FormKeys.Truthy(Get(d, "FIELDS").GetOr(Obj([]))) {
        ChildIdIn(d, IndexOfKey(d, "FIELDS"), v);
      } else if FirstIdChild(d).Some? {
        var i :| 0 <= i < |d| && d[i].1 == FirstIdChild(d).value;
        ChildIdIn(d, i, v);
      }
    }
  }

  /** `extract_id(event_data) or extract_id(fields)`. The id the handler
      reconciles always comes from the event's own `data` tree. */
  function EventId(data: Dict<Node>): (r: Option<Node>)
    ensures r.Some? ==> IdIn(EventData(data), r.value)
  {
    var eventData := EventData(data);
    var first := ExtractId(eventData);
    if first.Some? && IdTruthy(first.value) then first
    else
      var second := ExtractId(SelectFields(eventData));
      if second.Some? then SelectFieldsInside(eventData, second.value); second
      else second
  }
}

=== FILE: webhook_url.dfy ===
/** Splitting a Bitrix24 inbound-webhook URL into its portal URL and token,
    and taking its domain (b24-transfer-lead/src/backend/utils/bitrix24_url.py),
    over the part of Python's `urllib.parse.urlparse` these functions rely
    on. */
module WebhookUrl {
  import opened Wrappers
  import opened Text
  import Seqs

  /** The five components `urlparse` produces (params folded away). */
  datatype UrlParts = UrlParts(scheme: string, netloc: string, path: string, query: string, fragment: string)

  /** The ValueErrors the two functions raise. */
  datatype UrlError = InvalidIpv6 | InvalidFormat | InvalidPath | TokenNotFound

  predicate AsciiLetter(c: char) {
    'a' <= c <= 'z' || 'A' <= c <= 'Z'
  }

  /** Characters allowed in a URL scheme. */
  predicate SchemeChar(c: char) {
    AsciiLetter(c) || '0' <= c <= '9' || c == '+' || c == '-' || c == '.'
  }

  /** Tab, carriage return and line feed, which `urlsplit` deletes anywhere. */
  predicate Unsafe(c: char) {
    c == '\t' || c == '\r' || c == '\n'
  }

  /** Leading C0 controls and spaces are dropped, then every unsafe
      character. */
  function Sanitize(url: string): (r: string)
    ensures forall i :: 0 <= i < |r| ==> !Unsafe(r[i])
  {
    Seqs.Filter(TrimStart(url, c => c <= ' '), c => !Unsafe(c))
  }

  /** The scheme and the rest: the text before the first ':' when it starts
      with a letter and holds only scheme characters (lower-cased), else no
      scheme. */
  function SplitScheme(url: string): (r: (string, string))
    ensures r.0 != "" ==> (|r.0| < |url| && AsciiLetter(url[0]) && r.0 == Lower(url[..|r.0|]) &&
      url[|r.0|] == ':' && r.1 == url[|r.0| + 1..])
    ensures r.0 == "" ==> r.1 == url
  {
    var i := Find(url, ':');
    if i > 0 && AsciiLetter(url[0]) && (forall k :: 0 <= k < i ==> SchemeChar(url[k])) then
      (Lower(url[..i]), url[i + 1..])
    else ("", url)
  }

  /** Position of the first '/', '?' or '#' at or after `start`, else the
      length. */
  function NetlocEnd(s: string, start: nat): (r: nat)
    requires start <= |s|
    ensures start <= r <= |s|
    ensures forall k :: start <= k < r ==> s[k] != '/' && s[k] != '?' && s[k] != '#'
    ensures r < |s| ==> s[r] == '/' || s[r] == '?' || s[r] == '#'
    decreases |s| - start
  {
    if start == |s| then start
    else if s[start] == '/' || s[start] == '?' || s[start] == '#' then start
    else NetlocEnd(s, start + 1)
  }

  /** The netloc and the rest: after a leading "//", the text up to the
      first '/', '?' or '#'; no netloc otherwise. */
  function SplitNetloc(rest: string): (r: (string, string))
    ensures forall i :: 0 <= i < |r.0| ==> r.0[i] != '/' && r.0[i] != '?' && r.0[i] != '#'
    ensures !StartsWith(rest, "//") ==> r == ("", rest)
    ensures StartsWith(rest, "//") ==> (rest == "//" + r.0 + r.1 &&
      (r.1 == "" || r.1[0] == '/' || r.1[0] == '?' || r.1[0] == '#'))
  {
    if StartsWith(rest, "//") then
      var e := NetlocEnd(rest, 2);
      assert rest == rest[..2] + rest[2..e] + rest[e..];
      (rest[2..e], rest[e..])
    else ("", rest)
  }

  /** The text up to the first `c` and the text after it, or `s` and "" when
      there is no `c`: Python `s.split(c, 1)` read as a pair. */
  function SplitOnce(s: string, c: char): (r: (string, string))
    ensures c !in s ==> r == (s, "")
    ensures c in s ==> s == r.0 + [c] + r.1 && c !in r.0
  {
    var i := Find(s, c);
    if i < 0 then (s, "") else
      assert s == s[..i] + [c] + s[i + 1..];
      (s[..i], s[i + 1..])
  }

  /** Schemes whose paths carry `;params`. */
  predicate UsesParams(scheme: string) {
    scheme in {"", "ftp", "hdl", "prospero", "http", "imap", "https", "shttp", "rtsp",
               "rtsps", "rtspu", "sip", "sips", "mms", "sftp", "tel"}
  }

  /** The path without its `;params`: cut at the first ';' of the last
      segment (of the whole path when it has no '/'). */
  function StripParams(path: string): (r: string)
    ensures |r| <= |path| && r == path[..|r|]
    ensures ';' !in path ==> r == path
  {
    var slash := FindLast(path, '/');
    if slash >= 0 then
      var k := Find(path[slash..], ';');
      if k < 0 then path else path[..slash + k]
    else
      var k := Find(path, ';');
      if k < 0 then path else path[..k]
  }

  /** The path, query and fragment of what follows the netloc. */
  function SplitPath(afterNetloc: string, scheme: string): (r: (string, string, string))
    ensures '#' !in r.0 && '?' !in r.0
    ensures '#' !in afterNetloc && '?' !in afterNetloc && ';' !in afterNetloc ==> r == (afterNetloc, "", "")
  {
    var beforeFragment := SplitOnce(afterNetloc, '#');
    var beforeQuery := SplitOnce(beforeFragment.0, '?');
    var path := beforeQuery.0;
    var path' := if UsesParams(scheme) && ';' in path then StripParams(path) else path;
    assert '#' !in path' && '?' !in path' by {
      assert path' == path[..|path'|];
      assert forall k :: 0 <= k < |path'| ==> path'[k] == path[k];
    }
    (path', beforeQuery.1, beforeFragment.1)
  }

  /** `urlparse(url)` for the components used here; a netloc with one
      square bracket but not the other is an error. */
  function UrlParse(url: string): (r: Result<UrlParts, UrlError>)
    ensures r.Ok? ==> '#' !in r.value.path && '?' !in r.value.path
    ensures r.Ok? ==> forall i :: 0 <= i < |r.value.netloc| ==>
      r.value.netloc[i] != '/' && r.value.netloc[i] != '?' && r.value.netloc[i] != '#'
  {
    var scheme := SplitScheme(Sanitize(url));
    var netloc := SplitNetloc(scheme.1);
    if ('[' in netloc.0) != (']' in netloc.0) then Err(InvalidIpv6)
    else
      var path := SplitPath(netloc.1, scheme.0);
      Ok(UrlParts(scheme.0, netloc.0, path.0, path.1, path.2))
  }

  /** The URL as both functions first clean it: stripped, then stripped of
      trailing slashes. */
  function Clean(webhookUrl: string): string {
    RStripChar(Strip(webhookUrl), '/')
  }

  /** What `parse_bitrix24_webhook_url` makes of the parsed URL: the
      portal URL `scheme://netloc` and the last segment of a path of the
      form `rest/<user>/.../<token>`. */
  function PortalAndToken(parsed: UrlParts): (r: Result<(string, string), UrlError>)
    ensures r.Ok? ==> parsed.scheme != "" && parsed.netloc != "" && r.value.0 == parsed.scheme + "://" + parsed.netloc
    ensures r.Ok? ==> r.value.1 != "" && '/' !in r.value.1
    ensures (parsed.scheme == "" || parsed.netloc == "") ==> r == Err(InvalidFormat)
  {
    if parsed.scheme == "" || parsed.netloc == "" then Err(InvalidFormat)
    else
      var portal := parsed.scheme + "://" + parsed.netloc;
      var parts := Split(StripChar(parsed.path, '/'), '/');
      if |parts| < 3 || parts[0] != "rest" then Err(InvalidPath)
      else
        var token := parts[|parts| - 1];
        if token == "" then Err(TokenNotFound)
        else Ok((portal, token))
  }

  /** `parse_bitrix24_webhook_url`: the portal URL is the scheme followed
      by the very domain `ExtractDomain` reads from the same URL, and the
      token is one non-empty path segment. */
  function ParseWebhookUrl(webhookUrl: string): (r: Result<(string, string), UrlError>)
    ensures r.Ok? ==> (ExtractDomain(webhookUrl).Ok? &&
      r.value.0 == UrlParse(Clean(webhookUrl)).value.scheme + "://" + ExtractDomain(webhookUrl).value)
    ensures r.Ok? ==> r.value.1 != "" && '/' !in r.value.1
  {
    var parsed :- UrlParse(Clean(webhookUrl));
    PortalAndToken(parsed)
  }

  /** What `extract_domain_from_webhook_url` makes of the parsed URL: the
      netloc, when there is a scheme and a netloc. */
  function DomainOf(parsed: UrlParts): (r: Result<string, UrlError>)
    ensures r.Ok? ==> r.value == parsed.netloc && r.value != "" && parsed.scheme != ""
    ensures r.Err? ==> r == Err(InvalidFormat) && (parsed.scheme == "" || parsed.netloc == "")
  {
    if parsed.scheme == "" || parsed.netloc == "" then Err(InvalidFormat)
    else Ok(parsed.netloc)
  }

  /** `extract_domain_from_webhook_url`: the non-empty netloc of a URL
      with a scheme, which holds no `/`, `?` or `#`. */
  function ExtractDomain(webhookUrl: string): (r: Result<string, UrlError>)
    ensures r.Ok? ==> r.value != "" && '/' !in r.value && '?' !in r.value && '#' !in r.value
    ensures r.Ok? ==> UrlParse(Clean(webhookUrl)).Ok? && UrlParse(Clean(webhookUrl)).value.scheme != ""
  {
    var parsed :- UrlParse(Clean(webhookUrl));
    DomainOf(parsed)
  }

  /** Non-empty text whose last character is not `c`. */
  predicate EndsOther(s: string, c: char) {
    s != [] && s[|s| - 1] != c
  }

  lemma TailEndsOther(s: string, c: char, k: int)
    requires EndsOther(s, c) && 0 <= k < |s| && s[k] == c
    ensures EndsOther(s[k + 1..], c)
  {
    assert s[k + 1..][|s| - k - 2] == s[|s| - 1];
  }

  /** Text that does not end with the separator has a non-empty last
      piece. */
  lemma {:induction false} SplitLastNonEmpty(s: string, c: char)
    requires EndsOther(s, c)
    ensures var parts := Split(s, c); parts[|parts| - 1] != ""
    decreases |s|
  {
    var k := Find(s, c);
    if k >= 0 {
      var b := s[k + 1..];
      TailEndsOther(s, c, k);
      SplitLastNonEmpty(b, c);
      assert s == s[..k] + [c] + b;
      SplitAt(s[..k], c, b);
    }
  }

  /** The "token not found" error cannot happen: the path has been stripped
      of slashes at both ends, so once it has three pieces the last is
      never empty. */
  lemma TokenNeverMissing(parsed: UrlParts)
    ensures PortalAndToken(parsed) != Err(TokenNotFound)
  {
    var stripped := StripChar(parsed.path, '/');
    StripCharEnds(parsed.path, '/');
    if stripped != [] {
      SplitLastNonEmpty(stripped, '/');
    } else {
      assert Split(stripped, '/') == [stripped];
    }
  }

  /** The same holds of whole URLs. */
  lemma ParseNeverMissesToken(webhookUrl: string)
    ensures ParseWebhookUrl(webhookUrl) != Err(TokenNotFound)
  {
    var parsed := UrlParse(Clean(webhookUrl));
    if parsed.Ok? {
      TokenNeverMissing(parsed.value);
    }
  }

  /** The two functions reject the same URLs for lack of a scheme or a
      netloc, and the portal URL is the scheme followed by the domain. */
  lemma PortalIsSchemeAndDomain(parsed: UrlParts)
    ensures PortalAndToken(parsed).Ok? ==>
      DomainOf(parsed).Ok? && PortalAndToken(parsed).value.0 == parsed.scheme + "://" + DomainOf(parsed).value
    ensures DomainOf(parsed).Err? <==> PortalAndToken(parsed) == Err(InvalidFormat)
  {
  }

  /** A path segment as it appears in a webhook URL: non-empty, with none of
      the characters that end a segment, a netloc, a path or a scheme. */
  predicate Plain(s: string) {
    s != [] &&
    forall i :: 0 <= i < |s| ==>
      s[i] != '/' && s[i] != '?' && s[i] != '#' && s[i] != ';' && s[i] != '[' && s[i] != ']' &&
      s[i] != ':' && !Unsafe(s[i]) && ' ' < s[i]
  }

  /** A lower-case ASCII scheme. */
  predicate PlainScheme(s: string) {
    s != [] && forall i :: 0 <= i < |s| ==> 'a' <= s[i] <= 'z'
  }

  /** The webhook URL a portal hands out: `scheme://host/rest/user/token`. */
  function WebhookFor(scheme: string, host: string, user: string, token: string): string {
    scheme + "://" + host + "/rest/" + user + "/" + token
  }

  lemma SplitAt(a: string, c: char, b: string)
    requires c !in a
    ensures Split(a + [c] + b, c) == [a] + Split(b, c)
  {
    var s := a + [c] + b;
    assert s[..|a|] == a;
    FindAt(s, c, |a|);
    assert s[|a| + 1..] == b;
  }

  lemma NoSeparator(c: char, a: string)
    requires c !in a
    ensures Split(a, c) == [a]
  {
  }

  lemma FilterKeeps(s: string)
    requires forall i :: 0 <= i < |s| ==> !Unsafe(s[i])
    ensures Seqs.Filter(s, c => !Unsafe(c)) == s
  {
    Seqs.FilterAll(s, c => !Unsafe(c));
  }

  /** The URL a portal hands out parses back into its portal URL and token,
      with or without a trailing slash. */
  lemma ParseWebhookFor(scheme: string, host: string, user: string, token: string)
    requires PlainScheme(scheme) && Plain(host) && Plain(user) && Plain(token)
    ensures ParseWebhookUrl(WebhookFor(scheme, host, user, token)) == Ok((scheme + "://" + host, token))
    ensures ParseWebhookUrl(WebhookFor(scheme, host, user, token) + "/") == Ok((scheme + "://" + host, token))
    ensures ExtractDomain(WebhookFor(scheme, host, user, token)) == Ok(host)
  {
    var w := WebhookFor(scheme, host, user, token);
    var parts := UrlParts(scheme, host, "/rest/" + user + "/" + token, "", "");
    CleanWebhookFor(scheme, host, user, token);
    UrlParseWebhookFor(scheme, host, user, token);
    PortalOfWebhookFor(scheme, host, user, token);
    ParseFromParts(w, parts);
    ParseFromParts(w + "/", parts);
  }

  lemma ParseFromParts(u: string, parts: UrlParts)
    requires UrlParse(Clean(u)) == Ok(parts)
    ensures ParseWebhookUrl(u) == PortalAndToken(parts)
    ensures ExtractDomain(u) == DomainOf(parts)
  {
  }

  /** `urlparse` of a handed-out URL. */
  lemma UrlParseWebhookFor(scheme: string, host: string, user: string, token: string)
    requires PlainScheme(scheme) && Plain(host) && Plain(user) && Plain(token)
    ensures UrlParse(WebhookFor(scheme, host, user, token)) == Ok(UrlParts(scheme, host, "/rest/" + user + "/" + token, "", ""))
  {
    var w := WebhookFor(scheme, host, user, token);
    var path := "/rest/" + user + "/" + token;
    var rest := "//" + host + path;
    assert w == scheme + ":" + rest;
    SanitizeWebhookFor(w);
    SchemeOfWebhookFor(scheme, rest);
    NetlocOfWebhookFor(host, path);
    NoBracket(host);
    PlainPath(user, token);
  }

  lemma NetlocOfWebhookFor(host: string, path: string)
    requires Plain(host) && path != [] && path[0] == '/'
    ensures SplitNetloc("//" + host + path) == (host, path)
  {
    var rest := "//" + host + path;
    NetlocEndAt(rest, 2, 2 + |host|);
    assert rest[2..2 + |host|] == host && rest[2 + |host|..] == path;
  }

  /** The portal URL and token of a handed-out URL's components. */
  lemma PortalOfWebhookFor(scheme: string, host: string, user: string, token: string)
    requires PlainScheme(scheme) && Plain(host) && Plain(user) && Plain(token)
    ensures PortalAndToken(UrlParts(scheme, host, "/rest/" + user + "/" + token, "", "")) == Ok((scheme + "://" + host, token))
  {
    StripWebhookPath(user, token);
    SplitWebhookPath(user, token);
  }

  lemma StripWebhookPath(user: string, token: string)
    requires Plain(user) && Plain(token)
    ensures StripChar("/rest/" + user + "/" + token, '/') == "rest/" + user + "/" + token
  {
    var inner := "rest/" + user + "/" + token;
    assert "/rest/" + user + "/" + token == ['/'] + inner;
    StripCharLeading(inner, '/');
    assert inner[|inner| - 1] == token[|token| - 1];
    StripCharUnchanged(inner, '/');
  }

  lemma SplitWebhookPath(user: string, token: string)
    requires Plain(user) && Plain(token)
    ensures Split("rest/" + user + "/" + token, '/') == ["rest", user, token]
  {
    PlainNoSlash(user);
    PlainNoSlash(token);
    assert "rest/" + user + "/" + token == "rest" + ['/'] + user + ['/'] + token;
    SplitThree("rest", user, token, '/');
  }

  lemma PlainNoSlash(s: string)
    requires Plain(s)
    ensures '/' !in s
  {
  }

  lemma SplitThree(a: string, b: string, d: string, c: char)
    requires c !in a && c !in b && c !in d
    ensures Split(a + [c] + b + [c] + d, c) == [a, b, d]
  {
    SplitAt(b, c, d);
    NoSeparator(c, d);
    assert Split(b + [c] + d, c) == [b, d];
    assert a + [c] + b + [c] + d == a + [c] + (b + [c] + d);
    SplitAt(a, c, b + [c] + d);
  }

  /** Neither end of a handed-out URL needs cleaning. */
  lemma CleanWebhookFor(scheme: string, host: string, user: string, token: string)
    requires PlainScheme(scheme) && Plain(host) && Plain(user) && Plain(token)
    ensures var w := WebhookFor(scheme, host, user, token);
      Clean(w) == w && Clean(w + "/") == w
  {
    var w := WebhookFor(scheme, host, user, token);
    assert w[0] == scheme[0] && w[|w| - 1] == token[|token| - 1];
    StripUnspaced(w);
    var w' := w + "/";
    assert w'[0] == scheme[0] && w'[|w'| - 1] == '/';
    StripUnspaced(w');
    RStripCharAppend(w, '/');
    RStripCharUnchanged(w, '/');
  }

  lemma SanitizeWebhookFor(w: string)
    requires w != [] && ' ' < w[0]
    requires forall i :: 0 <= i < |w| ==> !Unsafe(w[i])
    ensures Sanitize(w) == w
  {
    assert TrimStart(w, c => c <= ' ') == w;
    FilterKeeps(w);
  }

  lemma SchemeOfWebhookFor(scheme: string, rest: string)
    requires PlainScheme(scheme)
    ensures SplitScheme(scheme + ":" + rest) == (scheme, rest)
  {
    var s := scheme + ":" + rest;
    assert s[..|scheme|] == scheme;
    FindAt(s, ':', |scheme|);
    assert Lower(scheme) == scheme;
    assert s[|scheme| + 1..] == rest;
  }

  lemma NetlocEndAt(s: string, start: nat, e: nat)
    requires start <= e < |s| && s[e] == '/'
    requires forall k :: start <= k < e ==> s[k] != '/' && s[k] != '?' && s[k] != '#'
    ensures NetlocEnd(s, start) == e
    decreases e - start
  {
    if start < e {
      NetlocEndAt(s, start + 1, e);
    }
  }

  lemma NoBracket(host: string)
    requires Plain(host)
    ensures '[' !in host && ']' !in host
  {
  }

  lemma PlainPath(user: string, token: string)
    requires Plain(user) && Plain(token)
    ensures var path := "/rest/" + user + "/" + token;
      '#' !in path && '?' !in path && ';' !in path && SplitPath(path, "") == (path, "", "")
    ensures forall scheme :: SplitPath("/rest/" + user + "/" + token, scheme) == ("/rest/" + user + "/" + token, "", "")
  {
    var path := "/rest/" + user + "/" + token;
    forall i | 0 <= i < |path| ensures path[i] != '#' && path[i] != '?' && path[i] != ';' {
      if 6 <= i < 6 + |user| {
        assert path[i] == user[i - 6];
      } else if 7 + |user| <= i {
        assert path[i] == token[i - 7 - |user|];
      }
    }
  }

  /** A trailing slash changes neither function's result, as long as it
      does not follow whitespace (`SpaceBeforeSlashKept` shows why that
      case differs). */
  lemma TrailingSlashIgnored(u: string)
    requires u == [] || !IsSpace(u[|u| - 1])
    ensures ParseWebhookUrl(u + "/") == ParseWebhookUrl(u)
    ensures ExtractDomain(u + "/") == ExtractDomain(u)
  {
    StripAppend(u, '/');
    RStripCharAppend(Strip(u), '/');
    assert Clean(u + "/") == Clean(u);
  }

  /** A space before the trailing slash is kept: `strip` runs before the
      slashes are removed, so `".../token /"` yields the token "token ". */
  lemma SpaceBeforeSlashKept()
    ensures Clean("h://x/rest/1/t /") == "h://x/rest/1/t "
  {
    var v := "h://x/rest/1/t ";
    var u := v + "/";
    assert u == "h://x/rest/1/t /";
    assert u[0] == 'h' && u[|u| - 1] == '/';
    StripUnspaced(u);
    RStripCharAppend(v, '/');
    RStripCharUnchanged(v, '/');
  }
}

=== FILE: workflows_api.dfy ===
/** The workflow endpoints of b24-transfer-lead/src/backend/api/v1/workflows.py:
    who may see a workflow, how its settings are read and updated, how
    field mappings are created, changed and deleted, and the conversion
    figure. Tables are sequences in table order; CRM field lists are
    parameters, `None` standing for a failed CRM call. */
module WorkflowsApi {
  import opened Wrappers
  import opened Text
  import opened B24Models
  import opened B24Crm
  import WebhookUrl
  import UserAuth
  import Seqs

  /** The HTTP errors the endpoints raise. */
  datatype ApiError =
    /** 404 "Workflow not found". */
    | WorkflowNotFound
    /** 403 "Access denied". */
    | AccessDenied
    /** 403 "Admin access required". */
    | AdminRequired
    /** 400 "entity_type must be 'lead' or 'deal'". */
    | InvalidEntityType
    /** 500: the CRM field list could not be fetched. */
    | FieldsUnavailable
    /** 500: the CRM has no field with this id. The endpoint raises a 400
        inside its `try`, whose `except Exception` turns it into a 500. */
    | FieldNotFound(fieldId: string)
    /** 400 "Field mapping for '<name>' already exists". */
    | MappingExists(fieldName: string)
    /** 404 "Field mapping not found". */
    | MappingNotFound

  function StatusCode(e: ApiError): (r: int)
    ensures r == 404 <==> e.WorkflowNotFound? || e.MappingNotFound?
    ensures r == 403 <==> e.AccessDenied? || e.AdminRequired?
    ensures r == 500 <==> e.FieldsUnavailable? || e.FieldNotFound?
    ensures r == 400 <==> e.InvalidEntityType? || e.MappingExists?
  {
    match e
    case WorkflowNotFound => 404
    case MappingNotFound => 404
    case AccessDenied => 403
    case AdminRequired => 403
    case FieldsUnavailable => 500
    case FieldNotFound(_) => 500
    case InvalidEntityType => 400
    case MappingExists(_) => 400
  }

  /** The signed-in user and the ids of the workflows shared with them. */
  datatype Caller = Caller(user: UserAuth.User, shared: set<int>)

  predicate IsAdmin(c: Caller) {
    UserAuth.IsAdmin(c.user.role)
  }

  /** Admins see every workflow, other users the ones they created and
      the ones shared with them. */
  predicate HasAccess(c: Caller, w: Workflow): (r: bool)
    ensures c.user.role == "admin" ==> r
    ensures w.userId == c.user.id ==> r
    ensures w.id in c.shared ==> r
    ensures c.user.role != "admin" && w.userId != c.user.id && w.id !in c.shared ==> !r
  {
    IsAdmin(c) || w.userId == c.user.id || w.id in c.shared
  }

  predicate ValidEntityType(t: string) {
    t == "lead" || t == "deal"
  }

  /** The first workflow with the id, in table order. */
  function FindWorkflow(workflows: seq<Workflow>, id: int): (r: Option<nat>)
    ensures r.None? <==> forall i :: 0 <= i < |workflows| ==> workflows[i].id != id
    ensures r.Some? ==> (r.value < |workflows| && workflows[r.value].id == id &&
      forall i :: 0 <= i < r.value ==> workflows[i].id != id)
  {
    Seqs.FirstIndex(workflows, (x: Workflow) => x.id == id)
  }

  /** The lookup and access check every per-workflow endpoint opens
      with: 404 for an unknown id, then 403 without access. */
  function Authorize(workflows: seq<Workflow>, id: int, c: Caller): (r: Result<nat, ApiError>)
    ensures r == Err(WorkflowNotFound) <==> FindWorkflow(workflows, id).None?
    ensures r == Err(AccessDenied) <==>
      FindWorkflow(workflows, id).Some? && !HasAccess(c, workflows[FindWorkflow(workflows, id).value])
    ensures r.Ok? ==> (Some(r.value) == FindWorkflow(workflows, id) && HasAccess(c, workflows[r.value]))
  {
    var i := FindWorkflow(workflows, id);
    if i.None? then Err(WorkflowNotFound)
    else if !HasAccess(c, workflows[i.value]) then Err(AccessDenied)
    else Ok(i.value)
  }

  /** `list_workflows`: the visible workflows, in table order. */
  function ListWorkflows(workflows: seq<Workflow>, c: Caller): (r: seq<Workflow>)
    ensures forall w :: w in r <==> w in workflows && HasAccess(c, w)
    ensures IsAdmin(c) ==> r == workflows
  {
    if IsAdmin(c) then workflows
    else Seqs.Filter(workflows, (w: Workflow) => w.userId == c.user.id || w.id in c.shared)
  }

  /** With distinct ids, the list shows exactly the workflows a direct
      request is allowed to open. */
  lemma ListedIffAuthorized(workflows: seq<Workflow>, c: Caller, id: int)
    requires forall i, j :: 0 <= i < j < |workflows| ==> workflows[i].id != workflows[j].id
    ensures (exists w :: w in ListWorkflows(workflows, c) && w.id == id) <==> Authorize(workflows, id, c).Ok?
  {
    var listed := ListWorkflows(workflows, c);
    if exists w :: w in listed && w.id == id {
      var w :| w in listed && w.id == id;
      var k :| 0 <= k < |workflows| && workflows[k] == w;
      assert FindWorkflow(workflows, id) == Some(k);
    }
    if Authorize(workflows, id, c).Ok? {
      var k := Authorize(workflows, id, c).value;
      assert workflows[k] in listed;
    }
  }

  // ---------------------------------------------------------------------
  // Settings

  /** The request's base URL without trailing slashes, moved from
      "http://" to "https://". */
  function BaseUrl(requestBase: string): (r: string)
    ensures !StartsWith(r, "http://")
    ensures var b := RStripChar(requestBase, '/');
      (StartsWith(b, "http://") ==> r == "https://" + b[7..]) &&
      (!StartsWith(b, "http://") ==> r == b)
    ensures r == [] || r[|r| - 1] != '/'
  {
    var b := RStripChar(requestBase, '/');
    if StartsWith(b, "http://") then
      assert b != "http://";
      assert ("https://" + b[7..])[4] == 's';
      "https://" + b[7..]
    else b
  }

  /** A base URL already in that form is left as it is. */
  lemma BaseUrlIdempotent(requestBase: string)
    ensures BaseUrl(BaseUrl(requestBase)) == BaseUrl(requestBase)
  {
    var r := BaseUrl(requestBase);
    RStripCharUnchanged(r, '/');
  }

  /** The address the CRM posts events to. */
  function WebhookEndpointUrl(requestBase: string): (r: string)
    ensures |r| >= 15 && r[|r| - 15..] == "/api/v1/webhook"
    ensures r[..|r| - 15] == BaseUrl(requestBase)
    ensures |r| == 15 || r[|r| - 16] != '/'
    ensures StartsWith(RStripChar(requestBase, '/'), "http://") ==> StartsWith(r, "https://")
  {
    var b := BaseUrl(requestBase);
    assert (b + "/api/v1/webhook")[..|b|] == b;
    b + "/api/v1/webhook"
  }

  /** The public lead endpoint, present exactly when the workflow has an
      API token. */
  function PublicApiUrl(w: Workflow, requestBase: string): (r: Option<string>)
    ensures r.Some? <==> Truthy(w.apiToken)
    ensures r.Some? ==> r.value == BaseUrl(requestBase) + "/api/public/workflows/" + w.apiToken.value + "/leads"
  {
    if Truthy(w.apiToken) then Some(BaseUrl(requestBase) + "/api/public/workflows/" + w.apiToken.value + "/leads")
    else None
  }

  datatype SettingsView = SettingsView(
    entityType: string,
    dealCategoryId: Option<int>,
    dealStageId: Option<string>,
    leadStatusId: Option<string>,
    webhookUrl: Option<string>,
    appToken: Option<string>,
    webhookEndpointUrl: string,
    apiToken: Option<string>,
    publicApiUrl: Option<string>)

  /** The settings as `get_workflow_settings` reports them: an unset
      entity type reads as "lead" and an unset lead status as "NEW". */
  function ReadSettings(w: Workflow, requestBase: string): (r: SettingsView)
    ensures r.entityType == (if w.entityType == "" then "lead" else w.entityType)
    ensures r.leadStatusId == (if Truthy(w.leadStatusId) then w.leadStatusId else Some("NEW"))
    ensures r.dealCategoryId == w.dealCategoryId && r.dealStageId == w.dealStageId
    ensures r.webhookUrl == w.webhookUrl && r.appToken == w.appToken && r.apiToken == w.apiToken
    ensures r.webhookEndpointUrl == WebhookEndpointUrl(requestBase) && r.publicApiUrl == PublicApiUrl(w, requestBase)
  {
    SettingsView(if w.entityType == "" then "lead" else w.entityType,
      w.dealCategoryId, w.dealStageId, OrElse(w.leadStatusId, Some("NEW")),
      w.webhookUrl, w.appToken, WebhookEndpointUrl(requestBase), w.apiToken, PublicApiUrl(w, requestBase))
  }

  /** `get_workflow_settings`. */
  function GetSettings(workflows: seq<Workflow>, id: int, c: Caller, requestBase: string): (r: Result<SettingsView, ApiError>)
    ensures Authorize(workflows, id, c).Err? ==> r == Err(Authorize(workflows, id, c).error)
    ensures Authorize(workflows, id, c).Ok? ==> r == Ok(ReadSettings(workflows[Authorize(workflows, id, c).value], requestBase))
  {
    var i :- Authorize(workflows, id, c);
    Ok(ReadSettings(workflows[i], requestBase))
  }

  datatype SettingsUpdate = SettingsUpdate(
    entityType: string,
    dealCategoryId: Option<int>,
    dealStageId: Option<string>,
    leadStatusId: Option<string>,
    webhookUrl: Option<string>,
    appToken: Option<string>)

  /** The domain after a webhook URL change: derived from the new URL, or
      the old one when the URL does not parse. */
  function DomainAfter(previous: Option<string>, url: string): (r: Option<string>)
    ensures WebhookUrl.ExtractDomain(url).Ok? ==> r == Some(WebhookUrl.ExtractDomain(url).value)
    ensures WebhookUrl.ExtractDomain(url).Err? ==> r == previous
  {
    match WebhookUrl.ExtractDomain(url)
    case Ok(d) => Some(d)
    case Err(_) => previous
  }

  /** The workflow after a settings update. The entity type must be
      "lead" or "deal"; the deal and lead settings are replaced outright;
      an absent webhook URL or app token keeps the stored one, and an empty
      app token clears it. */
  function ApplySettings(w: Workflow, u: SettingsUpdate): (r: Result<Workflow, ApiError>)
    ensures r.Err? <==> !ValidEntityType(u.entityType)
    ensures r.Err? ==> r.error == InvalidEntityType
    ensures r.Ok? ==> (r.value.entityType == u.entityType && r.value.dealCategoryId == u.dealCategoryId &&
      r.value.dealStageId == u.dealStageId && r.value.leadStatusId == u.leadStatusId)
    ensures r.Ok? && u.webhookUrl.None? ==> r.value.webhookUrl == w.webhookUrl && r.value.domain == w.domain
    ensures r.Ok? && u.webhookUrl.Some? ==>
      r.value.webhookUrl == u.webhookUrl && r.value.domain == DomainAfter(w.domain, u.webhookUrl.value)
    ensures r.Ok? && u.appToken.None? ==> r.value.appToken == w.appToken
    ensures r.Ok? && u.appToken == Some("") ==> r.value.appToken.None?
    ensures r.Ok? && Truthy(u.appToken) ==> r.value.appToken == u.appToken
    ensures r.Ok? ==> (r.value.id == w.id && r.value.name == w.name && r.value.userId == w.userId &&
      r.value.apiToken == w.apiToken)
  {
    if !ValidEntityType(u.entityType) then Err(InvalidEntityType)
    else
      var w1 := w.(entityType := u.entityType, dealCategoryId := u.dealCategoryId,
                   dealStageId := u.dealStageId, leadStatusId := u.leadStatusId);
      var w2 := if u.webhookUrl.Some? then w1.(webhookUrl := u.webhookUrl, domain := DomainAfter(w1.domain, u.webhookUrl.value))
                else w1;
      var w3 := if u.appToken.Some? then w2.(appToken := if u.appToken.value != "" then u.appToken else None)
                else w2;
      Ok(w3)
  }

  /** Sending the same settings twice changes nothing the second time. */
  lemma ApplySettingsIdempotent(w: Workflow, u: SettingsUpdate)
    requires ApplySettings(w, u).Ok?
    ensures ApplySettings(ApplySettings(w, u).value, u) == ApplySettings(w, u)
  {
  }

  /** What an update stores is what the next read reports, up to the
      read's "NEW" default for an unset lead status. */
  lemma UpdateThenRead(w: Workflow, u: SettingsUpdate, requestBase: string)
    requires ApplySettings(w, u).Ok?
    ensures var v := ReadSettings(ApplySettings(w, u).value, requestBase);
      v.entityType == u.entityType && v.dealCategoryId == u.dealCategoryId && v.dealStageId == u.dealStageId &&
      v.leadStatusId == (if Truthy(u.leadStatusId) then u.leadStatusId else Some("NEW")) &&
      (u.webhookUrl.Some? ==> v.webhookUrl == u.webhookUrl)
  {
  }

  /** The settings view returned by an update: stored values, without the
      read's defaults. */
  function UpdatedView(w: Workflow, requestBase: string): SettingsView {
    SettingsView(w.entityType, w.dealCategoryId, w.dealStageId, w.leadStatusId, w.webhookUrl, w.appToken,
      WebhookEndpointUrl(requestBase), w.apiToken, PublicApiUrl(w, requestBase))
  }

  /** `update_workflow_settings`: the table afterwards and the reply. */
  function UpdateSettings(workflows: seq<Workflow>, id: int, c: Caller, u: SettingsUpdate, requestBase: string)
    : (r: Result<(seq<Workflow>, SettingsView), ApiError>)
    ensures Authorize(workflows, id, c).Err? ==> r == Err(Authorize(workflows, id, c).error)
    ensures Authorize(workflows, id, c).Ok? ==> (
      var i := Authorize(workflows, id, c).value;
      var after := ApplySettings(workflows[i], u);
      (after.Err? ==> r == Err(after.error)) &&
      (after.Ok? ==> r == Ok((workflows[i := after.value], UpdatedView(after.value, requestBase)))))
  {
    var i :- Authorize(workflows, id, c);
    var w :- ApplySettings(workflows[i], u);
    Ok((workflows[i := w], UpdatedView(w, requestBase)))
  }

  /** `generate_api_token` (admins only): the new token replaces the old
      one. The token is drawn at random by the caller. */
  function GenerateToken(workflows: seq<Workflow>, id: int, c: Caller, token: string): (r: Result<seq<Workflow>, ApiError>)
    ensures !IsAdmin(c) ==> r == Err(AdminRequired)
    ensures IsAdmin(c) && FindWorkflow(workflows, id).None? ==> r == Err(WorkflowNotFound)
    ensures r.Ok? ==> (var i := FindWorkflow(workflows, id).value;
      r.value == workflows[i := workflows[i].(apiToken := Some(token))])
  {
    if !IsAdmin(c) then Err(AdminRequired)
    else
      var i := FindWorkflow(workflows, id);
      if i.None? then Err(WorkflowNotFound)
      else Ok(workflows[i.value := workflows[i.value].(apiToken := Some(token))])
  }

  /** Once a token is generated, the settings publish the public lead
      endpoint for it. */
  lemma GeneratedTokenPublishes(workflows: seq<Workflow>, id: int, c: Caller, token: string, requestBase: string)
    requires token != ""
    requires GenerateToken(workflows, id, c, token).Ok?
    ensures GetSettings(GenerateToken(workflows, id, c, token).value, id, c, requestBase).Ok?
    ensures GetSettings(GenerateToken(workflows, id, c, token).value, id, c, requestBase).value.publicApiUrl ==
      Some(BaseUrl(requestBase) + "/api/public/workflows/" + token + "/leads")
  {
    var i := FindWorkflow(workflows, id).value;
    var after := GenerateToken(workflows, id, c, token).value;
    assert forall j :: 0 <= j < |after| && j != i ==> after[j] == workflows[j];
    assert after[i].id == id;
    assert forall j :: 0 <= j < i ==> after[j].id != id;
    assert FindWorkflow(after, id) == Some(i);
  }

  // ---------------------------------------------------------------------
  // Field mappings

  /** A stored mapping with its row id. */
  datatype MappingRow = MappingRow(id: int, mapping: FieldMapping)

  datatype MappingRequest = MappingRequest(
    fieldName: string,
    displayName: string,
    b24FieldId: string,
    entityType: string,
    updateOnEvent: bool)

  /** The first CRM field with the id. */
  function FindField(fields: seq<FieldDesc>, id: string): (r: Option<nat>)
    ensures r.None? <==> forall i :: 0 <= i < |fields| ==> fields[i].id != id
    ensures r.Some? ==> (r.value < |fields| && fields[r.value].id == id &&
      forall i :: 0 <= i < r.value ==> fields[i].id != id)
  {
    Seqs.FirstIndex(fields, (x: FieldDesc) => x.id == id)
  }

  /** `name.strip() if name else fallback`: the display-name rule of
      `create_field_mapping` and of the export, where only the empty
      string falls back. */
  function StripOrFallback(name: string, fallback: string): (r: string)
    ensures name == "" ==> r == fallback
    ensures name != "" ==> r == Strip(name)
  {
    if name != "" then Strip(name) else fallback
  }

  /** The display-name rule of `update_field_mapping`, which the create
      endpoint evidently means as well: a name that is blank after
      stripping falls back to the CRM field's name. */
  function DisplayName(name: string, fallback: string): (r: string)
    ensures Strip(name) != "" ==> r == Strip(name)
    ensures Strip(name) == "" ==> r == fallback
  {
    if Strip(name) != "" then Strip(name) else fallback
  }

  /** The two rules differ only on a non-empty, all-blank name, where the
      create endpoint as written stores an empty display name. */
  lemma BlankDisplayNameStoredEmpty(fallback: string)
    requires fallback != ""
    ensures StripOrFallback(" ", fallback) == ""
    ensures DisplayName(" ", fallback) == fallback
  {
    assert Strip(" ") == "";
  }

  lemma DisplayNameRulesAgree(name: string, fallback: string)
    requires name == "" || Strip(name) != ""
    ensures StripOrFallback(name, fallback) == DisplayName(name, fallback)
  {
    if name == "" {
      assert Strip(name) == "";
    }
  }

  /** A mapping of this workflow for this field and entity type exists. */
  predicate MappingTaken(rows: seq<MappingRow>, workflowId: int, fieldName: string, entityType: string) {
    exists i :: 0 <= i < |rows| && rows[i].mapping.workflowId == workflowId &&
      rows[i].mapping.fieldName == fieldName && rows[i].mapping.entityType == entityType
  }

  /** `create_field_mapping` (admins only). `fetched` is the CRM field
      list for the requested entity type. The checks run in the order
      admin, workflow, entity type, CRM field, duplicate. */
  function CreateMapping(workflows: seq<Workflow>, workflowId: int, c: Caller, rows: seq<MappingRow>,
                         req: MappingRequest, fetched: Option<seq<FieldDesc>>, newId: int)
    : (r: Result<seq<MappingRow>, ApiError>)
    ensures !IsAdmin(c) ==> r == Err(AdminRequired)
    ensures IsAdmin(c) && FindWorkflow(workflows, workflowId).None? ==> r == Err(WorkflowNotFound)
    ensures IsAdmin(c) && FindWorkflow(workflows, workflowId).Some? ==> (
      (!ValidEntityType(req.entityType) ==> r == Err(InvalidEntityType)) &&
      (ValidEntityType(req.entityType) && fetched.None? ==> r == Err(FieldsUnavailable)) &&
      (ValidEntityType(req.entityType) && fetched.Some? && FindField(fetched.value, req.b24FieldId).None? ==>
        r == Err(FieldNotFound(req.b24FieldId))))
    ensures r == Err(MappingExists(req.fieldName)) <==>
      (IsAdmin(c) && FindWorkflow(workflows, workflowId).Some? && ValidEntityType(req.entityType) &&
       fetched.Some? && FindField(fetched.value, req.b24FieldId).Some? &&
       MappingTaken(rows, workflowId, req.fieldName, req.entityType))
    ensures r.Ok? ==> (
      var f := fetched.value[FindField(fetched.value, req.b24FieldId).value];
      !MappingTaken(rows, workflowId, req.fieldName, req.entityType) &&
      r.value == rows + [MappingRow(newId, FieldMapping(workflowId, req.fieldName, StripOrFallback(req.displayName, f.name),
                                                        req.b24FieldId, f.name, req.entityType, req.updateOnEvent))])
  {
    if !IsAdmin(c) then Err(AdminRequired)
    else if FindWorkflow(workflows, workflowId).None? then Err(WorkflowNotFound)
    else if !ValidEntityType(req.entityType) then Err(InvalidEntityType)
    else if fetched.None? then Err(FieldsUnavailable)
    else
      var k := FindField(fetched.value, req.b24FieldId);
      if k.None? then Err(FieldNotFound(req.b24FieldId))
      else if MappingTaken(rows, workflowId, req.fieldName, req.entityType) then Err(MappingExists(req.fieldName))
      else
        var f := fetched.value[k.value];
        Ok(rows + [MappingRow(newId, FieldMapping(workflowId, req.fieldName, StripOrFallback(req.displayName, f.name),
                                                  req.b24FieldId, f.name, req.entityType, req.updateOnEvent))])
  }

  /** The same mapping cannot be created twice. */
  lemma CreateTwiceRefused(workflows: seq<Workflow>, workflowId: int, c: Caller, rows: seq<MappingRow>,
                           req: MappingRequest, fetched: Option<seq<FieldDesc>>, id1: int, id2: int)
    requires CreateMapping(workflows, workflowId, c, rows, req, fetched, id1).Ok?
    ensures CreateMapping(workflows, workflowId, c, CreateMapping(workflows, workflowId, c, rows, req, fetched, id1).value,
                          req, fetched, id2) == Err(MappingExists(req.fieldName))
  {
    var after := CreateMapping(workflows, workflowId, c, rows, req, fetched, id1).value;
    assert after[|rows|].mapping.workflowId == workflowId;
    assert MappingTaken(after, workflowId, req.fieldName, req.entityType);
  }

  datatype MappingChange = MappingChange(
    fieldName: Option<string>,
    displayName: Option<string>,
    b24FieldId: Option<string>,
    entityType: Option<string>,
    updateOnEvent: Option<bool>)

  /** Pointing a mapping at another CRM field, as written: the display
      name is meant to follow the field's name when it was never edited,
      but the test runs after the stored field name has been replaced, so
      it compares against the new name. */
  function ChangeFieldAsWritten(m: FieldMapping, f: FieldDesc): (r: FieldMapping)
    ensures r.b24FieldId == f.id && r.b24FieldName == f.name
    ensures r.displayName == if m.displayName == "" then f.name else m.displayName
    ensures r.workflowId == m.workflowId && r.fieldName == m.fieldName && r.entityType == m.entityType &&
      r.updateOnEvent == m.updateOnEvent
  {
    var m1 := m.(b24FieldId := f.id, b24FieldName := f.name);
    if m1.displayName == m1.b24FieldName || m1.displayName == "" then m1.(displayName := f.name) else m1
  }

  /** A display name left at the old field's name stays stale. */
  lemma StaleDisplayNameAsWritten()
    ensures var m := FieldMapping(1, "phone", "Phone", "PHONE", "Phone", "lead", false);
      ChangeFieldAsWritten(m, FieldDesc("UF_CRM_1", "Mobile", Some("string"))).displayName == "Phone"
  {
  }

  /** Pointing a mapping at another CRM field: an unedited display name
      (equal to the old field's name, or empty) follows the new field's
      name; an edited one is kept. */
  function ChangeField(m: FieldMapping, f: FieldDesc): (r: FieldMapping)
    ensures r.b24FieldId == f.id && r.b24FieldName == f.name
    ensures (m.displayName == m.b24FieldName || m.displayName == "") ==> r.displayName == f.name
    ensures !(m.displayName == m.b24FieldName || m.displayName == "") ==> r.displayName == m.displayName
    ensures r.workflowId == m.workflowId && r.fieldName == m.fieldName && r.entityType == m.entityType &&
      r.updateOnEvent == m.updateOnEvent
  {
    var m1 := m.(b24FieldId := f.id, b24FieldName := f.name);
    if m.displayName == m.b24FieldName || m.displayName == "" then m1.(displayName := f.name) else m1
  }

  /** An unedited display name keeps following the field through any
      number of changes. */
  lemma UneditedNameFollows(m: FieldMapping, f: FieldDesc, g: FieldDesc)
    requires m.displayName == m.b24FieldName
    ensures ChangeField(ChangeField(m, f), g).displayName == g.name
  {
  }

  /** The code's rule and the intended one part ways exactly on a display
      name that is not empty, still equals the old field's name, and differs
      from the new field's name. */
  lemma ChangeFieldRulesDiffer(m: FieldMapping, f: FieldDesc)
    ensures ChangeFieldAsWritten(m, f) != ChangeField(m, f) <==>
      m.displayName != "" && m.displayName == m.b24FieldName && m.displayName != f.name
  {
  }

  /** The display name once an update's own display name, if any, is
      applied by the update rule. */
  function UpdatedDisplayName(m: FieldMapping, u: MappingChange): string {
    if u.displayName.Some? then DisplayName(u.displayName.value, m.b24FieldName) else m.displayName
  }

  /** The mapping after an update. `fetched` is the CRM field list of the
      requested entity type, or of the stored one when none is requested;
      it is only consulted when the CRM field changes. An unknown field id
      is ignored; an invalid entity type refuses the whole update. */
  function ApplyChange(m: FieldMapping, u: MappingChange, fetched: Option<seq<FieldDesc>>): (r: Result<FieldMapping, ApiError>)
    ensures u.b24FieldId.Some? && fetched.None? ==> r == Err(FieldsUnavailable)
    ensures r == Err(InvalidEntityType) <==>
      !(u.b24FieldId.Some? && fetched.None?) && u.entityType.Some? && !ValidEntityType(u.entityType.value)
    ensures r.Ok? ==> (
      (r.value.workflowId == m.workflowId) &&
      (r.value.fieldName == if u.fieldName.Some? then u.fieldName.value else m.fieldName) &&
      (r.value.entityType == if u.entityType.Some? then u.entityType.value else m.entityType) &&
      (r.value.updateOnEvent == if u.updateOnEvent.Some? then u.updateOnEvent.value else m.updateOnEvent))
    ensures r.Ok? && u.b24FieldId.Some? && FindField(fetched.value, u.b24FieldId.value).Some? ==> (
      var f := fetched.value[FindField(fetched.value, u.b24FieldId.value).value];
      var d := UpdatedDisplayName(m, u);
      r.value.b24FieldId == u.b24FieldId.value && r.value.b24FieldName == f.name &&
      r.value.displayName == if d == "" then f.name else d)
    ensures r.Ok? && (u.b24FieldId.None? || FindField(fetched.value, u.b24FieldId.value).None?) ==>
      r.value.b24FieldId == m.b24FieldId && r.value.b24FieldName == m.b24FieldName &&
      r.value.displayName == UpdatedDisplayName(m, u)
  {
    var m1 := if u.fieldName.Some? then m.(fieldName := u.fieldName.value) else m;
    var m2 := m1.(displayName := UpdatedDisplayName(m, u));
    if u.b24FieldId.Some? && fetched.None? then Err(FieldsUnavailable)
    else
      var m3 :=
        if u.b24FieldId.None? then m2
        else
          var k := FindField(fetched.value, u.b24FieldId.value);
          if k.None? then m2 else ChangeFieldAsWritten(m2, fetched.value[k.value]);
      if u.entityType.Some? && !ValidEntityType(u.entityType.value) then Err(InvalidEntityType)
      else
        var m4 := if u.entityType.Some? then m3.(entityType := u.entityType.value) else m3;
        Ok(if u.updateOnEvent.Some? then m4.(updateOnEvent := u.updateOnEvent.value) else m4)
  }

  /** An update that sets nothing leaves the mapping as it is. */
  lemma EmptyChangeKeeps(m: FieldMapping, fetched: Option<seq<FieldDesc>>)
    ensures ApplyChange(m, MappingChange(None, None, None, None, None), fetched) == Ok(m)
  {
  }

  /** The first row with the id that belongs to the workflow. */
  function FindRow(rows: seq<MappingRow>, workflowId: int, mappingId: int): (r: Option<nat>)
    ensures r.None? <==> forall i :: 0 <= i < |rows| ==> !(rows[i].id == mappingId && rows[i].mapping.workflowId == workflowId)
    ensures r.Some? ==> (r.value < |rows| && rows[r.value].id == mappingId && rows[r.value].mapping.workflowId == workflowId &&
      forall i :: 0 <= i < r.value ==> !(rows[i].id == mappingId && rows[i].mapping.workflowId == workflowId))
    decreases |rows|
  {
    if |rows| == 0 then None
    else if rows[0].id == mappingId && rows[0].mapping.workflowId == workflowId then Some(0)
    else
      var rest := FindRow(rows[1..], workflowId, mappingId);
      assert forall i :: 1 <= i < |rows| ==> rows[i] == rows[1..][i - 1];
      if rest.None? then None else Some(rest.value + 1)
  }

  /** The checks `update_field_mapping` and `delete_field_mapping` open
      with: admin, then workflow, then a mapping of that workflow. */
  function LocateMapping(workflows: seq<Workflow>, workflowId: int, mappingId: int, c: Caller, rows: seq<MappingRow>)
    : (r: Result<nat, ApiError>)
    ensures !IsAdmin(c) ==> r == Err(AdminRequired)
    ensures IsAdmin(c) && FindWorkflow(workflows, workflowId).None? ==> r == Err(WorkflowNotFound)
    ensures r == Err(MappingNotFound) <==>
      IsAdmin(c) && FindWorkflow(workflows, workflowId).Some? && FindRow(rows, workflowId, mappingId).None?
    ensures r.Ok? ==> Some(r.value) == FindRow(rows, workflowId, mappingId)
  {
    if !IsAdmin(c) then Err(AdminRequired)
    else if FindWorkflow(workflows, workflowId).None? then Err(WorkflowNotFound)
    else
      var k := FindRow(rows, workflowId, mappingId);
      if k.None? then Err(MappingNotFound) else Ok(k.value)
  }

  /** `update_field_mapping`: only the located row changes. */
  function UpdateMapping(workflows: seq<Workflow>, workflowId: int, mappingId: int, c: Caller, rows: seq<MappingRow>,
                         u: MappingChange, fetched: Option<seq<FieldDesc>>)
    : (r: Result<seq<MappingRow>, ApiError>)
    ensures LocateMapping(workflows, workflowId, mappingId, c, rows).Err? ==>
      r == Err(LocateMapping(workflows, workflowId, mappingId, c, rows).error)
    ensures r.Ok? ==> (
      var k := LocateMapping(workflows, workflowId, mappingId, c, rows).value;
      |r.value| == |rows| && r.value[k].id == mappingId &&
      Ok(r.value[k].mapping) == ApplyChange(rows[k].mapping, u, fetched) &&
      forall i :: 0 <= i < |rows| && i != k ==> r.value[i] == rows[i])
  {
    var k :- LocateMapping(workflows, workflowId, mappingId, c, rows);
    var m :- ApplyChange(rows[k].mapping, u, fetched);
    Ok(rows[k := MappingRow(mappingId, m)])
  }

  /** `delete_field_mapping`: the located row goes, the others keep their
      order. */
  function DeleteMapping(workflows: seq<Workflow>, workflowId: int, mappingId: int, c: Caller, rows: seq<MappingRow>)
    : (r: Result<seq<MappingRow>, ApiError>)
    ensures LocateMapping(workflows, workflowId, mappingId, c, rows).Err? ==>
      r == Err(LocateMapping(workflows, workflowId, mappingId, c, rows).error)
    ensures r.Ok? ==> (
      var k := LocateMapping(workflows, workflowId, mappingId, c, rows).value;
      r.value == rows[..k] + rows[k + 1..] && |r.value| == |rows| - 1)
  {
    var k :- LocateMapping(workflows, workflowId, mappingId, c, rows);
    Ok(rows[..k] + rows[k + 1..])
  }

  /** With distinct row ids, a deleted mapping cannot be found again. */
  lemma DeletedMappingGone(workflows: seq<Workflow>, workflowId: int, mappingId: int, c: Caller, rows: seq<MappingRow>)
    requires forall i, j :: 0 <= i < j < |rows| ==> rows[i].id != rows[j].id
    requires DeleteMapping(workflows, workflowId, mappingId, c, rows).Ok?
    ensures LocateMapping(workflows, workflowId, mappingId, c, DeleteMapping(workflows, workflowId, mappingId, c, rows).value)
      == Err(MappingNotFound)
  {
    var k := LocateMapping(workflows, workflowId, mappingId, c, rows).value;
    var after := DeleteMapping(workflows, workflowId, mappingId, c, rows).value;
    forall i | 0 <= i < |after| ensures after[i].id != mappingId {
      if i < k {
        assert after[i] == rows[i];
      } else {
        assert after[i] == rows[i + 1];
      }
    }
  }

  // ---------------------------------------------------------------------
  // Conversion

  predicate Successful(l: Lead) {
    l.statusSemanticId == Some("S")
  }

  datatype Conversion = Conversion(total: nat, successful: nat, percentage: real)

  /** `get_conversion_stats`: the share of leads whose status semantic is
      "S", in percent, and 0 for an empty workflow. */
  function ConversionStats(leads: seq<Lead>): (r: Conversion)
    ensures r.total == |leads| && r.successful == |Seqs.Filter(leads, Successful)|
    ensures 0.0 <= r.percentage <= 100.0
    ensures r.percentage == 0.0 <==> r.successful == 0
    ensures r.percentage == 100.0 <==> r.total > 0 && r.successful == r.total
    ensures r.total > 0 ==> r.successful <= r.total && r.percentage == Percentage(r.successful, r.total)
  {
    var total := |leads|;
    var successful := Seqs.Count(leads, Successful);
    if total == 0 then Conversion(0, 0, 0.0)
    else Conversion(total, successful, Percentage(successful, total))
  }

  /** `successful / total * 100`: between 0 and 100, reaching either end
      only at the matching count. */
  function Percentage(successful: nat, total: nat): (p: real)
    requires 0 < total && successful <= total
    ensures 0.0 <= p <= 100.0
    ensures p == 0.0 <==> successful == 0
    ensures p == 100.0 <==> successful == total
    ensures p * (total as real) == (successful as real) * 100.0
  {
    var s := successful as real;
    var t := total as real;
    var q := s / t;
    assert q * t == s;
    assert 0.0 <= q <= 1.0;
    assert q == 1.0 ==> s == t;
    q * 100.0
  }
}

=== FILE: wrappers.dfy ===
/** Option and Result, the failure-carrying wrappers used by every module:
    `None` stands for Python's `None`, `Err` for a raised exception or an
    HTTP error response. */
module Wrappers {

  datatype Option<+T> = None | Some(value: T) {

    /** `value` when present, `default` otherwise. */
    function GetOr(default: T): (r: T)
      ensures Some? ==> r == value
      ensures None? ==> r == default
    {
      match this
      case Some(v) => v
      case None => default
    }
  }

  datatype Result<+T, +E> = Ok(value: T) | Err(error: E) {

    predicate IsFailure() {
      Err?
    }

    function PropagateFailure<U>(): Result<U, E>
      requires Err?
    {
      Err(error)
    }

    function Extract(): T
      requires Ok?
    {
      value
    }

    /** The same outcome with the error translated by `f`. */
    function MapFailure<F>(f: E -> F): (r: Result<T, F>)
      ensures Ok? <==> r.Ok?
      ensures Ok? ==> r.value == value
      ensures Err? ==> r.error == f(error)
    {
      match this
      case Ok(v) => Ok(v)
      case Err(e) => Err(f(e))
    }
  }

  /** Python's `a or b` on optional strings: `a` when it is a non-empty
      string, `b` otherwise (`None` and `""` are both falsy). */
  function OrElse(a: Option<string>, b: Option<string>): (r: Option<string>)
    ensures a.Some? && a.value != "" ==> r == a
    ensures (a.None? || a.value == "") ==> r == b
  {
    if a.Some? && a.value != "" then a else b
  }

  /** Truthiness of an optional string. */
  predicate Truthy(a: Option<string>) {
    a.Some? && a.value != ""
  }
}
